=== FILE: README.md ===
# wisdom-advisor core, modelled in Dafny

wisdom-advisor is a daemon that watches the threads of a process and pins
them to CPUs. There are three ways it does so:

- By CPU topology and load ("threadsgrouping").
- By the futex words the threads share ("threadsaffinity").
- By a static IO/network CPU partition.

Its control client `wisdom` switches the daemon's ptrace scan on and off
through a Unix socket.

This project models the deterministic core under the daemon's sysfs, procfs
and ptrace I/O. Every file read, directory listing and system call becomes a
parameter: the content read, or `None` for a failed read (a `Result` carrying
the error where the code returns it). Go's `uint64` counters and the
conversions and divisions that can wrap or truncate are written out
explicitly:

- `Uint64` is a subset type;
- `Wrap64` is wrap-around;
- `GoDiv` and `GoRem` are division and remainder truncating toward zero.

Go panics (nil dereference, index out of range, division by zero) are `None`
results.

| file | module | models |
|---|---|---|
| cpumask.dfy | `CpuMask` | the 640-CPU mask of ten `uint64` words: set operations, weight, `Foreach`, the hex parser |
| bits.dfy | `Bits` | 64-bit words as bit sets: and, or, complement, shifts, population count |
| gostrings.dfy | `GoStrings` | Go's `strconv` and `strings` as used here: `ParseUint`, `%d`/`%x` printing, `Split`, `Join`, `Fields`, truncating division |
| gofmt.dfy | `GoFmt` | `fmt.Sscanf`/`Sprintf` with `%d` verbs, and the read-back of printed lines |
| testlib.dfy | `TestLib` | the topology, `/proc/stat`, task and affinity stubs |
| partition.dfy | `Partition` | CPU partition parsing and the proportional dealing of threads over groups |
| sysparse.dfy | `SysParse` | the ptrace register dispatch that counts futex, `io_getevents` and socket calls |
| unionfind.dfy | `UnionFind` | the parent-array union-find of thread grouping |
| sorting.dfy | `Sorting` | a stable insertion sort by key, the reference for Go's `sort.Slice` |
| threadaffinity.dfy | `ThreadAffinity` | grouping threads by shared futex words, naming groups, change detection |
| topology.dfy | `Topology` | the topology tree: levels, lightest-node selection, `Parent`, load propagation |
| topoinit.dfy | `TopoInit` | building the tree (`InitTopo`) from per-CPU sysfs contents |
| memtopo.dfy | `MemTopo` | the NUMA-fault file parser `GetThreadMemTopo` |
| sysload.dfy | `SysLoad` | fixed-point load accounting and the `/proc` line parsers |
| policy.dfy | `Policy` | bind/unbind bookkeeping, balancing thresholds, group migration, NUMA choice |
| queue.dfy | `Queue` | the FIFO queue of the network helpers |
| netaffinity.dfy | `NetAffinity` | the `/proc/net` hex address decoder, the PCI path builder, `getIflink`, the network NUMA choice |
| procscan.dfy | `ProcScan` | `__SCHED_GROUP__` environment parsing, process directory scans |
| wisdomd.dfy | `Wisdomd` | option validation, loop dispatch, control-socket command decoding |
| wisdom.dfy | `WisdomCli` | the control client's validation and message encoding |
| wrappers.dfy | `Wrappers` | `Option` and `Result` |

## Model

| member | source | states |
|---|---|---|
| CpuMask.Init | common/cpumask/cpumask.go:33-37 | a cleared mask holds no CPU |
| CpuMask.And | common/cpumask/cpumask.go:40-44 | the receiver afterwards holds exactly the CPUs in both masks |
| CpuMask.Or | common/cpumask/cpumask.go:47-51 | the receiver afterwards holds exactly the CPUs in either mask |
| CpuMask.IsEqual | common/cpumask/cpumask.go:54-61 | true iff the two masks hold the same CPUs, which is iff all ten words agree |
| CpuMask.Set | common/cpumask/cpumask.go:64-72 | CPU n joins the mask when 0 <= n < 640 and no other CPU changes; any other n leaves the mask as it was |
| CpuMask.Clear | common/cpumask/cpumask.go:75-83 | CPU n leaves the mask when 0 <= n < 640 and no other CPU changes; any other n leaves the mask as it was |
| CpuMask.Copy | common/cpumask/cpumask.go:86-90 | the receiver becomes equal to the argument: data flows from the argument into the receiver |
| CpuMask.ParseStringSpec | common/cpumask/cpumask.go:93-115 | parsing succeeds iff the string is non-empty and its rightmost 160 characters are hex digits; word k is then the k-th 16-digit chunk from the right, and digits further left are ignored |
| CpuMask.OneMaskWeight | common/cpumask/cpumask.go:117-125 | clearing the lowest bit until none is left counts the word's set bits |
| CpuMask.Weight | common/cpumask/cpumask.go:128-135 | the weight is the number of CPUs in the mask |
| CpuMask.LowBit | common/cpumask/cpumask.go:137-144 | the lowest set bit of a word, or -1 for a zero word |
| CpuMask.Foreach | common/cpumask/cpumask.go:147-164 | Foreach(s) is the smallest CPU of the mask above s, or -1 when none is |
| CpuMask.ForeachIsNextFrom | common/cpumask/cpumask.go:147-164 | Foreach agrees with an independent upward walk over the CPUs |
| CpuMask.ForeachAgrees | common/cpumask/cpumask.go:147-164 | for -1 <= s < 639 the code as written returns what the bounded version does |
| CpuMask.WalkListsCpus | common/cpumask/cpumask.go:147-164 | enumerating from -1 lists every CPU of the mask exactly once, in increasing order |
| CpuMask.WalkAsWrittenPanicsOnLastCpu | common/cpumask/cpumask.go:147-164 | as written, enumerating a mask that holds CPU 639 reads past the ten words |
| TestLib.MaskToByte | common/testlib/testlib.go:214-229 | the printed mask is non-empty hex; leading zero words are skipped and the empty mask prints "0" |
| TestLib.HexWordsBlock | common/testlib/testlib.go:214-229 | word k occupies the k-th 16-character block from the right, as 16 lower-case hex digits |
| TestLib.MaskRoundTrip | common/testlib/testlib.go:214-229 | parsing the printed mask succeeds and gives back the same ten words |
| TestLib.CpuStatLine | common/testlib/testlib.go:147-154 | a stub `/proc/stat` line starts "cpu" and ends in a newline |
| TestLib.CpuStatLineFields | common/testlib/testlib.go:147-154 | the fields of a stub line are "cpu<n>" and the ten counters |
| TestLib.CpuStatRoundTrip | common/testlib/testlib.go:147-154 | parseCPUStatLine recovers the CPU number, user and system time of a stub line |
| TestLib.LevelsNest | common/testlib/testlib.go:195-212 | a CPU is its own core; each wider level is the level below divided by its fan-out (4, 8, 2) |
| TestLib.InitTopoNum | common/testlib/testlib.go:274-280 | a stub with c chips has 64c CPUs |
| TestLib.InitTopoNumCovers | common/testlib/testlib.go:274-280 | each level's count is the count above times its fan-out, and every stub CPU maps into every level's range |
| TestLib.InitOneLevelMask | common/testlib/testlib.go:245-255 | entry i holds exactly CPUs i*k to i*k+k-1 (those below 640) |
| TestLib.OneLevelDisjoint | common/testlib/testlib.go:245-255 | two different entries share no CPU |
| TestLib.CreateTasks | common/testlib/testlib.go:397-429 | n > 0 ids are handed out consecutively from the counter, modulo 2^64; the counter advances by n and the ids join the existing ones; n <= 0 panics |
| TestLib.CreateTasksTwice | common/testlib/testlib.go:420-429 | two calls hand out the same ids, and leave the same stub, as one call for both counts |
| TestLib.CreateTasksFresh | common/testlib/testlib.go:420-429 | without wrap-around, a second call hands out no id the first did |
| TestLib.SetAffinityStub | common/testlib/testlib.go:482-485 | records the list for the tid and leaves every other tid's entry alone |
| TestLib.GetAffinityStub | common/testlib/testlib.go:488-494 | errors exactly for a tid never set |
| TestLib.AffinityStubReadsLastSet | common/testlib/testlib.go:482-494 | the last list set for a tid is read back, and setting one tid does not change what another reads |
| Partition.PartitionAddGroup | common/policy/partition.go:63-71 | the group is appended last and its flag's count rises by one (from 0 when absent); other flags' counts are unchanged |
| Partition.PartitionCreateGroup | common/policy/partition.go:53-60 | appends a group holding the CPUs with the flag |
| Partition.AddGroupKeepsCounts | common/policy/partition.go:63-71 | adding a group keeps each flag's count equal to the number of groups with that flag |
| Partition.StringToInts | common/policy/partition.go:147-176 | the only error is "wrong CPU num"; with a range match, success iff both numbers parse and floor <= ceil <= 2048, and then the answer is floor, floor+1, ..., ceil; without a range the string must be one decimal, converted to a 64-bit int |
| Partition.StringToIntsRange | common/policy/partition.go:150-167 | "a-b" with a <= b <= 2048 gives exactly a, a+1, ..., b in order |
| Partition.StringToIntsBadRange | common/policy/partition.go:161-163 | "a-b" with a > b or b > 2048 is an error |
| Partition.StringToIntsSingle | common/policy/partition.go:168-174 | a plain decimal gives that one number, with no upper bound check |
| Partition.ParseItems | common/policy/partition.go:178-201 | one group per comma item, in order, up to the first bad item, whose error is returned |
| Partition.ParsePartitionCounts | common/policy/partition.go:178-201 | flag counts stay in step with the groups; it succeeds iff every item of both lists parses, with one group per item; otherwise it fails with "wrong CPU num" |
| Partition.ParsePartitionIoGroups | common/policy/partition.go:178-201 | the first groups are the IO items' ranges, in order, with flag 0 |
| Partition.ParsePartitionNetGroups | common/policy/partition.go:178-201 | the groups after the IO items' are the network items' ranges, in order, with flag 1 |
| Partition.ParsePartitionEmptyIo | common/policy/partition.go:178-201 | an empty IO list fails before any group is made |
| Partition.AllocSum | common/policy/partition.go:122-135 | with some CPUs to serve, the shares add up to the number of threads |
| Partition.ShareIsGoExpression | common/policy/partition.go:122-135 | a group's share is the Go expression (r*c + c) / B |
| Partition.LastGroupTakesAll | common/policy/partition.go:122-135 | the group holding all remaining CPUs takes all remaining threads |
| Partition.BindThreadsToGroups | common/policy/partition.go:107-145 | nothing is bound with no threads or no CPUs; otherwise the threads are dealt as consecutive slices in group order, each slice bound to its group's CPUs and sized by its share |
| Partition.DealOut | common/policy/partition.go:122-135 | the dealing loop covers every thread exactly once, in order, with the shares `Alloc` gives |
| Partition.IoNetBindPolicy | common/policy/partition.go:80-105 | threads with io_getevents calls are dealt over the flag-0 groups and threads with network accesses over the flag-1 groups; groups with other flags are ignored |
| SysParse.FutexDetect | common/ptrace/sysparse_linux_amd64.go:22-33 | a non-futex call changes nothing; a futex call raises the count of the word in rdi by one (from 0 when absent) and no other count |
| SysParse.DetectAllCounts | common/ptrace/sysparse_linux_amd64.go:22-33 | after a trace, each futex word's count is its number of futex calls; nothing else about the thread changes |
| SysParse.IsSocketFd | common/ptrace/sysparse.go:50-60 | no "socket:[N]" gives (false, 0); a false answer has inode 0; a true answer reads the number of the leftmost match |
| SysParse.SocketLinkInode | common/ptrace/sysparse.go:50-60 | the link of a socket reads back as exactly its inode |
| SysParse.SocketLinkOverflow | common/ptrace/sysparse.go:52-59 | a socket number that does not fit 64 bits makes the link a non-socket |
| SysParse.PlainFileNotSocket | common/ptrace/sysparse.go:50-60 | a link without "socket:[" is not a socket |
| SysParse.CollectSockAccess | common/ptrace/sysparse.go:81-92 | a failed readlink is an error that changes nothing; the network count rises by one iff the descriptor is a socket listed in a /proc/net table; no other counter changes |
| SysParse.ParseSyscall | common/ptrace/sysparse_linux_amd64.go:36-51 | io_getevents raises only its counter by one; a call that is neither that nor a socket call changes nothing |
| SysParse.SockCallCounts | common/ptrace/sysparse_linux_amd64.go:36-56 | a read, write, sendto or recvfrom on a listed socket descriptor counts one network access; on an unlisted socket it changes nothing |
| SysParse.ClosedFdFails | common/ptrace/sysparse_linux_amd64.go:36-56 | a socket call on a closed descriptor fails with the readlink error and changes nothing |
| UnionFind.InitUnion | common/threadaffinity/threadaffinity.go:110-114 | every index is its own root, and there are n sets |
| UnionFind.FindRoot | common/threadaffinity/threadaffinity.go:116-124 | following parents from an index ends at a root |
| UnionFind.LinkRoots | common/threadaffinity/threadaffinity.go:126-134 | linking root ra under root rb moves exactly ra's set into rb's and keeps the parents acyclic |
| UnionFind.Union | common/threadaffinity/threadaffinity.go:126-134 | with a common root nothing changes; otherwise the sets merge and the count drops by one; the result is still a forest |
| Sorting.SortSameIffSameElements | common/threadaffinity/threadaffinity.go:255-259 | sorting two lists gives the same result iff they hold the same elements |
| ThreadAffinity.MapConnect | common/threadaffinity/threadaffinity.go:101-108 | true iff some futex word of the first thread has a non-zero count for the second |
| ThreadAffinity.ConnectedSymmetric | common/threadaffinity/threadaffinity.go:101-108 | for counts the tracer produced, sharing a futex word is symmetric |
| ThreadAffinity.DetectAllPositive | common/ptrace/sysparse_linux_amd64.go:22-33 | the tracer only records positive counts |
| ThreadAffinity.JoinRow | common/threadaffinity/threadaffinity.go:148-163 | the inner loop joins thread i with every later thread it shares a word with, keeping the set count equal to the number of roots |
| ThreadAffinity.SetsAreClasses | common/threadaffinity/threadaffinity.go:148-163 | once all pairs are tested, two threads share a root iff a chain of shared futex words joins them |
| ThreadAffinity.GroupTids | common/threadaffinity/threadaffinity.go:148-163 | two threads end in one set iff a chain of shared futex words joins them, and the count is the number of sets |
| ThreadAffinity.GetGroups | common/threadaffinity/threadaffinity.go:136-146 | the keys are exactly the roots, and each list holds that set's tids in thread order |
| ThreadAffinity.MembersOfThread | common/threadaffinity/threadaffinity.go:136-146 | every thread is listed in the group of its own root |
| ThreadAffinity.SortBySize | common/threadaffinity/threadaffinity.go:180-182 | a permutation of the groups, largest first |
| ThreadAffinity.SharedArePrefix | common/threadaffinity/threadaffinity.go:183-190 | sorted largest first, the leading groups with more than one thread are all such groups |
| ThreadAffinity.MapToListAsWritten | common/threadaffinity/threadaffinity.go:174-192 | as written, the groups come out largest first with the count of shared groups, and every name stays empty |
| ThreadAffinity.MapToList | common/threadaffinity/threadaffinity.go:174-192 | the same groups in the same order, with the shared ones named after their threads |
| ThreadAffinity.MapToListLosesName | common/threadaffinity/threadaffinity.go:183-186 | two threads on one futex word: as written the one shared group has no name; with the name stored it is "name_7_8" |
| ThreadAffinity.GroupNameCollides | common/threadaffinity/threadaffinity.go:165-172 | as written, groups {7,8} and {9,10} get the same name |
| ThreadAffinity.GroupNameInjective | common/threadaffinity/threadaffinity.go:165-172 | named after their tids, two groups get the same name iff they hold the same tids |
| ThreadAffinity.CollectAllGroupTids | common/threadaffinity/threadaffinity.go:194-199 | a made slice holding exactly the tids of the first num groups |
| ThreadAffinity.EqualSlice | common/threadaffinity/threadaffinity.go:240-253 | true iff both or neither are nil and the elements agree pointwise |
| ThreadAffinity.SortTids | common/threadaffinity/threadaffinity.go:255-259 | sorting keeps nil-ness and the tids, and leaves them ascending |
| ThreadAffinity.SortedEqualIffSameTids | common/threadaffinity/threadaffinity.go:255-259 | after sorting, two lists agree iff they agree on nil-ness and hold the same tids |
| ThreadAffinity.TidsChanged | common/threadaffinity/threadaffinity.go:255-259 | both lists are sorted in place; the answer is whether the sorted lists differ |
| ThreadAffinity.Backup | common/threadaffinity/threadaffinity.go:49-65 | the count and a fresh copy of the tid list are saved; the saved groups keep only size and name |
| ThreadAffinity.GroupChanged | common/threadaffinity/threadaffinity.go:262-274 | true iff the group count, the nil-ness or the multiset of grouped tids differs from the saved copy; then the current grouping is saved |
| ThreadAffinity.GroupChangedTwice | common/threadaffinity/threadaffinity.go:262-274 | right after a reported change, asking again reports none |
| ThreadAffinity.PidChanged | common/threadaffinity/threadaffinity.go:68-81 | a new pid returns (old, true), records the new pid and starts an empty futex table; the same pid returns (0, false) and changes nothing |
| ThreadAffinity.PidChangedOnce | common/threadaffinity/threadaffinity.go:68-81 | a pid is reported as changed once |
| Topology.AncestorLevel | common/topology/topology.go:82-95 | a strict ancestor sits on a wider level, so `Compare` of its type against the descendant's is positive |
| Topology.CpuIsLeaf | common/topology/topology.go:82-95 | a CPU node's only descendant is itself |
| Topology.Pre | common/topology/topology.go:410-415 | the visit order starts at the node, and every visited node lies below it |
| Topology.PreVisitsDescendants | common/topology/topology.go:410-415 | in a tree whose child lists are consistent, the visit from a node reaches every node below it |
| Topology.SelectIff | common/topology/topology.go:417-475 | the selection callback returns exactly the lightest node of the type: the first among the minimal ones in visit order, or none |
| Topology.LightestUnique | common/topology/topology.go:417-475 | at most one answer fits the description |
| Topology.SelectLighterBindNode | common/topology/topology.go:417-445 | the first node of the type in the subtree's pre-order with the fewest binds, and it lies in the subtree |
| Topology.SelectLighterLoadNode | common/topology/topology.go:447-475 | the first node of the type in the subtree's pre-order with the least load, ties broken by fewer binds |
| Topology.Parent | common/topology/topology.go:478-489 | an answer is an ancestor-or-self of the requested type |
| Topology.ParentIff | common/topology/topology.go:478-489 | the answer is exactly the ancestor-or-self of that type, and there is none iff the type is narrower than the node's |
| Topology.AddLoad | common/topology/topology.go:491-515 | fails (Go's division by zero) iff the node is wider than a CPU and its mask is empty |
| Topology.AddLoadCpu | common/topology/topology.go:503-507 | on a CPU node the load is added to the node and every ancestor and to no other; bind counts stay |
| Topology.AddLoadShares | common/topology/topology.go:508-514 | on a wider node, each CPU node below takes load/weight (truncating), and each node's load grows by its CPUs' shares |
| Topology.SubLoadUndoesAddLoad | common/topology/topology.go:518-520 | SubLoad after AddLoad restores every node's load and bind count |
| Topology.SetLoad | common/topology/topology.go:523-525 | on a CPU node the load becomes x, and the ancestors move by the same difference |
| Topology.BindCounts | common/topology/topology.go:129-135 | AddBind and SubBind change only that node's bind count, by one, and undo each other |
| Topology.AddLoadConsistent | common/topology/topology.go:491-520 | every load change keeps each node's load equal to the total over the CPU nodes below it |
| Topology.ZeroConsistent | common/topology/topology.go:491-515 | a tree with all loads zero satisfies that invariant |
| Topology.SelectTypeNode | common/topology/topology.go:630-646 | the first node of the level, in creation order, with the least load, ties broken by fewer binds; none iff the level is empty |
| Topology.GetNumaNodeById | common/topology/topology.go:563-565 | an answer exists iff the id is registered, and is a NUMA node with that id |
| TopoInit.ClusterMask | common/topology/topology.go:257-266 | holds exactly the four CPUs from the CPU's cluster start |
| TopoInit.ClusterOfCpu | common/topology/topology.go:253-255 | a CPU's cluster starts at four times its cluster id and holds it |
| TopoInit.SameClusterIff | common/topology/topology.go:253-266 | two CPUs share a cluster mask iff they share a cluster id |
| TopoInit.FindTypeTopoNode | common/topology/topology.go:278-291 | none iff no node of the level has the mask; otherwise the first-made node of the level with that mask |
| TopoInit.Get | common/topology/topology.go:293-381 | an existing node of the level with the mask is reused; otherwise a new node of that level and mask is made under the parent; it fails iff no node has the mask and the id could not be read; the tree stays built and its CPU nodes are unchanged |
| TopoInit.AddCpu | common/topology/topology.go:568-627 | one CPU's pass keeps the tree built and adds exactly that CPU's node; a failure names a missing file |
| TopoInit.InitTopo | common/topology/topology.go:568-627 | the tree is well formed, every node is on its parent's child list, and within each level from core to chip no two nodes share a mask; the CPU nodes are the online CPUs in order; a failure names an online CPU with a missing file, and complete sysfs never fails |
| TopoInit.BuiltConsistent | common/topology/topology.go:568-627 | a freshly built tree satisfies the load invariant AddLoad and SubLoad keep |
| MemTopo.GetThreadMemTopo | common/topology/topology.go:42-63 | entry j is the count on the last line reporting node j, or 0 |
| MemTopo.CollectLastWins | common/topology/topology.go:47-61 | a later line overrides an earlier one |
| MemTopo.AsWrittenAgrees | common/topology/topology.go:47-61 | the loop as written panics iff some line reports a negative node, and otherwise agrees with the guarded loop |
| MemTopo.FaultLineReads | common/topology/topology.go:52-58 | a printed "faults on node N: C" line reads back as N and C |
| MemTopo.NegativeNodePanics | common/topology/topology.go:56-58 | a line reporting node -1 passes the `< NumaNodeNR` guard and panics; the guarded loop skips it |
| SysLoad.ScaleUp | common/sysload/sysload.go:53-55 | i << 10 in 64 bits: the top ten bits are lost |
| SysLoad.InitUsage | common/sysload/sysload.go:57-61 | a new baseline, with the load kept |
| SysLoad.Update | common/sysload/sysload.go:63-73 | no elapsed tick changes nothing; otherwise the sample becomes the baseline |
| SysLoad.UpdateLoad | common/sysload/sysload.go:63-73 | without wrap-around the load is ((delta user + delta system) << 10) / elapsed ticks |
| SysLoad.ParseCpuStatLine | common/sysload/sysload.go:107-133 | panics iff there are fewer than two fields, or field 1 parses and then field 3 is missing or field 0 is shorter than three characters; succeeds iff fields 1 and 3 and the text after "cpu" in field 0 are decimals, and returns those three values |
| SysLoad.ParseTaskStatLine | common/sysload/sysload.go:173-191 | succeeds iff fields 13 and 14 are decimals, and returns them as user and system time |
| SysLoad.ClassifyLine | common/sysload/sysload.go:146-152 | stop at a line not starting "cpu", skip "cpu ", parse "cpu<n>"; a line too short to slice panics |
| SysLoad.StopsAtFirstNonCpuLine | common/sysload/sysload.go:146-152 | lines after the first non-"cpu" line are never looked at |
| SysLoad.AggregateLineSkipped | common/sysload/sysload.go:146-152 | the aggregate "cpu " line changes nothing |
| SysLoad.CpusLoadUpdate | common/sysload/sysload.go:145-164 | the task entries and the size of the CPU table are kept, and a CPU that no successfully parsed line names keeps its entry |
| SysLoad.BadCpuLineSkipped | common/sysload/sysload.go:153-156 | a per-CPU line whose numbers do not convert is skipped, the loop going on with the next line |
| SysLoad.ShortCpuLinePanics | common/sysload/sysload.go:145-164 | a per-CPU line with a decimal field 1 but fewer than four fields panics the whole update |
| SysLoad.GetPidFromTid | common/sysload/sysload.go:193-213 | a failure to open the status file is returned unchanged; without a line starting "Tgid" the answer is the "can not find Tgid" error |
| SysLoad.GetPidFromTidFindsTgid | common/sysload/sysload.go:204-212 | the first line starting "Tgid" is read back as the pid when it is "Tgid:", any non-empty run of blanks (the kernel writes a tab) and the pid in decimal |
| SysLoad.FindTask | common/sysload/sysload.go:277-288 | the position of the first entry for the id, or none when there is none |
| SysLoad.AddTask | common/sysload/sysload.go:214-261 | the entry for the id is appended last with load 0 and the earlier entries are kept; its baseline is the task's reading, or all zero when that reading failed |
| SysLoad.RemoveTask | common/sysload/sysload.go:264-269 | drops only the first entry for the id, if any |
| SysLoad.GetTaskLoad | common/sysload/sysload.go:300-306 | 0 for an id that is not monitored |
| SysLoad.AddThenGetRemove | common/sysload/sysload.go:255-306 | after adding an unmonitored task its load reads as 0, and removing it restores the list |
| SysLoad.RemoveKeepsOthers | common/sysload/sysload.go:264-306 | removing a task leaves every other id's entry and load |
| SysLoad.GetCpuLoad | common/sysload/sysload.go:291-297 | the CPU's load for a CPU the table holds, 0 for any other |
| SysLoad.GetCpuLoadOffByOne | common/sysload/sysload.go:291-297 | as written it panics exactly at cpu == count (or below 0) and otherwise agrees with the guarded version |
| Policy.CpuGap | common/policy/policy.go:367-369 | 30% of one CPU on the 1 << 10 scale, rounded down: 307 |
| Policy.NodeBalanceGap | common/policy/policy.go:371-373 | the gap is 307 for each CPU in the node's mask |
| Policy.ShouldBalanceBetweenNode | common/policy/policy.go:375-379 | balancing is due iff the source's load beats the destination's by more than 307 per CPU of the source mask |
| Policy.BalanceOneWay | common/policy/policy.go:375-379 | balancing is never due both ways between two nodes |
| Policy.GroupWeightAppend | common/policy/policy.go:390-401 | the weight of two task lists together is the sum of their weights |
| Policy.GroupWeight | common/policy/policy.go:390-401 | a group whose tasks are all unmonitored weighs nothing |
| Policy.ShouldMigrateGroup | common/policy/policy.go:403-411 | a group moves iff the load difference beats both the per-CPU gap of the source and the group's weight |
| Policy.MigrateOneWay | common/policy/policy.go:403-411 | a group that should move never should move straight back |
| Policy.MakeBindGroup | common/policy/policy.go:81-93 | the group sits on its NUMA node, or on that node's least loaded cluster with cluster awareness; an unknown id or no cluster is a nil dereference |
| Policy.EnsureGroup | common/policy/policy.go:178-188 | an existing group is kept; otherwise one is made with its node's bind count raised; the bookkeeping stays well formed |
| Policy.DetachTaskFromGroup | common/policy/policy.go:149-156 | the task leaves its group's list; the group leaves the map iff its list is empty; other groups are untouched |
| Policy.LastTaskRemovesGroup | common/policy/policy.go:149-156 | the group goes iff the task was its only one |
| Policy.BindTo | common/policy/policy.go:95-147 | the task joins its group's list and the task map; its node gains one bind; a failed SetAffinity puts it on the retry list; it is monitored |
| Policy.BindTasksToNuma | common/policy/policy.go:178-205 | a bound tid changes nothing past the group; a new one is bound to the CPU below the group's node with the fewest binds (the node itself in coarse grain), and the bookkeeping stays well formed |
| Policy.UnbindTaskPolicy | common/policy/policy.go:343-358 | an unknown tid changes nothing; a bound one leaves its group, its node's bind count, the retry list, the task map and monitoring |
| Policy.UnbindWellFormed | common/policy/policy.go:343-358 | unbinding keeps the bookkeeping well formed, and no group lists the tid afterwards |
| Policy.BindThenUnbind | common/policy/policy.go:343-358 | binding a fresh tid into a group that has tasks, then unbinding it, restores the state |
| Policy.MigrateTask | common/policy/policy.go:132-142 | the task's bind and load move to the new node; a failed SetAffinity puts it on the retry list |
| Policy.MigrateTaskWellFormed | common/policy/policy.go:132-142 | a migration keeps the bookkeeping well formed and the total of bind counts |
| Policy.Move | common/policy/policy.go:132-142 | the counter update fails (Go's division by zero) iff the old or the new node is wider than a CPU and has an empty mask |
| Policy.MoveBinds | common/policy/policy.go:132-142 | one bind leaves the old node and one arrives at the new node; no other bind count changes |
| Policy.MoveKeepsTotal | common/policy/policy.go:132-142 | the total of bind counts is unchanged by a move |
| Policy.MigrateStep | common/policy/policy.go:419-420 | one turn keeps the bookkeeping well formed, the groups and the set of bound tids |
| Policy.MigrateStepMoves | common/policy/policy.go:413-421 | one turn moves only its own task, to the node of its level below the target with the fewest binds |
| Policy.MigrateTasksMoves | common/policy/policy.go:413-421 | after the loop every listed task sits below the target on its old level, and the other tasks have not moved |
| Policy.MigrateTasksKeepsTotal | common/policy/policy.go:413-421 | the task loop gains or loses no bind |
| Policy.Rehome | common/policy/policy.go:422-424 | one bind moves from the source node to the target, and the group now lives on the target |
| Policy.MigrateGroup | common/policy/policy.go:413-425 | a migration keeps the bookkeeping well formed and the set of bound tids; among the groups only the migrated one changes, and it now lives on the target |
| Policy.MigrateGroupMoves | common/policy/policy.go:413-425 | the group's tasks end below the target on their old levels, and the total of bind counts is unchanged |
| Policy.GroupTargetNode | common/policy/policy.go:381-388 | none for a node at NUMA level or wider; below it, the node of the source's level under its NUMA ancestor with the least load, ties broken by fewer binds |
| Policy.GroupTargetFound | common/policy/policy.go:381-388 | in a tree whose child lists are consistent, a target exists iff the source is below NUMA level, since the source itself is a candidate |
| Policy.BalanceGroup | common/policy/policy.go:427-438 | a group with a target to which migration is due migrates there; in every other case the state is unchanged |
| Policy.SumTables | common/policy/policy.go:163-168 | the accumulating loop ends with entry j equal to the threads' faults on node j summed over the threads |
| Policy.Busiest | common/policy/policy.go:169-175 | the first node with the strictly largest total, or -1 when no total is positive |
| Policy.GetTasksNumaAuto | common/policy/policy.go:158-176 | the answer is the busiest node of the threads' summed faults, or -1 |
| Policy.PtraceScanStart | common/policy/policy.go:537-540 | afterwards the scan is due |
| Policy.PtraceScanEnd | common/policy/policy.go:543-546 | afterwards the scan is not due |
| Policy.ScanSwitch | common/policy/policy.go:537-552 | start makes the scan flag report true and end false, whatever came before |
| Queue.PushBack | common/netaffinity/queue.go:24-26 | the size grows by one and the queue is not empty |
| Queue.PopFront | common/netaffinity/queue.go:29-36 | an empty queue gives the error and stays unchanged; otherwise the size drops by one |
| Queue.PushPopEmpty | common/netaffinity/queue.go:24-36 | pushing onto an empty queue then popping gives the element back |
| Queue.PushKeepsFront | common/netaffinity/queue.go:24-36 | pushing does not change what comes out first |
| Queue.FifoOrder | common/netaffinity/queue.go:24-36 | draining gives the old contents and then the pushed elements, in push order |
| Queue.DrainFilled | common/netaffinity/queue.go:24-36 | draining a queue filled from empty gives exactly what was pushed |
| NetAffinity.TransNetOrderHexToIP | common/netaffinity/netaffinity.go:111-137 | an error is one of Go's two messages; a panic needs fewer than eight characters, or a mapped prefix followed by fewer than eight digits |
| NetAffinity.DecodeShort | common/netaffinity/netaffinity.go:125-136 | fewer than eight characters never decode: all-hex input panics, other input panics or is "invalid syntax" |
| NetAffinity.DecodeEight | common/netaffinity/netaffinity.go:125-134 | eight characters decode iff all are hex, and byte 3-i of the address comes from hex pair i; otherwise the hex parser's error |
| NetAffinity.DecodeLong | common/netaffinity/netaffinity.go:116-124 | a longer input without the mapped prefix is "not vaild IPv4 addr"; with it, the digits after the leftmost prefix are decoded |
| NetAffinity.PairsFromSpec | common/netaffinity/netaffinity.go:125-136 | the pair loop succeeds iff eight hex digits are there; it panics on a shorter string |
| NetAffinity.DecodeNetOrderHex | common/netaffinity/netaffinity.go:112-137 | an address as /proc/net/tcp prints it decodes back to the address |
| NetAffinity.DecodeMapped | common/netaffinity/netaffinity.go:112-137 | an IPv4-mapped /proc/net/tcp6 entry decodes back to the address |
| NetAffinity.IsPciAddr | common/netaffinity/netaffinity.go:190-195 | true iff the bus-address pattern occurs somewhere in the string |
| NetAffinity.PciAddressShape | common/netaffinity/netaffinity.go:190-195 | "dddd:bb:dd.f" is a PCI address wherever it sits |
| NetAffinity.ShortNotPci | common/netaffinity/netaffinity.go:190-195 | a string shorter than twelve characters is not a PCI address |
| NetAffinity.PciCapture | common/netaffinity/netaffinity.go:204-208 | none iff no line holds "/devices/pci"; a capture starts "pci" and holds no newline |
| NetAffinity.GetNetDevPciPath | common/netaffinity/netaffinity.go:198-220 | a failed readlink and a non-PCI link are the two errors; a path starts "/wisysfs/devices/pci" and ends in "/" |
| NetAffinity.PciPathIsJoin | common/netaffinity/netaffinity.go:209-219 | the path is the devices root, the capture's first segment and its later PCI-address segments, joined by and ending in "/" |
| NetAffinity.CaptureAfterLastDevices | common/netaffinity/netaffinity.go:204-208 | a one-line link whose last "/devices/" is followed by "pci" captures everything after that "/devices/" |
| NetAffinity.DevNumberRoundTrip | common/netaffinity/netaffinity.go:377-401 | a device number as sysfs holds it reads back as that number |
| NetAffinity.Iflink | common/netaffinity/netaffinity.go:403-419 | a peer (answer not -1) exists iff both numbers were read, they differ and the link is not -1; the answer is then the link |
| NetAffinity.TallyDevsSets | common/netaffinity/netaffinity.go:580-605 | the loop's key sets are the IRQ and PCI node sets, and the last node written belongs to its set |
| NetAffinity.IrqList | common/netaffinity/netaffinity.go:421-437 | a device whose IRQ lookup failed, so that its IRQ node list was left unset, contributes no IRQ nodes |
| NetAffinity.GetProcessNetNuma | common/netaffinity/netaffinity.go:580-612 | an error finding the devices is passed on |
| NetAffinity.TallyDevsAsWritten | common/netaffinity/netaffinity.go:592-603 | the loop as written panics iff some device's IRQ node list is unset, and otherwise tallies exactly as the corrected loop |
| NetAffinity.GetProcessNetNumaAsWritten | common/netaffinity/netaffinity.go:580-612 | as written the choice panics iff the devices were found and one of them has an unset IRQ node list; otherwise it agrees with the corrected choice |
| NetAffinity.NilIrqNodePanics | common/netaffinity/netaffinity.go:592-598 | one device on PCI node 1 whose IRQ lookup failed panics as written, while the corrected choice falls back to PCI node 1 |
| NetAffinity.NetNumaChoice | common/netaffinity/netaffinity.go:592-611 | the IRQs' node when they span one node; else the one positive PCI node; else -1; a device whose IRQ lookup failed counts as having no IRQs |
| ProcScan.SchedGroupEntry | common/procscan/procscan.go:88-96 | an entry match gives a non-empty name and member list without blanks |
| ProcScan.EntryRoundTrip | common/procscan/procscan.go:88-96 | `__SCHED_GROUP__<name>=<members>` reads back as the name and members when the list has no "=" |
| ProcScan.GreedyName | common/procscan/procscan.go:88-96 | with "=" in the member list the name takes the text up to its last "=" |
| ProcScan.UntaggedLine | common/procscan/procscan.go:88-96 | a line without the tag declares nothing |
| ProcScan.Members | common/procscan/procscan.go:98-99 | the member names are non-empty and hold no comma |
| ProcScan.MembersOfJoined | common/procscan/procscan.go:98-99 | non-empty comma-free names joined by commas split back into the names |
| ProcScan.LeadingCommas | common/procscan/procscan.go:98-99 | extra commas in front change nothing |
| ProcScan.GroupName | common/procscan/procscan.go:53 | the group name starts with the pid in decimal followed by "_" |
| ProcScan.GroupNameReadsBack | common/procscan/procscan.go:53 | the text before the name's first "_" parses back as the pid, and the text after it is the declared name |
| ProcScan.GroupNameInjective | common/procscan/procscan.go:53 | two (pid, name) pairs share a group name iff they are equal |
| ProcScan.CommFileMatches | common/procscan/procscan.go:40-47 | a `comm` file holding a name and its newline matches iff the name is a member; a failed read matches nothing |
| ProcScan.MemberTids | common/procscan/procscan.go:63-72 | at most one tid is collected per task entry |
| ProcScan.MemberTidsExact | common/procscan/procscan.go:40-74 | the tids collected are exactly the decimal entries whose comm, newlines removed, is a member |
| ProcScan.BindMembers | common/procscan/procscan.go:50-75 | one bind call, named after the pid and group, iff the task directory was listed |
| ProcScan.ParseSchedGroupInfo | common/procscan/procscan.go:78-102 | a failed environment read or task listing binds nothing |
| ProcScan.DeclaredGroupsBound | common/procscan/procscan.go:78-102 | for an environment of declarations, one bind call per declaration, in order, with its name and member threads |
| ProcScan.ScanEachProc | common/procscan/procscan.go:105-117 | a failed listing visits nothing; every pid visited is the decimal value of some entry, and every decimal entry's value is visited |
| ProcScan.DecimalNamesExact | common/procscan/procscan.go:105-117 | the pids visited are exactly the entries that parse as decimal uint64 |
| ProcScan.ScanFindsPids | common/procscan/procscan.go:105-117 | process entries are visited in order and entries such as "self" are skipped |
| ProcScan.ScanBoundTask | common/procscan/procscan.go:119-132 | a bound tid is unbound iff it has no process entry |
| ProcScan.ScanPartitions | common/procscan/procscan.go:119-132 | every bound tid is either unbound or kept, never both |
| ProcScan.RescanUnbindsNothing | common/procscan/procscan.go:119-132 | a second scan with the same live threads unbinds nothing |
| Wisdomd.SetLogLevel | cmd/wisdomd/wisdomd.go:62-79 | a known name selects its level; any other name leaves the level as it was |
| Wisdomd.DefaultOptions | cmd/wisdomd/wisdomd.go:57-59 | the defaults (period 10, trace time 5) pass validation, also with affinity awareness on or under threadsgrouping |
| Wisdomd.DoBeforeJob | cmd/wisdomd/wisdomd.go:88-127 | no error iff the options are valid and policy initialisation succeeds. The period is checked first. Under threadsaffinity the switches are set before the trace time is checked, and only with affinity awareness. Under threadsgrouping the trace time is always checked. Other policies are "invalid policy" |
| Wisdomd.AffinityIgnoresTraceTime | cmd/wisdomd/wisdomd.go:100-115 | without affinity awareness, thread affinity ignores the trace time |
| Wisdomd.RunWisdomd | cmd/wisdomd/wisdomd.go:219-226 | the two policy names select their loops; any other name selects none |
| Wisdomd.AcceptedOptionsRun | cmd/wisdomd/wisdomd.go:88-127 | options that pass validation always select a loop |
| Wisdomd.ReadConn | cmd/wisdomd/server.go:34-36 | a zero-length read returns nothing and no error; otherwise an empty or failed read is an error, and at most the buffer's length arrives |
| Wisdomd.DecodeIff | cmd/wisdomd/server.go:40-47 | a payload decodes to a command iff it is "CMD:" and the command's name, alone or followed by a NUL and anything |
| Wisdomd.CommandHandler | cmd/wisdomd/server.go:33-50 | the connection is always closed; a payload that fits the 128-byte buffer is decoded whole; a failed read runs nothing |
| Wisdomd.CommandHandlerAsWritten | cmd/wisdomd/server.go:33-50 | as written, nothing ever runs and the connection is closed |
| Wisdomd.AsWrittenDropsScanStart | cmd/wisdomd/server.go:34-36 | as written "CMD:scanstart" runs nothing; the fixed handler runs the scan start |
| WisdomCli.RunWisdom | cmd/wisdom/wisdom.go:55-65 | an unknown value is refused with "invalid command" before sending; a valid one is sent as exactly "CMD:scan" followed by the value; the send's error is returned unchanged |
| WisdomCli.AsWrittenIgnoresClient | cmd/wisdomd/server.go:34-36 | a valid value with a working socket is delivered, and the handler as written runs nothing for it |
| WisdomCli.ClientServerRoundTrip | cmd/wisdom/wisdom.go:60 | whatever the client is asked, the daemon runs the command a valid, delivered value names, and nothing otherwise |

## Left out

- I/O is not modelled: sysfs, procfs, the environment and socket contents are parameters. Directory order is a sequence. Go's random map order is a free parameter `order` (`mapToList`) or a sequence (`ForEachBoundTask`).
- The ptrace machinery (`ParseLoop`, `DoCollect`, common/ptrace/ptrace.go) is not modelled: it is raw system calls, goroutines and timing. Only the register dispatch is modelled.
- The namespace and device walk (`GetRealDevRelated`, `detectDevRelated`, `getDevRelated`, `CreateDevHashCache`, `GetInodeIP`, `GetNetDevNUMANode`, IRQ lookups) enters namespaces and walks the filesystem. `GetProcessNetNuma` takes the devices it finds as a parameter.
- The policy loops around the modelled operations are outside this model: `BindGroupAuto`, `retryBindTasks`, `unbindAllTasks`, `bindTasksAwareGroup`, the delayed bind and `BalanceTaskPolicy` iterate the modelled steps over live threads and timers. The wisdomd loops with their signals are represented by `Wisdomd.RunWisdomd`'s choice of loop.
- `listenUnixSock`, `sendCmd`'s dialling and writing, `ParseConfig` and the gRPC server are foreign calls. `sendCmd`'s result is a parameter.
- `policy.Init` is a parameter too, the error it returns.
- `sched.SetAffinity` is a boolean parameter (success or failure). `setTaskAffinity`'s CPU list is therefore not built.
- `GenerateDefaultPartitions` is not modelled: it reads `runtime.NumCPU` and sysfs.
- logrus logging is not modelled.
- Topology load and bind counts (Go `int`, `topoLoadInfo`) and the policy's load differences are unbounded integers; int64 wrap-around is not modelled, since the counts are bounded by the number of threads and their loads.
- The `Switch*` setters and getters are plain field assignments, folded into `Wisdomd.DoBeforeJob`'s switches and `Policy.Switches`.
- Wall-clock time is elapsed ticks (an input).
- Policy.GroupWeight: sums into `float64` in Go. The model sums integers and does not reason about precision.
- Policy.GetTasksNumaAuto: same as `GroupWeight`, with the float comparison modelled on integers. The fault tables come from the corrected parser `MemTopo.GetThreadMemTopo` (Findings row for common/topology/topology.go:56-58): on a fault file with a line for a negative node the Go code panics, while the model skips the line; `MemTopo.AsWrittenAgrees` shows the two agree on every file without such a line.
- Policy.GroupTargetNode: that a target exists below NUMA level is proved for trees whose child lists are consistent (`Policy.GroupTargetFound`); `TopoInit.InitTopo` builds only such trees.
- ProcScan.MemberTids: its own contract bounds the count only; `ProcScan.MemberTidsExact` states which tids are collected.
- Policy.Move: `oldBindNode` and the `AttachTask` lists on topology nodes are not modelled; only bind counts and loads are.
- Policy.UnbindTaskPolicy: the retry list keeps one element per failed bind, and the model removes the latest, as the one `retryEle` points at. Stale earlier elements of the same tid stay in the list, as in Go.
- Policy.DetachTaskFromGroup: removing an emptied group does not `SubBind` its node. This is modelled as written: the group's bind stays on its node.
- Partition.IoNetBindPolicy: binding is represented by the list of (threads, CPUs) calls. A thread doing both IO and network is in both lists, and the later call wins at the kernel.
- SysLoad.ParseTaskStatLine: requires fifteen fields, which the kernel always writes.
- NetAffinity.ParseInt: `strconv.ParseInt`'s error kinds (syntax versus range) are one `None`.
- NetAffinity.GetNetDevPciPath: `limitEnvSize` only sets a capacity, so it is not modelled.
- Wisdomd.ReadConn: it assumes Go's rule that a zero-length `Read` returns at once without touching the connection. The delivered bytes arrive in one read.
- Bytes are modelled as characters; the socket payloads and sysfs files are ASCII.
- Nothing in the model closes `sendCmd`'s connection, and neither does the Go code.
- The C test fixtures (test/common/net_test.c, test/common/sem.c), common/utils/utils.go, common/netaffinity/namespace.go and src/wisdom/bin/main.rs are not part of this model.

## Findings

| source | as written | input that shows it | evidently intended | confidence | as-written member | corrected member |
|---|---|---|---|---|---|---|
| common/cpumask/cpumask.go:147-164 | `Foreach(s)` reads word `(s+1)/64` with no upper bound | a mask holding CPU 639: enumeration calls `Foreach(639)`, which reads word 10 of ten | past the last CPU there is no next CPU, so -1 | high, not executed | CpuMask.WalkAsWrittenPanicsOnLastCpu | CpuMask.WalkListsCpus |
| common/threadaffinity/threadaffinity.go:183-186 | the group name is assigned to the range variable, a copy | two threads sharing one futex word: the returned shared group has name "" | each shared group carries its name | high, not executed | ThreadAffinity.MapToListLosesName | ThreadAffinity.MapToList |
| common/threadaffinity/threadaffinity.go:165-172 | `getGroupName` ranges over indices, not tids | groups {7,8} and {9,10} both get "name_0_1" | the name is made of the group's tids | high, not executed | ThreadAffinity.GroupNameCollides | ThreadAffinity.GroupNameInjective |
| common/topology/topology.go:56-58 | only `node < NumaNodeNR` is checked before indexing | the line "faults on node -1: 5" indexes the table at -1 | negative nodes are skipped like nodes past the table | medium, not executed | MemTopo.NegativeNodePanics | MemTopo.GetThreadMemTopo |
| common/sysload/sysload.go:291-297 | `cpu > len(cpusLoad)` guards the index | `cpu == len(cpusLoad)` indexes one past the end | `cpu >= len(cpusLoad)` returns 0 | high, not executed | SysLoad.GetCpuLoadOffByOne | SysLoad.GetCpuLoad |
| cmd/wisdomd/server.go:34-36 | the read buffer is made with length 0 and capacity 128 | the client's "CMD:scanstart": the read delivers nothing, so no command ever runs | a 128-byte buffer is read into | high, not executed | Wisdomd.AsWrittenDropsScanStart | Wisdomd.CommandHandler |
| common/netaffinity/netaffinity.go:592-598 | `*(dev.IrqNode)` is read for every device, but `getNetifInfo` (lines 421-437) leaves it nil when the IRQ lookup failed | one related device on PCI node 1 whose IRQ lookup failed: the loop dereferences nil | the device counts as having no IRQs and the PCI fallback applies ("unable to handle irq info", line 605) | medium, not executed | NetAffinity.NilIrqNodePanics | NetAffinity.NetNumaChoice |

=== FILE: bits.dfy ===
/** Go's `uint64` bitwise operators (`&`, `|`, `^x`, `1 << n`, and the
    `x & (x - 1)` lowest-bit trick) on natural numbers, defined bit by bit so
    that their meaning can be proved position by position. */
module Bits {
  import opened GoStrings

  function Pow2(n: nat): (r: nat)
    ensures r > 0
  {
    if n == 0 then 1 else 2 * Pow2(n - 1)
  }

  /** Bit `i` of `w` (bit 0 is the least significant). */
  predicate Bit(w: nat, i: nat)
  {
    if i == 0 then w % 2 == 1 else Bit(w / 2, i - 1)
  }

  /** Go's `a & b`. */
  function And(a: nat, b: nat): nat
  {
    if a == 0 || b == 0 then 0
    else 2 * And(a / 2, b / 2) + (if a % 2 == 1 && b % 2 == 1 then 1 else 0)
  }

  /** Go's `a | b`. */
  function Or(a: nat, b: nat): nat
  {
    if a == 0 then b
    else if b == 0 then a
    else 2 * Or(a / 2, b / 2) + (if a % 2 == 1 || b % 2 == 1 then 1 else 0)
  }

  /** Go's unary `^w` on a `width`-bit unsigned integer. */
  function Complement(w: nat, width: nat): nat
  {
    if width == 0 then 0 else 2 * Complement(w / 2, width - 1) + (1 - w % 2)
  }

  /** Go's `uint64(1) << uint(n)`.  A shift count of 64 or more gives 0, and
      so does a negative `n`, which `uint(n)` turns into a huge count. */
  function ShiftOne(n: int): (r: Uint64)
  {
    if 0 <= n < 64 then Pow2Below64(n); Pow2(n) else 0
  }

  /** Number of one bits (what `oneMaskWeight` counts). */
  function Pop(w: nat): nat
  {
    if w == 0 then 0 else Pop(w / 2) + w % 2
  }

  /** Number of one bits among positions `0 .. n-1`, counted from the top. */
  function CountBelow(w: nat, n: nat): nat
  {
    if n == 0 then 0 else CountBelow(w, n - 1) + (if Bit(w, n - 1) then 1 else 0)
  }

  /** The positions of the one bits of a `width`-bit word. */
  ghost function BitSet(w: nat, width: nat): set<nat>
  {
    set i: nat | i < width && Bit(w, i)
  }

  // ---------------------------------------------------------------------
  // Powers of two

  lemma {:induction false} Pow2Monotone(a: nat, b: nat)
    requires a <= b
    ensures Pow2(a) <= Pow2(b)
    decreases b
  {
    if a < b {
      Pow2Monotone(a, b - 1);
    }
  }

  lemma Pow2Is2To64()
    ensures Pow2(64) == Two64
  {
    assert Pow2(8) == 256 by {
      assert Pow2(4) == 16;
    }
    Pow2Add(8, 8);
    Pow2Add(16, 16);
    Pow2Add(32, 32);
  }

  lemma {:induction false} Pow2Add(a: nat, b: nat)
    ensures Pow2(a + b) == Pow2(a) * Pow2(b)
    decreases a
  {
    if a > 0 {
      Pow2Add(a - 1, b);
      assert Pow2(a + b) == 2 * Pow2(a - 1 + b);
    }
  }

  lemma Pow2Below64(n: nat)
    requires n < 64
    ensures Pow2(n) < Two64
  {
    Pow2Monotone(n + 1, 64);
    Pow2Is2To64();
  }

  // ---------------------------------------------------------------------
  // Bit-level meaning of the operators

  lemma {:induction false} BitAbove(w: nat, n: nat, i: nat)
    requires w < Pow2(n) && n <= i
    ensures !Bit(w, i)
    decreases i
  {
    if i > 0 {
      if n == 0 {
        assert w == 0;
        ZeroHasNoBits(i);
      } else {
        BitAbove(w / 2, n - 1, i - 1);
      }
    }
  }

  lemma {:induction false} ZeroHasNoBits(i: nat)
    ensures !Bit(0, i)
  {
    if i > 0 {
      ZeroHasNoBits(i - 1);
    }
  }

  lemma {:induction false} AndBit(a: nat, b: nat, i: nat)
    ensures Bit(And(a, b), i) == (Bit(a, i) && Bit(b, i))
    decreases i
  {
    if a == 0 || b == 0 {
      ZeroHasNoBits(i);
    } else if i > 0 {
      AndBit(a / 2, b / 2, i - 1);
    }
  }

  lemma {:induction false} OrBit(a: nat, b: nat, i: nat)
    ensures Bit(Or(a, b), i) == (Bit(a, i) || Bit(b, i))
    decreases i
  {
    if a == 0 {
      ZeroHasNoBits(i);
    } else if b == 0 {
      ZeroHasNoBits(i);
    } else if i > 0 {
      OrBit(a / 2, b / 2, i - 1);
    }
  }

  lemma {:induction false} ComplementBit(w: nat, width: nat, i: nat)
    ensures Bit(Complement(w, width), i) == (i < width && !Bit(w, i))
    decreases i
  {
    if width == 0 {
      ZeroHasNoBits(i);
    } else if i > 0 {
      ComplementBit(w / 2, width - 1, i - 1);
    }
  }

  lemma {:induction false} Pow2Bit(n: nat, i: nat)
    ensures Bit(Pow2(n), i) == (i == n)
    decreases i
  {
    if n == 0 {
      if i > 0 {
        ZeroHasNoBits(i - 1);
      }
    } else if i > 0 {
      Pow2Bit(n - 1, i - 1);
    }
  }

  /** `(1 << n) - 1` has exactly the bits below `n`. */
  lemma {:induction false} LowMaskBit(n: nat, i: nat)
    ensures Bit(Pow2(n) - 1, i) == (i < n)
    decreases i
  {
    if n == 0 {
      ZeroHasNoBits(i);
    } else if i > 0 {
      assert (Pow2(n) - 1) / 2 == Pow2(n - 1) - 1;
      LowMaskBit(n - 1, i - 1);
    }
  }

  lemma ShiftOneBit(n: int, i: nat)
    ensures Bit(ShiftOne(n), i) == (0 <= n < 64 && i == n)
  {
    if 0 <= n < 64 {
      Pow2Bit(n, i);
    } else {
      ZeroHasNoBits(i);
    }
  }

  // ---------------------------------------------------------------------
  // Results stay inside the word

  lemma {:induction false} AndBounded(a: nat, b: nat)
    ensures And(a, b) <= a && And(a, b) <= b
  {
    if a != 0 && b != 0 {
      AndBounded(a / 2, b / 2);
    }
  }

  lemma {:induction false} OrBounded(a: nat, b: nat, n: nat)
    requires a < Pow2(n) && b < Pow2(n)
    ensures Or(a, b) < Pow2(n)
    decreases n
  {
    if a != 0 && b != 0 {
      OrBounded(a / 2, b / 2, n - 1);
    }
  }

  lemma {:induction false} ComplementBounded(w: nat, width: nat)
    ensures Complement(w, width) < Pow2(width)
  {
    if width > 0 {
      ComplementBounded(w / 2, width - 1);
    }
  }

  function And64(a: Uint64, b: Uint64): (r: Uint64)
  {
    AndBounded(a, b); And(a, b)
  }

  function Or64(a: Uint64, b: Uint64): (r: Uint64)
  {
    Pow2Is2To64(); OrBounded(a, b, 64); Or(a, b)
  }

  /** Go's `^w` on a `uint64`. */
  function Not64(w: Uint64): (r: Uint64)
  {
    ComplementBounded(w, 64); Pow2Is2To64(); Complement(w, 64)
  }

  // ---------------------------------------------------------------------
  // Words are determined by their bits

  lemma {:induction false} BitsDetermineWord(a: nat, b: nat, n: nat)
    requires a < Pow2(n) && b < Pow2(n)
    requires forall i :: 0 <= i < n ==> Bit(a, i) == Bit(b, i)
    ensures a == b
    decreases n
  {
    if n > 0 {
      assert Bit(a, 0) == Bit(b, 0);
      forall i | 0 <= i < n - 1
        ensures Bit(a / 2, i) == Bit(b / 2, i)
      {
        assert Bit(a, i + 1) == Bit(b, i + 1);
      }
      BitsDetermineWord(a / 2, b / 2, n - 1);
    }
  }

  lemma WordsEqualIffBits(a: Uint64, b: Uint64)
    ensures (forall i: nat :: i < 64 ==> Bit(a, i) == Bit(b, i)) ==> a == b
    ensures a == b ==> forall i: nat :: i < 64 ==> Bit(a, i) == Bit(b, i)
  {
    if forall i: nat :: i < 64 ==> Bit(a, i) == Bit(b, i) {
      Pow2Is2To64();
      BitsDetermineWord(a, b, 64);
    }
  }

  // ---------------------------------------------------------------------
  // Population count

  lemma {:induction false} AndSelf(k: nat)
    ensures And(k, k) == k
  {
    if k != 0 {
      AndSelf(k / 2);
    }
  }

  /** `m & (m - 1)` has exactly one bit fewer than `m`. */
  lemma {:induction false} PopClearLowest(m: nat)
    requires m > 0
    ensures Pop(And(m, m - 1)) == Pop(m) - 1
  {
    if m % 2 == 1 {
      if m - 1 > 0 {
        assert (m - 1) / 2 == m / 2 && (m - 1) % 2 == 0;
        AndSelf(m / 2);
        assert And(m, m - 1) == 2 * (m / 2);
        assert Pop(2 * (m / 2)) == Pop(m / 2);
      }
    } else {
      var k := m / 2;
      assert (m - 1) / 2 == k - 1 && (m - 1) % 2 == 1;
      PopClearLowest(k);
      assert And(m, m - 1) == 2 * And(k, k - 1);
      assert Pop(2 * And(k, k - 1)) == Pop(And(k, k - 1));
    }
  }

  /** Bits counted from the bottom. */
  function CountFromLow(w: nat, n: nat): nat
  {
    if n == 0 then 0 else w % 2 + CountFromLow(w / 2, n - 1)
  }

  lemma {:induction false} PopIsCountFromLow(w: nat, n: nat)
    requires w < Pow2(n)
    ensures Pop(w) == CountFromLow(w, n)
    decreases n
  {
    if n > 0 {
      PopIsCountFromLow(w / 2, n - 1);
    }
  }

  lemma {:induction false} CountFromLowIsCountBelow(w: nat, n: nat)
    ensures CountFromLow(w, n) == CountBelow(w, n)
    decreases n
  {
    if n > 1 {
      CountFromLowIsCountBelow(w / 2, n - 1);
      CountFromLowIsCountBelow(w / 2, n - 2);
      CountFromLowIsCountBelow(w, n - 1);
      assert CountFromLow(w / 2, n - 1) == CountBelow(w / 2, n - 2) + (if Bit(w / 2, n - 2) then 1 else 0);
      assert CountFromLow(w, n - 1) == w % 2 + CountFromLow(w / 2, n - 2);
    }
  }

  lemma {:induction false} CountBelowIsCard(w: nat, n: nat)
    ensures CountBelow(w, n) == |BitSet(w, n)|
    decreases n
  {
    if n > 0 {
      CountBelowIsCard(w, n - 1);
      if Bit(w, n - 1) {
        assert BitSet(w, n) == BitSet(w, n - 1) + {n - 1};
      } else {
        assert BitSet(w, n) == BitSet(w, n - 1);
      }
    }
  }

  /** The population count is the number of set positions of the word. */
  lemma PopIsCard(w: Uint64)
    ensures Pop(w) == |BitSet(w, 64)|
  {
    Pow2Is2To64();
    PopIsCountFromLow(w, 64);
    CountFromLowIsCountBelow(w, 64);
    CountBelowIsCard(w, 64);
  }
}

=== FILE: cpumask.dfy ===
/** `cpumask.Cpumask`: a set of at most 640 CPUs kept as ten `uint64` words,
    CPU `c` being bit `c % 64` of word `c / 64`.  Each Go method that mutates
    its receiver is a function from the old mask to the new one. */
module CpuMask {
  import opened Wrappers
  import opened GoStrings
  import Bits

  /** `cpumaskNum`. */
  const MaskWords: nat := 10
  /** `oneMaskBits`. */
  const WordBits: nat := 64
  const MaxCpus: nat := 640
  /** `CharsPerUint64` in `ParseString`. */
  const CharsPerWord: nat := 16

  type Cpumask = m: seq<Uint64> | |m| == MaskWords witness [0, 0, 0, 0, 0, 0, 0, 0, 0, 0]

  /** CPU `c` is in the mask. */
  predicate Has(m: Cpumask, c: int)
  {
    0 <= c < MaxCpus && Bits.Bit(m[c / WordBits], c % WordBits)
  }

  /** The CPUs the mask stands for. */
  ghost function Cpus(m: Cpumask): set<nat>
  {
    set c: nat | c < MaxCpus && Has(m, c)
  }

  ghost function CpusBelow(m: Cpumask, n: nat): set<nat>
  {
    set c: nat | c < n && Has(m, c)
  }

  // ---------------------------------------------------------------------
  // Word-level facts

  lemma WordIndex(k: nat, i: nat)
    requires i < WordBits
    ensures (WordBits * k + i) / WordBits == k && (WordBits * k + i) % WordBits == i
  {
  }

  /** Replacing word `k` changes exactly the CPUs of that word. */
  lemma WordUpdate(m: Cpumask, k: nat, w: Uint64)
    requires k < MaskWords
    ensures forall c :: Has(m[k := w], c) <==>
      if 0 <= c < MaxCpus && c / WordBits == k then Bits.Bit(w, c % WordBits) else Has(m, c)
  {
  }

  const ZeroMask: Cpumask := [0, 0, 0, 0, 0, 0, 0, 0, 0, 0]

  /** `Init`: every word cleared. */
  function Init(): (m: Cpumask)
    ensures forall c :: !Has(m, c)
  {
    forall c | 0 <= c < MaxCpus
      ensures !Bits.Bit(ZeroMask[c / WordBits], c % WordBits)
    {
      Bits.ZeroHasNoBits(c % WordBits);
    }
    ZeroMask
  }

  /** `mask.And(dst)`: the receiver keeps the CPUs present in both. */
  function And(mask: Cpumask, dst: Cpumask): (r: Cpumask)
    ensures forall c :: Has(r, c) <==> Has(mask, c) && Has(dst, c)
  {
    var r: Cpumask := seq(MaskWords, i requires 0 <= i < MaskWords => Bits.And64(mask[i], dst[i]));
    forall c | 0 <= c < MaxCpus
      ensures Has(r, c) <==> Has(mask, c) && Has(dst, c)
    {
      Bits.AndBit(mask[c / WordBits], dst[c / WordBits], c % WordBits);
    }
    r
  }

  /** `mask.Or(dst)`: the receiver gains the CPUs of `dst`. */
  function Or(mask: Cpumask, dst: Cpumask): (r: Cpumask)
    ensures forall c :: Has(r, c) <==> Has(mask, c) || Has(dst, c)
  {
    var r: Cpumask := seq(MaskWords, i requires 0 <= i < MaskWords => Bits.Or64(mask[i], dst[i]));
    forall c | 0 <= c < MaxCpus
      ensures Has(r, c) <==> Has(mask, c) || Has(dst, c)
    {
      Bits.OrBit(mask[c / WordBits], dst[c / WordBits], c % WordBits);
    }
    r
  }

  lemma OrOneBits(x: Uint64, j: int)
    ensures forall i: nat :: Bits.Bit(Bits.Or64(x, Bits.ShiftOne(j)), i) <==> Bits.Bit(x, i) || (0 <= j < WordBits && i == j)
  {
    forall i: nat
      ensures Bits.Bit(Bits.Or64(x, Bits.ShiftOne(j)), i) <==> Bits.Bit(x, i) || (0 <= j < WordBits && i == j)
    {
      Bits.OrBit(x, Bits.ShiftOne(j), i);
      Bits.ShiftOneBit(j, i);
    }
  }

  lemma AndNotOneBits(x: Uint64, j: int)
    ensures forall i: nat :: i < WordBits ==>
      (Bits.Bit(Bits.And64(x, Bits.Not64(Bits.ShiftOne(j))), i) <==> Bits.Bit(x, i) && !(0 <= j < WordBits && i == j))
  {
    forall i: nat | i < WordBits
      ensures Bits.Bit(Bits.And64(x, Bits.Not64(Bits.ShiftOne(j))), i) <==> Bits.Bit(x, i) && !(0 <= j < WordBits && i == j)
    {
      Bits.AndBit(x, Bits.Not64(Bits.ShiftOne(j)), i);
      Bits.ComplementBit(Bits.ShiftOne(j), 64, i);
      Bits.ShiftOneBit(j, i);
    }
  }

  /** `Set(nbit)`: adds CPU `nbit` when it names one of the 640 CPUs and
      otherwise leaves the mask alone.  A negative `nbit` above -64 lands in
      word 0 with a negative shift count, which Go turns into a zero word. */
  function Set(m: Cpumask, nbit: int): (r: Cpumask)
    ensures forall c :: Has(r, c) <==> Has(m, c) || (0 <= nbit < MaxCpus && c == nbit)
  {
    var maskIndex := GoDiv(nbit, WordBits);
    var oneMask := Bits.ShiftOne(GoRem(nbit, WordBits));
    if maskIndex >= MaskWords as int || maskIndex < 0 then m
    else
      var w := Bits.Or64(m[maskIndex], oneMask);
      OrOneBits(m[maskIndex], GoRem(nbit, WordBits));
      WordUpdate(m, maskIndex, w);
      m[maskIndex := w]
  }

  /** `Clear(nbit)`: removes CPU `nbit`, with the same range rule as `Set`. */
  function Clear(m: Cpumask, nbit: int): (r: Cpumask)
    ensures forall c :: Has(r, c) <==> Has(m, c) && !(0 <= nbit < MaxCpus && c == nbit)
  {
    var maskIndex := GoDiv(nbit, WordBits);
    var oneMask := Bits.ShiftOne(GoRem(nbit, WordBits));
    if maskIndex >= MaskWords as int || maskIndex < 0 then m
    else
      var w := Bits.And64(m[maskIndex], Bits.Not64(oneMask));
      AndNotOneBits(m[maskIndex], GoRem(nbit, WordBits));
      WordUpdate(m, maskIndex, w);
      m[maskIndex := w]
  }

  /** `mask.Copy(dst)`: despite its doc comment the words flow from the
      argument into the receiver, so the receiver's old contents are lost. */
  method Copy(mask: Cpumask, dst: Cpumask) returns (r: Cpumask)
    ensures r == dst
  {
    r := mask;
    for i := 0 to MaskWords
      invariant r[..i] == dst[..i]
    {
      r := r[i := dst[i]];
    }
  }

  /** Two masks with the same CPUs have the same words. */
  lemma SameCpusSameWords(a: Cpumask, b: Cpumask)
    requires forall c :: 0 <= c < MaxCpus ==> (Has(a, c) <==> Has(b, c))
    ensures a == b
  {
    forall k | 0 <= k < MaskWords
      ensures a[k] == b[k]
    {
      forall i: nat | i < WordBits
        ensures Bits.Bit(a[k], i) == Bits.Bit(b[k], i)
      {
        WordIndex(k, i);
        assert Has(a, WordBits * k + i) <==> Has(b, WordBits * k + i);
      }
      Bits.WordsEqualIffBits(a[k], b[k]);
    }
  }

  lemma EqualIffSameCpus(a: Cpumask, b: Cpumask)
    ensures a == b <==> Cpus(a) == Cpus(b)
  {
    if Cpus(a) == Cpus(b) {
      forall c | 0 <= c < MaxCpus
        ensures Has(a, c) <==> Has(b, c)
      {
        assert Has(a, c) <==> c in Cpus(a);
      }
      SameCpusSameWords(a, b);
    }
  }

  /** `IsEqual`: compares the ten words, stopping at the first difference. */
  method IsEqual(mask: Cpumask, dst: Cpumask) returns (eq: bool)
    ensures eq <==> Cpus(mask) == Cpus(dst)
    ensures eq <==> mask == dst
  {
    EqualIffSameCpus(mask, dst);
    for i := 0 to MaskWords
      invariant mask[..i] == dst[..i]
    {
      if mask[i] != dst[i] {
        return false;
      }
    }
    assert mask == mask[..MaskWords];
    assert dst == dst[..MaskWords];
    return true;
  }

  // ---------------------------------------------------------------------
  // Parsing the sysfs hex form

  /** Where the `k`-th 16-character chunk, counted from the right, ends. */
  function ChunkEnd(len: nat, k: nat): nat
  {
    if len >= CharsPerWord * k then len - CharsPerWord * k else 0
  }

  function ChunkStart(len: nat, k: nat): nat
  {
    ChunkEnd(len, k + 1)
  }

  function Chunk(str: string, k: nat): string
  {
    str[ChunkStart(|str|, k)..ChunkEnd(|str|, k)]
  }

  predicate HexBetween(str: string, lo: nat, hi: nat)
    requires hi <= |str|
  {
    forall i :: lo <= i < hi ==> IsHexDigit(str[i])
  }

  datatype Parsed = Parsed(mask: Cpumask, ok: bool)

  /** One iteration of the `ParseString` loop and the ones after it. */
  function ParseWords(str: string, k: nat, m: Cpumask): (r: Parsed)
    requires k < MaskWords && CharsPerWord * k <= |str|
    decreases MaskWords - k
  {
    var endIndex := |str| - CharsPerWord * k;
    var startIndex := if endIndex - CharsPerWord < 0 then 0 else endIndex - CharsPerWord;
    match ParseUint(str[startIndex..endIndex], 16)
    case None => Parsed(m[k := 0], false)
    case Some(w) =>
      if startIndex == 0 || k + 1 == MaskWords then Parsed(m[k := w], true)
      else ParseWords(str, k + 1, m[k := w])
  }

  /** `ParseString(str)`: the receiver is cleared and then filled from the
      right, sixteen hex digits per word.  `ok` is false where Go returns an
      error. */
  function ParseString(str: string): Parsed
  {
    ParseWords(str, 0, Init())
  }

  lemma ChunkDigits(str: string, k: nat)
    requires HexBetween(str, ChunkStart(|str|, k), ChunkEnd(|str|, k))
    ensures AllDigits(Chunk(str, k), 16)
  {
    var c := Chunk(str, k);
    forall i | 0 <= i < |c|
      ensures IsDigitIn(c[i], 16)
    {
      assert c[i] == str[ChunkStart(|str|, k) + i];
    }
  }

  lemma ChunkParse(str: string, k: nat)
    ensures ParseUint(Chunk(str, k), 16).Some? <==>
      ChunkEnd(|str|, k) > ChunkStart(|str|, k) && HexBetween(str, ChunkStart(|str|, k), ChunkEnd(|str|, k))
    ensures ParseUint(Chunk(str, k), 16).Some? ==>
      AllDigits(Chunk(str, k), 16) && ParseUint(Chunk(str, k), 16).value == Value(Chunk(str, k), 16)
  {
    var c := Chunk(str, k);
    var lo, hi := ChunkStart(|str|, k), ChunkEnd(|str|, k);
    if HexBetween(str, lo, hi) {
      ChunkDigits(str, k);
      HexFitsInUint64(c);
    } else {
      var i :| lo <= i < hi && !IsHexDigit(str[i]);
      assert c[i - lo] == str[i];
    }
  }

  lemma {:induction false} ParseWordsSpec(str: string, k: nat, m: Cpumask)
    requires k < MaskWords && CharsPerWord * k <= |str|
    requires k > 0 ==> CharsPerWord * k < |str|
    requires forall j :: k <= j < MaskWords ==> m[j] == 0
    ensures ParseWords(str, k, m).ok <==>
      |str| > 0 && HexBetween(str, ChunkStart(|str|, 9), ChunkEnd(|str|, k))
    ensures ParseWords(str, k, m).ok ==>
      (forall j :: 0 <= j < k ==> ParseWords(str, k, m).mask[j] == m[j]) &&
      (forall j :: k <= j < MaskWords ==>
        AllDigits(Chunk(str, j), 16) && ParseWords(str, k, m).mask[j] == Value(Chunk(str, j), 16))
    decreases MaskWords - k, 1
  {
    match ParseUint(Chunk(str, k), 16)
    case None =>
      ParseWordsFails(str, k, m);
    case Some(w) =>
      if ChunkStart(|str|, k) == 0 || k + 1 == MaskWords {
        ParseWordsLastSpec(str, k, m, w);
      } else {
        ParseWordsMore(str, k, m, w);
      }
  }

  /** What `ParseWordsSpec` states about `r == ParseWords(str, k, m)`. */
  ghost predicate WordsSpec(str: string, k: nat, m: Cpumask, r: Parsed)
    requires k < MaskWords && CharsPerWord * k <= |str|
  {
    (r.ok <==> |str| > 0 && HexBetween(str, ChunkStart(|str|, 9), ChunkEnd(|str|, k))) &&
    (r.ok ==>
      (forall j :: 0 <= j < k ==> r.mask[j] == m[j]) &&
      (forall j :: k <= j < MaskWords ==> AllDigits(Chunk(str, j), 16) && r.mask[j] == Value(Chunk(str, j), 16)))
  }

  /** The chunks from `k` on are hex exactly when chunk `k` and those
      beyond it are. */
  lemma ChunkRange(str: string, k: nat)
    requires k < MaskWords
    ensures ChunkStart(|str|, 9) <= ChunkStart(|str|, k) <= ChunkEnd(|str|, k) <= |str|
    ensures HexBetween(str, ChunkStart(|str|, 9), ChunkEnd(|str|, k)) <==>
      HexBetween(str, ChunkStart(|str|, 9), ChunkStart(|str|, k)) &&
      HexBetween(str, ChunkStart(|str|, k), ChunkEnd(|str|, k))
  {
    HexBetweenSplit(str, ChunkStart(|str|, 9), ChunkStart(|str|, k), ChunkEnd(|str|, k));
  }

  lemma HexBetweenSplit(str: string, lo: nat, mid: nat, hi: nat)
    requires lo <= mid <= hi <= |str|
    ensures HexBetween(str, lo, hi) <==> HexBetween(str, lo, mid) && HexBetween(str, mid, hi)
  {
  }

  lemma ParseWordsFails(str: string, k: nat, m: Cpumask)
    requires k < MaskWords && CharsPerWord * k <= |str|
    requires k > 0 ==> CharsPerWord * k < |str|
    requires ParseUint(Chunk(str, k), 16).None?
    ensures WordsSpec(str, k, m, ParseWords(str, k, m))
  {
    ParseWordsStep(str, k, m);
    ChunkParse(str, k);
    ChunkRange(str, k);
  }

  lemma ParseWordsLastSpec(str: string, k: nat, m: Cpumask, w: Uint64)
    requires k < MaskWords && CharsPerWord * k <= |str|
    requires k > 0 ==> CharsPerWord * k < |str|
    requires forall j :: k <= j < MaskWords ==> m[j] == 0
    requires ParseUint(Chunk(str, k), 16) == Some(w)
    requires ChunkStart(|str|, k) == 0 || k + 1 == MaskWords
    ensures WordsSpec(str, k, m, ParseWords(str, k, m))
  {
    ParseWordsStep(str, k, m);
    ChunkParse(str, k);
    ChunkRange(str, k);
    ParseWordsLast(str, k, m, w);
  }

  lemma {:induction false} ParseWordsMore(str: string, k: nat, m: Cpumask, w: Uint64)
    requires k < MaskWords && CharsPerWord * k <= |str|
    requires k > 0 ==> CharsPerWord * k < |str|
    requires forall j :: k <= j < MaskWords ==> m[j] == 0
    requires ParseUint(Chunk(str, k), 16) == Some(w)
    requires !(ChunkStart(|str|, k) == 0 || k + 1 == MaskWords)
    ensures WordsSpec(str, k, m, ParseWords(str, k, m))
    decreases MaskWords - k, 0
  {
    ParseWordsStep(str, k, m);
    ChunkParse(str, k);
    ChunkRange(str, k);
    ParseWordsSpec(str, k + 1, m[k := w]);
    assert ChunkEnd(|str|, k + 1) == ChunkStart(|str|, k);
  }

  /** One turn of the `ParseString` loop, in terms of chunk `k`. */
  lemma ParseWordsStep(str: string, k: nat, m: Cpumask)
    requires k < MaskWords && CharsPerWord * k <= |str|
    ensures ParseUint(Chunk(str, k), 16).None? ==> ParseWords(str, k, m) == Parsed(m[k := 0], false)
    ensures ParseUint(Chunk(str, k), 16).Some? && (ChunkStart(|str|, k) == 0 || k + 1 == MaskWords) ==>
      ParseWords(str, k, m) == Parsed(m[k := ParseUint(Chunk(str, k), 16).value], true)
    ensures ParseUint(Chunk(str, k), 16).Some? && !(ChunkStart(|str|, k) == 0 || k + 1 == MaskWords) ==>
      CharsPerWord * (k + 1) < |str| &&
      ParseWords(str, k, m) == ParseWords(str, k + 1, m[k := ParseUint(Chunk(str, k), 16).value])
  {
    var endIndex := |str| - CharsPerWord * k;
    var startIndex := if endIndex - CharsPerWord < 0 then 0 else endIndex - CharsPerWord;
    assert endIndex == ChunkEnd(|str|, k) && startIndex == ChunkStart(|str|, k);
    assert str[startIndex..endIndex] == Chunk(str, k);
  }

  /** The last chunk read: every word above `k` is an empty chunk. */
  lemma ParseWordsLast(str: string, k: nat, m: Cpumask, w: Uint64)
    requires k < MaskWords && CharsPerWord * k <= |str|
    requires k > 0 ==> CharsPerWord * k < |str|
    requires forall j :: k <= j < MaskWords ==> m[j] == 0
    requires ParseUint(Chunk(str, k), 16) == Some(w)
    requires ChunkStart(|str|, k) == 0 || k + 1 == MaskWords
    ensures ChunkStart(|str|, 9) == ChunkStart(|str|, k)
    ensures forall j :: k < j < MaskWords ==> AllDigits(Chunk(str, j), 16) && Value(Chunk(str, j), 16) == 0
  {
    forall j | k < j < MaskWords
      ensures AllDigits(Chunk(str, j), 16) && Value(Chunk(str, j), 16) == 0
    {
      assert Chunk(str, j) == [];
    }
  }

  /** `ParseString` succeeds exactly when the string is non-empty and its
      rightmost 160 characters are hex digits; digits further left are
      ignored, and word `k` then holds the `k`-th sixteen-digit chunk from
      the right. */
  lemma ParseStringSpec(str: string)
    ensures ParseString(str).ok <==>
      |str| > 0 && HexBetween(str, ChunkStart(|str|, 9), |str|)
    ensures ParseString(str).ok ==>
      forall k :: 0 <= k < MaskWords ==>
        AllDigits(Chunk(str, k), 16) && ParseString(str).mask[k] == Value(Chunk(str, k), 16)
  {
    ParseWordsSpec(str, 0, Init());
  }

  // ---------------------------------------------------------------------
  // Counting

  /** `oneMaskWeight`: clears the lowest set bit until none is left. */
  method OneMaskWeight(mask: Uint64) returns (weight: int)
    ensures weight == Bits.Pop(mask)
  {
    weight := 0;
    var w: nat := mask;
    while w > 0
      invariant weight + Bits.Pop(w) == Bits.Pop(mask)
      decreases w
    {
      Bits.PopClearLowest(w);
      Bits.AndBounded(w, w - 1);
      weight := weight + 1;
      w := Bits.And(w, w - 1);
    }
  }

  lemma {:induction false} CpusBelowInWord(m: Cpumask, k: nat, j: nat)
    requires k < MaskWords && j <= WordBits
    ensures |CpusBelow(m, WordBits * k + j)| == |CpusBelow(m, WordBits * k)| + Bits.CountBelow(m[k], j)
    decreases j
  {
    if j > 0 {
      CpusBelowInWord(m, k, j - 1);
      var c := WordBits * k + j - 1;
      WordIndex(k, j - 1);
      if Bits.Bit(m[k], j - 1) {
        assert CpusBelow(m, c + 1) == CpusBelow(m, c) + {c};
      } else {
        assert CpusBelow(m, c + 1) == CpusBelow(m, c);
      }
    }
  }

  lemma CpusBelowNextWord(m: Cpumask, k: nat)
    requires k < MaskWords
    ensures |CpusBelow(m, WordBits * (k + 1))| == |CpusBelow(m, WordBits * k)| + Bits.Pop(m[k])
  {
    CpusBelowInWord(m, k, WordBits);
    Bits.Pow2Is2To64();
    Bits.PopIsCountFromLow(m[k], 64);
    Bits.CountFromLowIsCountBelow(m[k], 64);
  }

  /** `Weight`: the number of CPUs in the mask. */
  method Weight(mask: Cpumask) returns (weight: int)
    ensures weight == |Cpus(mask)|
  {
    weight := 0;
    assert CpusBelow(mask, 0) == {};
    for i := 0 to MaskWords
      invariant weight == |CpusBelow(mask, WordBits * i)|
    {
      var w := OneMaskWeight(mask[i]);
      CpusBelowNextWord(mask, i);
      weight := weight + w;
    }
    assert CpusBelow(mask, MaxCpus) == Cpus(mask);
  }

  // ---------------------------------------------------------------------
  // Next set CPU

  /** `r` is the first CPU of `m` at or after `c`, or -1 when there is none. */
  ghost predicate IsNext(m: Cpumask, c: int, r: int)
  {
    (r == -1 && forall x :: c <= x ==> !Has(m, x)) ||
    (c <= r && Has(m, r) && forall x :: c <= x < r ==> !Has(m, x))
  }

  lemma NextUnique(m: Cpumask, c: int, r1: int, r2: int)
    requires IsNext(m, c, r1) && IsNext(m, c, r2)
    ensures r1 == r2
  {
  }

  /** Reference definition: walk the CPUs upwards from `c`. */
  function NextFrom(m: Cpumask, c: nat): (r: int)
    ensures IsNext(m, c, r)
    decreases MaxCpus - c
  {
    if c >= MaxCpus then -1
    else if Has(m, c) then c
    else NextFrom(m, c + 1)
  }

  lemma {:induction false} AndPow2(w: nat, i: nat)
    ensures Bits.And(w, Bits.Pow2(i)) == if Bits.Bit(w, i) then Bits.Pow2(i) else 0
    decreases i
  {
    var p := Bits.Pow2(i);
    if i == 0 {
      assert p == 1;
      if w != 0 {
        assert Bits.And(w / 2, 0) == 0;
      }
    } else {
      var q := Bits.Pow2(i - 1);
      assert p == 2 * q && p % 2 == 0 && p / 2 == q;
      AndPow2(w / 2, i - 1);
      assert Bits.Bit(w, i) == Bits.Bit(w / 2, i - 1);
      if w != 0 {
        assert Bits.And(w, p) == 2 * Bits.And(w / 2, q);
      }
    }
  }

  /** The `lowBit` loop from position `i` on. */
  function LowBitFrom(mask: Uint64, i: nat): (r: int)
    requires i <= WordBits
    ensures r == -1 ==> forall j: nat :: i <= j < WordBits ==> !Bits.Bit(mask, j)
    ensures r != -1 ==> i <= r < WordBits && Bits.Bit(mask, r) && forall j: nat :: i <= j < r ==> !Bits.Bit(mask, j)
    decreases WordBits - i
  {
    if i == WordBits then -1
    else
      AndPow2(mask, i);
      if Bits.And(mask, Bits.Pow2(i)) != 0 then i else LowBitFrom(mask, i + 1)
  }

  /** `lowBit`: the lowest set bit of a word, or -1 for zero. */
  function LowBit(mask: Uint64): (r: int)
    ensures r == -1 ==> forall j: nat :: j < WordBits ==> !Bits.Bit(mask, j)
    ensures r != -1 ==> 0 <= r < WordBits && Bits.Bit(mask, r) && forall j: nat :: j < r ==> !Bits.Bit(mask, j)
  {
    LowBitFrom(mask, 0)
  }

  /** The `for startIndex++ ...` loop of `Foreach`: the first CPU in words
      `k` and later. */
  function ScanWords(m: Cpumask, k: nat): (r: int)
    requires k <= MaskWords
    ensures IsNext(m, WordBits * k, r)
    decreases MaskWords - k
  {
    if k == MaskWords then -1
    else
      var leftbit := LowBit(m[k]);
      if leftbit != -1 then
        InWordNext(m, k, 0, leftbit);
        WordBits * k + leftbit
      else
        var r := ScanWords(m, k + 1);
        PastWordNext(m, k, 0, r);
        r
  }

  /** Go's `(uint64(1) << uint64(n)) - 1`, which wraps to all ones when the
      shift produced zero. */
  function LowMask(n: int): Uint64
  {
    var one := Bits.ShiftOne(n);
    if one == 0 then Two64 - 1 else one - 1
  }

  /** `firstMask` of `Foreach`: the bits of word `w` at `j` and above. */
  function HighPart(w: Uint64, j: nat): Uint64
  {
    Bits.And64(w, Bits.Not64(LowMask(j)))
  }

  lemma HighPartBits(x: Uint64, j: nat)
    requires j < WordBits
    ensures forall i: nat :: i < WordBits ==>
      (Bits.Bit(HighPart(x, j), i) <==> Bits.Bit(x, i) && j <= i)
  {
    Bits.Pow2Below64(j);
    forall i: nat | i < WordBits
      ensures Bits.Bit(HighPart(x, j), i) <==> Bits.Bit(x, i) && j <= i
    {
      Bits.AndBit(x, Bits.Not64(LowMask(j)), i);
      Bits.ComplementBit(LowMask(j), 64, i);
      Bits.LowMaskBit(j, i);
    }
  }

  /** CPU `WordBits * k + j` and the ones after it in the same word. */
  lemma InWordNext(m: Cpumask, k: nat, j: nat, leftbit: nat)
    requires k < MaskWords && j <= leftbit < WordBits
    requires Bits.Bit(m[k], leftbit)
    requires forall i: nat :: j <= i < leftbit ==> !Bits.Bit(m[k], i)
    ensures IsNext(m, WordBits * k + j, WordBits * k + leftbit)
  {
    WordIndex(k, leftbit);
    forall x | WordBits * k + j <= x < WordBits * k + leftbit
      ensures !Has(m, x)
    {
      WordIndex(k, x - WordBits * k);
    }
  }

  lemma PastWordNext(m: Cpumask, k: nat, j: nat, r: int)
    requires k < MaskWords && j < WordBits
    requires forall i: nat :: j <= i < WordBits ==> !Bits.Bit(m[k], i)
    requires IsNext(m, WordBits * (k + 1), r)
    ensures IsNext(m, WordBits * k + j, r)
  {
    forall x | WordBits * k + j <= x < WordBits * (k + 1)
      ensures !Has(m, x)
    {
      WordIndex(k, x - WordBits * k);
    }
  }

  /** Bit `from` of the mask is bit `from % 64` of word `from / 64`. */
  lemma BitPosition(from: int)
    requires 0 <= from < MaxCpus
    ensures 0 <= from / WordBits < MaskWords && 0 <= from % WordBits < WordBits
    ensures from == WordBits * (from / WordBits) + from % WordBits
  {
  }

  /** The body of `Foreach` once `startIndex` is known to be a valid word. */
  function ForeachBody(m: Cpumask, startBit: int): (r: int)
    requires 0 <= startBit + 1 < MaxCpus
    ensures IsNext(m, startBit + 1, r)
  {
    var from := startBit + 1;
    BitPosition(from);
    WordNext(m, from / WordBits, from % WordBits)
  }

  /** The same body with the start split into word `k` and bit `j`: the
      first CPU at bit `j` or above of word `k`, else the first of the
      later words. */
  function WordNext(m: Cpumask, k: nat, j: nat): (r: int)
    requires k < MaskWords && j < WordBits
    ensures IsNext(m, WordBits * k + j, r)
  {
    WordNextSpec(m, k, j);
    if LowBit(HighPart(m[k], j)) != -1 then WordBits * k + LowBit(HighPart(m[k], j))
    else ScanWords(m, k + 1)
  }

  lemma WordNextSpec(m: Cpumask, k: nat, j: nat)
    requires k < MaskWords && j < WordBits
    ensures IsNext(m, WordBits * k + j,
                   if LowBit(HighPart(m[k], j)) != -1 then WordBits * k + LowBit(HighPart(m[k], j))
                   else ScanWords(m, k + 1))
  {
    var leftbit := LowBit(HighPart(m[k], j));
    var r := if leftbit != -1 then WordBits * k + leftbit else ScanWords(m, k + 1);
    if leftbit != -1 {
      FirstInWord(m, k, j, leftbit);
    } else {
      NoneInWord(m, k, j, leftbit, r);
    }
    assert IsNext(m, WordBits * k + j, r);
  }

  /** A CPU of word `k` at bit `j` or above is the next one from there. */
  lemma FirstInWord(m: Cpumask, k: nat, j: nat, leftbit: int)
    requires k < MaskWords && j < WordBits
    requires leftbit == LowBit(HighPart(m[k], j)) != -1
    ensures IsNext(m, WordBits * k + j, WordBits * k + leftbit)
  {
    HighPartBits(m[k], j);
    InWordNext(m, k, j, leftbit);
  }

  /** With no CPU of word `k` at bit `j` or above, the next one is the next
      from word `k + 1` on. */
  lemma NoneInWord(m: Cpumask, k: nat, j: nat, leftbit: int, r: int)
    requires k < MaskWords && j < WordBits
    requires leftbit == LowBit(HighPart(m[k], j)) == -1
    requires IsNext(m, WordBits * (k + 1), r)
    ensures IsNext(m, WordBits * k + j, r)
  {
    HighPartBits(m[k], j);
    PastWordNext(m, k, j, r);
  }

  /** `Foreach(startBit)` as written: `startIndex` is `(startBit + 1) / 64`
      with no bound check, so a start of 639 or more (or below -64) indexes
      outside the ten words and Go panics; `None` stands for that panic. */
  function ForeachAsWritten(m: Cpumask, startBit: int): (r: Option<int>)
  {
    var startIndex := GoDiv(startBit + 1, WordBits);
    if startIndex < 0 || startIndex >= MaskWords as int then None
    else if startBit + 1 >= 0 then Some(ForeachBody(m, startBit))
    else
      // -64 < startBit + 1 < 0: the remainder is negative, the shift gives
      // zero, the low mask wraps to all ones and word 0 is skipped.
      var firstMask := Bits.And64(m[0], Bits.Not64(LowMask(GoRem(startBit + 1, WordBits))));
      var leftbit := LowBit(firstMask);
      if leftbit != -1 then Some(leftbit) else Some(ScanWords(m, 1))
  }

  /** `Foreach` with the missing bound: past the last CPU there is no next
      one. */
  function Foreach(m: Cpumask, startBit: int): (r: int)
    requires -1 <= startBit
    ensures IsNext(m, startBit + 1, r)
  {
    if startBit + 1 >= MaxCpus then
      assert forall x :: startBit + 1 <= x ==> !Has(m, x);
      -1
    else ForeachBody(m, startBit)
  }

  /** `Foreach(s)` is the smallest CPU above `s`, or -1. */
  lemma ForeachIsNextFrom(m: Cpumask, startBit: int)
    requires -1 <= startBit
    ensures Foreach(m, startBit) == NextFrom(m, startBit + 1)
  {
    NextUnique(m, startBit + 1, Foreach(m, startBit), NextFrom(m, startBit + 1));
  }

  /** Below the last CPU the code as written and the bounded version agree. */
  lemma ForeachAgrees(m: Cpumask, startBit: int)
    requires -1 <= startBit < MaxCpus - 1
    ensures ForeachAsWritten(m, startBit) == Some(Foreach(m, startBit))
  {
  }

  /** The CPUs `for cpu := m.Foreach(-1); cpu != -1; cpu = m.Foreach(cpu)`
      visits after `startBit`, with the bounded `Foreach`. */
  function Walk(m: Cpumask, startBit: int): (r: seq<nat>)
    requires -1 <= startBit
    ensures ListsAbove(m, startBit, r) && Increasing(r)
    decreases MaxCpus - startBit
  {
    var cpu := Foreach(m, startBit);
    if cpu == -1 then []
    else
      var rest := Walk(m, cpu);
      WalkCons(m, startBit, cpu, rest);
      [cpu] + rest
  }

  /** `r` holds exactly the CPUs of `m` above `s`. */
  ghost predicate ListsAbove(m: Cpumask, s: int, r: seq<nat>)
  {
    forall x :: x in r <==> s < x && Has(m, x)
  }

  predicate Increasing(r: seq<nat>)
  {
    forall i, j :: 0 <= i < j < |r| ==> r[i] < r[j]
  }

  /** The next CPU followed by the ones above it lists the CPUs above `s`. */
  lemma WalkCons(m: Cpumask, s: int, cpu: nat, rest: seq<nat>)
    requires IsNext(m, s + 1, cpu)
    requires ListsAbove(m, cpu, rest) && Increasing(rest)
    ensures ListsAbove(m, s, [cpu] + rest) && Increasing([cpu] + rest)
  {
    assert forall x :: x in rest ==> cpu < x;
    var r := [cpu] + rest;
    forall i, j | 0 <= i < j < |r|
      ensures r[i] < r[j]
    {
      if i == 0 {
        assert r[j] == rest[j - 1] && rest[j - 1] in rest;
      } else {
        assert r[i] == rest[i - 1] && r[j] == rest[j - 1];
      }
    }
    forall x
      ensures x in r <==> s < x && Has(m, x)
    {
      if x in r && x != cpu {
        assert x in rest;
      }
    }
  }

  /** The same loop with `Foreach` as written; `None` when it panics. */
  function WalkAsWritten(m: Cpumask, startBit: int): (r: Option<seq<nat>>)
    requires -1 <= startBit
    decreases MaxCpus - startBit
  {
    match ForeachAsWritten(m, startBit)
    case None => None
    case Some(cpu) =>
      if cpu < 0 || cpu <= startBit || cpu >= MaxCpus then Some([])
      else
        match WalkAsWritten(m, cpu)
        case None => None
        case Some(rest) => Some([cpu] + rest)
  }

  /** Enumerating the mask from -1 lists every CPU exactly once, in
      increasing order. */
  lemma WalkListsCpus(m: Cpumask)
    ensures forall x :: x in Walk(m, -1) <==> x in Cpus(m)
    ensures forall i, j :: 0 <= i < j < |Walk(m, -1)| ==> Walk(m, -1)[i] < Walk(m, -1)[j]
  {
  }

  /** As written, enumerating a mask that holds CPU 639 asks for
      `Foreach(639)`, which reads word 10 of ten. */
  lemma WalkAsWrittenPanicsOnLastCpu()
    ensures Has(Set(Init(), 639), 639)
    ensures WalkAsWritten(Set(Init(), 639), -1) == None
    ensures Walk(Set(Init(), 639), -1) == [639]
  {
    var m := Set(Init(), 639);
    ForeachAgrees(m, -1);
    assert IsNext(m, 0, 639);
    NextUnique(m, 0, Foreach(m, -1), 639);
    assert ForeachAsWritten(m, 639) == None;
    assert IsNext(m, 640, -1);
    NextUnique(m, 640, Foreach(m, 639), -1);
  }
}

=== FILE: gofmt.dfy ===
/** The part of Go's `fmt.Sscanf` the daemon uses: a format made of literal
    characters, single spaces and `%d` verbs.  A space in the format matches
    one or more blanks of the input (or the end of it), `%d` skips blanks,
    takes an optional sign when the target is signed and then at least one
    decimal digit, and whatever input is left after the format is ignored. */
module GoFmt {
  import opened Wrappers
  import opened GoStrings

  datatype Token =
    | Lit(c: char)      // a literal character of the format
    | Space             // a space of the format
    | SignedDec         // `%d` into an `int` / `int64`
    | UnsignedDec       // `%d` into a `uint64`

  /** The blanks `fmt` skips on one line: Unicode spaces other than newline. */
  predicate ScanSpace(c: char)
  {
    IsSpace(c) && c != '\n'
  }

  function SpaceRun(s: string): (n: nat)
    ensures n <= |s|
    ensures forall i :: 0 <= i < n ==> ScanSpace(s[i])
    ensures n < |s| ==> !ScanSpace(s[n])
  {
    if |s| > 0 && ScanSpace(s[0]) then 1 + SpaceRun(s[1..]) else 0
  }

  function DigitRun(s: string): (n: nat)
    ensures n <= |s|
    ensures AllDigits(s[..n], 10)
    ensures n < |s| ==> !IsDecDigit(s[n])
  {
    if |s| > 0 && IsDecDigit(s[0]) then
      var n := 1 + DigitRun(s[1..]);
      assert s[..n] == [s[0]] + s[1..][..n - 1];
      n
    else 0
  }

  /** A format string, one token per character: `' '` becomes `Space`. */
  function Literal(s: string): (f: seq<Token>)
    ensures |f| == |s|
  {
    if |s| == 0 then [] else [if s[0] == ' ' then Space else Lit(s[0])] + Literal(s[1..])
  }

  /** `fmt.Sscanf(input, format, ...)`: the values the verbs stored, in
      order, or `None` where Go reports an error. */
  function Scan(input: string, format: seq<Token>): (r: Option<seq<int>>)
    decreases |format|, 0
  {
    if |format| == 0 then Some([])
    else
      match format[0]
      case Lit(c) =>
        if |input| > 0 && input[0] == c then Scan(input[1..], format[1..]) else None
      case Space =>
        var n := SpaceRun(input);
        if n == 0 && |input| > 0 then None else Scan(input[n..], format[1..])
      case SignedDec => ScanSigned(input, format[1..])
      case UnsignedDec => ScanUnsigned(input, format[1..])
  }

  /** `%d` into a signed 64-bit integer, then the rest of the format. */
  function ScanSigned(input: string, rest: seq<Token>): (r: Option<seq<int>>)
    decreases |rest|, 2
  {
    var s := input[SpaceRun(input)..];
    var hasSign := |s| > 0 && (s[0] == '-' || s[0] == '+');
    var body := if hasSign then s[1..] else s;
    var d := DigitRun(body);
    var mag := Value(body[..d], 10);
    var v: int := if hasSign && s[0] == '-' then -(mag as int) else mag;
    if d == 0 || v < MinInt64 || v > MaxInt64 then None
    else ScanMore(v, body[d..], rest)
  }

  /** `%d` into a `uint64`, then the rest of the format. */
  function ScanUnsigned(input: string, rest: seq<Token>): (r: Option<seq<int>>)
    decreases |rest|, 2
  {
    var s := input[SpaceRun(input)..];
    var d := DigitRun(s);
    var v := Value(s[..d], 10);
    if d == 0 || v >= Two64 then None
    else ScanMore(v, s[d..], rest)
  }

  function ScanMore(v: int, input: string, rest: seq<Token>): Option<seq<int>>
    decreases |rest|, 1
  {
    match Scan(input, rest)
    case None => None
    case Some(vs) => Some([v] + vs)
  }

  // ---------------------------------------------------------------------
  // Printing a line the format reads back

  function VerbCount(f: seq<Token>): nat
  {
    if |f| == 0 then 0 else (if f[0].SignedDec? || f[0].UnsignedDec? then 1 else 0) + VerbCount(f[1..])
  }

  /** `fmt.Sprintf("%d", v)`. */
  function FormatInt(v: int): (s: string)
    ensures |s| > 0
  {
    if v < 0 then "-" + FormatDecimal(-v) else FormatDecimal(v)
  }

  /** Values the verbs of `f` can hold. */
  predicate Fits(f: seq<Token>, vals: seq<int>)
  {
    |vals| == VerbCount(f) &&
    (|f| > 0 ==>
      match f[0]
      case SignedDec => MinInt64 <= vals[0] <= MaxInt64 && Fits(f[1..], vals[1..])
      case UnsignedDec => 0 <= vals[0] < Two64 && Fits(f[1..], vals[1..])
      case _ => Fits(f[1..], vals))
  }

  /** The line `fmt.Sprintf` would print for `f` and `vals`. */
  function Render(f: seq<Token>, vals: seq<int>): (s: string)
    requires Fits(f, vals)
  {
    if |f| == 0 then ""
    else
      match f[0]
      case Lit(c) => [c] + Render(f[1..], vals)
      case Space => " " + Render(f[1..], vals)
      case SignedDec => FormatInt(vals[0]) + Render(f[1..], vals[1..])
      case UnsignedDec => FormatDecimal(vals[0]) + Render(f[1..], vals[1..])
  }

  /** What the first printed character of a token can be. */
  predicate StartsToken(t: Token, c: char)
  {
    match t
    case Lit(l) => c == l
    case Space => c == ' '
    case SignedDec => c == '-' || IsDecDigit(c)
    case UnsignedDec => IsDecDigit(c)
  }

  /** Whether character `c` may directly follow what token `t` printed
      without being read as part of it. */
  predicate MayFollow(t: Token, c: char)
  {
    match t
    case Lit(_) => true
    case Space => !ScanSpace(c)
    case SignedDec => !IsDecDigit(c)
    case UnsignedDec => !IsDecDigit(c)
  }

  /** Formats whose printed form reads back unambiguously: literals are not
      blanks, and no token swallows the first character of the next one. */
  predicate Unambiguous(f: seq<Token>)
  {
    (forall i :: 0 <= i < |f| ==> (f[i].Lit? ==> !IsSpace(f[i].c))) &&
    (forall i :: 0 <= i < |f| - 1 ==>
      forall c :: StartsToken(f[i + 1], c) ==> MayFollow(f[i], c))
  }

  predicate FitsBefore(f: seq<Token>, tail: string)
  {
    |f| == 0 || |tail| == 0 || MayFollow(f[|f| - 1], tail[0])
  }

  lemma RenderStart(f: seq<Token>, vals: seq<int>)
    requires |f| > 0 && Fits(f, vals)
    ensures |Render(f, vals)| > 0 && StartsToken(f[0], Render(f, vals)[0])
  {
    match f[0]
    case SignedDec =>
      if vals[0] >= 0 {
        assert IsDecDigit(FormatDecimal(vals[0])[0]);
      }
    case UnsignedDec =>
      assert IsDecDigit(FormatDecimal(vals[0])[0]);
    case _ =>
  }

  lemma {:induction false} DigitRunAppend(p: string, t: string)
    requires AllDigits(p, 10)
    requires |t| == 0 || !IsDecDigit(t[0])
    ensures DigitRun(p + t) == |p|
    ensures (p + t)[..|p|] == p && (p + t)[|p|..] == t
  {
    if |p| > 0 {
      assert (p + t)[1..] == p[1..] + t;
      DigitRunAppend(p[1..], t);
    }
  }

  /** Unsigned digits followed by a non-digit are read back as their value. */
  lemma ScanUnsignedDigits(p: string, t: string, f: seq<Token>)
    requires |p| > 0 && AllDigits(p, 10) && Value(p, 10) < Two64
    requires |t| == 0 || !IsDecDigit(t[0])
    ensures ScanUnsigned(p + t, f) == ScanMore(Value(p, 10), t, f)
  {
    assert !ScanSpace(p[0]);
    assert (p + t)[0..] == p + t;
    DigitRunAppend(p, t);
  }

  lemma ScanSignedDigits(p: string, t: string, f: seq<Token>)
    requires |p| > 0 && AllDigits(p, 10) && Value(p, 10) <= MaxInt64
    requires |t| == 0 || !IsDecDigit(t[0])
    ensures ScanSigned(p + t, f) == ScanMore(Value(p, 10), t, f)
  {
    assert !ScanSpace(p[0]) && (p + t)[0] == p[0];
    assert (p + t)[0..] == p + t;
    DigitRunAppend(p, t);
  }

  lemma ScanMinusDigits(p: string, t: string, f: seq<Token>)
    requires |p| > 0 && AllDigits(p, 10) && Value(p, 10) <= -MinInt64
    requires |t| == 0 || !IsDecDigit(t[0])
    ensures ScanSigned("-" + (p + t), f) == ScanMore(-(Value(p, 10) as int), t, f)
  {
    var s := "-" + (p + t);
    assert s[0] == '-' && !ScanSpace(s[0]);
    assert s[0..] == s;
    assert s[1..] == p + t;
    DigitRunAppend(p, t);
  }

  /** What the first token of `f` prints. */
  function Head(f: seq<Token>, vals: seq<int>): string
    requires |f| > 0 && Fits(f, vals)
  {
    match f[0]
    case Lit(c) => [c]
    case Space => " "
    case SignedDec => FormatInt(vals[0])
    case UnsignedDec => FormatDecimal(vals[0])
  }

  /** The values left for the tokens after the first one. */
  function RestVals(f: seq<Token>, vals: seq<int>): seq<int>
    requires |f| > 0 && Fits(f, vals)
  {
    if f[0].SignedDec? || f[0].UnsignedDec? then vals[1..] else vals
  }

  lemma RenderHead(f: seq<Token>, vals: seq<int>)
    requires |f| > 0 && Fits(f, vals)
    ensures Fits(f[1..], RestVals(f, vals))
    ensures Render(f, vals) == Head(f, vals) + Render(f[1..], RestVals(f, vals))
  {
  }

  lemma StepSigned(v: int, rest: string, f': seq<Token>, vals': seq<int>)
    requires MinInt64 <= v <= MaxInt64
    requires |rest| == 0 || !IsDecDigit(rest[0])
    requires Scan(rest, f') == Some(vals')
    ensures Scan(FormatInt(v) + rest, [SignedDec] + f') == Some([v] + vals')
  {
    if v < 0 {
      StepNegative(v, rest, f', vals');
    } else {
      StepNonNegative(v, rest, f', vals');
    }
  }

  lemma StepNegative(v: int, rest: string, f': seq<Token>, vals': seq<int>)
    requires MinInt64 <= v < 0
    requires |rest| == 0 || !IsDecDigit(rest[0])
    requires Scan(rest, f') == Some(vals')
    ensures Scan(FormatInt(v) + rest, [SignedDec] + f') == Some([v] + vals')
  {
    var p := FormatDecimal(-v);
    NegativeDigits(v);
    Associative("-", p, rest);
    SignedHead(FormatInt(v) + rest, f');
    ScanMinusDigits(p, rest, f');
    MoreAfter(v, rest, f', vals');
  }

  /** A negative number prints as a minus and the digits of its magnitude. */
  lemma NegativeDigits(v: int)
    requires MinInt64 <= v < 0
    ensures FormatInt(v) == "-" + FormatDecimal(-v)
    ensures Value(FormatDecimal(-v), 10) == -v <= -MinInt64
  {
    DecimalRoundTrip(-v);
  }

  /** A `%d` at the head of the format scans a signed number. */
  lemma SignedHead(input: string, f': seq<Token>)
    ensures Scan(input, [SignedDec] + f') == ScanSigned(input, f')
  {
    assert ([SignedDec] + f')[1..] == f';
  }

  /** The rest of the format, once a value is read. */
  lemma MoreAfter(v: int, rest: string, f': seq<Token>, vals': seq<int>)
    requires Scan(rest, f') == Some(vals')
    ensures ScanMore(v, rest, f') == Some([v] + vals')
  {
  }

  lemma StepNonNegative(v: int, rest: string, f': seq<Token>, vals': seq<int>)
    requires 0 <= v <= MaxInt64
    requires |rest| == 0 || !IsDecDigit(rest[0])
    requires Scan(rest, f') == Some(vals')
    ensures Scan(FormatInt(v) + rest, [SignedDec] + f') == Some([v] + vals')
  {
    assert ([SignedDec] + f')[1..] == f';
    var p := FormatDecimal(v);
    DecimalRoundTrip(v);
    ScanSignedDigits(p, rest, f');
  }

  lemma StepUnsigned(v: nat, rest: string, f': seq<Token>, vals': seq<int>)
    requires v < Two64
    requires |rest| == 0 || !IsDecDigit(rest[0])
    requires Scan(rest, f') == Some(vals')
    ensures Scan(FormatDecimal(v) + rest, [UnsignedDec] + f') == Some([v] + vals')
  {
    assert ([UnsignedDec] + f')[1..] == f';
    DecimalRoundTrip(v);
    ScanUnsignedDigits(FormatDecimal(v), rest, f');
  }

  lemma StepSpace(rest: string, f': seq<Token>, vals': seq<int>)
    requires |rest| == 0 || !ScanSpace(rest[0])
    requires Scan(rest, f') == Some(vals')
    ensures Scan(" " + rest, [Space] + f') == Some(vals')
  {
    assert ([Space] + f')[1..] == f';
    assert (" " + rest)[1..] == rest;
    assert SpaceRun(" " + rest) == 1 by {
      assert (" " + rest)[1..] == rest;
    }
  }

  /** A space of the format swallows a whole run of blanks, not just one. */
  lemma StepBlanks(ws: string, rest: string, f': seq<Token>, vals': seq<int>)
    requires |ws| > 0 && forall i :: 0 <= i < |ws| ==> ScanSpace(ws[i])
    requires |rest| == 0 || !ScanSpace(rest[0])
    requires Scan(rest, f') == Some(vals')
    ensures Scan(ws + rest, [Space] + f') == Some(vals')
  {
    assert ([Space] + f')[1..] == f';
    SpaceRunOver(ws, rest);
    assert (ws + rest)[|ws|..] == rest;
  }

  lemma {:induction false} SpaceRunOver(ws: string, rest: string)
    requires forall i :: 0 <= i < |ws| ==> ScanSpace(ws[i])
    requires |rest| == 0 || !ScanSpace(rest[0])
    ensures SpaceRun(ws + rest) == |ws|
    decreases |ws|
  {
    if |ws| > 0 {
      assert (ws + rest)[1..] == ws[1..] + rest;
      SpaceRunOver(ws[1..], rest);
    } else {
      assert ws + rest == rest;
    }
  }

  /** `"<s> %d"` reads back text, a run of blanks and a decimal number. */
  lemma ScanLabelledNumber(s: string, ws: string, v: nat)
    requires v < Two64 && forall i :: 0 <= i < |s| ==> s[i] != ' '
    requires |ws| > 0 && forall i :: 0 <= i < |ws| ==> ScanSpace(ws[i])
    ensures Scan(s + ws + FormatDecimal(v), Literal(s) + [Space, UnsignedDec]) == Some([v])
  {
    var d := FormatDecimal(v);
    var f := [Space, UnsignedDec];
    NumberScans(v);
    assert !ScanSpace(d[0]) by { assert IsDecDigit(d[0]); }
    StepBlanks(ws, d, [UnsignedDec], [v]);
    assert [Space] + [UnsignedDec] == f;
    StepLits(s, ws + d, f, [v]);
    Associative(s, ws, d);
  }

  lemma NumberScans(v: nat)
    requires v < Two64
    ensures Scan(FormatDecimal(v), [UnsignedDec]) == Some([v])
  {
    assert Scan("", []) == Some([]);
    StepUnsigned(v, "", [], []);
    assert FormatDecimal(v) + "" == FormatDecimal(v);
    assert [UnsignedDec] + [] == [UnsignedDec];
    assert [v as int] + [] == [v as int];
  }

  /** Literal text without spaces is matched character by character. */
  lemma {:induction false} StepLits(s: string, rest: string, f': seq<Token>, vals': seq<int>)
    requires forall i :: 0 <= i < |s| ==> s[i] != ' '
    requires Scan(rest, f') == Some(vals')
    ensures Scan(s + rest, Literal(s) + f') == Some(vals')
    decreases |s|
  {
    if |s| == 0 {
      assert s + rest == rest && Literal(s) + f' == f';
    } else {
      StepLits(s[1..], rest, f', vals');
      StepLit(s[0], s[1..] + rest, Literal(s[1..]) + f', vals');
      SplitFirst(s, rest);
      LiteralFirst(s, f');
    }
  }

  lemma SplitFirst(s: string, rest: string)
    requires |s| > 0
    ensures s + rest == [s[0]] + (s[1..] + rest)
  {
  }

  lemma LiteralFirst(s: string, f: seq<Token>)
    requires |s| > 0 && s[0] != ' '
    ensures Literal(s) + f == [Lit(s[0])] + (Literal(s[1..]) + f)
  {
  }

  lemma StepLit(c: char, rest: string, f': seq<Token>, vals': seq<int>)
    requires Scan(rest, f') == Some(vals')
    ensures Scan([c] + rest, [Lit(c)] + f') == Some(vals')
  {
    assert ([Lit(c)] + f')[1..] == f';
    assert ([c] + rest)[1..] == rest;
  }

  /** One token of `ScanRender`: reading the first token's output leaves
      the rest of the line for the rest of the format. */
  lemma ScanStep(f: seq<Token>, vals: seq<int>, rest: string)
    requires |f| > 0 && Fits(f, vals)
    requires |rest| > 0 ==> MayFollow(f[0], rest[0])
    requires Scan(rest, f[1..]) == Some(RestVals(f, vals))
    ensures Scan(Head(f, vals) + rest, f) == Some(vals)
  {
    assert f == [f[0]] + f[1..];
    match f[0]
    case Lit(c) =>
      StepLit(c, rest, f[1..], vals);
    case Space =>
      StepSpace(rest, f[1..], vals);
    case SignedDec =>
      StepSigned(vals[0], rest, f[1..], vals[1..]);
      assert vals == [vals[0]] + vals[1..];
    case UnsignedDec =>
      StepUnsigned(vals[0], rest, f[1..], vals[1..]);
      assert vals == [vals[0]] + vals[1..];
  }

  lemma UnambiguousTail(f: seq<Token>)
    requires |f| > 0 && Unambiguous(f)
    ensures Unambiguous(f[1..])
  {
    var f' := f[1..];
    forall i | 0 <= i < |f'| - 1
      ensures forall c :: StartsToken(f'[i + 1], c) ==> MayFollow(f'[i], c)
    {
      assert f'[i] == f[i + 1] && f'[i + 1] == f[i + 2];
    }
  }

  /** A token in front of an unambiguous format keeps it unambiguous when
      it is not a blank literal and does not swallow what follows. */
  lemma UnambiguousCons(t: Token, g: seq<Token>)
    requires Unambiguous(g) && (t.Lit? ==> !IsSpace(t.c))
    requires |g| > 0 ==> forall c :: StartsToken(g[0], c) ==> MayFollow(t, c)
    ensures Unambiguous([t] + g)
  {
    var f := [t] + g;
    assert forall i :: 1 <= i < |f| ==> f[i] == g[i - 1];
  }

  lemma LiteralHead(s: string, f: seq<Token>)
    requires |s| > 0
    ensures (Literal(s) + f)[0] == if s[0] == ' ' then Space else Lit(s[0])
  {
  }

  /** Literal text usable in front of `f`: no blank other than single
      spaces, and a trailing space only before a token that cannot start
      with a blank. */
  predicate LiteralPrefixOk(s: string, f: seq<Token>)
  {
    (forall i :: 0 <= i < |s| ==> s[i] == ' ' || !IsSpace(s[i])) &&
    (forall i :: 0 <= i < |s| - 1 ==> s[i] == ' ' ==> s[i + 1] != ' ') &&
    (|s| > 0 && |f| > 0 && s[|s| - 1] == ' ' ==> forall c :: StartsToken(f[0], c) ==> !ScanSpace(c))
  }

  lemma {:induction false} LiteralUnambiguous(s: string, f: seq<Token>)
    requires Unambiguous(f) && LiteralPrefixOk(s, f)
    ensures Unambiguous(Literal(s) + f)
    decreases |s|
  {
    if |s| == 0 {
      assert Literal(s) + f == f;
    } else {
      var t := if s[0] == ' ' then Space else Lit(s[0]);
      var g := Literal(s[1..]) + f;
      assert Literal(s) + f == [t] + g;
      assert forall i :: 0 <= i < |s[1..]| ==> s[1..][i] == s[i + 1];
      LiteralUnambiguous(s[1..], f);
      if |s| > 1 {
        assert g[0] == if s[1] == ' ' then Space else Lit(s[1]);
      } else {
        assert g == f;
      }
      UnambiguousCons(t, g);
    }
  }

  lemma FollowFacts(f: seq<Token>, vals: seq<int>, tail: string)
    requires |f| > 0 && Unambiguous(f) && Fits(f, vals) && FitsBefore(f, tail)
    requires Fits(f[1..], RestVals(f, vals))
    ensures var rest := Render(f[1..], RestVals(f, vals)) + tail;
      |rest| > 0 ==> MayFollow(f[0], rest[0])
    ensures FitsBefore(f[1..], tail)
  {
    var f' := f[1..];
    var rest := Render(f', RestVals(f, vals)) + tail;
    if |f'| > 0 {
      RenderStart(f', RestVals(f, vals));
      assert rest[0] == Render(f', RestVals(f, vals))[0];
      assert StartsToken(f[1], rest[0]);
      assert f'[|f'| - 1] == f[|f| - 1];
    } else {
      assert rest == tail;
    }
  }

  lemma Associative(a: string, b: string, c: string)
    ensures (a + b) + c == a + (b + c)
  {
  }

  /** A literal prefix of a format holds no verb. */
  lemma {:induction false} LiteralFits(s: string, f: seq<Token>, vals: seq<int>)
    ensures Fits(Literal(s) + f, vals) == Fits(f, vals)
    decreases |s|
  {
    if |s| == 0 {
      assert Literal(s) + f == f;
    } else {
      var t := if s[0] == ' ' then Space else Lit(s[0]);
      var g' := Literal(s[1..]) + f;
      assert Literal(s) + f == [t] + g';
      LiteralFits(s[1..], f, vals);
      LiteralStep(t, g', vals);
    }
  }

  /** A literal prefix of a format prints as itself. */
  lemma {:induction false} RenderLiteral(s: string, f: seq<Token>, vals: seq<int>)
    requires Fits(f, vals)
    ensures Fits(Literal(s) + f, vals)
    ensures Render(Literal(s) + f, vals) == s + Render(f, vals)
    decreases |s|
  {
    LiteralFits(s, f, vals);
    if |s| == 0 {
      assert Literal(s) + f == f;
    } else {
      var t := if s[0] == ' ' then Space else Lit(s[0]);
      var g' := Literal(s[1..]) + f;
      assert Literal(s) + f == [t] + g';
      RenderLiteral(s[1..], f, vals);
      LiteralStep(t, g', vals);
      RenderLiteralJoin(s, Render(f, vals));
    }
  }

  lemma RenderLiteralJoin(s: string, rf: string)
    requires |s| > 0
    ensures [s[0]] + (s[1..] + rf) == s + rf
  {
    assert s == [s[0]] + s[1..];
  }

  lemma LiteralStep(t: Token, g: seq<Token>, vals: seq<int>)
    requires t.Lit? || t.Space?
    ensures Fits([t] + g, vals) == Fits(g, vals)
    ensures Fits(g, vals) ==> Render([t] + g, vals) == (if t.Space? then " " else [t.c]) + Render(g, vals)
  {
    assert ([t] + g)[1..] == g;
    assert ([t] + g)[0] == t;
  }

  /** Reading back a printed line yields the printed values, whatever
      follows it (as long as it does not run into the last token). */
  lemma {:induction false} ScanRender(f: seq<Token>, vals: seq<int>, tail: string)
    requires Unambiguous(f) && Fits(f, vals) && FitsBefore(f, tail)
    ensures Scan(Render(f, vals) + tail, f) == Some(vals)
    decreases |f|
  {
    if |f| > 0 {
      RenderHead(f, vals);
      var h, r' := Head(f, vals), Render(f[1..], RestVals(f, vals));
      var rest := r' + tail;
      UnambiguousTail(f);
      FollowFacts(f, vals, tail);
      ScanRender(f[1..], RestVals(f, vals), tail);
      Associative(h, r', tail);
      ScanStep(f, vals, rest);
    }
  }
}

=== FILE: gostrings.dfy ===
/** The handful of Go standard-library string and number primitives the daemon
    relies on (`strconv.ParseUint`, `fmt` `%d`/`%016x`, `strings.Split`,
    `strings.Fields`, `strings.FieldsFunc`, `strings.HasPrefix`,
    `strings.Contains`, `strings.Replace` of one character), written out so
    that the modules built on them can state round trips. */
module GoStrings {
  import opened Wrappers

  /** 2^64: every Go `uint64` is below it. */
  const Two64: nat := 0x1_0000_0000_0000_0000

  /** Go's `uint64`. */
  type Uint64 = n: nat | n < Two64

  /** Go's `int64` (and `int` on the 64-bit targets the daemon is built for). */
  const MaxInt64: int := 0x7FFF_FFFF_FFFF_FFFF
  const MinInt64: int := -0x8000_0000_0000_0000

  /** Go's `a / b` on signed integers: the quotient is truncated toward zero. */
  function GoDiv(a: int, b: int): int
    requires b > 0
  {
    if a >= 0 then a / b else -((-a) / b)
  }

  /** Go's `a % b`: the remainder takes the sign of `a`. */
  function GoRem(a: int, b: int): (r: int)
    requires b > 0
    ensures a == b * GoDiv(a, b) + r
    ensures -b < r < b && (a >= 0 ==> r >= 0) && (a < 0 ==> r <= 0)
  {
    a - b * GoDiv(a, b)
  }

  const Two63: nat := 0x8000_0000_0000_0000

  /** A result truncated to 64 bits, as Go's `uint64` arithmetic does. */
  function Wrap64(x: int): Uint64
  {
    x % Two64
  }

  /** Go's `int(x)` for a `uint64` on a 64-bit target. */
  function ToInt(x: Uint64): int
  {
    if x < Two63 then x else x - Two64
  }

  /** Quotient and remainder are the only ones. */
  lemma DivModUnique(x: int, m: int, q: int, r: int)
    requires m > 0 && 0 <= r < m && x == q * m + r
    ensures x / m == q && x % m == r
  {
    var q0, r0 := x / m, x % m;
    assert (q0 - q) * m == r - r0;
    if q0 > q {
      MulAtLeast(q0 - q, m);
    } else if q0 < q {
      MulAtLeast(q - q0, m);
    }
  }

  lemma MulAtLeast(k: int, m: int)
    requires k >= 1 && m >= 1
    ensures k * m >= m && k * m >= k
  {
    assert k * m == (k - 1) * m + m;
    assert k * m == k * (m - 1) + k;
  }

  lemma SmallWrap(x: int)
    requires 0 <= x < Two64
    ensures Wrap64(x) == x
  {
    DivModUnique(x, Two64, 0, x);
  }

  lemma DivAtMost(x: nat, y: nat)
    requires y > 0
    ensures x / y <= x
  {
    if x / y > 0 {
      MulAtLeast(x / y, y);
    }
  }

  // ---------------------------------------------------------------------
  // Character classes

  predicate IsDecDigit(c: char) { '0' <= c <= '9' }

  predicate IsHexDigit(c: char) { IsDecDigit(c) || 'a' <= c <= 'f' || 'A' <= c <= 'F' }

  /** The regular-expression class `[A-Za-z0-9]`. */
  predicate IsAlnum(c: char) { IsDecDigit(c) || 'a' <= c <= 'z' || 'A' <= c <= 'Z' }

  /** Go's `unicode.IsSpace`, which `strings.Fields` splits on. */
  predicate IsSpace(c: char)
  {
    c == ' ' || c == '\t' || c == '\n' || c == '\r' || c == '\U{0B}' || c == '\U{0C}'
    || c == '\U{85}' || c == '\U{A0}' || c == '\U{1680}' || ('\U{2000}' <= c <= '\U{200A}')
    || c == '\U{2028}' || c == '\U{2029}' || c == '\U{202F}' || c == '\U{205F}' || c == '\U{3000}'
  }

  predicate IsDigitIn(c: char, base: nat)
    requires base == 10 || base == 16
  {
    if base == 10 then IsDecDigit(c) else IsHexDigit(c)
  }

  function DigitValue(c: char): (d: nat)
    requires IsHexDigit(c)
    ensures d < 16
    ensures IsDecDigit(c) ==> d < 10
  {
    if IsDecDigit(c) then c as nat - '0' as nat
    else if 'a' <= c <= 'f' then c as nat - 'a' as nat + 10
    else c as nat - 'A' as nat + 10
  }

  predicate AllDigits(s: string, base: nat)
    requires base == 10 || base == 16
  {
    forall i :: 0 <= i < |s| ==> IsDigitIn(s[i], base)
  }

  /** The number a digit string denotes, most significant digit first. */
  function Value(s: string, base: nat): nat
    requires base == 10 || base == 16
    requires AllDigits(s, base)
  {
    if |s| == 0 then 0 else Value(s[..|s| - 1], base) * base + DigitValue(s[|s| - 1])
  }

  function Pow(b: nat, e: nat): (r: nat)
    ensures b > 0 ==> r > 0
  {
    if e == 0 then 1 else b * Pow(b, e - 1)
  }

  /** `strconv.ParseUint(s, base, 64)` for base 10 or 16: no sign, no
      prefix, no underscores, at least one digit, and the value must fit in
      64 bits.  `None` stands for the syntax and range errors alike. */
  function ParseUint(s: string, base: nat): (r: Option<Uint64>)
    requires base == 10 || base == 16
  {
    if |s| > 0 && AllDigits(s, base) && Value(s, base) < Two64 then Some(Value(s, base)) else None
  }

  // ---------------------------------------------------------------------
  // Formatting

  function DecChar(d: nat): (c: char)
    requires d < 10
    ensures IsDecDigit(c) && DigitValue(c) == d
  {
    ('0' as nat + d) as char
  }

  /** Lower-case hexadecimal digit, as `%x` prints it. */
  function HexChar(d: nat): (c: char)
    requires d < 16
    ensures IsHexDigit(c) && DigitValue(c) == d
  {
    if d < 10 then DecChar(d) else ('a' as nat + d - 10) as char
  }

  /** `fmt.Sprintf("%d", n)` for a non-negative `n`. */
  function FormatDecimal(n: nat): (s: string)
    ensures |s| > 0 && AllDigits(s, 10)
  {
    if n < 10 then [DecChar(n)] else FormatDecimal(n / 10) + [DecChar(n % 10)]
  }

  /** `n` printed as exactly `width` lower-case hex digits (`%016x` for width 16). */
  function FormatHexFixed(n: nat, width: nat): (s: string)
    ensures |s| == width && AllDigits(s, 16)
  {
    if width == 0 then [] else FormatHexFixed(n / 16, width - 1) + [HexChar(n % 16)]
  }

  lemma {:induction false} ValueAppend(s: string, c: char, base: nat)
    requires base == 10 || base == 16
    requires AllDigits(s, base) && IsDigitIn(c, base)
    ensures AllDigits(s + [c], base)
    ensures Value(s + [c], base) == Value(s, base) * base + DigitValue(c)
  {
    assert (s + [c])[..|s + [c]| - 1] == s;
  }

  /** Reading back what `%d` printed gives the number again. */
  lemma {:induction false} DecimalRoundTrip(n: nat)
    ensures Value(FormatDecimal(n), 10) == n
  {
    if n >= 10 {
      DecimalRoundTrip(n / 10);
      ValueAppend(FormatDecimal(n / 10), DecChar(n % 10), 10);
    }
  }

  lemma ParseFormatDecimal(n: Uint64)
    ensures ParseUint(FormatDecimal(n), 10) == Some(n)
  {
    DecimalRoundTrip(n);
  }

  /** Digits printed with `%0<width>x` read back as the number, provided it fits. */
  lemma {:induction false} HexFixedRoundTrip(n: nat, width: nat)
    requires n < Pow(16, width)
    ensures Value(FormatHexFixed(n, width), 16) == n
  {
    if width > 0 {
      var q, p := n / 16, Pow(16, width - 1);
      assert n == 16 * q + n % 16;
      assert n < 16 * p;
      assert q < p;
      HexFixedRoundTrip(n / 16, width - 1);
      ValueAppend(FormatHexFixed(n / 16, width - 1), HexChar(n % 16), 16);
    }
  }

  lemma {:induction false} ValueBound(s: string, base: nat)
    requires base == 10 || base == 16
    requires AllDigits(s, base)
    ensures Value(s, base) < Pow(base, |s|)
  {
    if |s| > 0 {
      var p := s[..|s| - 1];
      assert AllDigits(p, base);
      ValueBound(p, base);
      var v := Value(p, base);
      var d := DigitValue(s[|s| - 1]);
      assert d < base;
      assert v + 1 <= Pow(base, |p|);
      calc {
        Value(s, base);
      ==
        v * base + d;
      <
        (v + 1) * base;
      <= { assert (v + 1) * base <= Pow(base, |p|) * base; }
        Pow(base, |p|) * base;
      ==
        Pow(base, |s|);
      }
    }
  }

  lemma {:induction false} PowAdd(b: nat, e1: nat, e2: nat)
    ensures Pow(b, e1 + e2) == Pow(b, e1) * Pow(b, e2)
    decreases e1
  {
    if e1 > 0 {
      PowAdd(b, e1 - 1, e2);
      assert Pow(b, e1 + e2) == b * Pow(b, e1 - 1 + e2);
    }
  }

  lemma Pow16Is2To64()
    ensures Pow(16, 16) == Two64
  {
    assert Pow(16, 2) == 256;
    PowAdd(16, 2, 2);
    PowAdd(16, 4, 4);
    PowAdd(16, 8, 8);
  }

  /** At most sixteen hex digits always fit in a `uint64`. */
  lemma HexFitsInUint64(s: string)
    requires AllDigits(s, 16) && |s| <= 16
    ensures Value(s, 16) < Two64
  {
    ValueBound(s, 16);
    PowMonotone(16, |s|, 16);
    Pow16Is2To64();
  }

  lemma {:induction false} PowMonotone(b: nat, e1: nat, e2: nat)
    requires b > 0 && e1 <= e2
    ensures Pow(b, e1) <= Pow(b, e2)
    decreases e2
  {
    if e1 < e2 {
      PowMonotone(b, e1, e2 - 1);
    }
  }

  // ---------------------------------------------------------------------
  // Searching

  predicate HasPrefix(s: string, p: string)
  {
    |p| <= |s| && s[..|p|] == p
  }

  predicate OccursAt(s: string, sub: string, i: nat)
  {
    i + |sub| <= |s| && s[i..i + |sub|] == sub
  }

  /** Leftmost occurrence of `sub` at or after `from` (the `strings.Index` scan). */
  function IndexFrom(s: string, sub: string, from: nat): (r: Option<nat>)
    ensures r.Some? ==> from <= r.value && OccursAt(s, sub, r.value)
    ensures r.Some? ==> forall j :: from <= j < r.value ==> !OccursAt(s, sub, j)
    ensures r.None? ==> forall j :: from <= j ==> !OccursAt(s, sub, j)
    decreases |s| - from
  {
    if from + |sub| > |s| then None
    else if OccursAt(s, sub, from) then Some(from)
    else IndexFrom(s, sub, from + 1)
  }

  predicate Contains(s: string, sub: string)
  {
    IndexFrom(s, sub, 0).Some?
  }

  /** `strings.Replace(s, string(c), "", -1)`: every `c` removed. */
  function RemoveChar(s: string, c: char): (r: string)
    ensures c !in r
    ensures |r| <= |s|
  {
    if |s| == 0 then [] else (if s[0] == c then [] else [s[0]]) + RemoveChar(s[1..], c)
  }

  lemma {:induction false} RemoveCharAbsent(s: string, c: char)
    requires c !in s
    ensures RemoveChar(s, c) == s
  {
    if |s| > 0 {
      RemoveCharAbsent(s[1..], c);
    }
  }

  /** A line's trailing newline is all that removing newlines takes off. */
  lemma RemoveCharTail(s: string)
    requires '\n' !in s
    ensures RemoveChar(s + "\n", '\n') == s
  {
    RemoveCharAppend(s, "\n");
    RemoveCharAbsent(s, '\n');
  }

  lemma {:induction false} RemoveCharAppend(a: string, b: string)
    ensures RemoveChar(a + b, '\n') == RemoveChar(a, '\n') + RemoveChar(b, '\n')
    decreases |a|
  {
    if |a| > 0 {
      assert (a + b)[1..] == a[1..] + b;
      RemoveCharAppend(a[1..], b);
    } else {
      assert a + b == b;
    }
  }

  // ---------------------------------------------------------------------
  // Splitting

  /** `strings.Split(s, string(sep))`: pieces between separators, empties kept. */
  function Split(s: string, sep: char): (r: seq<string>)
    ensures |r| >= 1
  {
    if |s| == 0 then [""]
    else
      var rest := Split(s[1..], sep);
      if s[0] == sep then [""] + rest else [[s[0]] + rest[0]] + rest[1..]
  }

  /** A string without the separator is one piece. */
  lemma {:induction false} SplitWithoutSep(s: string, sep: char)
    requires sep !in s
    ensures Split(s, sep) == [s]
    decreases |s|
  {
    if |s| > 0 {
      assert sep !in s[1..];
      SplitWithoutSep(s[1..], sep);
      assert [s[0]] + s[1..] == s;
    }
  }

  /** A piece without the separator, the separator, then the rest. */
  lemma {:induction false} SplitAfterPiece(w: string, sep: char, t: string)
    requires sep !in w
    ensures Split(w + [sep] + t, sep) == [w] + Split(t, sep)
    decreases |w|
  {
    if |w| == 0 {
      assert w + [sep] + t == [sep] + t;
      assert ([sep] + t)[1..] == t;
    } else {
      var s := w + [sep] + t;
      assert s[1..] == w[1..] + [sep] + t;
      SplitAfterPiece(w[1..], sep, t);
      assert [w[0]] + w[1..] == w;
    }
  }

  /** The first piece is the text before the first separator: it holds no
      separator, and it is either the whole string or followed by one. */
  lemma {:induction false} SplitHeadShape(s: string, sep: char)
    ensures sep !in Split(s, sep)[0]
    ensures Split(s, sep)[0] == s || HasPrefix(s, Split(s, sep)[0] + [sep])
    decreases |s|
  {
    if |s| > 0 && s[0] != sep {
      var rest := Split(s[1..], sep);
      SplitHeadShape(s[1..], sep);
      var w := [s[0]] + rest[0];
      assert Split(s, sep)[0] == w;
      if rest[0] == s[1..] {
        assert w == s;
      } else {
        assert s[1..][..|rest[0]| + 1] == rest[0] + [sep];
        assert s[..|w| + 1] == [s[0]] + s[1..][..|rest[0]| + 1];
      }
    }
  }

  /** Splitting pieces joined by a separator none of them holds gives the
      pieces back. */
  lemma {:induction false} SplitOfJoin(parts: seq<string>, sep: char)
    requires |parts| > 0
    requires forall k :: 0 <= k < |parts| ==> sep !in parts[k]
    ensures Split(Join(parts, sep), sep) == parts
    decreases |parts|
  {
    if |parts| == 1 {
      SplitWithoutSep(parts[0], sep);
    } else {
      SplitOfJoin(parts[1..], sep);
      SplitAfterPiece(parts[0], sep, Join(parts[1..], sep));
      assert parts == [parts[0]] + parts[1..];
    }
  }

  /** `strings.Join(parts, string(sep))`. */
  function Join(parts: seq<string>, sep: char): string
  {
    if |parts| == 0 then ""
    else if |parts| == 1 then parts[0]
    else parts[0] + [sep] + Join(parts[1..], sep)
  }

  /** Joining the pieces back with the separator restores the input, and no
      piece contains the separator. */
  lemma {:induction false} SplitJoin(s: string, sep: char)
    ensures Join(Split(s, sep), sep) == s
    ensures forall k :: 0 <= k < |Split(s, sep)| ==> sep !in Split(s, sep)[k]
  {
    if |s| > 0 {
      SplitJoin(s[1..], sep);
      var rest := Split(s[1..], sep);
      if s[0] == sep {
        assert Split(s, sep) == [""] + rest;
        assert Join([""] + rest, sep) == "" + [sep] + Join(rest, sep);
      } else {
        var r := Split(s, sep);
        assert r == [[s[0]] + rest[0]] + rest[1..];
        if |rest| == 1 {
          assert Join(r, sep) == [s[0]] + rest[0];
        } else {
          assert rest == [rest[0]] + rest[1..];
          assert Join(rest, sep) == rest[0] + [sep] + Join(rest[1..], sep);
          assert Join(r, sep) == [s[0]] + rest[0] + [sep] + Join(rest[1..], sep);
        }
        forall k | 0 <= k < |r|
          ensures sep !in r[k]
        {
          if k > 0 {
            assert r[k] == rest[k];
          }
        }
      }
    }
  }

  /** `strings.FieldsFunc(s, isSep)`: maximal runs of non-separator characters. */
  function FieldsBy(s: string, isSep: char -> bool): (r: seq<string>)
    decreases |s|
  {
    if |s| == 0 then []
    else if isSep(s[0]) then FieldsBy(s[1..], isSep)
    else
      var rest := FieldsBy(s[1..], isSep);
      if |s| > 1 && !isSep(s[1]) then [[s[0]] + rest[0]] + rest[1..] else [[s[0]]] + rest
  }

  lemma {:induction false} FieldsByNonEmpty(s: string, isSep: char -> bool)
    ensures forall k :: 0 <= k < |FieldsBy(s, isSep)| ==> |FieldsBy(s, isSep)[k]| > 0
    ensures forall k, i :: 0 <= k < |FieldsBy(s, isSep)| && 0 <= i < |FieldsBy(s, isSep)[k]| ==>
              !isSep(FieldsBy(s, isSep)[k][i])
    decreases |s|
  {
    if |s| > 0 {
      FieldsByNonEmpty(s[1..], isSep);
    }
  }

  /** `strings.Fields(s)`. */
  function Fields(s: string): seq<string>
  {
    FieldsBy(s, IsSpace)
  }

  predicate NoSpace(w: string)
  {
    forall i :: 0 <= i < |w| ==> !IsSpace(w[i])
  }

  /** Leading separators do not change the fields. */
  lemma {:induction false} FieldsBySkip(pad: string, s: string, isSep: char -> bool)
    requires forall i :: 0 <= i < |pad| ==> isSep(pad[i])
    ensures FieldsBy(pad + s, isSep) == FieldsBy(s, isSep)
    decreases |pad|
  {
    if |pad| > 0 {
      assert (pad + s)[0] == pad[0] && isSep(pad[0]);
      assert (pad + s)[1..] == pad[1..] + s;
      assert forall i :: 0 <= i < |pad[1..]| ==> isSep(pad[1..][i]) by {
        forall i | 0 <= i < |pad[1..]| ensures isSep(pad[1..][i]) {
          assert pad[1..][i] == pad[i + 1];
        }
      }
      FieldsBySkip(pad[1..], s, isSep);
      assert FieldsBy(pad + s, isSep) == FieldsBy((pad + s)[1..], isSep);
    } else {
      assert pad + s == s;
    }
  }

  /** A word followed by a separator (or nothing) is the first field. */
  lemma {:induction false} FieldsByWord(w: string, s: string, isSep: char -> bool)
    requires |w| > 0
    requires forall i :: 0 <= i < |w| ==> !isSep(w[i])
    requires |s| == 0 || isSep(s[0])
    ensures FieldsBy(w + s, isSep) == [w] + FieldsBy(s, isSep)
    decreases |w|
  {
    var t := w + s;
    assert t[1..] == w[1..] + s;
    assert t[0] == w[0];
    if |w| == 1 {
      assert t[1..] == s;
      assert [t[0]] == w;
    } else {
      FieldsByWord(w[1..], s, isSep);
      assert t[1] == w[1];
      assert [t[0]] + w[1..] == w;
    }
  }

  /** The fields of words joined by single spaces are the words. */
  lemma {:induction false} FieldsOfSpaced(words: seq<string>)
    requires forall k :: 0 <= k < |words| ==> |words[k]| > 0 && NoSpace(words[k])
    ensures Fields(Join(words, ' ')) == words
  {
    if |words| == 1 {
      FieldsByWord(words[0], "", IsSpace);
      assert words[0] + "" == words[0];
    } else if |words| > 1 {
      FieldsOfSpaced(words[1..]);
      var tail := Join(words[1..], ' ');
      FieldsBySkip(" ", tail, IsSpace);
      assert Join(words, ' ') == words[0] + (" " + tail);
      FieldsByWord(words[0], " " + tail, IsSpace);
      assert words == [words[0]] + words[1..];
    }
  }

  /** Words joined by single spaces, followed by a tail that is empty or
      starts with a blank, split into the words and the fields of the tail. */
  lemma {:induction false} FieldsOfSpacedTail(words: seq<string>, tail: string)
    requires |words| > 0
    requires forall k :: 0 <= k < |words| ==> |words[k]| > 0 && NoSpace(words[k])
    requires |tail| == 0 || IsSpace(tail[0])
    ensures Fields(Join(words, ' ') + tail) == words + Fields(tail)
  {
    if |words| == 1 {
      FieldsByWord(words[0], tail, IsSpace);
    } else {
      FieldsOfSpacedTail(words[1..], tail);
      FieldsOfSpacedStep(words, tail);
    }
  }

  /** The inductive step: the first word in front of the fields of the
      rest. */
  lemma FieldsOfSpacedStep(words: seq<string>, tail: string)
    requires |words| > 1 && |words[0]| > 0 && NoSpace(words[0])
    requires Fields(Join(words[1..], ' ') + tail) == words[1..] + Fields(tail)
    ensures Fields(Join(words, ' ') + tail) == words + Fields(tail)
  {
    JoinFirstTail(words, ' ', tail);
    FieldsConsWord(words[0], Join(words[1..], ' ') + tail, words[1..] + Fields(tail));
    assert words + Fields(tail) == [words[0]] + (words[1..] + Fields(tail));
  }

  /** A word, a space, then text with fields `ws`: the word, then `ws`. */
  lemma FieldsConsWord(w: string, rest: string, ws: seq<string>)
    requires |w| > 0 && NoSpace(w)
    requires Fields(rest) == ws
    ensures Fields(w + ([' '] + rest)) == [w] + ws
  {
    FieldsBySkip(" ", rest, IsSpace);
    FieldsByWord(w, " " + rest, IsSpace);
  }

  /** Joining at least two pieces, then appending: the first piece, the
      separator, and the rest joined and appended. */
  lemma JoinFirstTail(parts: seq<string>, sep: char, tail: string)
    requires |parts| > 1
    ensures Join(parts, sep) + tail == parts[0] + ([sep] + (Join(parts[1..], sep) + tail))
  {
  }
}

=== FILE: memtopo.dfy ===
/** `GetThreadMemTopo` (common/topology/topology.go): the per-NUMA-node page
    fault counts of one thread, read from the lines of its
    `task_fault_siblings` file.  The file's contents are a parameter. */
module MemTopo {
  import opened Wrappers
  import opened GoStrings
  import GoFmt

  /** `NumaNodeNR`: the size of the fault table. */
  const NumaNodeNR: nat := 4

  /** The table a thread starts with. */
  const NoFaults: seq<int> := [0, 0, 0, 0]

  /** The `faults on node %d: %d` format; both verbs are signed. */
  function FaultFormat(): seq<GoFmt.Token>
  {
    GoFmt.Literal("faults on node ") + ([GoFmt.SignedDec] + (GoFmt.Literal(": ") + [GoFmt.SignedDec]))
  }

  /** What one line says, as (node, count): `None` for a line without
      "node" or one the format rejects. */
  function Reading(line: string): Option<(int, int)>
  {
    if !Contains(line, "node") then None
    else
      match GoFmt.Scan(line, FaultFormat())
      case None => None
      case Some(vals) => if |vals| == 2 then Some((vals[0], vals[1])) else None
  }

  /** What each line says. */
  function ReadAll(lines: seq<string>): (rs: seq<Option<(int, int)>>)
    ensures |rs| == |lines|
    ensures forall i :: 0 <= i < |lines| ==> rs[i] == Reading(lines[i])
  {
    seq(|lines|, i requires 0 <= i < |lines| => Reading(lines[i]))
  }

  /** Whether a reading reports a count for node `j`. */
  predicate Reports(r: Option<(int, int)>, j: int)
  {
    r.Some? && r.value.0 == j
  }

  // ---------------------------------------------------------------------
  // The loop as written: a negative node passes the `< NumaNodeNR` guard

  /** One iteration of the loop as written; `None` is the index-out-of-range
      panic of `topo.NumaFaults[node]` for a negative node. */
  function RecordAsWritten(faults: seq<int>, r: Option<(int, int)>): Option<seq<int>>
    requires |faults| == NumaNodeNR
  {
    match r
    case None => Some(faults)
    case Some(p) =>
      if p.0 < NumaNodeNR as int then
        if p.0 < 0 then None else Some(faults[p.0 := p.1])
      else Some(faults)
  }

  function CollectAsWritten(rs: seq<Option<(int, int)>>): (r: Option<seq<int>>)
    ensures r.Some? ==> |r.value| == NumaNodeNR
    decreases |rs|
  {
    if |rs| == 0 then Some(NoFaults)
    else
      match CollectAsWritten(rs[..|rs| - 1])
      case None => None
      case Some(f) => RecordAsWritten(f, rs[|rs| - 1])
  }

  /** `GetThreadMemTopo` as written: `None` where Go panics. */
  function GetThreadMemTopoAsWritten(content: string): Option<seq<int>>
  {
    CollectAsWritten(ReadAll(Split(content, '\n')))
  }

  // ---------------------------------------------------------------------
  // The loop with the guard the table needs: nodes outside 0..3 are skipped

  function Record(faults: seq<int>, r: Option<(int, int)>): (f: seq<int>)
    requires |faults| == NumaNodeNR
    ensures |f| == NumaNodeNR
  {
    match r
    case None => faults
    case Some(p) => if 0 <= p.0 < NumaNodeNR as int then faults[p.0 := p.1] else faults
  }

  function Collect(rs: seq<Option<(int, int)>>): (f: seq<int>)
    ensures |f| == NumaNodeNR
    decreases |rs|
  {
    if |rs| == 0 then NoFaults else Record(Collect(rs[..|rs| - 1]), rs[|rs| - 1])
  }

  /** Reading `i` is the last one reporting node `j`. */
  ghost predicate LastReport(rs: seq<Option<(int, int)>>, j: int, i: int)
  {
    0 <= i < |rs| && Reports(rs[i], j) &&
    forall i' :: i < i' < |rs| ==> !Reports(rs[i'], j)
  }

  /** `v` is the count of the last reading reporting node `j`, or zero when
      none does. */
  ghost predicate LastCount(rs: seq<Option<(int, int)>>, j: int, v: int)
  {
    ((forall i :: 0 <= i < |rs| ==> !Reports(rs[i], j)) ==> v == 0) &&
    (forall i :: LastReport(rs, j, i) ==> v == rs[i].value.1)
  }

  /** A later line overrides an earlier one. */
  lemma {:induction false} CollectLastWins(rs: seq<Option<(int, int)>>, j: int)
    requires 0 <= j < NumaNodeNR
    ensures LastCount(rs, j, Collect(rs)[j])
    decreases |rs|
  {
    if |rs| > 0 {
      var pre := rs[..|rs| - 1];
      CollectLastWins(pre, j);
      assert forall i :: 0 <= i < |pre| ==> pre[i] == rs[i];
      forall i | LastReport(rs, j, i)
        ensures Collect(rs)[j] == rs[i].value.1
      {
        if i < |rs| - 1 {
          assert LastReport(pre, j, i);
        }
      }
    }
  }

  /** A thread's fault table. */
  datatype ThreadMemTopo = ThreadMemTopo(tid: Uint64, numaFaults: seq<int>)

  /** `GetThreadMemTopo` with nodes outside the table skipped: entry `j`
      is the count on the last line reporting node `j`, or zero. */
  function GetThreadMemTopo(tid: Uint64, content: string): (r: ThreadMemTopo)
    ensures r.tid == tid && |r.numaFaults| == NumaNodeNR
    ensures forall j :: 0 <= j < NumaNodeNR ==> LastCount(ReadAll(Split(content, '\n')), j, r.numaFaults[j])
  {
    var rs := ReadAll(Split(content, '\n'));
    forall j | 0 <= j < NumaNodeNR
      ensures LastCount(rs, j, Collect(rs)[j])
    {
      CollectLastWins(rs, j);
    }
    ThreadMemTopo(tid, Collect(rs))
  }

  /** Both loops agree unless some line reports a negative node, and then
      the loop as written panics. */
  lemma {:induction false} AsWrittenAgrees(rs: seq<Option<(int, int)>>)
    ensures CollectAsWritten(rs).None? <==> exists i :: 0 <= i < |rs| && rs[i].Some? && rs[i].value.0 < 0
    ensures CollectAsWritten(rs).Some? ==> CollectAsWritten(rs).value == Collect(rs)
    decreases |rs|
  {
    if |rs| > 0 {
      var pre := rs[..|rs| - 1];
      AsWrittenAgrees(pre);
      assert forall i :: 0 <= i < |pre| ==> pre[i] == rs[i];
    }
  }

  // ---------------------------------------------------------------------
  // The line the kernel prints

  function FaultLine(node: int, count: int): string
  {
    "faults on node " + GoFmt.FormatInt(node) + ": " + GoFmt.FormatInt(count)
  }

  lemma FaultFormatUnambiguous()
    ensures GoFmt.Unambiguous(FaultFormat())
  {
    NumberTail();
    NodeHead([GoFmt.SignedDec] + (GoFmt.Literal(": ") + [GoFmt.SignedDec]));
  }

  /** A number, ": " and a number scan without ambiguity. */
  lemma NumberTail()
    ensures GoFmt.Unambiguous([GoFmt.SignedDec] + (GoFmt.Literal(": ") + [GoFmt.SignedDec]))
  {
    var tail := GoFmt.Literal(": ") + [GoFmt.SignedDec];
    ColonTail();
    GoFmt.LiteralHead(": ", [GoFmt.SignedDec]);
    GoFmt.UnambiguousCons(GoFmt.SignedDec, tail);
  }

  /** ": " followed by a number scans without ambiguity. */
  lemma ColonTail()
    ensures GoFmt.Unambiguous(GoFmt.Literal(": ") + [GoFmt.SignedDec])
  {
    GoFmt.UnambiguousCons(GoFmt.SignedDec, []);
    assert [GoFmt.SignedDec] + [] == [GoFmt.SignedDec];
    LiteralOk(": ", [GoFmt.SignedDec]);
    GoFmt.LiteralUnambiguous(": ", [GoFmt.SignedDec]);
  }

  /** "faults on node " in front of a number keeps a format unambiguous. */
  lemma NodeHead(g: seq<GoFmt.Token>)
    requires GoFmt.Unambiguous(g) && |g| > 0 && g[0] == GoFmt.SignedDec
    ensures GoFmt.Unambiguous(GoFmt.Literal("faults on node ") + g)
  {
    LiteralOk("faults on node ", g);
    GoFmt.LiteralUnambiguous("faults on node ", g);
  }

  /** The two literals of the format hold no doubled blank, and the one
      ending in a blank is followed by a number. */
  lemma LiteralOk(s: string, f: seq<GoFmt.Token>)
    requires s == ": " || s == "faults on node "
    requires |f| > 0 && f[0] == GoFmt.SignedDec
    ensures GoFmt.LiteralPrefixOk(s, f)
  {
  }

  lemma FaultLineRenders(node: int, count: int)
    requires MinInt64 <= node <= MaxInt64 && MinInt64 <= count <= MaxInt64
    ensures GoFmt.Fits(FaultFormat(), [node, count])
    ensures GoFmt.Render(FaultFormat(), [node, count]) == FaultLine(node, count)
  {
    var last := [GoFmt.SignedDec];
    assert last[1..] == [];
    assert GoFmt.Fits(last, [count]);
    assert GoFmt.Render(last, [count]) == GoFmt.FormatInt(count) + "";
    GoFmt.RenderLiteral(": ", last, [count]);
    var tail := GoFmt.Literal(": ") + last;
    var mid := [GoFmt.SignedDec] + tail;
    assert mid[1..] == tail && [node, count][1..] == [count];
    assert GoFmt.Fits(mid, [node, count]);
    assert GoFmt.Render(mid, [node, count]) == GoFmt.FormatInt(node) + (": " + GoFmt.FormatInt(count));
    GoFmt.RenderLiteral("faults on node ", mid, [node, count]);
    Regroup("faults on node ", GoFmt.FormatInt(node), ": ", GoFmt.FormatInt(count));
  }

  lemma Regroup(a: string, b: string, c: string, d: string)
    ensures a + (b + (c + d)) == a + b + c + d
  {
  }

  /** A printed fault line reads back as the node and count printed. */
  lemma FaultLineReads(node: int, count: int)
    requires MinInt64 <= node <= MaxInt64 && MinInt64 <= count <= MaxInt64
    ensures Reading(FaultLine(node, count)) == Some((node, count))
  {
    FaultLineHasNode(node, count);
    FaultLineScans(node, count);
  }

  lemma FaultLineHasNode(node: int, count: int)
    ensures Contains(FaultLine(node, count), "node")
  {
    var line := FaultLine(node, count);
    assert OccursAt(line, "node", 10);
  }

  lemma FaultLineScans(node: int, count: int)
    requires MinInt64 <= node <= MaxInt64 && MinInt64 <= count <= MaxInt64
    ensures GoFmt.Scan(FaultLine(node, count), FaultFormat()) == Some([node, count])
  {
    FaultFormatUnambiguous();
    FaultLineRenders(node, count);
    GoFmt.ScanRender(FaultFormat(), [node, count], "");
    EmptyTail(GoFmt.Render(FaultFormat(), [node, count]));
  }

  lemma EmptyTail(s: string)
    ensures s + "" == s
  {
  }

  /** The panic: a line reporting a negative node, such as
      "faults on node -1: 5", passes the `node < NumaNodeNR` guard and
      indexes the table below zero; with the guard the table needs, the
      line is skipped. */
  lemma NegativeNodePanics(node: int, count: int)
    requires MinInt64 <= node < 0 && MinInt64 <= count <= MaxInt64
    ensures GetThreadMemTopoAsWritten(FaultLine(node, count)).None?
    ensures GetThreadMemTopo(0, FaultLine(node, count)).numaFaults == NoFaults
  {
    FaultLineAlone(node, count);
    NegativeReadingFolds(node, count);
  }

  /** A file holding one fault line reads as that line's report. */
  lemma FaultLineAlone(node: int, count: int)
    requires MinInt64 <= node <= MaxInt64 && MinInt64 <= count <= MaxInt64
    ensures ReadAll(Split(FaultLine(node, count), '\n')) == [Some((node, count))]
  {
    var line := FaultLine(node, count);
    FaultLineOneLine(node, count);
    SplitWithoutSep(line, '\n');
    FaultLineReads(node, count);
  }

  lemma FaultLineOneLine(node: int, count: int)
    ensures '\n' !in FaultLine(node, count)
  {
    FormatIntOneLine(node);
    FormatIntOneLine(count);
  }

  lemma FormatIntOneLine(v: int)
    ensures '\n' !in GoFmt.FormatInt(v)
  {
    var d := FormatDecimal(if v < 0 then -v else v);
    assert forall i :: 0 <= i < |d| ==> IsDecDigit(d[i]);
  }

  lemma NegativeReadingFolds(node: int, count: int)
    requires node < 0
    ensures CollectAsWritten([Some((node, count))]).None?
    ensures Collect([Some((node, count))]) == NoFaults
  {
    var rs := [Some((node, count))];
    assert rs[..0] == [];
  }
}

=== FILE: netaffinity.dfy ===
/** The pure parts of common/netaffinity/netaffinity.go: decoding the
    addresses of the `/proc/net` tables, recognising PCI addresses, building
    a device's PCI sysfs path from its link, the `iflink` decision and the
    rule that picks a process's preferred NUMA node from its devices.
    Links, file contents and device lists are parameters. */
module NetAffinity {
  import opened Wrappers
  import opened GoStrings
  import GoFmt

  // ---------------------------------------------------------------------
  // transNetOrderHexToIP

  /** `hexStrLenIPv4`. */
  const HexStrLenIPv4: nat := 8

  /** What `/proc/net/tcp6` prints in front of an IPv4-mapped address. */
  const MappedPrefix: string := "0000000000000000FFFF0000"

  type Byte = n: nat | n < 256

  /** A dotted address `a.b.c.d`. */
  datatype IPv4 = IPv4(a: Byte, b: Byte, c: Byte, d: Byte)

  /** The outcomes of `transNetOrderHexToIP`: an address, an error, or the
      slice-out-of-range panic of a captured digit string shorter than
      eight characters. */
  datatype HexIP = Addr(ip: IPv4) | Invalid(msg: string) | Panic

  /** The regular expression `0000000000000000FFFF0000([A-Za-z0-9]+)` can
      match at `p`. */
  predicate MappedAt(s: string, p: nat)
  {
    OccursAt(s, MappedPrefix, p) && p + |MappedPrefix| < |s| && IsAlnum(s[p + |MappedPrefix|])
  }

  /** The leftmost match at or after `from`. */
  function FindMapped(s: string, from: nat): (r: Option<nat>)
    ensures r.Some? ==> from <= r.value && MappedAt(s, r.value)
    ensures r.Some? ==> forall j :: from <= j < r.value ==> !MappedAt(s, j)
    ensures r.None? ==> forall j :: from <= j ==> !MappedAt(s, j)
    decreases |s| - from
  {
    if from + |MappedPrefix| >= |s| then None
    else if MappedAt(s, from) then Some(from)
    else FindMapped(s, from + 1)
  }

  /** The length of the longest run of `[A-Za-z0-9]` starting at `i`. */
  function AlnumRun(s: string, i: nat): (n: nat)
    requires i <= |s|
    ensures i + n <= |s|
    ensures forall k :: i <= k < i + n ==> IsAlnum(s[k])
    ensures i + n == |s| || !IsAlnum(s[i + n])
    decreases |s| - i
  {
    if i < |s| && IsAlnum(s[i]) then 1 + AlnumRun(s, i + 1) else 0
  }

  /** The submatch: the greedy alphanumeric run after the leftmost prefix. */
  function MappedDigits(s: string): (r: Option<string>)
    ensures r.Some? ==> |r.value| > 0 && forall k :: 0 <= k < |r.value| ==> IsAlnum(r.value[k])
  {
    match FindMapped(s, 0)
    case None => None
    case Some(p) => Some(s[p + |MappedPrefix|..p + |MappedPrefix| + AlnumRun(s, p + |MappedPrefix|)])
  }

  /** The loop over the four hex pairs: pair `i` becomes byte `3 - i`. */
  function PairsFrom(h: string, i: nat, acc: seq<Byte>): (r: HexIP)
    requires i <= 4 && |acc| == i
    decreases 4 - i
  {
    if i == 4 then Addr(IPv4(acc[3], acc[2], acc[1], acc[0]))
    else if 2 * i + 2 > |h| then Panic
    else
      match ParseUint(h[2 * i..2 * i + 2], 16)
      case None => Invalid("invalid syntax")
      case Some(v) =>
        PairFits(h[2 * i..2 * i + 2]);
        PairsFrom(h, i + 1, acc + [v])
  }

  lemma PairFits(p: string)
    requires |p| == 2
    ensures ParseUint(p, 16).Some? <==> AllDigits(p, 16)
    ensures ParseUint(p, 16).Some? ==> ParseUint(p, 16).value == DigitValue(p[0]) * 16 + DigitValue(p[1])
    ensures ParseUint(p, 16).Some? ==> ParseUint(p, 16).value < 256
  {
    if AllDigits(p, 16) {
      assert p[..1][..0] == [];
      assert Value(p[..1], 16) == DigitValue(p[0]);
      assert Value(p, 16) == DigitValue(p[0]) * 16 + DigitValue(p[1]);
    }
  }

  /** `transNetOrderHexToIP`: a string longer than eight characters must
      hold the IPv4-mapped prefix and is decoded after it; the pair loop
      panics when it runs off the end. */
  function TransNetOrderHexToIP(hexStr: string): (r: HexIP)
    ensures r.Invalid? ==> r.msg == "not vaild IPv4 addr" || r.msg == "invalid syntax"
    ensures r.Panic? ==>
              |hexStr| < HexStrLenIPv4 ||
              (|hexStr| > HexStrLenIPv4 && MappedDigits(hexStr).Some? && |MappedDigits(hexStr).value| < HexStrLenIPv4)
  {
    if |hexStr| > HexStrLenIPv4 then
      match MappedDigits(hexStr)
      case None => Invalid("not vaild IPv4 addr")
      case Some(d) =>
        assert d[..0] == [];
        PairsFromSpec(d, 0, []);
        PairsFrom(d, 0, [])
    else
      assert hexStr[..0] == [];
      PairsFromSpec(hexStr, 0, []);
      PairsFrom(hexStr, 0, [])
  }

  /** The value of the two hex digits at `2 * i`. */
  function PairValue(h: string, i: nat): nat
    requires 2 * i + 2 <= |h| && IsHexDigit(h[2 * i]) && IsHexDigit(h[2 * i + 1])
  {
    DigitValue(h[2 * i]) * 16 + DigitValue(h[2 * i + 1])
  }

  /** The first eight characters of `h` are hex digits whose pairs, in
      reverse order, are the bytes of `ip`. */
  ghost predicate ReversedPairs(h: string, ip: IPv4)
  {
    |h| >= 8 && AllDigits(h[..8], 16) &&
    ip.d == PairValue(h, 0) && ip.c == PairValue(h, 1) && ip.b == PairValue(h, 2) && ip.a == PairValue(h, 3)
  }

  /** The pair loop from pair `i` on: the bytes read so far are kept in
      reverse, the loop stops at the first pair that is not hex, and runs
      off the end of a string shorter than it needs. */
  lemma {:induction false} PairsFromSpec(h: string, i: nat, acc: seq<Byte>)
    requires i <= 4 && |acc| == i
    requires 2 * i <= |h| && AllDigits(h[..2 * i], 16)
    requires forall k :: 0 <= k < i ==> acc[k] == PairValue(h, k)
    ensures PairsFrom(h, i, acc).Addr? <==> |h| >= 8 && AllDigits(h[..8], 16)
    ensures PairsFrom(h, i, acc).Addr? ==> ReversedPairs(h, PairsFrom(h, i, acc).ip)
    ensures PairsFrom(h, i, acc).Panic? ==> |h| < 8
    ensures PairsFrom(h, i, acc).Invalid? ==> PairsFrom(h, i, acc).msg == "invalid syntax"
    ensures AllDigits(h, 16) ==> !PairsFrom(h, i, acc).Invalid?
    decreases 4 - i
  {
    if i < 4 && 2 * i + 2 <= |h| {
      var p := h[2 * i..2 * i + 2];
      PairFits(p);
      if AllDigits(p, 16) {
        assert p[0] == h[2 * i] && p[1] == h[2 * i + 1];
        var next := h[..2 * (i + 1)];
        assert AllDigits(next, 16) by {
          forall k | 0 <= k < |next|
            ensures IsDigitIn(next[k], 16)
          {
            if k >= 2 * i {
              assert next[k] == p[k - 2 * i];
            } else {
              assert next[k] == h[..2 * i][k];
            }
          }
        }
        PairsFromSpec(h, i + 1, acc + [ParseUint(p, 16).value]);
      } else {
        var k :| 0 <= k < 2 && !IsHexDigit(p[k]);
        assert h[2 * i + k] == p[k];
        if |h| >= 8 {
          assert h[..8][2 * i + k] == p[k];
        }
      }
    } else if i < 4 {
      assert |h| < 8;
    }
  }

  /** An eight-character input decodes iff it is all hex, and then byte
      `3 - i` of the address comes from hex pair `i`; otherwise the error is
      the hex parser's. */
  lemma DecodeEight(h: string)
    requires |h| == HexStrLenIPv4
    ensures TransNetOrderHexToIP(h).Addr? <==> AllDigits(h, 16)
    ensures TransNetOrderHexToIP(h).Addr? ==> ReversedPairs(h, TransNetOrderHexToIP(h).ip)
    ensures !TransNetOrderHexToIP(h).Addr? ==> TransNetOrderHexToIP(h) == Invalid("invalid syntax")
  {
    assert h[..0] == [];
    assert h[..8] == h;
    PairsFromSpec(h, 0, []);
  }

  /** A string shorter than eight characters never decodes: the loop
      panics when it runs off the end, or stops earlier at a pair that is
      not hex. */
  lemma DecodeShort(h: string)
    requires |h| < HexStrLenIPv4
    ensures TransNetOrderHexToIP(h).Panic? || TransNetOrderHexToIP(h) == Invalid("invalid syntax")
    ensures AllDigits(h, 16) ==> TransNetOrderHexToIP(h).Panic?
  {
    assert h[..0] == [];
    PairsFromSpec(h, 0, []);
  }

  /** A longer input without the IPv4-mapped prefix (followed by at least
      one alphanumeric) is rejected as not IPv4, and with it only the
      digits after the leftmost prefix are decoded. */
  lemma DecodeLong(h: string)
    requires |h| > HexStrLenIPv4
    ensures (forall p :: !MappedAt(h, p)) <==> TransNetOrderHexToIP(h) == Invalid("not vaild IPv4 addr")
    ensures TransNetOrderHexToIP(h).Addr? ==>
      exists p: nat :: MappedAt(h, p) && (forall j :: 0 <= j < p ==> !MappedAt(h, j)) &&
        ReversedPairs(h[p + |MappedPrefix|..], TransNetOrderHexToIP(h).ip)
  {
    var m := FindMapped(h, 0);
    if m.Some? {
      var p := m.value;
      var d := MappedDigits(h).value;
      assert d[..0] == [];
      PairsFromSpec(d, 0, []);
      if TransNetOrderHexToIP(h).Addr? {
        var tail := h[p + |MappedPrefix|..];
        assert d[..8] == tail[..8];
        assert ReversedPairs(tail, TransNetOrderHexToIP(h).ip);
      }
    }
  }

  // ---------------------------------------------------------------------
  // The kernel side: how the tables print an address

  /** Upper-case hexadecimal digit, as `%X` prints it. */
  function UpperHexChar(v: nat): (c: char)
    requires v < 16
    ensures IsHexDigit(c) && IsAlnum(c) && DigitValue(c) == v
  {
    if v < 10 then DecChar(v) else ('A' as nat + v - 10) as char
  }

  function HexByte(v: Byte): (s: string)
    ensures |s| == 2
  {
    [UpperHexChar(v / 16), UpperHexChar(v % 16)]
  }

  /** The address as `/proc/net/tcp` prints it: the 32-bit word holding
      the address in network order, printed `%08X` on a little-endian
      machine, so the last byte comes first. */
  function NetOrderHex(ip: IPv4): (s: string)
    ensures |s| == HexStrLenIPv4
  {
    HexByte(ip.d) + HexByte(ip.c) + HexByte(ip.b) + HexByte(ip.a)
  }

  lemma NetOrderHexDigits(ip: IPv4)
    ensures AllDigits(NetOrderHex(ip), 16)
    ensures forall k :: 0 <= k < 8 ==> IsAlnum(NetOrderHex(ip)[k])
    ensures ReversedPairs(NetOrderHex(ip), ip)
  {
    var s := NetOrderHex(ip);
    assert s[..8] == s;
    assert s[0] == UpperHexChar(ip.d / 16) && s[1] == UpperHexChar(ip.d % 16);
    assert s[2] == UpperHexChar(ip.c / 16) && s[3] == UpperHexChar(ip.c % 16);
    assert s[4] == UpperHexChar(ip.b / 16) && s[5] == UpperHexChar(ip.b % 16);
    assert s[6] == UpperHexChar(ip.a / 16) && s[7] == UpperHexChar(ip.a % 16);
  }

  /** Two hex strings in reversed pair order for the same address are the
      same address. */
  lemma ReversedPairsUnique(h: string, ip1: IPv4, ip2: IPv4)
    requires ReversedPairs(h, ip1) && ReversedPairs(h, ip2)
    ensures ip1 == ip2
  {
  }

  /** An IPv4 table entry decodes to the address printed. */
  lemma DecodeNetOrderHex(ip: IPv4)
    ensures TransNetOrderHexToIP(NetOrderHex(ip)) == Addr(ip)
  {
    NetOrderHexDigits(ip);
    DecodeEight(NetOrderHex(ip));
  }

  /** An IPv4-mapped entry of `/proc/net/tcp6` decodes to the address printed. */
  lemma DecodeMapped(ip: IPv4)
    ensures TransNetOrderHexToIP(MappedPrefix + NetOrderHex(ip)) == Addr(ip)
  {
    var f := NetOrderHex(ip);
    var s := MappedPrefix + f;
    NetOrderHexDigits(ip);
    assert s[..|MappedPrefix|] == MappedPrefix;
    assert s[|MappedPrefix|..] == f;
    assert MappedAt(s, 0);
    assert FindMapped(s, 0) == Some(0);
    var n := AlnumRun(s, |MappedPrefix|);
    assert n == 8;
    assert s[|MappedPrefix|..|MappedPrefix| + 8] == f;
    assert MappedDigits(s) == Some(f);
    DecodeEight(f);
  }

  // ---------------------------------------------------------------------
  // isPCIAddr

  predicate AlnumSpan(s: string, from: nat, n: nat)
  {
    from + n <= |s| && forall k :: from <= k < from + n ==> IsAlnum(s[k])
  }

  /** `[a-zA-Z0-9]{4}:[a-zA-Z0-9]{2}:[a-zA-Z0-9]{2}.[a-zA-Z0-9]{1}` matches
      at `p`; the `.` takes any character but a newline. */
  predicate PciAt(s: string, p: nat)
  {
    p + 12 <= |s| && AlnumSpan(s, p, 4) && s[p + 4] == ':' && AlnumSpan(s, p + 5, 2) &&
    s[p + 7] == ':' && AlnumSpan(s, p + 8, 2) && s[p + 10] != '\n' && IsAlnum(s[p + 11])
  }

  function PciFrom(s: string, from: nat): (r: bool)
    ensures r <==> exists p :: from <= p && PciAt(s, p)
    decreases |s| - from
  {
    if from + 12 > |s| then false
    else PciAt(s, from) || PciFrom(s, from + 1)
  }

  /** `isPCIAddr`: the pattern matches somewhere in the string. */
  function IsPciAddr(s: string): (r: bool)
    ensures r <==> exists p :: PciAt(s, p)
  {
    PciFrom(s, 0)
  }

  /** A bus address `dddd:bb:dd.f` is a PCI address wherever it sits. */
  lemma PciAddressShape(pre: string, dom: string, bus: string, dev: string, sep: char, fn: char, post: string)
    requires |dom| == 4 && |bus| == 2 && |dev| == 2 && sep != '\n' && IsAlnum(fn)
    requires forall k :: 0 <= k < 4 ==> IsAlnum(dom[k])
    requires forall k :: 0 <= k < 2 ==> IsAlnum(bus[k]) && IsAlnum(dev[k])
    ensures IsPciAddr(pre + dom + ":" + bus + ":" + dev + [sep, fn] + post)
  {
    var s := pre + dom + ":" + bus + ":" + dev + [sep, fn] + post;
    var p := |pre|;
    forall k | 0 <= k < 4 ensures s[p + k] == dom[k] { }
    forall k | 0 <= k < 2 ensures s[p + 5 + k] == bus[k] && s[p + 8 + k] == dev[k] { }
    assert PciAt(s, p);
  }

  /** Strings shorter than twelve characters, such as `net` or `eth0`,
      are never PCI addresses. */
  lemma ShortNotPci(s: string)
    requires |s| < 12
    ensures !IsPciAddr(s)
  {
  }

  // ---------------------------------------------------------------------
  // GetNetDevPCIPath

  const DevicesPci: string := "/devices/pci"

  /** The leftmost line holding `/devices/pci`, from line `from` on. */
  function FirstLineWith(lines: seq<string>, from: nat): (r: Option<nat>)
    ensures r.Some? ==> from <= r.value < |lines| && Contains(lines[r.value], DevicesPci)
    ensures r.Some? ==> forall j :: from <= j < r.value ==> !Contains(lines[j], DevicesPci)
    ensures r.None? ==> forall j :: from <= j < |lines| ==> !Contains(lines[j], DevicesPci)
    decreases |lines| - from
  {
    if from >= |lines| then None
    else if Contains(lines[from], DevicesPci) then Some(from)
    else FirstLineWith(lines, from + 1)
  }

  /** The last occurrence of `sub` that starts before `upto`. */
  function LastIndexBefore(s: string, sub: string, upto: nat): (r: Option<nat>)
    ensures r.Some? ==> r.value < upto && OccursAt(s, sub, r.value)
    ensures r.Some? ==> forall j :: r.value < j < upto ==> !OccursAt(s, sub, j)
    ensures r.None? ==> forall j: nat :: j < upto ==> !OccursAt(s, sub, j)
    decreases upto
  {
    if upto == 0 then None
    else if OccursAt(s, sub, upto - 1) then Some(upto - 1)
    else LastIndexBefore(s, sub, upto - 1)
  }

  /** The submatch of `.*\/devices\/(pci.*)`.  Neither `.` crosses a
      newline, so the match lies in the first line holding `/devices/pci`;
      the greedy first `.*` takes that line's last occurrence and the
      submatch runs from its `pci` to the end of the line. */
  function PciCapture(link: string): (r: Option<string>)
    ensures r.Some? ==> HasPrefix(r.value, "pci") && '\n' !in r.value
    ensures r.None? <==> forall j :: 0 <= j < |Split(link, '\n')| ==> !Contains(Split(link, '\n')[j], DevicesPci)
  {
    var lines := Split(link, '\n');
    SplitJoin(link, '\n');
    match FirstLineWith(lines, 0)
    case None => None
    case Some(i) =>
      var line := lines[i];
      var q := LastIndexBefore(line, DevicesPci, |line| + 1);
      assert q.Some? by {
        var j := IndexFrom(line, DevicesPci, 0).value;
        assert OccursAt(line, DevicesPci, j);
      }
      var c := line[q.value + 9..];
      assert c[..3] == line[q.value + 9..q.value + 12];
      Some(c)
  }

  /** The later path segments that look like PCI addresses, each followed
      by a slash. */
  function KeptPath(parts: seq<string>): (s: string)
    decreases |parts|
  {
    if |parts| == 0 then ""
    else (if IsPciAddr(parts[0]) then parts[0] + "/" else "") + KeptPath(parts[1..])
  }

  /** `GetNetDevPCIPath` once the link is read (`None` is a failed
      readlink). */
  function GetNetDevPciPath(link: Option<string>): (r: Result<string>)
    ensures link.None? ==> r == Err("readlink fail")
    ensures link.Some? && PciCapture(link.value).None? ==> r == Err("not a PCI device")
    ensures r.Ok? ==> HasPrefix(r.value, "/wisysfs/devices/pci") && r.value[|r.value| - 1] == '/'
  {
    match link
    case None => Err("readlink fail")
    case Some(l) =>
      match PciCapture(l)
      case None => Err("not a PCI device")
      case Some(c) =>
        var parts := Split(c, '/');
        PciHead(c);
        var path := "/wisysfs/devices/" + parts[0] + "/" + KeptPath(parts[1..]);
        assert path[..20] == "/wisysfs/devices/" + parts[0][..3];
        KeptPathEnd(parts[0], parts[1..]);
        Ok(path)
  }

  lemma PciHead(c: string)
    requires HasPrefix(c, "pci")
    ensures HasPrefix(Split(c, '/')[0], "pci")
  {
    assert c == ['p'] + c[1..];
    assert c[1..] == ['c'] + c[2..];
    assert c[2..] == ['i'] + c[3..];
    var s2 := Split(c[2..], '/');
    var s1 := Split(c[1..], '/');
    assert s2[0][..1] == "i";
    assert s1[0][..2] == "ci";
  }

  lemma {:induction false} KeptPathEnd(head: string, rest: seq<string>)
    ensures |head + "/" + KeptPath(rest)| > 0
    ensures (head + "/" + KeptPath(rest))[|head + "/" + KeptPath(rest)| - 1] == '/'
    decreases |rest|
  {
    if |rest| > 0 {
      KeptPathEnd(if IsPciAddr(rest[0]) then rest[0] else head, rest[1..]);
      if IsPciAddr(rest[0]) {
        assert head + "/" + KeptPath(rest) == head + "/" + (rest[0] + "/" + KeptPath(rest[1..]));
      } else {
        assert head + "/" + KeptPath(rest) == head + "/" + KeptPath(rest[1..]);
      }
    }
  }

  /** The segments of `parts` that are PCI addresses, in order. */
  function PciSegments(parts: seq<string>): (r: seq<string>)
    ensures forall k :: 0 <= k < |r| ==> IsPciAddr(r[k])
    ensures forall k :: 0 <= k < |parts| && IsPciAddr(parts[k]) ==> parts[k] in r
    decreases |parts|
  {
    if |parts| == 0 then []
    else (if IsPciAddr(parts[0]) then [parts[0]] else []) + PciSegments(parts[1..])
  }

  /** Each kept segment, followed by a slash. */
  function Slashed(parts: seq<string>): string
    decreases |parts|
  {
    if |parts| == 0 then "" else parts[0] + "/" + Slashed(parts[1..])
  }

  lemma {:induction false} KeptIsSlashedPci(parts: seq<string>)
    ensures KeptPath(parts) == Slashed(PciSegments(parts))
    decreases |parts|
  {
    if |parts| > 0 {
      KeptIsSlashedPci(parts[1..]);
      if IsPciAddr(parts[0]) {
        assert PciSegments(parts) == [parts[0]] + PciSegments(parts[1..]);
        assert PciSegments(parts)[1..] == PciSegments(parts[1..]);
      } else {
        assert PciSegments(parts) == PciSegments(parts[1..]);
      }
    }
  }

  lemma {:induction false} SlashedIsJoin(parts: seq<string>)
    requires |parts| > 0
    ensures Slashed(parts) == Join(parts, '/') + "/"
    decreases |parts|
  {
    if |parts| > 1 {
      SlashedIsJoin(parts[1..]);
    }
  }

  /** The path is the sysfs devices root followed by the first segment of
      the submatch and the later segments that are PCI addresses, joined
      by slashes and ending in one. */
  lemma PciPathIsJoin(link: string)
    requires PciCapture(link).Some?
    ensures var parts := Split(PciCapture(link).value, '/');
      GetNetDevPciPath(Some(link)) == Ok("/wisysfs/devices/" + Join([parts[0]] + PciSegments(parts[1..]), '/') + "/")
  {
    var parts := Split(PciCapture(link).value, '/');
    PciPathUnfold(link);
    SlashedHeadIsJoin(parts[0], parts[1..]);
  }

  lemma PciPathUnfold(link: string)
    requires PciCapture(link).Some?
    ensures var parts := Split(PciCapture(link).value, '/');
      GetNetDevPciPath(Some(link)) == Ok("/wisysfs/devices/" + parts[0] + "/" + KeptPath(parts[1..]))
  {
  }

  lemma SlashedHeadIsJoin(head: string, rest: seq<string>)
    ensures "/wisysfs/devices/" + head + "/" + KeptPath(rest) == "/wisysfs/devices/" + Join([head] + PciSegments(rest), '/') + "/"
  {
    var ps := [head] + PciSegments(rest);
    KeptIsSlashedPci(rest);
    assert ps[1..] == PciSegments(rest);
    assert Slashed(ps) == head + "/" + KeptPath(rest);
    SlashedIsJoin(ps);
    var root := "/wisysfs/devices/";
    assert root + head + "/" + KeptPath(rest) == root + (head + "/" + KeptPath(rest));
    assert root + (Join(ps, '/') + "/") == root + Join(ps, '/') + "/";
  }

  /** A link without newlines whose last `/devices/` is followed by `pci…`
      yields everything after that `/devices/`. */
  lemma CaptureAfterLastDevices(pre: string, c: string)
    requires '\n' !in pre && '\n' !in c && HasPrefix(c, "pci")
    requires forall j :: |pre| < j ==> !OccursAt(pre + "/devices/" + c, DevicesPci, j)
    ensures PciCapture(pre + "/devices/" + c) == Some(c)
  {
    var link := pre + "/devices/" + c;
    assert '\n' !in link;
    SplitWithoutSep(link, '\n');
    assert OccursAt(link, DevicesPci, |pre|) by {
      assert link[|pre|..|pre| + 12] == "/devices/" + c[..3];
    }
    assert IndexFrom(link, DevicesPci, 0).Some?;
    var q := LastIndexBefore(link, DevicesPci, |link| + 1);
    assert q == Some(|pre|);
    assert link[|pre| + 9..] == c;
  }

  // ---------------------------------------------------------------------
  // getIflink

  /** `strconv.ParseInt(s, 10, 64)`: an optional sign, at least one
      decimal digit, and a value in the signed 64-bit range. */
  function ParseInt(s: string): (r: Option<int>)
    ensures r.Some? ==> MinInt64 <= r.value <= MaxInt64
  {
    if |s| == 0 then None
    else
      var neg := s[0] == '-';
      var digits := if s[0] == '+' || s[0] == '-' then s[1..] else s;
      match ParseUint(digits, 10)
      case None => None
      case Some(u) =>
        if neg then (if u <= Two63 then Some(-(u as int)) else None)
        else if u < Two63 then Some(u as int) else None
  }

  /** `getDevIndex` / `getDevLink` once the file is read: its content with
      every newline removed, as a signed decimal. */
  function DevNumber(content: Option<string>): (r: Option<int>)
    ensures content.None? ==> r.None?
  {
    match content
    case None => None
    case Some(c) => ParseInt(RemoveChar(c, '\n'))
  }

  /** What sysfs holds for a device number reads back as that number. */
  lemma DevNumberRoundTrip(v: int)
    requires MinInt64 <= v <= MaxInt64
    ensures DevNumber(Some(GoFmt.FormatInt(v) + "\n")) == Some(v)
  {
    FormatIntOneLine(v);
    RemoveCharTail(GoFmt.FormatInt(v));
    ParseFormatInt(v);
  }

  /** `ParseInt` reads back what `%d` prints. */
  lemma ParseFormatInt(v: int)
    requires MinInt64 <= v <= MaxInt64
    ensures ParseInt(GoFmt.FormatInt(v)) == Some(v)
  {
    var s := GoFmt.FormatInt(v);
    if v < 0 {
      var d := FormatDecimal(-v);
      assert s == "-" + d;
      assert s[0] == '-' && s[1..] == d;
      ParseFormatDecimal(-v);
    } else {
      var d := FormatDecimal(v);
      assert IsDigitIn(d[0], 10);
      ParseFormatDecimal(v);
    }
  }

  lemma FormatIntOneLine(v: int)
    ensures '\n' !in GoFmt.FormatInt(v)
  {
    var d := FormatDecimal(if v < 0 then -v else v);
    assert forall i :: 0 <= i < |d| ==> IsDigitIn(d[i], 10);
  }

  /** `getIflink`: the device has a peer (the answer is not -1) exactly
      when both numbers were read, they differ and the link is not itself
      -1; the answer is then the link. */
  function Iflink(index: Option<int>, link: Option<int>): (r: int)
    ensures r != -1 <==> index.Some? && link.Some? && link.value != index.value && link.value != -1
    ensures r != -1 ==> r == link.value
  {
    if index.None? || link.None? then -1
    else if link.value != index.value then link.value
    else -1
  }

  // ---------------------------------------------------------------------
  // GetProcessNetNuma

  /** What the NUMA choice reads of a device: its IRQs' nodes and its PCI
      node.  `getNetifInfo` leaves `IrqNode` nil (here `None`) when the
      device's IRQ lookup failed, and only logs the error. */
  datatype NetDev = NetDev(irqNodes: Option<seq<int>>, pciNode: int)

  /** The IRQ nodes the choice counts for a device: none when they could
      not be found. */
  function IrqList(dev: NetDev): (r: seq<int>)
    ensures dev.irqNodes.None? ==> r == []
  {
    if dev.irqNodes.Some? then dev.irqNodes.value else []
  }

  /** The loop's variables: the key sets of `nodes` and `nodesBak`, and
      the last node written to `numaNode` and `SecNode`. */
  datatype Tally = Tally(nodes: set<int>, numaNode: int, nodesBak: set<int>, secNode: int)

  /** The values a list holds. */
  ghost function Elems(s: seq<int>): set<int>
  {
    set x | x in s
  }

  function TallyIrqs(t: Tally, irqs: seq<int>): (r: Tally)
    ensures r.nodes == t.nodes + Elems(irqs)
    ensures r.nodesBak == t.nodesBak && r.secNode == t.secNode
    ensures t.numaNode in t.nodes || |irqs| > 0 ==> r.numaNode in r.nodes
    decreases |irqs|
  {
    if |irqs| == 0 then t
    else
      var pre := irqs[..|irqs| - 1];
      assert irqs == pre + [irqs[|irqs| - 1]];
      assert Elems(irqs) == Elems(pre) + {irqs[|irqs| - 1]};
      var t' := TallyIrqs(t, pre);
      t'.(nodes := t'.nodes + {irqs[|irqs| - 1]}, numaNode := irqs[|irqs| - 1])
  }

  function TallyDev(t: Tally, dev: NetDev): (r: Tally)
    ensures r.nodes == t.nodes + Elems(IrqList(dev))
    ensures r.nodesBak == t.nodesBak + (if dev.pciNode > 0 then {dev.pciNode} else {})
    ensures t.numaNode in t.nodes || |IrqList(dev)| > 0 ==> r.numaNode in r.nodes
    ensures t.secNode in t.nodesBak || dev.pciNode > 0 ==> r.secNode in r.nodesBak
  {
    var t' := TallyIrqs(t, IrqList(dev));
    if dev.pciNode > 0 then t'.(nodesBak := t'.nodesBak + {dev.pciNode}, secNode := dev.pciNode) else t'
  }

  function TallyDevs(devs: seq<NetDev>): (r: Tally)
    decreases |devs|
  {
    if |devs| == 0 then Tally({}, 0, {}, 0)
    else TallyDev(TallyDevs(devs[..|devs| - 1]), devs[|devs| - 1])
  }

  /** The nodes of all the devices' IRQs. */
  ghost function IrqNodes(devs: seq<NetDev>): set<int>
  {
    set i, x | 0 <= i < |devs| && x in IrqList(devs[i]) :: x
  }

  /** The devices' positive PCI nodes. */
  ghost function PciNodes(devs: seq<NetDev>): set<int>
  {
    set i | 0 <= i < |devs| && devs[i].pciNode > 0 :: devs[i].pciNode
  }

  lemma IrqNodesStep(devs: seq<NetDev>)
    requires |devs| > 0
    ensures IrqNodes(devs) == IrqNodes(devs[..|devs| - 1]) + Elems(IrqList(devs[|devs| - 1]))
  {
    var pre := devs[..|devs| - 1];
    forall x | x in IrqNodes(devs)
      ensures x in IrqNodes(pre) || x in IrqList(devs[|devs| - 1])
    {
      var i :| 0 <= i < |devs| && x in IrqList(devs[i]);
      if i < |pre| {
        assert pre[i] == devs[i];
      }
    }
    forall x | x in Elems(IrqList(devs[|devs| - 1]))
      ensures x in IrqNodes(devs)
    {
      assert x in IrqList(devs[|devs| - 1]);
    }
    forall x | x in IrqNodes(pre)
      ensures x in IrqNodes(devs)
    {
      var i :| 0 <= i < |pre| && x in IrqList(pre[i]);
      assert devs[i] == pre[i];
    }
  }

  lemma PciNodesStep(devs: seq<NetDev>)
    requires |devs| > 0
    ensures PciNodes(devs) == PciNodes(devs[..|devs| - 1]) + (if devs[|devs| - 1].pciNode > 0 then {devs[|devs| - 1].pciNode} else {})
  {
    var pre := devs[..|devs| - 1];
    forall x | x in PciNodes(devs)
      ensures x in PciNodes(pre) || x == devs[|devs| - 1].pciNode
    {
      var i :| 0 <= i < |devs| && devs[i].pciNode > 0 && x == devs[i].pciNode;
      if i < |pre| {
        assert pre[i] == devs[i];
      }
    }
    forall x | x in PciNodes(pre)
      ensures x in PciNodes(devs)
    {
      var i :| 0 <= i < |pre| && pre[i].pciNode > 0 && x == pre[i].pciNode;
      assert devs[i] == pre[i];
    }
  }

  /** After the loop the key sets are the IRQ and PCI node sets, and the
      last node written belongs to its set whenever that set is not empty. */
  lemma {:induction false} TallyDevsSets(devs: seq<NetDev>)
    ensures TallyDevs(devs).nodes == IrqNodes(devs)
    ensures TallyDevs(devs).nodesBak == PciNodes(devs)
    ensures |IrqNodes(devs)| > 0 ==> TallyDevs(devs).numaNode in IrqNodes(devs)
    ensures |PciNodes(devs)| > 0 ==> TallyDevs(devs).secNode in PciNodes(devs)
    decreases |devs|
  {
    if |devs| > 0 {
      TallyDevsSets(devs[..|devs| - 1]);
      IrqNodesStep(devs);
      PciNodesStep(devs);
    }
  }

  /** The answer `GetProcessNetNuma` takes from the loop's variables. */
  function Choose(t: Tally): int
  {
    if |t.nodes| != 1 then (if |t.nodesBak| == 1 then t.secNode else -1) else t.numaNode
  }

  /** `GetProcessNetNuma` once the related devices are known, with a device
      whose IRQ nodes are unknown counted as having none: an error from
      finding the devices is passed on. */
  function GetProcessNetNuma(devs: Result<seq<NetDev>>): (r: Result<int>)
    ensures devs.Err? ==> r == Err(devs.msg)
  {
    match devs
    case Err(msg) => Err(msg)
    case Ok(ds) => Ok(Choose(TallyDevs(ds)))
  }

  /** The device loop as written: `*(dev.IrqNode)` panics (`None`) at the
      first device whose IRQ lookup failed. */
  function TallyDevsAsWritten(devs: seq<NetDev>): (r: Option<Tally>)
    ensures r.None? <==> exists i :: 0 <= i < |devs| && devs[i].irqNodes.None?
    ensures r.Some? ==> r.value == TallyDevs(devs)
    decreases |devs|
  {
    if |devs| == 0 then Some(Tally({}, 0, {}, 0))
    else
      var pre := devs[..|devs| - 1];
      assert forall i :: 0 <= i < |pre| ==> pre[i] == devs[i];
      match TallyDevsAsWritten(pre)
      case None => None
      case Some(t) =>
        if devs[|devs| - 1].irqNodes.None? then None else Some(TallyDev(t, devs[|devs| - 1]))
  }

  /** `GetProcessNetNuma` as written: it panics iff some related device has
      no IRQ information, and otherwise agrees with the version above. */
  function GetProcessNetNumaAsWritten(devs: Result<seq<NetDev>>): (r: Option<Result<int>>)
    ensures r.None? <==> devs.Ok? && exists i :: 0 <= i < |devs.value| && devs.value[i].irqNodes.None?
    ensures r.Some? ==> r.value == GetProcessNetNuma(devs)
  {
    match devs
    case Err(msg) => Some(Err(msg))
    case Ok(ds) =>
      match TallyDevsAsWritten(ds)
      case None => None
      case Some(t) => Some(Ok(Choose(t)))
  }

  /** One device on PCI node 1 whose IRQ lookup failed: as written the
      daemon panics, while the fallback to the PCI node answers 1. */
  lemma NilIrqNodePanics()
    ensures GetProcessNetNumaAsWritten(Ok([NetDev(None, 1)])).None?
    ensures GetProcessNetNuma(Ok([NetDev(None, 1)])) == Ok(1)
  {
  }

  /** The IRQs' node when they all sit on one node; otherwise the PCI node
      when the devices' positive PCI nodes are one node; otherwise -1. */
  lemma NetNumaChoice(ds: seq<NetDev>)
    ensures GetProcessNetNuma(Ok(ds)).Ok?
    ensures |IrqNodes(ds)| == 1 ==> IrqNodes(ds) == {GetProcessNetNuma(Ok(ds)).value}
    ensures |IrqNodes(ds)| != 1 && |PciNodes(ds)| == 1 ==> PciNodes(ds) == {GetProcessNetNuma(Ok(ds)).value}
    ensures |IrqNodes(ds)| != 1 && |PciNodes(ds)| != 1 ==> GetProcessNetNuma(Ok(ds)).value == -1
  {
    TallyDevsSets(ds);
    if |IrqNodes(ds)| == 1 {
      OnlyMember(IrqNodes(ds), TallyDevs(ds).numaNode);
    } else if |PciNodes(ds)| == 1 {
      OnlyMember(PciNodes(ds), TallyDevs(ds).secNode);
    }
  }

  lemma OnlyMember(s: set<int>, x: int)
    requires |s| == 1 && x in s
    ensures s == {x}
  {
    assert |s - {x}| == 0;
  }
}

=== FILE: partition.dfy ===
/** CPU partitions (`common/policy/partition.go`): groups of CPUs tagged
    for IO or network threads, parsed from comma-separated lists of CPU
    numbers and ranges, and the rule that deals a list of threads out over
    the groups in proportion to their CPU counts.  `sched.SetAffinity` is
    not called: the binding methods return the calls they would make. */
module Partition {
  import opened Wrappers
  import opened GoStrings
  import SysParse

  const MaxCpuNum: nat := 2048
  /** Group flags. */
  const IoAccess: int := 0
  const NetAccess: int := 1

  datatype CpuGroup = CpuGroup(flag: int, cpus: seq<int>)

  datatype CpuPartition = CpuPartition(flagCount: map<int, int>, groups: seq<CpuGroup>)

  /** Reading a Go `map[int]int`: 0 for a missing key. */
  function Count(m: map<int, int>, k: int): int
  {
    if k in m then m[k] else 0
  }

  /** The groups of `groups` with flag `f`. */
  function GroupsWithFlag(groups: seq<CpuGroup>, f: int): (r: seq<CpuGroup>)
    ensures |r| <= |groups|
    ensures forall g :: g in r <==> g in groups && g.flag == f
  {
    if |groups| == 0 then []
    else GroupsWithFlag(groups[..|groups| - 1], f) +
         (if groups[|groups| - 1].flag == f then [groups[|groups| - 1]] else [])
  }

  /** `FlagCount` agrees with the groups: each flag that occurs is a key,
      counting its groups, and no other flag is a key. */
  ghost predicate CountsMatch(p: CpuPartition)
  {
    forall f :: (f in p.flagCount <==> exists g :: g in p.groups && g.flag == f) &&
                Count(p.flagCount, f) == |GroupsWithFlag(p.groups, f)|
  }

  // ---------------------------------------------------------------------
  // Adding groups

  /** `PartitionAddGroup`: appends the group and counts one more group with
      its flag. */
  function PartitionAddGroup(p: CpuPartition, g: CpuGroup): (r: CpuPartition)
    ensures r.groups == p.groups + [g]
    ensures g.flag in r.flagCount && Count(r.flagCount, g.flag) == Count(p.flagCount, g.flag) + 1
    ensures forall f :: f != g.flag ==> (f in r.flagCount <==> f in p.flagCount) &&
                                        Count(r.flagCount, f) == Count(p.flagCount, f)
  {
    var m := if g.flag !in p.flagCount then p.flagCount[g.flag := 1]
             else p.flagCount[g.flag := p.flagCount[g.flag] + 1];
    CpuPartition(m, p.groups + [g])
  }

  /** `PartitionCreateGroup`: a group holding a copy of `cpus`. */
  function PartitionCreateGroup(p: CpuPartition, cpus: seq<int>, flag: int): (r: CpuPartition)
    ensures r.groups == p.groups + [CpuGroup(flag, cpus)]
  {
    PartitionAddGroup(p, CpuGroup(flag, cpus))
  }

  /** Adding a group keeps the flag counts in step with the groups. */
  lemma AddGroupKeepsCounts(p: CpuPartition, g: CpuGroup)
    ensures CountsMatch(p) ==> CountsMatch(PartitionAddGroup(p, g))
  {
    if !CountsMatch(p) { return; }
    var r := PartitionAddGroup(p, g);
    assert r.groups[..|r.groups| - 1] == p.groups;
    forall f
      ensures (f in r.flagCount <==> exists h :: h in r.groups && h.flag == f)
      ensures Count(r.flagCount, f) == |GroupsWithFlag(r.groups, f)|
    {
      if f == g.flag {
        assert g in r.groups;
      } else if f in r.flagCount {
        var h :| h in p.groups && h.flag == f;
        assert h in r.groups;
      } else {
        forall h | h in r.groups ensures h.flag != f {
          if h != g { assert h in p.groups; }
        }
      }
    }
  }

  // ---------------------------------------------------------------------
  // stringToInts

  /** `\s` in Go's regular expressions: `[\t\n\f\r ]`. */
  predicate IsReSpace(c: char)
  {
    c == '\t' || c == '\n' || c == '\U{000C}' || c == '\r' || c == ' '
  }

  function SpaceRun(s: string, i: nat): (n: nat)
    requires i <= |s|
    ensures i + n <= |s|
    decreases |s| - i
  {
    if i == |s| || !IsReSpace(s[i]) then 0 else 1 + SpaceRun(s, i + 1)
  }

  function DigitRun(s: string, i: nat): (n: nat)
    requires i <= |s|
    ensures i + n <= |s|
    decreases |s| - i
  {
    if i == |s| || !IsDecDigit(s[i]) then 0 else 1 + DigitRun(s, i + 1)
  }

  /** The two digit groups of `\s*(\d+)\s*-\s*(\d+)\s*` matched from
      position `p`.  Greedy repetition followed by a character it cannot
      match never backtracks usefully, so a match from `p` exists exactly
      when the greedy reading succeeds. */
  function RangeAt(s: string, p: nat): (r: Option<(string, string)>)
    requires p <= |s|
  {
    var a := p + SpaceRun(s, p);
    var na := DigitRun(s, a);
    var h := a + na + SpaceRun(s, a + na);
    if na == 0 || h == |s| || s[h] != '-' then None
    else
      var b := h + 1 + SpaceRun(s, h + 1);
      var nb := DigitRun(s, b);
      if nb == 0 then None else Some((s[a..a + na], s[b..b + nb]))
  }

  /** The leftmost match at or after `from` (`FindStringSubmatch`). */
  function FirstRange(s: string, from: nat): (r: Option<(string, string)>)
    requires from <= |s|
    decreases |s| - from
  {
    if RangeAt(s, from).Some? then RangeAt(s, from)
    else if from == |s| then None
    else FirstRange(s, from + 1)
  }

  /** A match needs a `-`. */
  lemma {:induction false} NoDashNoRange(s: string, from: nat)
    requires from <= |s| && '-' !in s
    ensures FirstRange(s, from) == None
    decreases |s| - from
  {
    if from < |s| {
      NoDashNoRange(s, from + 1);
    }
  }

  /** The integers `lo, lo + 1, ..., hi`. */
  function Interval(lo: int, hi: int): (r: seq<int>)
    ensures |r| == if lo <= hi then hi - lo + 1 else 0
    ensures forall k :: 0 <= k < |r| ==> r[k] == lo + k
    decreases hi - lo
  {
    if lo > hi then [] else [lo] + Interval(lo + 1, hi)
  }

  const WrongCpuNum: string := "wrong CPU num"

  /** `stringToInts`: a range `a-b` (spaces allowed around the numbers and
      the dash, other text around the match ignored) lists `a` to `b`;
      otherwise the whole string must be one decimal number, converted to
      Go's 64-bit `int`. */
  function StringToInts(s: string): (r: Result<seq<int>>)
    ensures r.Err? ==> r.msg == WrongCpuNum
    ensures r.Ok? && FirstRange(s, 0).Some? ==>
      0 < |r.value| <= MaxCpuNum + 1 && forall k :: 0 <= k < |r.value| ==> 0 <= r.value[k] <= MaxCpuNum
    ensures FirstRange(s, 0).Some? ==>
      var lo := ParseUint(FirstRange(s, 0).value.0, 10);
      var hi := ParseUint(FirstRange(s, 0).value.1, 10);
      (r.Ok? <==> lo.Some? && hi.Some? && lo.value <= hi.value <= MaxCpuNum) &&
      (r.Ok? ==> r.value == Interval(lo.value, hi.value))
    ensures FirstRange(s, 0).None? ==>
      (r.Ok? <==> ParseUint(s, 10).Some?) &&
      (r.Ok? ==> r.value == [ToInt(ParseUint(s, 10).value)])
  {
    match FirstRange(s, 0)
    case Some((lo, hi)) =>
      (match (ParseUint(lo, 10), ParseUint(hi, 10))
       case (Some(floor), Some(ceil)) =>
         if floor > ceil || ceil > MaxCpuNum then Err(WrongCpuNum)
         else Ok(Interval(floor, ceil))
       case _ => Err(WrongCpuNum))
    case None =>
      match ParseUint(s, 10)
      case Some(cpu) => Ok([ToInt(cpu)])
      case None => Err(WrongCpuNum)
  }

  /** `a-b` as printed by `fmt.Sprintf("%d-%d", a, b)` is matched from its
      first character. */
  lemma RangeTextMatches(a: nat, b: nat)
    ensures FirstRange(FormatDecimal(a) + "-" + FormatDecimal(b), 0) == Some((FormatDecimal(a), FormatDecimal(b)))
  {
    RangeTextAt(FormatDecimal(a), FormatDecimal(b));
  }

  lemma RangeTextAt(da: string, db: string)
    requires |da| > 0 && AllDigits(da, 10) && |db| > 0 && AllDigits(db, 10)
    ensures RangeAt(da + "-" + db, 0) == Some((da, db))
  {
    var s := da + "-" + db;
    var h := |da|;
    assert s[0] == da[0];
    assert SpaceRun(s, 0) == 0;
    assert s[..h] == da;
    DigitsThen(s, 0, da);
    assert s[h] == '-';
    assert SpaceRun(s, h) == 0;
    assert s[h + 1] == db[0];
    assert SpaceRun(s, h + 1) == 0;
    assert s[h + 1..h + 1 + |db|] == db;
    DigitsThen(s, h + 1, db);
    assert RangeAt(s, 0) == Some((s[0..h], s[h + 1..h + 1 + |db|]));
  }

  /** A digit string that ends where `s` stops having digits. */
  lemma {:induction false} DigitsThen(s: string, i: nat, d: string)
    requires i + |d| <= |s| && s[i..i + |d|] == d && AllDigits(d, 10)
    requires i + |d| == |s| || !IsDecDigit(s[i + |d|])
    ensures DigitRun(s, i) == |d|
    decreases |d|
  {
    if |d| > 0 {
      assert s[i] == d[0];
      assert s[i + 1..i + 1 + |d[1..]|] == d[1..];
      DigitsThen(s, i + 1, d[1..]);
    }
  }

  /** A range within bounds lists exactly its members, in order. */
  lemma StringToIntsRange(a: nat, b: nat)
    requires a <= b <= MaxCpuNum
    ensures StringToInts(FormatDecimal(a) + "-" + FormatDecimal(b)) == Ok(Interval(a, b))
  {
    RangeTextMatches(a, b);
    ParseFormatDecimal(a);
    ParseFormatDecimal(b);
  }

  /** A range that is reversed or reaches past CPU 2048 is refused. */
  lemma StringToIntsBadRange(a: Uint64, b: Uint64)
    requires a > b || b > MaxCpuNum
    ensures StringToInts(FormatDecimal(a) + "-" + FormatDecimal(b)) == Err(WrongCpuNum)
  {
    RangeTextMatches(a, b);
    ParseFormatDecimal(a);
    ParseFormatDecimal(b);
  }

  /** A single number is accepted whatever its size: there is no bound
      check on this path, and numbers from 2^63 on wrap to negative `int`s. */
  lemma StringToIntsSingle(n: Uint64)
    ensures StringToInts(FormatDecimal(n)) == Ok([ToInt(n)])
  {
    var s := FormatDecimal(n);
    assert '-' !in s by {
      forall k | 0 <= k < |s| ensures s[k] != '-' { assert IsDigitIn(s[k], 10); }
    }
    NoDashNoRange(s, 0);
    ParseFormatDecimal(n);
  }

  // ---------------------------------------------------------------------
  // ParsePartition

  /** The groups of the comma-separated items, all with flag `flag`, up to
      the first bad item, and that item's error. */
  function ParseItems(items: seq<string>, flag: int): (r: (seq<CpuGroup>, Option<string>))
    ensures |r.0| <= |items|
    ensures r.1.None? <==> |r.0| == |items|
    ensures forall k :: 0 <= k < |r.0| ==> r.0[k].flag == flag && StringToInts(items[k]) == Ok(r.0[k].cpus)
    ensures r.1.Some? ==> StringToInts(items[|r.0|]) == Err(r.1.value)
  {
    if |items| == 0 then ([], None)
    else
      match StringToInts(items[0])
      case Err(e) => ([], Some(e))
      case Ok(cpus) =>
        var rest := ParseItems(items[1..], flag);
        ([CpuGroup(flag, cpus)] + rest.0, rest.1)
  }

  /** `PartitionCreateGroup` for each group in turn. */
  function AddGroups(p: CpuPartition, gs: seq<CpuGroup>): (r: CpuPartition)
    ensures r.groups == p.groups + gs
    decreases |gs|
  {
    if |gs| == 0 then p
    else
      var r := AddGroups(PartitionCreateGroup(p, gs[0].cpus, gs[0].flag), gs[1..]);
      assert p.groups + gs == p.groups + [gs[0]] + gs[1..];
      r
  }

  /** Adding groups one by one keeps the flag counts in step with them. */
  lemma {:induction false} AddGroupsKeepsCounts(p: CpuPartition, gs: seq<CpuGroup>)
    requires CountsMatch(p)
    ensures CountsMatch(AddGroups(p, gs))
    decreases |gs|
  {
    if |gs| > 0 {
      AddGroupKeepsCounts(p, gs[0]);
      AddGroupsKeepsCounts(PartitionCreateGroup(p, gs[0].cpus, gs[0].flag), gs[1..]);
    }
  }

  function EmptyPartition(): (p: CpuPartition)
    ensures CountsMatch(p)
  {
    CpuPartition(map[], [])
  }

  /** `ParsePartition`: one IO group (flag 0) per item of `io`, then one
      network group (flag 1) per item of `net`.  On the first bad item it
      returns the groups made so far with the error. */
  function ParsePartition(io: string, net: string): (r: (CpuPartition, Option<string>))
  {
    var ioItems := ParseItems(Split(io, ','), IoAccess);
    var p := AddGroups(EmptyPartition(), ioItems.0);
    if ioItems.1.Some? then (p, ioItems.1)
    else
      var netItems := ParseItems(Split(net, ','), NetAccess);
      (AddGroups(p, netItems.0), netItems.1)
  }

  /** `ParsePartition` keeps the flag counts in step with the groups, makes
      one group per item when every item parses, and otherwise fails with
      the "wrong CPU num" error of the first bad item. */
  lemma ParsePartitionCounts(io: string, net: string)
    ensures CountsMatch(ParsePartition(io, net).0)
    ensures |ParsePartition(io, net).0.groups| <= |Split(io, ',')| + |Split(net, ',')|
    ensures ParsePartition(io, net).1.None? <==>
      |ParsePartition(io, net).0.groups| == |Split(io, ',')| + |Split(net, ',')|
    ensures ParsePartition(io, net).1.Some? ==> ParsePartition(io, net).1.value == WrongCpuNum
  {
    var ioItems := ParseItems(Split(io, ','), IoAccess);
    AddGroupsKeepsCounts(EmptyPartition(), ioItems.0);
    if ioItems.1.None? {
      AddGroupsKeepsCounts(AddGroups(EmptyPartition(), ioItems.0), ParseItems(Split(net, ','), NetAccess).0);
    }
  }

  /** The first groups are the IO items', in order, with flag 0. */
  lemma ParsePartitionIoGroups(io: string, net: string, k: nat)
    requires k < |ParsePartition(io, net).0.groups| && k < |Split(io, ',')|
    ensures StringToInts(Split(io, ',')[k]).Ok?
    ensures ParsePartition(io, net).0.groups[k] == CpuGroup(IoAccess, StringToInts(Split(io, ',')[k]).value)
  {
    var ioItems := ParseItems(Split(io, ','), IoAccess);
    assert ParsePartition(io, net).0.groups[..|ioItems.0|] == ioItems.0;
  }

  /** The groups after the IO items' are the network items', in order, with
      flag 1; there are none when an IO item is bad. */
  lemma ParsePartitionNetGroups(io: string, net: string, k: nat)
    requires |Split(io, ',')| <= k < |ParsePartition(io, net).0.groups|
    ensures StringToInts(Split(net, ',')[k - |Split(io, ',')|]).Ok?
    ensures ParsePartition(io, net).0.groups[k] ==
      CpuGroup(NetAccess, StringToInts(Split(net, ',')[k - |Split(io, ',')|]).value)
  {
    var ioItems := ParseItems(Split(io, ','), IoAccess);
    var netItems := ParseItems(Split(net, ','), NetAccess);
    assert ParsePartition(io, net).0.groups[|ioItems.0|..] == netItems.0;
  }

  /** An empty IO list is one empty item, which is not a CPU number: the
      parse fails before any group is made. */
  lemma ParsePartitionEmptyIo(net: string)
    ensures ParsePartition("", net) == (EmptyPartition(), Some(WrongCpuNum))
  {
    assert Split("", ',') == [""];
    NoDashNoRange("", 0);
  }

  // ---------------------------------------------------------------------
  // Dealing threads out over groups

  function Sum(xs: seq<nat>): nat
  {
    if |xs| == 0 then 0 else xs[0] + Sum(xs[1..])
  }

  function Sizes(groups: seq<CpuGroup>): (r: seq<nat>)
    ensures |r| == |groups| && forall k :: 0 <= k < |groups| ==> r[k] == |groups[k].cpus|
  {
    seq(|groups|, k requires 0 <= k < |groups| => |groups[k].cpus|)
  }

  function Zeros(n: nat): (r: seq<nat>)
    ensures |r| == n && forall k :: 0 <= k < n ==> r[k] == 0
  {
    seq(n, _ => 0)
  }

  /** `x * c`, spelt out as repeated addition. */
  function Mul(x: nat, c: nat): (p: nat)
  {
    if x == 0 then 0 else Mul(x - 1, c) + c
  }

  /** `x / b` for `x >= 0`, spelt out as repeated subtraction (Go's integer
      division and Dafny's agree on non-negative operands). */
  function Div(x: nat, b: nat): (q: nat)
    requires b > 0
    decreases x
  {
    if x < b then 0 else 1 + Div(x - b, b)
  }

  lemma {:induction false} MulIsProduct(x: nat, c: nat)
    ensures Mul(x, c) == x * c
  {
    if x > 0 {
      MulIsProduct(x - 1, c);
    }
  }

  lemma {:induction false} DivIsQuotient(x: nat, b: nat)
    requires b > 0
    ensures Div(x, b) == x / b
    decreases x
  {
    if x < b {
      DivModUnique(x, b, 0, x);
    } else {
      DivIsQuotient(x - b, b);
      DivModUnique(x, b, (x - b) / b + 1, (x - b) % b);
    }
  }

  /** The share `(r*c + c) / b` of `r` threads for a group with `c` of the
      `b` CPUs still to be served. */
  function Share(r: nat, c: nat, b: nat): nat
    requires b > 0
  {
    Div(Mul(r, c) + c, b)
  }

  /** `Share` is the Go expression `(r*c + c) / b`. */
  lemma ShareIsGoExpression(r: nat, c: nat, b: nat)
    requires b > 0
    ensures Share(r, c, b) == (r * c + c) / b
  {
    MulIsProduct(r, c);
    DivIsQuotient(r * c + c, b);
  }

  /** How many of `r` threads each group receives: a group with `c` of the
      `B` CPUs still to be served gets `(r*c + c) / B` of the `r` threads
      still unbound, or all of them if that is not fewer. */
  function Alloc(sizes: seq<nat>, r: nat): (a: seq<nat>)
    ensures |a| == |sizes|
  {
    if |sizes| == 0 then []
    else if Sum(sizes) == 0 then Zeros(|sizes|)
    else
      var q := Share(r, sizes[0], Sum(sizes));
      if q >= r then [r] + Zeros(|sizes| - 1) else [q] + Alloc(sizes[1..], r - q)
  }

  /** The group holding every remaining CPU takes every remaining thread. */
  lemma {:induction false} LastGroupTakesAll(r: nat, c: nat)
    requires c > 0
    ensures Share(r, c, c) == r + 1
  {
    DivMul(r + 1, c);
  }

  lemma {:induction false} DivMul(r: nat, c: nat)
    requires c > 0
    ensures Div(Mul(r, c), c) == r
  {
    if r > 0 {
      DivMul(r - 1, c);
    }
  }

  /** With some CPUs to serve, every thread goes to exactly one group. */
  lemma {:induction false} AllocSum(sizes: seq<nat>, r: nat)
    requires Sum(sizes) > 0
    ensures Sum(Alloc(sizes, r)) == r
    decreases |sizes|
  {
    var c, b := sizes[0], Sum(sizes);
    var q := Share(r, c, b);
    if q >= r {
      ZerosSum(|sizes| - 1);
      assert ([r] + Zeros(|sizes| - 1))[1..] == Zeros(|sizes| - 1);
    } else {
      if Sum(sizes[1..]) == 0 {
        LastGroupTakesAll(r, c);
      }
      AllocSum(sizes[1..], r - q);
      assert ([q] + Alloc(sizes[1..], r - q))[1..] == Alloc(sizes[1..], r - q);
    }
  }

  lemma {:induction false} ZerosSum(n: nat)
    ensures Sum(Zeros(n)) == 0
  {
    if n > 0 {
      assert Zeros(n)[1..] == Zeros(n - 1);
      ZerosSum(n - 1);
    }
  }

  /** One `bindThreadsToGroup` call: the group's CPUs and the threads set to
      them. */
  datatype Bind<T> = Bind(cpus: seq<int>, threads: seq<T>)

  function Flatten<T>(binds: seq<Bind<T>>): seq<T>
  {
    if |binds| == 0 then [] else Flatten(binds[..|binds| - 1]) + binds[|binds| - 1].threads
  }

  function Lens<T>(binds: seq<Bind<T>>): (r: seq<nat>)
    ensures |r| == |binds| && forall k :: 0 <= k < |binds| ==> r[k] == |binds[k].threads|
  {
    seq(|binds|, k requires 0 <= k < |binds| => |binds[k].threads|)
  }

  lemma {:induction false} SumSnoc(xs: seq<nat>, x: nat)
    ensures Sum(xs + [x]) == Sum(xs) + x
    decreases |xs|
  {
    if |xs| > 0 {
      assert (xs + [x])[1..] == xs[1..] + [x];
      SumSnoc(xs[1..], x);
    }
  }

  lemma FlattenSnoc<T>(binds: seq<Bind<T>>, b: Bind<T>)
    ensures Flatten(binds + [b]) == Flatten(binds) + b.threads
  {
    assert (binds + [b])[..|binds|] == binds;
  }

  /** The number of CPUs over all groups: the `base` of
      `bindThreadsToGroups`. */
  method TotalCpus(groups: seq<CpuGroup>) returns (base: nat)
    ensures base == Sum(Sizes(groups))
  {
    base := 0;
    var i := 0;
    while i < |groups|
      invariant 0 <= i <= |groups| && base == Sum(Sizes(groups)[..i])
    {
      assert Sizes(groups)[..i + 1] == Sizes(groups)[..i] + [|groups[i].cpus|];
      SumSnoc(Sizes(groups)[..i], |groups[i].cpus|);
      base := base + |groups[i].cpus|;
      i := i + 1;
    }
    assert Sizes(groups)[..i] == Sizes(groups);
  }

  /** The state of the dealing loop before group `i`: the binds so far and
      the threads still unbound make up all the threads, `base` counts the
      CPUs of the groups not yet served, and the binds so far follow
      `Alloc`. */
  ghost predicate Dealt<T>(sizes: seq<nat>, threads: seq<T>, binds: seq<Bind<T>>,
                           rest: seq<T>, i: nat, base: nat)
  {
    i <= |sizes| && |binds| == i &&
    Flatten(binds) + rest == threads &&
    base == Sum(sizes[i..]) &&
    (i < |sizes| || |rest| > 0 ==> base > 0) &&
    Alloc(sizes, |threads|) == Lens(binds) + Alloc(sizes[i..], |rest|)
  }

  lemma DealStart<T>(sizes: seq<nat>, threads: seq<T>)
    requires Sum(sizes) > 0
    ensures Dealt(sizes, threads, [], threads, 0, Sum(sizes))
  {
    assert sizes[0..] == sizes;
    assert Lens<T>([]) == [];
  }

  /** How `Alloc` unfolds at group `i`. */
  lemma AllocAt(sizes: seq<nat>, i: nat, r: nat)
    requires i < |sizes| && Sum(sizes[i..]) > 0
    ensures var q := Share(r, sizes[i], Sum(sizes[i..]));
      (q >= r ==> Alloc(sizes[i..], r) == [r] + Zeros(|sizes| - i - 1)) &&
      (q < r ==> Alloc(sizes[i..], r) == [q] + Alloc(sizes[i + 1..], r - q)) &&
      (q < r ==> Sum(sizes[i + 1..]) == Sum(sizes[i..]) - sizes[i] > 0)
  {
    assert sizes[i..][0] == sizes[i] && sizes[i..][1..] == sizes[i + 1..];
    var q := Share(r, sizes[i], Sum(sizes[i..]));
    if q < r && Sum(sizes[i + 1..]) == 0 {
      LastGroupTakesAll(r, sizes[i]);
    }
  }

  /** The last round of the dealing loop: group `i` takes every thread left. */
  lemma DealLast<T>(sizes: seq<nat>, threads: seq<T>, binds: seq<Bind<T>>,
                    rest: seq<T>, i: nat, base: nat, cpus: seq<int>)
    requires Dealt(sizes, threads, binds, rest, i, base) && i < |sizes|
    requires Share(|rest|, sizes[i], base) >= |rest|
    ensures Flatten(binds + [Bind(cpus, rest)]) == threads
    ensures Alloc(sizes, |threads|) == Lens(binds + [Bind(cpus, rest)]) + Zeros(|sizes| - i - 1)
  {
    AllocAt(sizes, i, |rest|);
    FlattenSnoc(binds, Bind(cpus, rest));
    LensSnoc(binds, Bind(cpus, rest));
  }

  /** Any other round: group `i` takes its share and the loop goes on. */
  lemma DealNext<T>(sizes: seq<nat>, threads: seq<T>, binds: seq<Bind<T>>,
                    rest: seq<T>, i: nat, base: nat, cpus: seq<int>)
    requires Dealt(sizes, threads, binds, rest, i, base) && i < |sizes|
    requires Share(|rest|, sizes[i], base) < |rest|
    ensures base >= sizes[i]
    ensures var q := Share(|rest|, sizes[i], base);
      Dealt(sizes, threads, binds + [Bind(cpus, rest[..q])], rest[q..], i + 1, base - sizes[i])
  {
    var q := Share(|rest|, sizes[i], base);
    FlattenNext(threads, binds, rest, q, cpus);
    AllocNext(sizes, |threads|, binds, i, |rest|, Bind(cpus, rest[..q]));
  }

  lemma FlattenNext<T>(threads: seq<T>, binds: seq<Bind<T>>, rest: seq<T>, q: nat, cpus: seq<int>)
    requires q <= |rest| && Flatten(binds) + rest == threads
    ensures Flatten(binds + [Bind(cpus, rest[..q])]) + rest[q..] == threads
  {
    FlattenSnoc(binds, Bind(cpus, rest[..q]));
    assert rest == rest[..q] + rest[q..];
  }

  lemma AllocNext<T>(sizes: seq<nat>, n: nat, binds: seq<Bind<T>>, i: nat, r: nat, b: Bind<T>)
    requires i < |sizes| && Sum(sizes[i..]) > 0
    requires |b.threads| == Share(r, sizes[i], Sum(sizes[i..])) < r
    requires Alloc(sizes, n) == Lens(binds) + Alloc(sizes[i..], r)
    ensures Alloc(sizes, n) == Lens(binds + [b]) + Alloc(sizes[i + 1..], r - |b.threads|)
    ensures Sum(sizes[i + 1..]) == Sum(sizes[i..]) - sizes[i] > 0
  {
    AllocAt(sizes, i, r);
    LensSnoc(binds, b);
  }

  /** After the last group every thread is bound. */
  lemma DealEnd<T>(sizes: seq<nat>, threads: seq<T>, binds: seq<Bind<T>>,
                   rest: seq<T>, base: nat)
    requires Dealt(sizes, threads, binds, rest, |sizes|, base)
    ensures Flatten(binds) == threads && Alloc(sizes, |threads|) == Lens(binds)
  {
    assert sizes[|sizes|..] == [];
  }

  lemma LensSnoc<T>(binds: seq<Bind<T>>, b: Bind<T>)
    ensures Lens(binds + [b]) == Lens(binds) + [|b.threads|]
  {
  }

  /** `bindThreadsToGroups`: deals `threads` out over `groups` in order,
      each group taking the next slice, as many as `Alloc` gives it.
      Nothing is bound when there are no threads or no CPUs. */
  method BindThreadsToGroups<T>(groups: seq<CpuGroup>, threads: seq<T>)
    returns (binds: seq<Bind<T>>)
    ensures |threads| == 0 || Sum(Sizes(groups)) == 0 ==> binds == []
    ensures |threads| > 0 && Sum(Sizes(groups)) > 0 ==> Flatten(binds) == threads
    ensures |binds| <= |groups|
    ensures forall g :: 0 <= g < |binds| ==> binds[g].cpus == groups[g].cpus
    ensures Alloc(Sizes(groups), |threads|) == Lens(binds) + Zeros(|groups| - |binds|)
  {
    if |threads| == 0 {
      ZerosAlloc(Sizes(groups));
      return [];
    }
    var base := TotalCpus(groups);
    if base == 0 {
      return [];
    }
    binds := DealOut(groups, threads, base);
  }

  /** The dealing loop of `bindThreadsToGroups`, once `base` CPUs are known
      to be there. */
  method DealOut<T>(groups: seq<CpuGroup>, threads: seq<T>, base0: nat)
    returns (binds: seq<Bind<T>>)
    requires |threads| > 0 && base0 == Sum(Sizes(groups)) > 0
    ensures Flatten(binds) == threads && |binds| <= |groups|
    ensures forall g :: 0 <= g < |binds| ==> binds[g].cpus == groups[g].cpus
    ensures Alloc(Sizes(groups), |threads|) == Lens(binds) + Zeros(|groups| - |binds|)
  {
    ghost var sizes := Sizes(groups);
    DealStart(sizes, threads);
    binds := [];
    var base: nat := base0;
    var rest := threads;
    var i := 0;
    while i < |groups|
      invariant 0 <= i && Dealt(sizes, threads, binds, rest, i, base)
      invariant SameCpus(groups, binds)
    {
      var c := |groups[i].cpus|;
      assert c == sizes[i];
      var round := Share(|rest|, c, base);
      if round >= |rest| {
        DealLast(sizes, threads, binds, rest, i, base, groups[i].cpus);
        SameCpusSnoc(groups, binds, Bind(groups[i].cpus, rest));
        binds := binds + [Bind(groups[i].cpus, rest)];
        return;
      }
      DealNext(sizes, threads, binds, rest, i, base, groups[i].cpus);
      SameCpusSnoc(groups, binds, Bind(groups[i].cpus, rest[..round]));
      binds := binds + [Bind(groups[i].cpus, rest[..round])];
      rest := rest[round..];
      base := base - c;
      i := i + 1;
    }
    DealEnd(sizes, threads, binds, rest, base);
    assert Zeros(0) == [];
  }

  /** Bind `g` goes to the CPUs of group `g`. */
  ghost predicate SameCpus<T>(groups: seq<CpuGroup>, binds: seq<Bind<T>>)
  {
    |binds| <= |groups| && forall g :: 0 <= g < |binds| ==> binds[g].cpus == groups[g].cpus
  }

  lemma SameCpusSnoc<T>(groups: seq<CpuGroup>, binds: seq<Bind<T>>, b: Bind<T>)
    requires SameCpus(groups, binds) && |binds| < |groups| && b.cpus == groups[|binds|].cpus
    ensures SameCpus(groups, binds + [b])
  {
  }

  /** With no threads, every group's share is 0. */
  lemma ZerosAlloc(sizes: seq<nat>)
    ensures Alloc(sizes, 0) == Zeros(|sizes|)
  {
    if |sizes| > 0 && Sum(sizes) > 0 {
      assert [0] + Zeros(|sizes| - 1) == Zeros(|sizes|);
    }
  }

  // ---------------------------------------------------------------------
  // IONetBindPolicy

  /** The threads with at least one `io_getevents` call, in order. */
  function IoThreads(ts: seq<SysParse.ProcessFeature>): (r: seq<SysParse.ProcessFeature>)
    ensures forall t :: t in r <==> t in ts && t.sysCount.ioGetEvents > 0
  {
    if |ts| == 0 then []
    else IoThreads(ts[..|ts| - 1]) + (if ts[|ts| - 1].sysCount.ioGetEvents > 0 then [ts[|ts| - 1]] else [])
  }

  /** The threads with at least one network access, in order. */
  function NetThreads(ts: seq<SysParse.ProcessFeature>): (r: seq<SysParse.ProcessFeature>)
    ensures forall t :: t in r <==> t in ts && t.sysCount.netAccess > 0
  {
    if |ts| == 0 then []
    else NetThreads(ts[..|ts| - 1]) + (if ts[|ts| - 1].sysCount.netAccess > 0 then [ts[|ts| - 1]] else [])
  }

  /** `IONetBindPolicy`: IO threads are dealt over the IO groups, then
      network threads over the network groups; a thread doing both is
      bound twice (the later binding wins), groups with other flags are
      ignored. */
  method IoNetBindPolicy(party: CpuPartition, threads: seq<SysParse.ProcessFeature>)
    returns (ioBinds: seq<Bind<SysParse.ProcessFeature>>, netBinds: seq<Bind<SysParse.ProcessFeature>>)
    ensures forall b :: b in ioBinds ==> CpuGroup(IoAccess, b.cpus) in party.groups
    ensures forall b :: b in netBinds ==> CpuGroup(NetAccess, b.cpus) in party.groups
    ensures Sum(Sizes(GroupsWithFlag(party.groups, IoAccess))) > 0 ==> Flatten(ioBinds) == IoThreads(threads)
    ensures Sum(Sizes(GroupsWithFlag(party.groups, NetAccess))) > 0 ==> Flatten(netBinds) == NetThreads(threads)
    ensures Sum(Sizes(GroupsWithFlag(party.groups, IoAccess))) == 0 ==> ioBinds == []
    ensures Sum(Sizes(GroupsWithFlag(party.groups, NetAccess))) == 0 ==> netBinds == []
  {
    var ioCpus := GroupsWithFlag(party.groups, IoAccess);
    var netCpus := GroupsWithFlag(party.groups, NetAccess);
    ioBinds := BindThreadsToGroups(ioCpus, IoThreads(threads));
    netBinds := BindThreadsToGroups(netCpus, NetThreads(threads));
    forall b | b in ioBinds ensures CpuGroup(IoAccess, b.cpus) in party.groups {
      var g :| 0 <= g < |ioBinds| && ioBinds[g] == b;
      assert ioCpus[g] in ioCpus;
    }
    forall b | b in netBinds ensures CpuGroup(NetAccess, b.cpus) in party.groups {
      var g :| 0 <= g < |netBinds| && netBinds[g] == b;
      assert netCpus[g] in netCpus;
    }
  }
}

=== FILE: policy.dfy ===
/** The binding policy of `common/policy/policy.go`: which threads are bound
    to which topology node and in which group, the thresholds that decide
    whether a group moves to a lighter node, and the NUMA node chosen from
    the threads' page faults.  The outcome of `sched.SetAffinity` and the
    contents of the files read on the way are parameters; a Go nil
    dereference is `None`. */
module Policy {
  import opened Wrappers
  import opened GoStrings
  import opened Topology
  import CpuMask
  import SysLoad
  import MemTopo

  // ---------------------------------------------------------------------
  // Thresholds

  const CpuGapPct: nat := 30
  const ToPercentage: nat := 100

  /** `cpuGap`: 30% of one CPU on the load scale (one CPU is `1 << 10`),
      rounded down. */
  function CpuGap(): (g: int)
    ensures g * ToPercentage <= CpuGapPct * SysLoad.Scale < (g + 1) * ToPercentage
    ensures g == 307
  {
    GoDiv(CpuGapPct * SysLoad.Scale, ToPercentage)
  }

  /** `nodeBalanceGap`: the gap for every CPU of the node's mask. */
  function NodeBalanceGap(t: Tree, n: int): (gap: int)
    requires 0 <= n < |t.nodes|
    ensures gap == CpuGap() * |CpuMask.Cpus(t.nodes[n].mask)|
  {
    MaskWeightCounts(t.nodes[n].mask);
    MaskWeight(t.nodes[n].mask) * CpuGap()
  }

  /** `shouldBalanceBetweenNode`: the source's load beats the
      destination's by more than the gap of every CPU of its mask. */
  predicate ShouldBalanceBetweenNode(t: Tree, src: int, dst: int)
    requires |t.info| == |t.nodes| && 0 <= src < |t.nodes| && 0 <= dst < |t.nodes|
    ensures ShouldBalanceBetweenNode(t, src, dst) <==>
      t.info[src].load - t.info[dst].load > CpuGap() * |CpuMask.Cpus(t.nodes[src].mask)|
  {
    t.info[src].load - t.info[dst].load > NodeBalanceGap(t, src)
  }

  /** Balancing is never worth it both ways: the gap is never negative. */
  lemma BalanceOneWay(t: Tree, src: int, dst: int)
    requires |t.info| == |t.nodes| && 0 <= src < |t.nodes| && 0 <= dst < |t.nodes|
    ensures ShouldBalanceBetweenNode(t, src, dst) ==> !ShouldBalanceBetweenNode(t, dst, src)
  {
  }

  /** `groupWeight`: the summed load of a group's tasks (a task no longer
      monitored counts zero).  Go sums into a `float64`; the sum here is
      exact. */
  function GroupWeight(sys: SysLoad.SystemLoad, tids: seq<Uint64>): (w: int)
    ensures (forall k, i :: 0 <= k < |tids| && 0 <= i < |sys.tasksLoad| ==> sys.tasksLoad[i].id != tids[k]) ==> w == 0
    decreases |tids|
  {
    if |tids| == 0 then 0
    else GroupWeight(sys, tids[..|tids| - 1]) + SysLoad.GetTaskLoad(sys, tids[|tids| - 1])
  }

  /** The weight of two lists together is the sum of their weights. */
  lemma {:induction false} GroupWeightAppend(sys: SysLoad.SystemLoad, a: seq<Uint64>, b: seq<Uint64>)
    ensures GroupWeight(sys, a + b) == GroupWeight(sys, a) + GroupWeight(sys, b)
    decreases |b|
  {
    if |b| > 0 {
      var b' := b[..|b| - 1];
      assert (a + b)[..|a + b| - 1] == a + b';
      GroupWeightAppend(sys, a, b');
    } else {
      assert a + b == a;
    }
  }

  // ---------------------------------------------------------------------
  // Bookkeeping state

  /** `bindTaskInfo`: the task's group (by name), the node it is bound to
      (`newBindNode`) and whether it sits on the retry list (`retryEle`). */
  datatype Task = Task(group: string, node: int, retry: bool)

  /** `bindGroupInfo`: its NUMA node, the node its tasks are placed under,
      its name and its tasks in attach order. */
  datatype Group = Group(numaNode: int, bindNode: int, name: string, tasks: seq<Uint64>)

  /** The package switches `cclAwareOn` and `coarseGrain`. */
  datatype Switches = Switches(cclAware: bool, coarseGrain: bool)

  /** The package state: the bind counts and loads of the topology's nodes
      (indexed like the tree's nodes, whose shape never changes once built),
      `bindTaskMap`, `bindGroupMap`, `retryTasks` (as the tids of its
      entries) and `sysLoad`. */
  datatype State = State(info: seq<LoadInfo>, tasks: map<Uint64, Task>, groups: map<string, Group>,
                         retry: seq<Uint64>, sys: SysLoad.SystemLoad)

  predicate Distinct<T(==)>(s: seq<T>)
  {
    forall i, j :: 0 <= i < j < |s| ==> s[i] != s[j]
  }

  /** Every bound task points at a node and at a live group that lists it,
      a task flagged for retry is on the retry list, and every group is
      keyed by its own name and lists bound tasks of its own, once each. */
  ghost predicate WellFormed(s: State)
  {
    TasksPlaced(s) && GroupsListed(s)
  }

  ghost predicate TasksPlaced(s: State)
  {
    forall tid :: tid in s.tasks ==>
      0 <= s.tasks[tid].node < |s.info| && s.tasks[tid].group in s.groups &&
      tid in s.groups[s.tasks[tid].group].tasks && (s.tasks[tid].retry ==> tid in s.retry)
  }

  ghost predicate GroupsListed(s: State)
  {
    forall name :: name in s.groups ==>
      s.groups[name].name == name && 0 <= s.groups[name].bindNode < |s.info| &&
      Distinct(s.groups[name].tasks) &&
      forall tid :: tid in s.groups[name].tasks ==> tid in s.tasks && s.tasks[tid].group == name
  }

  /** Changing one task's node and retry flag, within its group, keeps the
      bookkeeping well formed. */
  lemma RetaskWellFormed(s: State, r: State, tid: Uint64)
    requires WellFormed(s) && tid in s.tasks && tid in r.tasks
    requires r.groups == s.groups && |r.info| == |s.info| && r.tasks == s.tasks[tid := r.tasks[tid]]
    requires r.tasks[tid].group == s.tasks[tid].group && 0 <= r.tasks[tid].node < |r.info|
    requires r.tasks[tid].retry ==> tid in r.retry
    requires forall x :: x in s.retry ==> x in r.retry
    ensures WellFormed(r)
  {
  }

  /** The bind counts summed over all nodes. */
  function TotalBinds(info: seq<LoadInfo>): int
    decreases |info|
  {
    if |info| == 0 then 0 else TotalBinds(info[..|info| - 1]) + info[|info| - 1].bindCount
  }

  lemma {:induction false} TotalBindsUpdate(info: seq<LoadInfo>, i: int, v: LoadInfo)
    requires 0 <= i < |info|
    ensures TotalBinds(info[i := v]) == TotalBinds(info) - info[i].bindCount + v.bindCount
    decreases |info|
  {
    if i < |info| - 1 {
      assert info[i := v][..|info| - 1] == info[..|info| - 1][i := v];
      TotalBindsUpdate(info[..|info| - 1], i, v);
    } else {
      assert info[i := v][..|info| - 1] == info[..|info| - 1];
    }
  }

  lemma {:induction false} TotalBindsSame(a: seq<LoadInfo>, b: seq<LoadInfo>)
    requires |a| == |b| && forall n :: 0 <= n < |a| ==> a[n].bindCount == b[n].bindCount
    ensures TotalBinds(a) == TotalBinds(b)
    decreases |a|
  {
    if |a| > 0 {
      TotalBindsSame(a[..|a| - 1], b[..|b| - 1]);
    }
  }

  /** `AddBind` and `SubBind` move the total by one. */
  lemma BindMovesTotal(info: seq<LoadInfo>, i: int)
    requires 0 <= i < |info|
    ensures TotalBinds(AddBind(info, i)) == TotalBinds(info) + 1
    ensures TotalBinds(SubBind(info, i)) == TotalBinds(info) - 1
  {
    TotalBindsUpdate(info, i, info[i].(bindCount := info[i].bindCount + 1));
    TotalBindsUpdate(info, i, info[i].(bindCount := info[i].bindCount - 1));
  }

  /** Load updates leave every bind count alone. */
  lemma AddLoadKeepsBinds(nodes: seq<Node>, info: seq<LoadInfo>, i: int, x: int)
    requires Shaped(nodes) && |info| == |nodes| && 0 <= i < |nodes| && AddLoad(nodes, info, i, x).Some?
    ensures |AddLoad(nodes, info, i, x).value| == |info|
    ensures forall n :: 0 <= n < |info| ==> AddLoad(nodes, info, i, x).value[n].bindCount == info[n].bindCount
  {
    if nodes[i].topotype == Cpu {
      AddLoadCpu(nodes, info, i, x);
    } else {
      forall n | 0 <= n < |info|
        ensures AddLoad(nodes, info, i, x).value[n].bindCount == info[n].bindCount
      {
        AddLoadShares(nodes, info, i, x, n);
      }
    }
  }

  // ---------------------------------------------------------------------
  // List helpers (`list.List.Remove` of a known element)

  /** The list without the first occurrence of `x`. */
  function Erase(s: seq<Uint64>, x: Uint64): (r: seq<Uint64>)
    ensures x !in s ==> r == s
    ensures x in s ==> |r| == |s| - 1 && multiset(r) == multiset(s) - multiset{x}
    decreases |s|
  {
    if |s| == 0 then []
    else
      assert s == [s[0]] + s[1..];
      if s[0] == x then s[1..]
      else [s[0]] + Erase(s[1..], x)
  }

  /** The list without the last occurrence of `x`. */
  function EraseLast(s: seq<Uint64>, x: Uint64): (r: seq<Uint64>)
    ensures x !in s ==> r == s
    ensures x in s ==> |r| == |s| - 1 && multiset(r) == multiset(s) - multiset{x}
    decreases |s|
  {
    if |s| == 0 then []
    else
      assert s == s[..|s| - 1] + [s[|s| - 1]];
      if s[|s| - 1] == x then s[..|s| - 1]
      else EraseLast(s[..|s| - 1], x) + [s[|s| - 1]]
  }

  lemma {:induction false} EraseAppended(s: seq<Uint64>, x: Uint64)
    requires x !in s
    ensures Erase(s + [x], x) == s
    decreases |s|
  {
    if |s| > 0 {
      assert (s + [x])[1..] == s[1..] + [x];
      EraseAppended(s[1..], x);
    }
  }

  /** On a list holding each element once, erasing `x` keeps exactly the
      other elements, still once each. */
  lemma {:induction false} EraseDistinct(s: seq<Uint64>, x: Uint64)
    requires Distinct(s)
    ensures Distinct(Erase(s, x))
    ensures forall y :: y in Erase(s, x) <==> y in s && y != x
    decreases |s|
  {
    if |s| > 0 {
      assert Distinct(s[1..]);
      if s[0] != x {
        EraseDistinct(s[1..], x);
        assert s[0] !in s[1..];
        var r := Erase(s, x);
        assert r == [s[0]] + Erase(s[1..], x);
        forall i, j | 0 <= i < j < |r|
          ensures r[i] != r[j]
        {
          if i > 0 {
            assert r[i] == Erase(s[1..], x)[i - 1] && r[j] == Erase(s[1..], x)[j - 1];
          } else {
            assert r[j] in Erase(s[1..], x);
          }
        }
      }
    }
  }

  // ---------------------------------------------------------------------
  // Groups

  /** `makeBindGroupByNumaID` without the `AddBind`: the group of NUMA node
      `numaId`, placed on the NUMA node itself or, with cluster awareness,
      on its least loaded cluster.  An unknown id, or no cluster, is a nil
      dereference. */
  function MakeBindGroup(t: Tree, info: seq<LoadInfo>, numaId: int, sw: Switches): (r: Option<Group>)
    requires Valid(t) && |info| == |t.nodes|
    ensures r.Some? <==> (numaId in t.numaMap &&
      (sw.cclAware ==> SelectLighterLoadNode(t.nodes, info, t.numaMap[numaId], Cluster).Some?))
    ensures r.Some? ==> (r.value.numaNode == t.numaMap[numaId] && r.value.tasks == [] &&
      0 <= r.value.bindNode < |t.nodes| && IsAncestor(t.nodes, r.value.numaNode, r.value.bindNode) &&
      (sw.cclAware ==> t.nodes[r.value.bindNode].topotype == Cluster) &&
      (!sw.cclAware ==> r.value.bindNode == r.value.numaNode))
    ensures r.Some? && sw.cclAware ==>
      Some(r.value.bindNode) == SelectLighterLoadNode(t.nodes, info, t.numaMap[numaId], Cluster)
  {
    match GetNumaNodeById(t, numaId)
    case None => None
    case Some(numa) =>
      if !sw.cclAware then Some(Group(numa, numa, "", []))
      else
        match SelectLighterLoadNode(t.nodes, info, numa, Cluster)
        case None => None
        case Some(c) => Some(Group(numa, c, "", []))
  }

  /** The first half of `bindTasksToNuma`: the group called `name`, made
      (and its node's bind count raised) when there is none yet. */
  function EnsureGroup(t: Tree, s: State, name: string, numaId: int, sw: Switches): (r: Option<State>)
    requires Valid(t) && |s.info| == |t.nodes| && WellFormed(s)
    ensures name in s.groups ==> r == Some(s)
    ensures r.None? <==> name !in s.groups && MakeBindGroup(t, s.info, numaId, sw).None?
    ensures r.Some? ==> (WellFormed(r.value) && name in r.value.groups &&
      r.value.tasks == s.tasks && r.value.retry == s.retry && r.value.sys == s.sys &&
      |r.value.info| == |s.info|)
    ensures r.Some? && name !in s.groups ==>
      var g := r.value.groups[name];
      r.value.groups == s.groups[name := g] && g.tasks == [] && g.name == name &&
      r.value.info == AddBind(s.info, g.bindNode) &&
      TotalBinds(r.value.info) == TotalBinds(s.info) + 1
  {
    if name in s.groups then Some(s)
    else
      match MakeBindGroup(t, s.info, numaId, sw)
      case None => None
      case Some(g) =>
        BindMovesTotal(s.info, g.bindNode);
        NewGroupWellFormed(s, name, g);
        Some(s.(info := AddBind(s.info, g.bindNode), groups := s.groups[name := g.(name := name)]))
  }

  /** A new, empty group on a node of the tree keeps the bookkeeping well
      formed. */
  lemma NewGroupWellFormed(s: State, name: string, g: Group)
    requires WellFormed(s) && name !in s.groups && g.tasks == [] && 0 <= g.bindNode < |s.info|
    ensures WellFormed(s.(info := AddBind(s.info, g.bindNode), groups := s.groups[name := g.(name := name)]))
  {
    var r := s.(info := AddBind(s.info, g.bindNode), groups := s.groups[name := g.(name := name)]);
    assert |r.info| == |s.info|;
    assert forall tid :: tid in s.tasks ==> s.tasks[tid].group != name;
  }

  /** `detachTaskFromGroup`: the task leaves the group's list, and a group
      left empty leaves the map. */
  function DetachTaskFromGroup(groups: map<string, Group>, tid: Uint64, name: string): (r: map<string, Group>)
    requires name in groups
    ensures r.Keys <= groups.Keys
    ensures forall other :: other in groups && other != name ==> other in r && r[other] == groups[other]
    ensures name in r <==> |Erase(groups[name].tasks, tid)| > 0
    ensures name in r ==> r[name] == groups[name].(tasks := Erase(groups[name].tasks, tid))
  {
    var rest := Erase(groups[name].tasks, tid);
    if |rest| == 0 then groups - {name} else groups[name := groups[name].(tasks := rest)]
  }

  /** The group goes exactly when the task was its last one. */
  lemma LastTaskRemovesGroup(groups: map<string, Group>, tid: Uint64, name: string)
    requires name in groups && tid in groups[name].tasks
    ensures name !in DetachTaskFromGroup(groups, tid, name) <==> groups[name].tasks == [tid]
  {
    var ts := groups[name].tasks;
    if |ts| == 1 {
      assert ts[0] == tid;
      assert ts == [tid];
    }
  }

  // ---------------------------------------------------------------------
  // Binding and unbinding

  /** The second half of `bindTasksToNuma` once the node is known:
      `attachTaskToGroup`, `bindTaskToTopoNode` (a failed `SetAffinity`
      puts the task on the retry list; the node's bind count rises either
      way), the `bindTaskMap` entry and `sysLoad.AddTask`. */
  function BindTo(s: State, tid: Uint64, name: string, node: int, affinityOk: bool, reading: Option<SysLoad.TaskReading>): (r: State)
    requires name in s.groups && 0 <= node < |s.info|
    ensures r.tasks == s.tasks[tid := Task(name, node, !affinityOk)]
    ensures r.groups == s.groups[name := s.groups[name].(tasks := s.groups[name].tasks + [tid])]
    ensures r.retry == if affinityOk then s.retry else s.retry + [tid]
    ensures r.sys == SysLoad.AddTask(s.sys, tid, reading)
    ensures |r.info| == |s.info| && r.info[node].bindCount == s.info[node].bindCount + 1
    ensures forall n :: 0 <= n < |s.info| && n != node ==> r.info[n] == s.info[n]
    ensures TotalBinds(r.info) == TotalBinds(s.info) + 1
  {
    var g := s.groups[name];
    BindMovesTotal(s.info, node);
    State(AddBind(s.info, node),
          s.tasks[tid := Task(name, node, !affinityOk)],
          s.groups[name := g.(tasks := g.tasks + [tid])],
          if affinityOk then s.retry else s.retry + [tid],
          SysLoad.AddTask(s.sys, tid, reading))
  }

  lemma BindToWellFormed(s: State, tid: Uint64, name: string, node: int, affinityOk: bool, reading: Option<SysLoad.TaskReading>)
    requires WellFormed(s) && name in s.groups && tid !in s.tasks && 0 <= node < |s.info|
    ensures WellFormed(BindTo(s, tid, name, node, affinityOk, reading))
  {
    var r := BindTo(s, tid, name, node, affinityOk, reading);
    assert tid !in s.groups[name].tasks;
    assert Distinct(r.groups[name].tasks);
    forall other | other in r.groups
      ensures forall x :: x in r.groups[other].tasks ==> x in r.tasks && r.tasks[x].group == other
    {
      if other != name {
        assert r.groups[other] == s.groups[other];
      }
    }
  }

  /** `bindTasksToNuma`: make the group if needed; an already bound thread
      is left as it is; otherwise the thread is bound to the CPU below the
      group's node with the fewest bound threads (to the group's node
      itself in coarse grain) and monitored.  No such CPU is a nil
      dereference. */
  function BindTasksToNuma(t: Tree, s: State, tid: Uint64, name: string, numaId: int, sw: Switches,
                           affinityOk: bool, reading: Option<SysLoad.TaskReading>): (r: Option<State>)
    requires Valid(t) && |s.info| == |t.nodes| && WellFormed(s)
    ensures r.Some? ==> EnsureGroup(t, s, name, numaId, sw).Some?
    ensures r.None? ==> (EnsureGroup(t, s, name, numaId, sw).None? || (tid !in s.tasks && !sw.coarseGrain))
    ensures r.Some? ==> (WellFormed(r.value) && |r.value.info| == |s.info| &&
      name in r.value.groups && tid in r.value.tasks)
    ensures r.Some? && tid in s.tasks ==> r == EnsureGroup(t, s, name, numaId, sw)
    ensures r.Some? && tid !in s.tasks ==> BoundFresh(t, s, tid, name, numaId, sw, affinityOk, reading, r.value)
  {
    match EnsureGroup(t, s, name, numaId, sw)
    case None => None
    case Some(mid) =>
      if tid in mid.tasks then Some(mid)
      else
        var g := mid.groups[name];
        var node := if sw.coarseGrain then Some(g.bindNode)
                    else SelectLighterBindNode(t.nodes, mid.info, g.bindNode, Cpu);
        match node
        case None => None
        case Some(n) =>
          BindToWellFormed(mid, tid, name, n, affinityOk, reading);
          Some(BindTo(mid, tid, name, n, affinityOk, reading))
  }

  /** What binding a thread that was not bound does: it is recorded in
      group `name` on a node below the group's node (the CPU with the
      fewest bound threads, or the group's node itself in coarse grain)
      whose bind count rises by one, and it is monitored. */
  ghost predicate BoundFresh(t: Tree, s: State, tid: Uint64, name: string, numaId: int, sw: Switches,
                             affinityOk: bool, reading: Option<SysLoad.TaskReading>, r: State)
    requires Valid(t) && |s.info| == |t.nodes| && WellFormed(s)
  {
    var e := EnsureGroup(t, s, name, numaId, sw);
    e.Some? && tid in r.tasks && |r.info| == |e.value.info| && name in e.value.groups &&
    var mid := e.value;
    var node := r.tasks[tid].node;
    var home := mid.groups[name].bindNode;
    0 <= node < |t.nodes| && 0 <= home < |t.nodes| &&
    r.tasks == s.tasks[tid := Task(name, node, !affinityOk)] &&
    (sw.coarseGrain ==> node == home) &&
    (!sw.coarseGrain ==> t.nodes[node].topotype == Cpu && IsAncestor(t.nodes, home, node) &&
                         Some(node) == SelectLighterBindNode(t.nodes, mid.info, home, Cpu)) &&
    r.groups == mid.groups[name := mid.groups[name].(tasks := mid.groups[name].tasks + [tid])] &&
    r.retry == (if affinityOk then s.retry else s.retry + [tid]) &&
    r.info[node].bindCount == mid.info[node].bindCount + 1 &&
    (forall n :: 0 <= n < |r.info| && n != node ==> r.info[n] == mid.info[n]) &&
    TotalBinds(r.info) == TotalBinds(mid.info) + 1 &&
    r.sys == SysLoad.AddTask(s.sys, tid, reading)
  }

  /** `UnbindTaskPolicy`: an unknown tid changes nothing; a bound one
      leaves its group, its node's bind count, the retry list (its latest
      entry), `bindTaskMap` and the monitored tasks. */
  function UnbindTaskPolicy(s: State, tid: Uint64): (r: State)
    requires WellFormed(s)
    ensures tid !in s.tasks ==> r == s
    ensures tid in s.tasks ==> Unbound(s, tid, r)
  {
    if tid !in s.tasks then s
    else
      var task := s.tasks[tid];
      BindMovesTotal(s.info, task.node);
      State(SubBind(s.info, task.node),
            s.tasks - {tid},
            DetachTaskFromGroup(s.groups, tid, task.group),
            if task.retry then EraseLast(s.retry, tid) else s.retry,
            SysLoad.RemoveTask(s.sys, tid))
  }

  /** What unbinding the bound thread `tid` does. */
  ghost predicate Unbound(s: State, tid: Uint64, r: State)
    requires tid in s.tasks && 0 <= s.tasks[tid].node < |s.info| && s.tasks[tid].group in s.groups
  {
    var task := s.tasks[tid];
    r.tasks == s.tasks - {tid} &&
    r.groups == DetachTaskFromGroup(s.groups, tid, task.group) &&
    r.retry == (if task.retry then EraseLast(s.retry, tid) else s.retry) &&
    r.sys == SysLoad.RemoveTask(s.sys, tid) &&
    |r.info| == |s.info| &&
    r.info[task.node].bindCount == s.info[task.node].bindCount - 1 &&
    (forall n :: 0 <= n < |s.info| && n != task.node ==> r.info[n] == s.info[n]) &&
    TotalBinds(r.info) == TotalBinds(s.info) - 1
  }

  /** Unbinding keeps the bookkeeping well formed, and no group lists the
      thread afterwards. */
  lemma UnbindWellFormed(s: State, tid: Uint64)
    requires WellFormed(s)
    ensures WellFormed(UnbindTaskPolicy(s, tid))
    ensures forall name :: name in UnbindTaskPolicy(s, tid).groups ==> tid !in UnbindTaskPolicy(s, tid).groups[name].tasks
  {
    if tid in s.tasks {
      var r := UnbindTaskPolicy(s, tid);
      UnbindKeepsGroups(s, tid, r);
      UnbindKeepsTasks(s, tid, r);
    }
  }

  lemma UnbindKeepsGroups(s: State, tid: Uint64, r: State)
    requires WellFormed(s) && tid in s.tasks && Unbound(s, tid, r)
    ensures GroupsListed(r)
    ensures forall name :: name in r.groups ==> tid !in r.groups[name].tasks
  {
    forall name | name in r.groups
      ensures r.groups[name].name == name && 0 <= r.groups[name].bindNode < |r.info|
      ensures Distinct(r.groups[name].tasks) && tid !in r.groups[name].tasks
      ensures forall x :: x in r.groups[name].tasks ==> x in r.tasks && r.tasks[x].group == name
    {
      UnbindKeepsGroup(s, tid, r, name);
    }
  }

  /** One group after the unbind: the one that held the thread has lost
      it, the others are as they were. */
  lemma UnbindKeepsGroup(s: State, tid: Uint64, r: State, name: string)
    requires WellFormed(s) && tid in s.tasks && Unbound(s, tid, r) && name in r.groups
    ensures r.groups[name].name == name && 0 <= r.groups[name].bindNode < |r.info|
    ensures Distinct(r.groups[name].tasks) && tid !in r.groups[name].tasks
    ensures forall x :: x in r.groups[name].tasks ==> x in r.tasks && r.tasks[x].group == name
  {
    var task := s.tasks[tid];
    if name != task.group {
      assert r.groups[name] == s.groups[name];
      assert tid !in s.groups[name].tasks;
    } else {
      EraseDistinct(s.groups[task.group].tasks, tid);
    }
  }

  lemma UnbindKeepsTasks(s: State, tid: Uint64, r: State)
    requires WellFormed(s) && tid in s.tasks && Unbound(s, tid, r)
    ensures TasksPlaced(r)
  {
    var task := s.tasks[tid];
    forall other | other in r.tasks
      ensures r.tasks[other].group in r.groups && other in r.groups[r.tasks[other].group].tasks
      ensures r.tasks[other].retry ==> other in r.retry
    {
      var g := s.tasks[other].group;
      if g == task.group {
        EraseDistinct(s.groups[task.group].tasks, tid);
        assert other in Erase(s.groups[g].tasks, tid);
      }
      if s.tasks[other].retry && task.retry {
        assert multiset(r.retry)[other] == multiset(s.retry)[other];
      }
    }
  }

  /** Binding a fresh thread into a group that already has tasks, then
      unbinding it, gives back the state it started from. */
  lemma BindThenUnbind(s: State, tid: Uint64, name: string, node: int, affinityOk: bool, reading: Option<SysLoad.TaskReading>)
    requires WellFormed(s) && name in s.groups && |s.groups[name].tasks| > 0 && tid !in s.tasks
    requires 0 <= node < |s.info|
    requires forall i :: 0 <= i < |s.sys.tasksLoad| ==> s.sys.tasksLoad[i].id != tid
    ensures WellFormed(BindTo(s, tid, name, node, affinityOk, reading))
    ensures UnbindTaskPolicy(BindTo(s, tid, name, node, affinityOk, reading), tid) == s
  {
    BindToWellFormed(s, tid, name, node, affinityOk, reading);
    var b := BindTo(s, tid, name, node, affinityOk, reading);
    UnbindParts(b, tid);
    UnbindRestoresGroups(s, tid, name);
    RestoreTasks(s.tasks, tid, Task(name, node, !affinityOk));
    if !affinityOk {
      assert EraseLast(s.retry + [tid], tid) == s.retry;
    }
    SysLoad.AddThenGetRemove(s.sys, tid, reading);
    BindCounts(s.info, node);
  }

  /** `UnbindTaskPolicy` on a bound thread, field by field. */
  lemma UnbindParts(s: State, tid: Uint64)
    requires WellFormed(s) && tid in s.tasks
    ensures UnbindTaskPolicy(s, tid) ==
      State(SubBind(s.info, s.tasks[tid].node), s.tasks - {tid},
            DetachTaskFromGroup(s.groups, tid, s.tasks[tid].group),
            if s.tasks[tid].retry then EraseLast(s.retry, tid) else s.retry,
            SysLoad.RemoveTask(s.sys, tid))
  {
  }

  lemma RestoreTasks(m: map<Uint64, Task>, tid: Uint64, v: Task)
    requires tid !in m
    ensures m[tid := v] - {tid} == m
  {
  }

  lemma UnbindRestoresGroups(s: State, tid: Uint64, name: string)
    requires WellFormed(s) && name in s.groups && |s.groups[name].tasks| > 0 && tid !in s.tasks
    ensures DetachTaskFromGroup(s.groups[name := s.groups[name].(tasks := s.groups[name].tasks + [tid])], tid, name) == s.groups
  {
    var g := s.groups[name];
    assert tid !in g.tasks;
    EraseAppended(g.tasks, tid);
  }

  // ---------------------------------------------------------------------
  // Migration

  /** What `migrateTaskToTopoNode` does to the counters: one bind and the
      task's load `x` leave `from` and arrive at `to`.  An empty mask on
      a wider node is Go's division by zero. */
  function Move(nodes: seq<Node>, info: seq<LoadInfo>, from: int, to: int, x: int): (r: Option<seq<LoadInfo>>)
    requires Shaped(nodes) && |info| == |nodes| && 0 <= from < |nodes| && 0 <= to < |nodes|
    ensures r.Some? ==> |r.value| == |info|
    ensures r.None? <==>
              (nodes[from].topotype != Cpu && |CpuMask.Cpus(nodes[from].mask)| == 0) ||
              (nodes[to].topotype != Cpu && |CpuMask.Cpus(nodes[to].mask)| == 0)
  {
    MaskWeightCounts(nodes[from].mask);
    MaskWeightCounts(nodes[to].mask);
    match SubLoad(nodes, SubBind(info, from), from, x)
    case None => None
    case Some(left) =>
      AddLoadKeepsBinds(nodes, SubBind(info, from), from, -x);
      AddLoad(nodes, AddBind(left, to), to, x)
  }

  /** A move takes one bind off `from` and puts one on `to`. */
  lemma MoveBinds(nodes: seq<Node>, info: seq<LoadInfo>, from: int, to: int, x: int)
    requires Shaped(nodes) && |info| == |nodes| && 0 <= from < |nodes| && 0 <= to < |nodes|
    requires Move(nodes, info, from, to, x).Some?
    ensures forall n :: 0 <= n < |info| ==>
      Move(nodes, info, from, to, x).value[n].bindCount ==
        info[n].bindCount - (if n == from then 1 else 0) + (if n == to then 1 else 0)
  {
    var unbound := SubBind(info, from);
    var left := SubLoad(nodes, unbound, from, x).value;
    AddLoadKeepsBinds(nodes, unbound, from, -x);
    AddLoadKeepsBinds(nodes, AddBind(left, to), to, x);
  }

  /** A move keeps the total of the bind counts. */
  lemma MoveKeepsTotal(nodes: seq<Node>, info: seq<LoadInfo>, from: int, to: int, x: int)
    requires Shaped(nodes) && |info| == |nodes| && 0 <= from < |nodes| && 0 <= to < |nodes|
    requires Move(nodes, info, from, to, x).Some?
    ensures TotalBinds(Move(nodes, info, from, to, x).value) == TotalBinds(info)
  {
    MoveBinds(nodes, info, from, to, x);
    TotalBindsMoved(info, Move(nodes, info, from, to, x).value, from, to);
  }

  /** Counts that lost one at `from` and gained one at `to` have the same
      total. */
  lemma TotalBindsMoved(info: seq<LoadInfo>, r: seq<LoadInfo>, from: int, to: int)
    requires |r| == |info| && 0 <= from < |info| && 0 <= to < |info|
    requires forall n :: 0 <= n < |info| ==>
      r[n].bindCount == info[n].bindCount - (if n == from then 1 else 0) + (if n == to then 1 else 0)
    ensures TotalBinds(r) == TotalBinds(info)
  {
    var moved := AddBind(SubBind(info, from), to);
    TotalBindsSame(r, moved);
    BindMovesTotal(info, from);
    BindMovesTotal(SubBind(info, from), to);
  }

  /** `migrateTaskToTopoNode`: the task's bind and monitored load move to
      `dst`; a failed `SetAffinity` puts it on the retry list. */
  function MigrateTask(t: Tree, s: State, tid: Uint64, dst: int, affinityOk: bool): (r: Option<State>)
    requires Shaped(t.nodes) && |s.info| == |t.nodes| && WellFormed(s) && tid in s.tasks && 0 <= dst < |t.nodes|
    ensures r.Some? ==> r.value.groups == s.groups && r.value.sys == s.sys && |r.value.info| == |s.info|
    ensures r.Some? ==> r.value.tasks == s.tasks[tid := s.tasks[tid].(node := dst, retry := s.tasks[tid].retry || !affinityOk)]
    ensures r.Some? ==> r.value.retry == if affinityOk then s.retry else s.retry + [tid]
    ensures r.Some? <==> Move(t.nodes, s.info, s.tasks[tid].node, dst, SysLoad.GetTaskLoad(s.sys, tid)).Some?
    ensures r.Some? ==> r.value.info == Move(t.nodes, s.info, s.tasks[tid].node, dst, SysLoad.GetTaskLoad(s.sys, tid)).value
  {
    var task := s.tasks[tid];
    match Move(t.nodes, s.info, task.node, dst, SysLoad.GetTaskLoad(s.sys, tid))
    case None => None
    case Some(info) =>
      Some(s.(info := info,
              tasks := s.tasks[tid := task.(node := dst, retry := task.retry || !affinityOk)],
              retry := if affinityOk then s.retry else s.retry + [tid]))
  }

  lemma MigrateTaskWellFormed(t: Tree, s: State, tid: Uint64, dst: int, affinityOk: bool)
    requires Shaped(t.nodes) && |s.info| == |t.nodes| && WellFormed(s) && tid in s.tasks && 0 <= dst < |t.nodes|
    requires MigrateTask(t, s, tid, dst, affinityOk).Some?
    ensures WellFormed(MigrateTask(t, s, tid, dst, affinityOk).value)
    ensures TotalBinds(MigrateTask(t, s, tid, dst, affinityOk).value.info) == TotalBinds(s.info)
  {
    var r := MigrateTask(t, s, tid, dst, affinityOk).value;
    RetaskWellFormed(s, r, tid);
    MoveKeepsTotal(t.nodes, s.info, s.tasks[tid].node, dst, SysLoad.GetTaskLoad(s.sys, tid));
  }

  /** One turn of `migrateGroup`'s loop: the task moves to the node of its
      own level below `dst` with the fewest bound threads; none is a nil
      dereference. */
  function MigrateStep(t: Tree, s: State, tid: Uint64, dst: int, affinityOk: bool): (r: Option<State>)
    requires Shaped(t.nodes) && |s.info| == |t.nodes| && WellFormed(s) && tid in s.tasks && 0 <= dst < |t.nodes|
    ensures r.Some? ==> WellFormed(r.value) && |r.value.info| == |s.info| && r.value.groups == s.groups
    ensures r.Some? ==> r.value.tasks.Keys == s.tasks.Keys
  {
    match SelectLighterBindNode(t.nodes, s.info, dst, t.nodes[s.tasks[tid].node].topotype)
    case None => None
    case Some(n) =>
      if MigrateTask(t, s, tid, n, affinityOk).Some? then
        MigrateTaskWellFormed(t, s, tid, n, affinityOk);
        MigrateTask(t, s, tid, n, affinityOk)
      else None
  }

  /** A turn moves only its own task, to the node below `dst` on the task's
      level with the fewest binds, and keeps the total of the bind counts. */
  lemma MigrateStepMoves(t: Tree, s: State, tid: Uint64, dst: int, affinityOk: bool)
    requires Shaped(t.nodes) && |s.info| == |t.nodes| && WellFormed(s) && tid in s.tasks && 0 <= dst < |t.nodes|
    requires MigrateStep(t, s, tid, dst, affinityOk).Some?
    ensures StepMoved(t, s, MigrateStep(t, s, tid, dst, affinityOk).value, tid, dst)
    ensures TotalBinds(MigrateStep(t, s, tid, dst, affinityOk).value.info) == TotalBinds(s.info)
    ensures Some(MigrateStep(t, s, tid, dst, affinityOk).value.tasks[tid].node) ==
            SelectLighterBindNode(t.nodes, s.info, dst, t.nodes[s.tasks[tid].node].topotype)
  {
    var n := SelectLighterBindNode(t.nodes, s.info, dst, t.nodes[s.tasks[tid].node].topotype).value;
    MigrateTaskWellFormed(t, s, tid, n, affinityOk);
  }

  /** Only task `tid` changed, and it now sits below `dst` on its level. */
  ghost predicate StepMoved(t: Tree, s: State, r: State, tid: Uint64, dst: int)
    requires Shaped(t.nodes) && tid in s.tasks && 0 <= s.tasks[tid].node < |t.nodes| && 0 <= dst < |t.nodes|
  {
    tid in r.tasks && r.tasks == s.tasks[tid := r.tasks[tid]] &&
    0 <= r.tasks[tid].node < |t.nodes| && IsAncestor(t.nodes, dst, r.tasks[tid].node) &&
    t.nodes[r.tasks[tid].node].topotype == t.nodes[s.tasks[tid].node].topotype
  }

  /** The task loop of `migrateGroup`, in list order. */
  function MigrateTasks(t: Tree, s: State, tids: seq<Uint64>, dst: int, oks: seq<bool>): (r: Option<State>)
    requires Shaped(t.nodes) && |s.info| == |t.nodes| && WellFormed(s) && 0 <= dst < |t.nodes| && |oks| == |tids|
    requires AllIn(tids, s)
    ensures r.Some? ==> WellFormed(r.value) && |r.value.info| == |s.info| && r.value.groups == s.groups
    ensures r.Some? ==> r.value.tasks.Keys == s.tasks.Keys
    decreases |tids|
  {
    if |tids| == 0 then Some(s)
    else
      match MigrateStep(t, s, tids[0], dst, oks[0])
      case None => None
      case Some(s1) =>
        AllInTail(tids, s, s1);
        MigrateTasks(t, s1, tids[1..], dst, oks[1..])
  }

  /** A non-empty loop is its first turn followed by the rest. */
  lemma MigrateTasksUnfold(t: Tree, s: State, tids: seq<Uint64>, dst: int, oks: seq<bool>)
    requires Shaped(t.nodes) && |s.info| == |t.nodes| && WellFormed(s) && 0 <= dst < |t.nodes| && |oks| == |tids|
    requires AllIn(tids, s)
    requires |tids| > 0 && MigrateTasks(t, s, tids, dst, oks).Some?
    ensures MigrateStep(t, s, tids[0], dst, oks[0]).Some?
    ensures AllIn(tids[1..], MigrateStep(t, s, tids[0], dst, oks[0]).value)
    ensures MigrateTasks(t, MigrateStep(t, s, tids[0], dst, oks[0]).value, tids[1..], dst, oks[1..])
              == MigrateTasks(t, s, tids, dst, oks)
  {
    AllInTail(tids, s, MigrateStep(t, s, tids[0], dst, oks[0]).value);
  }

  /** Every listed task is bound. */
  ghost predicate AllIn(tids: seq<Uint64>, s: State)
  {
    forall k :: 0 <= k < |tids| ==> tids[k] in s.tasks
  }

  lemma AllInTail(tids: seq<Uint64>, s: State, s1: State)
    requires AllIn(tids, s) && |tids| > 0 && s1.tasks.Keys == s.tasks.Keys
    ensures AllIn(tids[1..], s1)
  {
    assert forall k :: 0 <= k < |tids[1..]| ==> tids[1..][k] == tids[k + 1];
  }

  /** Every listed task is now bound below `dst`, on a node of the level
      it had, and every other task is where it was. */
  ghost predicate MovedBelow(t: Tree, s: State, tids: seq<Uint64>, dst: int, r: State)
    requires Shaped(t.nodes) && |s.info| == |t.nodes| && WellFormed(s) && 0 <= dst < |t.nodes|
  {
    (forall tid :: tid in tids ==>
      tid in s.tasks && tid in r.tasks && 0 <= r.tasks[tid].node < |t.nodes| &&
      IsAncestor(t.nodes, dst, r.tasks[tid].node) &&
      t.nodes[r.tasks[tid].node].topotype == t.nodes[s.tasks[tid].node].topotype) &&
    (forall tid :: tid in s.tasks && tid !in tids ==> tid in r.tasks && r.tasks[tid] == s.tasks[tid])
  }

  /** After the task loop every task of the list sits below `dst` on its
      old level and the other tasks have not moved. */
  lemma {:induction false} MigrateTasksMoves(t: Tree, s: State, tids: seq<Uint64>, dst: int, oks: seq<bool>)
    requires Shaped(t.nodes) && |s.info| == |t.nodes| && WellFormed(s) && 0 <= dst < |t.nodes| && |oks| == |tids|
    requires AllIn(tids, s)
    requires MigrateTasks(t, s, tids, dst, oks).Some?
    ensures MovedBelow(t, s, tids, dst, MigrateTasks(t, s, tids, dst, oks).value)
    decreases |tids|
  {
    if |tids| > 0 {
      MigrateTasksUnfold(t, s, tids, dst, oks);
      var s1 := MigrateStep(t, s, tids[0], dst, oks[0]).value;
      MigrateStepMoves(t, s, tids[0], dst, oks[0]);
      MigrateTasksMoves(t, s1, tids[1..], dst, oks[1..]);
      MovedBelowStep(t, s, s1, MigrateTasks(t, s1, tids[1..], dst, oks[1..]).value, tids, dst);
    }
  }

  /** The task loop gains or loses no bind. */
  lemma {:induction false} MigrateTasksKeepsTotal(t: Tree, s: State, tids: seq<Uint64>, dst: int, oks: seq<bool>)
    requires Shaped(t.nodes) && |s.info| == |t.nodes| && WellFormed(s) && 0 <= dst < |t.nodes| && |oks| == |tids|
    requires AllIn(tids, s)
    requires MigrateTasks(t, s, tids, dst, oks).Some?
    ensures TotalBinds(MigrateTasks(t, s, tids, dst, oks).value.info) == TotalBinds(s.info)
    decreases |tids|
  {
    if |tids| > 0 {
      MigrateTasksUnfold(t, s, tids, dst, oks);
      var s1 := MigrateStep(t, s, tids[0], dst, oks[0]).value;
      MigrateStepMoves(t, s, tids[0], dst, oks[0]);
      MigrateTasksKeepsTotal(t, s1, tids[1..], dst, oks[1..]);
    }
  }

  lemma MovedBelowStep(t: Tree, s: State, s1: State, r: State, tids: seq<Uint64>, dst: int)
    requires Shaped(t.nodes) && |s.info| == |t.nodes| && WellFormed(s) && 0 <= dst < |t.nodes| && |tids| > 0
    requires |s1.info| == |t.nodes| && WellFormed(s1) && tids[0] in s.tasks
    requires StepMoved(t, s, s1, tids[0], dst)
    requires MovedBelow(t, s1, tids[1..], dst, r)
    ensures MovedBelow(t, s, tids, dst, r)
  {
    forall tid | tid in tids
      ensures tid in s.tasks && tid in r.tasks && 0 <= r.tasks[tid].node < |t.nodes| &&
        IsAncestor(t.nodes, dst, r.tasks[tid].node) &&
        t.nodes[r.tasks[tid].node].topotype == t.nodes[s.tasks[tid].node].topotype
    {
      if tid !in tids[1..] {
        assert tid == tids[0];
      }
    }
  }

  /** The end of `migrateGroup`: the group's own bind moves from `src` to
      `dst` and the group now lives on `dst`. */
  function Rehome(s: State, name: string, src: int, dst: int): (r: State)
    requires WellFormed(s) && name in s.groups && 0 <= src < |s.info| && 0 <= dst < |s.info|
    ensures WellFormed(r) && r.tasks == s.tasks && |r.info| == |s.info|
    ensures r.groups == s.groups[name := s.groups[name].(bindNode := dst)]
    ensures forall n :: 0 <= n < |s.info| ==>
      r.info[n].bindCount == s.info[n].bindCount - (if n == src then 1 else 0) + (if n == dst then 1 else 0)
    ensures TotalBinds(r.info) == TotalBinds(s.info)
  {
    BindMovesTotal(s.info, src);
    BindMovesTotal(SubBind(s.info, src), dst);
    s.(info := AddBind(SubBind(s.info, src), dst), groups := s.groups[name := s.groups[name].(bindNode := dst)])
  }

  /** `migrateGroup`: the group's tasks move below `dst`, then the group's
      own bind moves from `src` to `dst`. */
  function MigrateGroup(t: Tree, s: State, name: string, src: int, dst: int, oks: seq<bool>): (r: Option<State>)
    requires Shaped(t.nodes) && |s.info| == |t.nodes| && WellFormed(s) && name in s.groups
    requires 0 <= src < |t.nodes| && 0 <= dst < |t.nodes| && |oks| == |s.groups[name].tasks|
    ensures r.Some? ==> WellFormed(r.value) && |r.value.info| == |s.info| && r.value.tasks.Keys == s.tasks.Keys
    ensures r.Some? ==> r.value.groups == s.groups[name := s.groups[name].(bindNode := dst)]
  {
    var g := s.groups[name];
    match MigrateTasks(t, s, g.tasks, dst, oks)
    case None => None
    case Some(mid) => Some(Rehome(mid, name, src, dst))
  }

  /** After `migrateGroup` every task of the group is bound below `dst`
      on its old level, the other tasks have not moved, and the total of
      the bind counts is what it was. */
  lemma MigrateGroupMoves(t: Tree, s: State, name: string, src: int, dst: int, oks: seq<bool>)
    requires Shaped(t.nodes) && |s.info| == |t.nodes| && WellFormed(s) && name in s.groups
    requires 0 <= src < |t.nodes| && 0 <= dst < |t.nodes| && |oks| == |s.groups[name].tasks|
    requires MigrateGroup(t, s, name, src, dst, oks).Some?
    ensures MovedBelow(t, s, s.groups[name].tasks, dst, MigrateGroup(t, s, name, src, dst, oks).value)
    ensures TotalBinds(MigrateGroup(t, s, name, src, dst, oks).value.info) == TotalBinds(s.info)
  {
    var g := s.groups[name];
    MigrateTasksMoves(t, s, g.tasks, dst, oks);
    MigrateTasksKeepsTotal(t, s, g.tasks, dst, oks);
  }

  // ---------------------------------------------------------------------
  // Balancing

  /** `shouldMigrateGroup`: balancing is worth it and the load gap exceeds
      what the group's tasks weigh. */
  predicate ShouldMigrateGroup(t: Tree, s: State, name: string, src: int, dst: int)
    requires |s.info| == |t.nodes| && name in s.groups
    requires 0 <= src < |t.nodes| && 0 <= dst < |t.nodes|
    ensures ShouldMigrateGroup(t, s, name, src, dst) <==>
      s.info[src].load - s.info[dst].load > CpuGap() * |CpuMask.Cpus(t.nodes[src].mask)| &&
      s.info[src].load - s.info[dst].load > GroupWeight(s.sys, s.groups[name].tasks)
  {
    if !ShouldBalanceBetweenNode(t.(info := s.info), src, dst) then false
    else s.info[src].load - s.info[dst].load > GroupWeight(s.sys, s.groups[name].tasks)
  }

  /** A group that should move from `src` to `dst` should never move
      straight back. */
  lemma MigrateOneWay(t: Tree, s: State, name: string, src: int, dst: int)
    requires |s.info| == |t.nodes| && name in s.groups
    requires 0 <= src < |t.nodes| && 0 <= dst < |t.nodes|
    ensures ShouldMigrateGroup(t, s, name, src, dst) ==> !ShouldMigrateGroup(t, s, name, dst, src)
  {
    BalanceOneWay(t.(info := s.info), src, dst);
  }

  /** `groupTargetNode`: for a node below NUMA level, the least loaded node
      of its level in its NUMA node; none otherwise. */
  function GroupTargetNode(t: Tree, info: seq<LoadInfo>, src: int): (r: Option<int>)
    requires Valid(t) && |info| == |t.nodes| && 0 <= src < |t.nodes|
    ensures Level(t.nodes[src].topotype) >= Level(Numa) ==> r.None?
    ensures r.Some? ==> (0 <= r.value < |t.nodes| && t.nodes[r.value].topotype == t.nodes[src].topotype &&
      exists numa :: 0 <= numa < |t.nodes| && t.nodes[numa].topotype == Numa &&
        IsAncestor(t.nodes, numa, src) && IsAncestor(t.nodes, numa, r.value))
    ensures Level(t.nodes[src].topotype) < Level(Numa) ==>
      Parent(t.nodes, src, Numa).Some? &&
      r == SelectLighterLoadNode(t.nodes, info, Parent(t.nodes, src, Numa).value, t.nodes[src].topotype)
  {
    var ty := t.nodes[src].topotype;
    if Compare(ty, Numa) >= 0 then None
    else
      ParentIff(t.nodes, src, Numa, 0);
      var numa := Parent(t.nodes, src, Numa).value;
      SelectLighterLoadNode(t.nodes, info, numa, ty)
  }

  /** Below NUMA level a linked tree always has a target: the source itself
      is one of the candidates. */
  lemma GroupTargetFound(t: Tree, info: seq<LoadInfo>, src: int)
    requires Valid(t) && Linked(t.nodes) && |info| == |t.nodes| && 0 <= src < |t.nodes|
    ensures GroupTargetNode(t, info, src).Some? <==> Level(t.nodes[src].topotype) < Level(Numa)
  {
    if Level(t.nodes[src].topotype) < Level(Numa) {
      ParentIff(t.nodes, src, Numa, 0);
      var numa := Parent(t.nodes, src, Numa).value;
      PreVisitsDescendants(t.nodes, numa, src);
      var ord := Pre(t.nodes, numa);
      var k :| 0 <= k < |ord| && ord[k] == src;
      assert t.nodes[ord[k]].topotype == t.nodes[src].topotype;
    }
  }

  /** `balanceGroup`: move the group to its target when that is worth it. */
  function BalanceGroup(t: Tree, s: State, name: string, oks: seq<bool>): (r: Option<State>)
    requires Valid(t) && |s.info| == |t.nodes| && WellFormed(s) && name in s.groups
    requires |oks| == |s.groups[name].tasks|
    ensures r.Some? ==> WellFormed(r.value) && r.value.tasks.Keys == s.tasks.Keys && name in r.value.groups
    ensures r.Some? && r.value != s ==>
      var src := s.groups[name].bindNode;
      var dst := GroupTargetNode(t, s.info, src);
      dst.Some? && ShouldMigrateGroup(t, s, name, src, dst.value) &&
      r.value.groups[name].bindNode == dst.value
    ensures r.None? ==> GroupTargetNode(t, s.info, s.groups[name].bindNode).Some?
    ensures
      var src := s.groups[name].bindNode;
      var dst := GroupTargetNode(t, s.info, src);
      if dst.Some? && ShouldMigrateGroup(t, s, name, src, dst.value) then r == MigrateGroup(t, s, name, src, dst.value, oks)
      else r == Some(s)
  {
    var src := s.groups[name].bindNode;
    match GroupTargetNode(t, s.info, src)
    case None => Some(s)
    case Some(dst) =>
      if ShouldMigrateGroup(t, s, name, src, dst) then MigrateGroup(t, s, name, src, dst, oks)
      else Some(s)
  }

  // ---------------------------------------------------------------------
  // getTasksNumaAuto

  /** Each thread's fault table, read from its `task_fault_siblings` file. */
  function Tables(tids: seq<Uint64>, files: seq<string>): (ts: seq<seq<int>>)
    requires |files| == |tids|
    ensures |ts| == |tids| && FullRows(ts)
    decreases |tids|
  {
    if |tids| == 0 then []
    else
      var row := Faults(tids[0], files[0]);
      var rest := Tables(tids[1..], files[1..]);
      FullRowsCons(row, rest);
      [row] + rest
  }

  /** Every table has a count for each NUMA node. */
  ghost predicate FullRows(ts: seq<seq<int>>)
  {
    forall k :: 0 <= k < |ts| ==> |ts[k]| == MemTopo.NumaNodeNR
  }

  lemma FullRowsCons(row: seq<int>, rest: seq<seq<int>>)
    requires |row| == MemTopo.NumaNodeNR && FullRows(rest)
    ensures FullRows([row] + rest)
  {
  }

  /** One thread's fault table: a count per NUMA node. */
  function Faults(tid: Uint64, file: string): (f: seq<int>)
    ensures |f| == MemTopo.NumaNodeNR
  {
    MemTopo.GetThreadMemTopo(tid, file).numaFaults
  }

  /** The faults on node `j` summed over the tables. */
  function Column(ts: seq<seq<int>>, j: nat): int
    requires forall k :: 0 <= k < |ts| ==> j < |ts[k]|
    decreases |ts|
  {
    if |ts| == 0 then 0 else Column(ts[..|ts| - 1], j) + ts[|ts| - 1][j]
  }

  function Totals(ts: seq<seq<int>>): (sums: seq<int>)
    requires FullRows(ts)
    ensures |sums| == MemTopo.NumaNodeNR
    ensures forall j :: 0 <= j < MemTopo.NumaNodeNR ==> sums[j] == Column(ts, j)
  {
    seq(MemTopo.NumaNodeNR, j requires 0 <= j < MemTopo.NumaNodeNR => Column(ts, j))
  }

  /** `r` is the node with the strictly largest positive sum, the lowest
      such on ties, or -1 when no sum is positive. */
  ghost predicate IsBusiest(sums: seq<int>, r: int)
  {
    (r == -1 <==> forall j :: 0 <= j < |sums| ==> sums[j] <= 0) &&
    (r != -1 ==> (0 <= r < |sums| && sums[r] > 0 &&
      (forall j :: 0 <= j < |sums| ==> sums[j] <= sums[r]) &&
      (forall j :: 0 <= j < r ==> sums[j] < sums[r])))
  }

  /** At most one answer fits. */
  lemma BusiestUnique(sums: seq<int>, r1: int, r2: int)
    requires IsBusiest(sums, r1) && IsBusiest(sums, r2)
    ensures r1 == r2
  {
  }

  /** The argmax loop of `getTasksNumaAuto`. */
  method Busiest(sums: seq<int>) returns (numaId: int)
    ensures IsBusiest(sums, numaId)
  {
    var maxFaults := 0;
    numaId := -1;
    var i := 0;
    while i < |sums|
      invariant 0 <= i <= |sums|
      invariant numaId == -1 ==> maxFaults == 0 && forall j :: 0 <= j < i ==> sums[j] <= 0
      invariant numaId != -1 ==> (0 <= numaId < i && sums[numaId] == maxFaults > 0 &&
        (forall j :: 0 <= j < i ==> sums[j] <= maxFaults) &&
        (forall j :: 0 <= j < numaId ==> sums[j] < maxFaults))
    {
      if sums[i] > maxFaults {
        maxFaults := sums[i];
        numaId := i;
      }
      i := i + 1;
    }
  }

  /** `getTasksNumaAuto`: the NUMA node where the threads fault most. */
  method GetTasksNumaAuto(tids: seq<Uint64>, files: seq<string>) returns (numaId: int)
    requires |files| == |tids|
    ensures IsBusiest(Totals(Tables(tids, files)), numaId)
    ensures numaId != -1 ==> 0 <= numaId < MemTopo.NumaNodeNR
  {
    var ts := Tables(tids, files);
    var numaFaults := SumTables(ts);
    numaId := Busiest(numaFaults);
  }

  /** The summing loop of `getTasksNumaAuto`. */
  method SumTables(ts: seq<seq<int>>) returns (numaFaults: seq<int>)
    requires FullRows(ts)
    ensures numaFaults == Totals(ts)
  {
    numaFaults := MemTopo.NoFaults;
    var k := 0;
    while k < |ts|
      invariant 0 <= k <= |ts| && |numaFaults| == MemTopo.NumaNodeNR
      invariant forall j :: 0 <= j < MemTopo.NumaNodeNR ==> numaFaults[j] == Column(ts[..k], j)
    {
      ColumnStep(ts, k);
      numaFaults := seq(MemTopo.NumaNodeNR, j requires 0 <= j < MemTopo.NumaNodeNR => numaFaults[j] + ts[k][j]);
      k := k + 1;
    }
    assert ts[..k] == ts;
  }

  /** One more table adds its entries to the column sums. */
  lemma ColumnStep(ts: seq<seq<int>>, k: nat)
    requires k < |ts| && forall i :: 0 <= i < |ts| ==> |ts[i]| == MemTopo.NumaNodeNR
    ensures forall j :: 0 <= j < MemTopo.NumaNodeNR ==> Column(ts[..k + 1], j) == Column(ts[..k], j) + ts[k][j]
  {
    assert ts[..k + 1][..k] == ts[..k];
  }

  // ---------------------------------------------------------------------
  // The ptrace scan switch

  type Int32 = x: int | -0x8000_0000 <= x < 0x8000_0000

  /** `ControlBlock`. */
  datatype ControlBlock = ControlBlock(ptraceScanSwitch: Int32)

  function PtraceScanStart(b: ControlBlock): (r: ControlBlock)
    ensures ShouldStartPtraceScan(r)
  {
    b.(ptraceScanSwitch := 1)
  }

  function PtraceScanEnd(b: ControlBlock): (r: ControlBlock)
    ensures !ShouldStartPtraceScan(r)
  {
    b.(ptraceScanSwitch := 0)
  }

  predicate ShouldStartPtraceScan(b: ControlBlock)
  {
    b.ptraceScanSwitch == 1
  }

  /** The switch reports the last of start and end, whatever came before. */
  lemma ScanSwitch(b: ControlBlock)
    ensures ShouldStartPtraceScan(PtraceScanStart(b)) && !ShouldStartPtraceScan(PtraceScanEnd(b))
    ensures PtraceScanStart(PtraceScanEnd(b)) == PtraceScanStart(b)
    ensures PtraceScanEnd(PtraceScanStart(b)) == PtraceScanEnd(b)
  {
  }
}

=== FILE: procscan.dfy ===
/** common/procscan/procscan.go: task groups that a process declares in
    its environment as `__SCHED_GROUP__<name>=<thread names>`, the scan of
    the process directory and the clean-up of bound threads that have
    exited.  Directory listings, file contents and the set of live threads
    are parameters; the handler callbacks become the calls they receive. */
module ProcScan {
  import opened Wrappers
  import opened GoStrings

  // ---------------------------------------------------------------------
  // The environment entry `__SCHED_GROUP__(\S+)=(\S+)`

  const SchedGroupTag: string := "__SCHED_GROUP__"

  /** The regular-expression class `\s`: `[\t\n\f\r ]`. */
  predicate ReSpace(c: char)
  {
    c == '\t' || c == '\n' || c == '\U{0C}' || c == '\r' || c == ' '
  }

  predicate NoReSpace(s: string)
  {
    forall k :: 0 <= k < |s| ==> !ReSpace(s[k])
  }

  /** The length of the longest run of `\S` starting at `i`. */
  function NonSpaceRun(s: string, i: nat): (n: nat)
    requires i <= |s|
    ensures i + n <= |s|
    ensures forall k :: i <= k < i + n ==> !ReSpace(s[k])
    ensures i + n == |s| || ReSpace(s[i + n])
    decreases |s| - i
  {
    if i < |s| && !ReSpace(s[i]) then 1 + NonSpaceRun(s, i + 1) else 0
  }

  /** The last `=` at an index in `lo..hi`. */
  function LastEq(s: string, lo: nat, hi: int): (r: Option<nat>)
    requires hi < |s|
    ensures r.Some? ==> lo <= r.value <= hi && s[r.value] == '='
    ensures r.Some? ==> forall j :: r.value < j <= hi ==> s[j] != '='
    ensures r.None? ==> forall j :: lo <= j <= hi ==> s[j] != '='
    decreases hi - lo + 1
  {
    if hi < lo then None
    else if s[hi] == '=' then Some(hi)
    else LastEq(s, lo, hi - 1)
  }

  /** The submatches of a match starting at `p`.  The first `\S+` is
      greedy, so it runs to the last `=` of the non-blank run that still
      has a character after it; the second takes the rest of the run. */
  function MatchAt(s: string, p: nat): (r: Option<(string, string)>)
    ensures r.Some? ==> |r.value.0| > 0 && |r.value.1| > 0 && NoReSpace(r.value.0) && NoReSpace(r.value.1)
  {
    if !OccursAt(s, SchedGroupTag, p) then None
    else
      var b := p + |SchedGroupTag|;
      var e := b + NonSpaceRun(s, b);
      match LastEq(s, b + 1, e - 2)
      case None => None
      case Some(q) => Some((s[b..q], s[q + 1..e]))
  }

  /** The leftmost match at or after `from`. */
  function FindEntry(s: string, from: nat): (r: Option<(string, string)>)
    ensures r.Some? ==> |r.value.0| > 0 && |r.value.1| > 0 && NoReSpace(r.value.0) && NoReSpace(r.value.1)
    ensures r.None? ==> forall p :: from <= p ==> MatchAt(s, p).None?
    decreases |s| - from
  {
    if from + |SchedGroupTag| > |s| then None
    else if MatchAt(s, from).Some? then MatchAt(s, from)
    else FindEntry(s, from + 1)
  }

  /** `reg.FindStringSubmatch(line)`: the group's name and its member list. */
  function SchedGroupEntry(line: string): (r: Option<(string, string)>)
    ensures r.Some? ==> |r.value.0| > 0 && |r.value.1| > 0 && NoReSpace(r.value.0) && NoReSpace(r.value.1)
  {
    FindEntry(line, 0)
  }

  /** The entry a process sets. */
  function EntryLine(name: string, members: string): string
  {
    SchedGroupTag + name + "=" + members
  }

  /** An entry reads back as its name and member list, provided neither
      holds a blank and the member list holds no `=` (the greedy name would
      take everything up to the last `=`). */
  lemma EntryRoundTrip(name: string, members: string)
    requires |name| > 0 && |members| > 0 && NoReSpace(name) && NoReSpace(members)
    requires '=' !in members
    ensures SchedGroupEntry(EntryLine(name, members)) == Some((name, members))
  {
    var s := EntryLine(name, members);
    var b := |SchedGroupTag|;
    var q := b + |name|;
    assert s[..b] == SchedGroupTag;
    assert s[b..q] == name;
    assert s[q] == '=';
    assert s[q + 1..] == members;
    assert NonSpaceRun(s, b) == |s| - b by {
      forall k | b <= k < |s| ensures !ReSpace(s[k])
      {
        if k < q {
          assert s[k] == name[k - b];
        } else if k > q {
          assert s[k] == members[k - q - 1];
        }
      }
    }
    forall j | q < j <= |s| - 2 ensures s[j] != '='
    {
      assert s[j] == members[j - q - 1];
    }
    assert LastEq(s, b + 1, |s| - 2) == Some(q);
    assert OccursAt(s, SchedGroupTag, 0);
    assert s[q + 1..|s|] == members;
    assert MatchAt(s, 0) == Some((name, members));
  }

  /** With `=` in the member list the name takes the text up to its last
      `=`, as in `__SCHED_GROUP__a=b=c` naming group `a=b` with member `c`. */
  lemma GreedyName(a: string, b: string, c: string)
    requires |a| > 0 && |b| > 0 && |c| > 0 && NoReSpace(a) && NoReSpace(b) && NoReSpace(c)
    requires '=' !in c
    ensures SchedGroupEntry(EntryLine(a, b + "=" + c)) == Some((a + "=" + b, c))
  {
    assert EntryLine(a, b + "=" + c) == EntryLine(a + "=" + b, c);
    assert NoReSpace(a + "=" + b) by {
      forall k | 0 <= k < |a + "=" + b| ensures !ReSpace((a + "=" + b)[k])
      {
        if k < |a| {
          assert (a + "=" + b)[k] == a[k];
        } else if k > |a| {
          assert (a + "=" + b)[k] == b[k - |a| - 1];
        }
      }
    }
    EntryRoundTrip(a + "=" + b, c);
  }

  /** A line that does not hold the tag is no entry. */
  lemma UntaggedLine(line: string)
    requires !Contains(line, SchedGroupTag)
    ensures SchedGroupEntry(line).None?
  {
    NoEntryFrom(line, 0);
  }

  lemma {:induction false} NoEntryFrom(line: string, from: nat)
    requires forall p :: from <= p ==> !OccursAt(line, SchedGroupTag, p)
    ensures FindEntry(line, from).None?
    decreases |line| - from
  {
    if from + |SchedGroupTag| <= |line| {
      NoEntryFrom(line, from + 1);
    }
  }

  // ---------------------------------------------------------------------
  // The member list

  predicate IsComma(c: char) { c == ',' }

  /** `strings.FieldsFunc(list, c == ',')`: the names between commas,
      empty ones dropped. */
  function Members(list: string): (r: seq<string>)
    ensures forall k :: 0 <= k < |r| ==> |r[k]| > 0 && ',' !in r[k]
  {
    FieldsByNonEmpty(list, IsComma);
    FieldsBy(list, IsComma)
  }

  /** Non-empty names without commas, joined by commas, come back as the
      names. */
  lemma {:induction false} MembersOfJoined(names: seq<string>)
    requires forall k :: 0 <= k < |names| ==> |names[k]| > 0 && ',' !in names[k]
    ensures Members(Join(names, ',')) == names
    decreases |names|
  {
    if |names| == 1 {
      FieldsByWord(names[0], "", IsComma);
      assert names[0] + "" == names[0];
    } else if |names| > 1 {
      MembersOfJoined(names[1..]);
      var tail := Join(names[1..], ',');
      FieldsBySkip(",", tail, IsComma);
      assert Join(names, ',') == names[0] + ("," + tail);
      FieldsByWord(names[0], "," + tail, IsComma);
      assert names == [names[0]] + names[1..];
    }
  }

  /** Extra commas in front of the list change nothing. */
  lemma LeadingCommas(pad: string, list: string)
    requires forall k :: 0 <= k < |pad| ==> pad[k] == ','
    ensures Members(pad + list) == Members(list)
  {
    FieldsBySkip(pad, list, IsComma);
  }

  // ---------------------------------------------------------------------
  // bindMembers

  /** `isMember`: the thread's `comm` was read (a missing entry is a failed
      read) and, with every newline removed, is one of the names. */
  predicate IsMember(comm: Option<string>, members: set<string>)
  {
    comm.Some? && RemoveChar(comm.value, '\n') in members
  }

  /** A `comm` file holds the thread's name and a newline: it matches
      exactly that name, and a failed read matches nothing. */
  lemma CommFileMatches(name: string, members: set<string>)
    requires '\n' !in name
    ensures IsMember(Some(name + "\n"), members) <==> name in members
    ensures !IsMember(None, members)
  {
    RemoveCharTail(name);
  }

  /** One `BindGroup` call. */
  datatype BindCall = BindCall(tids: seq<Uint64>, groupName: string)

  /** `fmt.Sprintf("%v", pid) + "_" + name`. */
  function GroupName(pid: Uint64, name: string): (g: string)
    ensures HasPrefix(g, FormatDecimal(pid) + "_")
  {
    var g := FormatDecimal(pid) + "_" + name;
    assert g[..|FormatDecimal(pid) + "_"|] == FormatDecimal(pid) + "_";
    g
  }

  /** A group name reads back: the text before its first "_" parses as the
      pid and the text after it is the group's name. */
  lemma GroupNameReadsBack(pid: Uint64, name: string)
    ensures IndexFrom(GroupName(pid, name), "_", 0).Some?
    ensures ParseUint(GroupName(pid, name)[..IndexFrom(GroupName(pid, name), "_", 0).value], 10) == Some(pid)
    ensures GroupName(pid, name)[IndexFrom(GroupName(pid, name), "_", 0).value + 1..] == name
  {
    var d := FormatDecimal(pid);
    var g := GroupName(pid, name);
    assert g == d + "_" + name;
    assert OccursAt(g, "_", |d|) by {
      assert g[|d|..|d| + 1] == "_";
    }
    forall j | 0 <= j < |d|
      ensures !OccursAt(g, "_", j)
    {
      assert g[j] == d[j] && IsDigitIn(d[j], 10);
      assert g[j..j + 1] == [g[j]];
    }
    var i := IndexFrom(g, "_", 0);
    assert i == Some(|d|);
    assert g[..|d|] == d && g[|d| + 1..] == name;
    ParseFormatDecimal(pid);
  }

  /** Different pids or names never share a group name. */
  lemma GroupNameInjective(p1: Uint64, n1: string, p2: Uint64, n2: string)
    ensures GroupName(p1, n1) == GroupName(p2, n2) <==> p1 == p2 && n1 == n2
  {
    if GroupName(p1, n1) == GroupName(p2, n2) {
      GroupNameReadsBack(p1, n1);
      GroupNameReadsBack(p2, n2);
    }
  }

  /** The thread ids among the task directory's entries whose `comm` names
      a member, in directory order. */
  function MemberTids(entries: seq<string>, comms: map<string, string>, members: set<string>): (r: seq<Uint64>)
    ensures |r| <= |entries|
    decreases |entries|
  {
    if |entries| == 0 then []
    else
      var pre := MemberTids(entries[..|entries| - 1], comms, members);
      var name := entries[|entries| - 1];
      match ParseUint(name, 10)
      case None => pre
      case Some(tid) => if IsMember(CommOf(name, comms), members) then pre + [tid] else pre
  }

  /** The `comm` of a task directory entry, `None` when it cannot be read. */
  function CommOf(entry: string, comms: map<string, string>): Option<string>
  {
    if entry in comms then Some(comms[entry]) else None
  }

  /** Whether a task directory entry is a thread whose `comm` names a member. */
  predicate MemberEntry(entry: string, comms: map<string, string>, members: set<string>)
  {
    ParseUint(entry, 10).Some? && IsMember(CommOf(entry, comms), members)
  }

  /** Whether `tid` is the thread id of some member entry. */
  ghost predicate MemberTid(entries: seq<string>, comms: map<string, string>, members: set<string>, tid: Uint64)
  {
    exists i :: 0 <= i < |entries| && MemberEntry(entries[i], comms, members) && ParseUint(entries[i], 10) == Some(tid)
  }

  /** The thread ids `bindMembers` collects are exactly those of the member
      entries. */
  lemma {:induction false} MemberTidsExact(entries: seq<string>, comms: map<string, string>, members: set<string>)
    ensures forall k :: 0 <= k < |MemberTids(entries, comms, members)| ==>
      MemberTid(entries, comms, members, MemberTids(entries, comms, members)[k])
    ensures forall i :: 0 <= i < |entries| && MemberEntry(entries[i], comms, members) ==>
      ParseUint(entries[i], 10).value in MemberTids(entries, comms, members)
    decreases |entries|
  {
    if |entries| > 0 {
      var n := |entries| - 1;
      var init := entries[..n];
      var r, pre := MemberTids(entries, comms, members), MemberTids(init, comms, members);
      MemberTidsExact(init, comms, members);
      assert forall i :: 0 <= i < |init| ==> init[i] == entries[i];
      forall k | 0 <= k < |r|
        ensures MemberTid(entries, comms, members, r[k])
      {
        if k < |pre| {
          assert r[k] == pre[k];
          var i :| 0 <= i < |init| && MemberEntry(init[i], comms, members) && ParseUint(init[i], 10) == Some(pre[k]);
          assert entries[i] == init[i];
        } else {
          assert MemberEntry(entries[n], comms, members) && ParseUint(entries[n], 10) == Some(r[k]);
        }
      }
    } else {
      assert MemberTids(entries, comms, members) == [];
    }
  }

  /** `bindMembers` once the task directory is listed (`None` is a failed
      listing, after which nothing is bound). */
  function BindMembers(name: string, member: seq<string>, pid: Uint64,
                       taskDir: Option<seq<string>>, comms: map<string, string>): (r: Option<BindCall>)
    ensures r.Some? <==> taskDir.Some?
    ensures r.Some? ==> r.value.groupName == GroupName(pid, name)
  {
    match taskDir
    case None => None
    case Some(entries) =>
      Some(BindCall(MemberTids(entries, comms, set m | m in member), GroupName(pid, name)))
  }

  // ---------------------------------------------------------------------
  // ParseSchedGroupInfo

  /** The `BindGroup` calls for the environment entries, in order. */
  function GroupCalls(lines: seq<string>, pid: Uint64, taskDir: Option<seq<string>>,
                      comms: map<string, string>): (r: seq<BindCall>)
    ensures |r| <= |lines|
    ensures taskDir.None? ==> r == []
    decreases |lines|
  {
    if |lines| == 0 then []
    else
      var here :=
        match SchedGroupEntry(lines[0])
        case None => []
        case Some(e) =>
          match BindMembers(e.0, Members(e.1), pid, taskDir, comms)
          case None => []
          case Some(c) => [c];
      here + GroupCalls(lines[1..], pid, taskDir, comms)
  }

  /** `ParseSchedGroupInfo` once the environment is read (`None` is a
      failed open or read, after which nothing is bound). */
  function ParseSchedGroupInfo(pid: Uint64, environ: Option<string>, taskDir: Option<seq<string>>,
                               comms: map<string, string>): (r: seq<BindCall>)
    ensures environ.None? || taskDir.None? ==> r == []
  {
    match environ
    case None => []
    case Some(env) => GroupCalls(Split(env, '\0'), pid, taskDir, comms)
  }

  /** A group declaration: its name and member thread names. */
  datatype Decl = Decl(name: string, members: seq<string>)

  predicate WellFormedDecl(d: Decl)
  {
    |d.name| > 0 && NoReSpace(d.name) && '\0' !in d.name && |d.members| > 0 &&
    forall k :: 0 <= k < |d.members| ==>
      |d.members[k]| > 0 && NoReSpace(d.members[k]) && ',' !in d.members[k] &&
      '=' !in d.members[k] && '\0' !in d.members[k]
  }

  /** The environment entry of a declaration. */
  function DeclLine(d: Decl): string
  {
    EntryLine(d.name, Join(d.members, ','))
  }

  /** One call per declared group, in order: the group is named after the
      process and the declaration, and binds the listed threads whose
      names are members. */
  lemma {:induction false} DeclaredGroupsBound(decls: seq<Decl>, pid: Uint64, entries: seq<string>,
                                               comms: map<string, string>)
    requires |decls| > 0
    requires forall k :: 0 <= k < |decls| ==> WellFormedDecl(decls[k])
    ensures var env := Join(seq(|decls|, k requires 0 <= k < |decls| => DeclLine(decls[k])), '\0');
      ParseSchedGroupInfo(pid, Some(env), Some(entries), comms) == DeclCallsOf(decls, pid, entries, comms)
  {
    var lines := seq(|decls|, k requires 0 <= k < |decls| => DeclLine(decls[k]));
    forall k | 0 <= k < |decls|
      ensures '\0' !in lines[k]
      ensures Declares(lines[k], decls[k])
    {
      DeclLineFacts(decls[k]);
    }
    SplitOfJoin(lines, '\0');
    DeclCalls(decls, lines, pid, entries, comms);
  }

  lemma DeclLineFacts(d: Decl)
    requires WellFormedDecl(d)
    ensures '\0' !in DeclLine(d)
    ensures SchedGroupEntry(DeclLine(d)) == Some((d.name, Join(d.members, ',')))
    ensures Members(Join(d.members, ',')) == d.members
  {
    var list := Join(d.members, ',');
    JoinChars(d.members, ',');
    MembersOfJoined(d.members);
    EntryRoundTrip(d.name, list);
  }

  /** Every character of a join is a separator or a character of a part. */
  lemma {:induction false} JoinChars(parts: seq<string>, sep: char)
    requires |parts| > 0
    ensures |Join(parts, sep)| > 0 || |parts[0]| == 0
    ensures forall i :: 0 <= i < |Join(parts, sep)| ==>
      Join(parts, sep)[i] == sep || exists k :: 0 <= k < |parts| && Join(parts, sep)[i] in parts[k]
    decreases |parts|
  {
    if |parts| > 1 {
      JoinChars(parts[1..], sep);
      var t := Join(parts[1..], sep);
      var s := Join(parts, sep);
      assert s == parts[0] + [sep] + t;
      forall i | 0 <= i < |s|
        ensures s[i] == sep || exists k :: 0 <= k < |parts| && s[i] in parts[k]
      {
        if i < |parts[0]| {
          assert s[i] == parts[0][i];
        } else if i > |parts[0]| {
          assert s[i] == t[i - |parts[0]| - 1];
          if s[i] != sep {
            var k :| 0 <= k < |parts[1..]| && t[i - |parts[0]| - 1] in parts[1..][k];
            assert parts[1..][k] == parts[k + 1];
          }
        }
      }
    } else {
      assert Join(parts, sep) == parts[0];
    }
  }

  /** The call `bindMembers` makes for one declaration. */
  function DeclCall(d: Decl, pid: Uint64, entries: seq<string>, comms: map<string, string>): BindCall
  {
    BindCall(MemberTids(entries, comms, set m | m in d.members), GroupName(pid, d.name))
  }

  /** One call per declaration, in order. */
  function DeclCallsOf(decls: seq<Decl>, pid: Uint64, entries: seq<string>, comms: map<string, string>)
    : (r: seq<BindCall>)
    ensures |r| == |decls|
    ensures forall k :: 0 <= k < |decls| ==> r[k] == DeclCall(decls[k], pid, entries, comms)
  {
    if |decls| == 0 then [] else [DeclCall(decls[0], pid, entries, comms)] + DeclCallsOf(decls[1..], pid, entries, comms)
  }

  /** A line that parses as a declaration's entry, whose member list splits
      back into its members. */
  predicate Declares(line: string, d: Decl)
  {
    SchedGroupEntry(line) == Some((d.name, Join(d.members, ','))) &&
    Members(Join(d.members, ',')) == d.members
  }

  lemma GroupCallsHead(lines: seq<string>, d: Decl, pid: Uint64, entries: seq<string>, comms: map<string, string>)
    requires |lines| > 0 && Declares(lines[0], d)
    ensures GroupCalls(lines, pid, Some(entries), comms) ==
      [DeclCall(d, pid, entries, comms)] + GroupCalls(lines[1..], pid, Some(entries), comms)
  {
  }

  lemma {:induction false} DeclCalls(decls: seq<Decl>, lines: seq<string>, pid: Uint64, entries: seq<string>,
                                     comms: map<string, string>)
    requires |lines| == |decls|
    requires forall k :: 0 <= k < |decls| ==> Declares(lines[k], decls[k])
    ensures GroupCalls(lines, pid, Some(entries), comms) == DeclCallsOf(decls, pid, entries, comms)
    decreases |decls|
  {
    if |decls| > 0 {
      GroupCallsHead(lines, decls[0], pid, entries, comms);
      assert forall k :: 0 <= k < |decls| - 1 ==> lines[1..][k] == lines[k + 1] && decls[1..][k] == decls[k + 1];
      DeclCalls(decls[1..], lines[1..], pid, entries, comms);
    }
  }

  // ---------------------------------------------------------------------
  // ScanEachProc and ScanBoundTask

  /** `ScanEachProc`: the pids the handler is called with, one per entry
      of the process directory whose name is a decimal `uint64`, in
      directory order; a failed listing calls it for none. */
  function ScanEachProc(procDir: Option<seq<string>>): (r: seq<Uint64>)
    ensures procDir.None? ==> r == []
    ensures procDir.Some? ==> forall k :: 0 <= k < |r| ==>
      exists i :: 0 <= i < |procDir.value| && ParseUint(procDir.value[i], 10) == Some(r[k])
    ensures procDir.Some? ==> forall i :: 0 <= i < |procDir.value| && ParseUint(procDir.value[i], 10).Some? ==>
      ParseUint(procDir.value[i], 10).value in r
  {
    match procDir
    case None => []
    case Some(names) =>
      DecimalNamesExact(names);
      DecimalNames(names)
  }

  function DecimalNames(names: seq<string>): (r: seq<Uint64>)
    ensures |r| <= |names|
    decreases |names|
  {
    if |names| == 0 then []
    else
      var rest := DecimalNames(names[1..]);
      match ParseUint(names[0], 10)
      case None => rest
      case Some(pid) => [pid] + rest
  }

  /** The pids visited are exactly the entries that parse as decimal
      `uint64`s. */
  lemma {:induction false} DecimalNamesExact(names: seq<string>)
    ensures forall k :: 0 <= k < |DecimalNames(names)| ==>
      exists i :: 0 <= i < |names| && ParseUint(names[i], 10) == Some(DecimalNames(names)[k])
    ensures forall i :: 0 <= i < |names| && ParseUint(names[i], 10).Some? ==>
      ParseUint(names[i], 10).value in DecimalNames(names)
    decreases |names|
  {
    if |names| > 0 {
      var r, rest := DecimalNames(names), DecimalNames(names[1..]);
      DecimalNamesExact(names[1..]);
      forall k | 0 <= k < |r|
        ensures exists i :: 0 <= i < |names| && ParseUint(names[i], 10) == Some(r[k])
      {
        var j := k;
        if ParseUint(names[0], 10).Some? {
          if k == 0 {
            assert ParseUint(names[0], 10) == Some(r[k]);
          }
          j := k - 1;
        }
        if j >= 0 {
          assert r[k] == rest[j];
          var i :| 0 <= i < |names[1..]| && ParseUint(names[1..][i], 10) == Some(rest[j]);
          assert names[1..][i] == names[i + 1];
          assert 0 <= i + 1 < |names| && ParseUint(names[i + 1], 10) == Some(r[k]);
        }
      }
      forall i | 0 <= i < |names| && ParseUint(names[i], 10).Some?
        ensures ParseUint(names[i], 10).value in r
      {
        if i > 0 {
          assert names[1..][i - 1] == names[i];
        }
      }
    } else {
      assert DecimalNames(names) == [];
    }
  }

  /** The directory entries of running processes are visited in order and
      the other entries (`self`, `sys`, …) are skipped. */
  lemma ScanFindsPids(pids: seq<Uint64>, others: seq<string>)
    requires forall k :: 0 <= k < |others| ==> |others[k]| > 0 && !IsDecDigit(others[k][0])
    ensures ScanEachProc(Some(seq(|pids|, i requires 0 <= i < |pids| => FormatDecimal(pids[i])) + others)) == pids
  {
    var printed := seq(|pids|, i requires 0 <= i < |pids| => FormatDecimal(pids[i]));
    PrintedPids(pids, printed);
    DecimalNamesAppend(printed, others);
    OthersSkipped(others);
  }

  lemma {:induction false} PrintedPids(pids: seq<Uint64>, names: seq<string>)
    requires |names| == |pids|
    requires forall i :: 0 <= i < |pids| ==> names[i] == FormatDecimal(pids[i])
    ensures DecimalNames(names) == pids
    decreases |pids|
  {
    if |pids| > 0 {
      PrintedPids(pids[1..], names[1..]);
      ParseFormatDecimal(pids[0]);
    }
  }

  lemma {:induction false} DecimalNamesAppend(a: seq<string>, b: seq<string>)
    ensures DecimalNames(a + b) == DecimalNames(a) + DecimalNames(b)
    decreases |a|
  {
    if |a| == 0 {
      assert a + b == b;
    } else {
      DecimalNamesAppend(a[1..], b);
      assert (a + b)[1..] == a[1..] + b;
    }
  }

  lemma {:induction false} OthersSkipped(others: seq<string>)
    requires forall k :: 0 <= k < |others| ==> |others[k]| > 0 && !IsDecDigit(others[k][0])
    ensures DecimalNames(others) == []
    decreases |others|
  {
    if |others| > 0 {
      assert !AllDigits(others[0], 10);
      OthersSkipped(others[1..]);
    }
  }

  /** `ScanBoundTask`: `checkBoundTask` runs on every bound thread and
      calls `UnbindTask` for those without a process entry, in the order
      the bound threads are visited. */
  function ScanBoundTask(bound: seq<Uint64>, existing: set<Uint64>): (r: seq<Uint64>)
    ensures |r| <= |bound|
    ensures forall tid :: tid in r <==> tid in bound && tid !in existing
    decreases |bound|
  {
    if |bound| == 0 then []
    else (if bound[0] in existing then [] else [bound[0]]) + ScanBoundTask(bound[1..], existing)
  }

  /** The threads left bound once the exited ones are unbound. */
  function StillBound(bound: seq<Uint64>, existing: set<Uint64>): (r: seq<Uint64>)
    ensures forall tid :: tid in r <==> tid in bound && tid in existing
    decreases |bound|
  {
    if |bound| == 0 then []
    else (if bound[0] in existing then [bound[0]] else []) + StillBound(bound[1..], existing)
  }

  /** Every bound thread is either unbound or still bound, never both. */
  lemma {:induction false} ScanPartitions(bound: seq<Uint64>, existing: set<Uint64>)
    ensures |ScanBoundTask(bound, existing)| + |StillBound(bound, existing)| == |bound|
    decreases |bound|
  {
    if |bound| > 0 {
      ScanPartitions(bound[1..], existing);
    }
  }

  /** A second scan with the same live threads unbinds nothing. */
  lemma {:induction false} RescanUnbindsNothing(bound: seq<Uint64>, existing: set<Uint64>)
    ensures ScanBoundTask(StillBound(bound, existing), existing) == []
    decreases |bound|
  {
    if |bound| > 0 {
      RescanUnbindsNothing(bound[1..], existing);
      var kept := StillBound(bound, existing);
      if bound[0] in existing {
        assert kept[0] == bound[0] && kept[1..] == StillBound(bound[1..], existing);
        assert ScanBoundTask(kept, existing) == ScanBoundTask(kept[1..], existing);
      } else {
        assert kept == StillBound(bound[1..], existing);
      }
    }
  }
}

=== FILE: queue.dfy ===
/** The generic FIFO queue of common/netaffinity/queue.go, which the
    device walk uses as its worklist.  The Go receiver is mutated in place;
    here every operation returns the new queue. */
module Queue {
  import opened Wrappers

  datatype Queue<T> = Queue(items: seq<T>)

  function Empty<T>(): (q: Queue<T>)
    ensures Size(q) == 0
  {
    Queue([])
  }

  /** `PushBack`: the element joins at the back. */
  function PushBack<T>(q: Queue<T>, x: T): (r: Queue<T>)
    ensures Size(r) == Size(q) + 1
    ensures !IsEmpty(r)
  {
    Queue(q.items + [x])
  }

  /** `PopFront`: on an empty queue an error and the queue unchanged;
      otherwise the oldest element and the queue without it. */
  function PopFront<T>(q: Queue<T>): (r: (Result<T>, Queue<T>))
    ensures IsEmpty(q) ==> r.0 == Err("pop empty queue") && r.1 == q
    ensures !IsEmpty(q) ==> r.0.Ok? && Size(r.1) == Size(q) - 1
  {
    if Size(q) == 0 then (Err("pop empty queue"), q)
    else (Ok(q.items[0]), Queue(q.items[1..]))
  }

  function Size<T>(q: Queue<T>): (n: nat)
  {
    |q.items|
  }

  predicate IsEmpty<T>(q: Queue<T>)
  {
    Size(q) <= 0
  }

  /** Pushing the elements of `xs` one after the other. */
  function PushAll<T>(q: Queue<T>, xs: seq<T>): (r: Queue<T>)
    ensures Size(r) == Size(q) + |xs|
    decreases |xs|
  {
    if |xs| == 0 then q else PushAll(PushBack(q, xs[0]), xs[1..])
  }

  /** Popping until the queue is empty, collecting what comes out. */
  function Drain<T>(q: Queue<T>): (out: seq<T>)
    ensures |out| == Size(q)
    decreases Size(q)
  {
    if IsEmpty(q) then []
    else
      var p := PopFront(q);
      [p.0.value] + Drain(p.1)
  }

  /** Pushing onto a non-empty queue does not change what comes out first. */
  lemma PushKeepsFront<T>(q: Queue<T>, x: T)
    requires !IsEmpty(q)
    ensures PopFront(PushBack(q, x)).0 == PopFront(q).0
    ensures PopFront(PushBack(q, x)).1 == PushBack(PopFront(q).1, x)
  {
    assert (q.items + [x])[1..] == q.items[1..] + [x];
  }

  /** Pushing onto an empty queue, then popping, gives the element back and
      leaves the queue empty. */
  lemma PushPopEmpty<T>(q: Queue<T>, x: T)
    requires IsEmpty(q)
    ensures PopFront(PushBack(q, x)) == (Ok(x), q)
  {
    assert q.items == [];
  }

  /** Draining after a push yields what draining before it yields, then the
      pushed element. */
  lemma {:induction false} DrainPushBack<T>(q: Queue<T>, x: T)
    ensures Drain(PushBack(q, x)) == Drain(q) + [x]
    decreases Size(q)
  {
    if IsEmpty(q) {
      PushPopEmpty(q, x);
      assert Drain(q) == [];
      assert IsEmpty(PopFront(PushBack(q, x)).1);
    } else {
      PushKeepsFront(q, x);
      DrainPushBack(PopFront(q).1, x);
    }
  }

  /** First in, first out: a queue gives back its old contents and then
      the pushed elements, in the order they were pushed. */
  lemma {:induction false} FifoOrder<T>(q: Queue<T>, xs: seq<T>)
    ensures Drain(PushAll(q, xs)) == Drain(q) + xs
    decreases |xs|
  {
    if |xs| > 0 {
      FifoOrder(PushBack(q, xs[0]), xs[1..]);
      DrainPushBack(q, xs[0]);
      assert [xs[0]] + xs[1..] == xs;
    }
  }

  /** Draining a queue filled from empty returns exactly what was pushed. */
  lemma DrainFilled<T>(xs: seq<T>)
    ensures Drain(PushAll(Empty<T>(), xs)) == xs
  {
    FifoOrder(Empty<T>(), xs);
  }
}

=== FILE: sorting.dfy ===
/** The `sort.Slice` calls of the daemon, as an insertion sort by an
    integer key.  Go's sort is not stable; this one is, which is one of the
    orders Go may produce. */
module Sorting {
  predicate SortedBy<T>(s: seq<T>, key: T -> int)
  {
    forall i, j :: 0 <= i < j < |s| ==> key(s[i]) <= key(s[j])
  }

  function Insert<T>(x: T, s: seq<T>, key: T -> int): (r: seq<T>)
    requires SortedBy(s, key)
    ensures |r| == |s| + 1
    ensures SortedBy(r, key)
    ensures multiset(r) == multiset(s) + multiset{x}
  {
    if |s| == 0 then [x]
    else if key(x) <= key(s[0]) then
      assert forall j :: 0 < j < |s| + 1 ==> key(([x] + s)[j]) >= key(s[0]);
      [x] + s
    else
      var t := Insert(x, s[1..], key);
      assert forall v :: v in multiset(t) ==> v == x || v in multiset(s[1..]);
      assert s == [s[0]] + s[1..];
      InsertTail(x, s, key, t);
      [s[0]] + t
  }

  lemma InsertTail<T>(x: T, s: seq<T>, key: T -> int, t: seq<T>)
    requires |s| > 0 && SortedBy(s, key) && key(x) > key(s[0])
    requires SortedBy(t, key) && multiset(t) == multiset(s[1..]) + multiset{x}
    ensures SortedBy([s[0]] + t, key)
  {
    forall j | 0 <= j < |t|
      ensures key(s[0]) <= key(t[j])
    {
      assert t[j] in multiset(t);
      if t[j] != x {
        assert t[j] in multiset(s[1..]);
        var k :| 0 <= k < |s[1..]| && s[1..][k] == t[j];
        assert s[k + 1] == t[j];
      }
    }
  }

  /** The input in ascending key order. */
  function SortBy<T>(s: seq<T>, key: T -> int): (r: seq<T>)
    ensures |r| == |s|
    ensures SortedBy(r, key)
    ensures multiset(r) == multiset(s)
  {
    if |s| == 0 then []
    else
      assert s == [s[0]] + s[1..];
      Insert(s[0], SortBy(s[1..], key), key)
  }

  function Id(x: int): int { x }

  predicate Ascending(s: seq<int>)
  {
    forall i, j :: 0 <= i < j < |s| ==> s[i] <= s[j]
  }

  lemma AscendingById(s: seq<int>)
    ensures SortedBy(s, Id) <==> Ascending(s)
  {
    if SortedBy(s, Id) {
      forall i, j | 0 <= i < j < |s| ensures s[i] <= s[j] {
        assert Id(s[i]) <= Id(s[j]);
      }
    }
  }

  /** Two ascending sequences with the same elements are equal. */
  lemma {:induction false} SortedUnique(a: seq<int>, b: seq<int>)
    requires Ascending(a) && Ascending(b) && multiset(a) == multiset(b)
    ensures a == b
    decreases |a|
  {
    assert |b| == |multiset(b)| == |multiset(a)| == |a|;
    if |a| > 0 {
      SameHead(a, b);
      SameHead(b, a);
      TailsSameElements(a, b);
      AscendingTail(a);
      AscendingTail(b);
      SortedUnique(a[1..], b[1..]);
    }
  }

  /** The first element of an ascending sequence is at most every element
      of any sequence with the same elements. */
  lemma SameHead(a: seq<int>, b: seq<int>)
    requires |a| > 0 && |b| > 0 && Ascending(a) && multiset(a) == multiset(b)
    ensures a[0] <= b[0]
  {
    assert b[0] in multiset(b);
    assert b[0] in a;
    var j :| 0 <= j < |a| && a[j] == b[0];
  }

  lemma TailsSameElements(a: seq<int>, b: seq<int>)
    requires |a| > 0 && |b| > 0 && a[0] == b[0] && multiset(a) == multiset(b)
    ensures multiset(a[1..]) == multiset(b[1..])
  {
    assert a == [a[0]] + a[1..];
    assert b == [b[0]] + b[1..];
    assert multiset(a) == multiset{a[0]} + multiset(a[1..]);
    assert multiset(b) == multiset{b[0]} + multiset(b[1..]);
    assert forall x :: multiset(a[1..])[x] == multiset(a)[x] - multiset{a[0]}[x];
    assert forall x :: multiset(b[1..])[x] == multiset(b)[x] - multiset{b[0]}[x];
  }

  lemma AscendingTail(a: seq<int>)
    requires |a| > 0 && Ascending(a)
    ensures Ascending(a[1..])
  {
    forall i, j | 0 <= i < j < |a[1..]| ensures a[1..][i] <= a[1..][j] {
      assert a[1..][i] == a[i + 1] && a[1..][j] == a[j + 1];
    }
  }

  /** Sorting two sequences gives the same result exactly when they hold the
      same elements. */
  lemma SortSameIffSameElements(a: seq<int>, b: seq<int>)
    ensures SortBy(a, Id) == SortBy(b, Id) <==> multiset(a) == multiset(b)
  {
    if multiset(a) == multiset(b) {
      AscendingById(SortBy(a, Id));
      AscendingById(SortBy(b, Id));
      SortedUnique(SortBy(a, Id), SortBy(b, Id));
    }
  }
}

=== FILE: sysload.dfy ===
/** `sysload`: CPU and task load from `/proc` tick counters, in fixed point
    (`<< 10`).  The clock is an input: `now` is a timestamp in nanoseconds
    and `clockTicks` the `sysconf(_SC_CLK_TCK)` value. */
module SysLoad {
  import opened Wrappers
  import opened GoStrings
  import GoFmt

  /** `ScaleShift`. */
  const ScaleShift: nat := 10
  const Scale: nat := 1024
  const NsecPerSec: nat := 1_000_000_000
  const Two54: nat := 0x40_0000_0000_0000

  /** Go's `time.Time.Sub`, which saturates at the `Duration` range. */
  function Sub(now: int, last: int): int
  {
    var d := now - last;
    if d > MaxInt64 then MaxInt64 else if d < MinInt64 then MinInt64 else d
  }

  lemma ScaleArith(i: nat)
    ensures (i * Scale) % Two64 == (i % Two54) * Scale
  {
    var q, s := i / Two54, i % Two54;
    assert i * Scale == q * Two64 + s * Scale;
    DivModUnique(i * Scale, Two64, q, s * Scale);
  }

  /** `scaleUp(i)`: `i << 10` in 64 bits, so the top ten bits are lost. */
  function ScaleUp(i: Uint64): (r: Uint64)
    ensures r == (i % Two54) * Scale
  {
    ScaleArith(i);
    Wrap64(i * Scale)
  }

  datatype TimeUsage = TimeUsage(lastUpdate: int, user: Uint64, system: Uint64, load: int)

  /** `timeUsage.init`: a new baseline; the load is kept. */
  function InitUsage(u: TimeUsage, now: int, user: Uint64, system: Uint64): (r: TimeUsage)
    ensures r.lastUpdate == now && r.user == user && r.system == system && r.load == u.load
  {
    u.(lastUpdate := now, user := user, system := system)
  }

  /** The elapsed clock ticks `update` computes, in `uint64` arithmetic. */
  function ElapsedTicks(lastUpdate: int, now: int, clockTicks: Uint64): Uint64
  {
    Wrap64(Wrap64(Sub(now, lastUpdate)) * clockTicks) / NsecPerSec
  }

  /** `timeUsage.update`: without a whole tick elapsed nothing changes;
      otherwise the load becomes the scaled tick delta per elapsed tick and
      the sample becomes the new baseline. */
  function Update(u: TimeUsage, now: int, clockTicks: Uint64, user: Uint64, system: Uint64): (r: TimeUsage)
    ensures ElapsedTicks(u.lastUpdate, now, clockTicks) == 0 ==> r == u
    ensures ElapsedTicks(u.lastUpdate, now, clockTicks) > 0 ==>
      r.lastUpdate == now && r.user == user && r.system == system
  {
    var duration := ElapsedTicks(u.lastUpdate, now, clockTicks);
    if duration == 0 then u
    else
      var delta := Wrap64(Wrap64(user - u.user) + Wrap64(system - u.system));
      TimeUsage(now, user, system, ToInt(LoadPerTick(delta, duration)))
  }

  /** `scaleUp(delta) / duration` in `uint64`. */
  function LoadPerTick(delta: Uint64, duration: Uint64): Uint64
    requires duration > 0
  {
    var scaled := ScaleUp(delta);
    DivAtMost(scaled, duration);
    scaled / duration
  }

  /** Without counter wrap-around or overflow, the load is the number of
      user and system ticks per elapsed tick, scaled by 1024 and rounded
      down. */
  lemma UpdateLoad(u: TimeUsage, now: int, clockTicks: Uint64, user: Uint64, system: Uint64)
    requires ElapsedTicks(u.lastUpdate, now, clockTicks) > 0
    requires u.user <= user && u.system <= system
    requires (user - u.user) + (system - u.system) < Two54 / 2
    ensures Update(u, now, clockTicks, user, system).load ==
      ((user - u.user) + (system - u.system)) * Scale / ElapsedTicks(u.lastUpdate, now, clockTicks)
  {
    DeltaNoWrap(u.user, user, u.system, system);
    ScaledLoad((user - u.user) + (system - u.system), ElapsedTicks(u.lastUpdate, now, clockTicks));
    UpdatedLoad(u, now, clockTicks, user, system, (user - u.user) + (system - u.system),
                ElapsedTicks(u.lastUpdate, now, clockTicks));
  }

  /** The load `update` stores, given its wrapped delta and elapsed ticks. */
  lemma UpdatedLoad(u: TimeUsage, now: int, clockTicks: Uint64, user: Uint64, system: Uint64,
                    delta: Uint64, duration: Uint64)
    requires duration == ElapsedTicks(u.lastUpdate, now, clockTicks) && duration > 0
    requires delta == Wrap64(Wrap64(user - u.user) + Wrap64(system - u.system))
    ensures Update(u, now, clockTicks, user, system).load == ToInt(LoadPerTick(delta, duration))
  {
  }

  /** Counters that only grew, by little, need no wrap-around. */
  lemma DeltaNoWrap(a0: Uint64, a: Uint64, b0: Uint64, b: Uint64)
    requires a0 <= a && b0 <= b && (a - a0) + (b - b0) < Two54 / 2
    ensures Wrap64(Wrap64(a - a0) + Wrap64(b - b0)) == (a - a0) + (b - b0)
  {
    SmallWrap(a - a0);
    SmallWrap(b - b0);
    SmallWrap((a - a0) + (b - b0));
  }

  /** A small delta scales without loss, and the load stays positive as an
      `int64`. */
  lemma ScaledLoad(d: Uint64, ticks: Uint64)
    requires d < Two54 / 2 && ticks > 0
    ensures ScaleUp(d) == d * Scale
    ensures ToInt(ScaleUp(d) / ticks) == d * Scale / ticks
  {
    DivModUnique(d, Two54, 0, d);
    assert d * Scale < Two63;
    DivAtMost(d * Scale, ticks);
  }

  datatype Load = Load(id: Uint64, usage: TimeUsage)

  datatype SystemLoad = SystemLoad(cpusLoad: seq<Load>, tasksLoad: seq<Load>)

  // ---------------------------------------------------------------------
  // /proc parsing

  datatype CpuStat = CpuStat(cpuNum: Uint64, user: Uint64, system: Uint64)

  /** `parseCPUStatLine`: the user time is field 1, the system time field 3
      and the CPU number what follows "cpu" in field 0.  Go indexes field 1
      before parsing it, field 3 only once field 1 has parsed, and slices
      field 0 last; `None` is the panic of an index or slice that is out of
      range at that point. */
  function ParseCpuStatLine(str: string): (r: Option<Result<CpuStat>>)
    ensures r.None? <==>
      |Fields(str)| < 2 ||
      (ParseUint(Fields(str)[1], 10).Some? &&
       (|Fields(str)| < 4 || (ParseUint(Fields(str)[3], 10).Some? && |Fields(str)[0]| < 3)))
    ensures r.Some? && r.value.Ok? <==>
      |Fields(str)| >= 4 && |Fields(str)[0]| >= 3 &&
      ParseUint(Fields(str)[1], 10).Some? && ParseUint(Fields(str)[3], 10).Some? &&
      ParseUint(Fields(str)[0][3..], 10).Some?
    ensures r.Some? && r.value.Ok? ==> r.value.value == CpuStat(ParseUint(Fields(str)[0][3..], 10).value,
      ParseUint(Fields(str)[1], 10).value, ParseUint(Fields(str)[3], 10).value)
  {
    var statFields := Fields(str);
    if |statFields| < 2 then None
    else
      var cpu := statFields[0];
      match ParseUint(statFields[1], 10)
      case None => Some(Err("convert cpu user time from " + statFields[1] + " failed"))
      case Some(user) =>
        if |statFields| < 4 then None
        else
          match ParseUint(statFields[3], 10)
          case None => Some(Err("convert cpu system time from " + statFields[3] + " failed"))
          case Some(system) =>
            if |cpu| < 3 then None
            else
              match ParseUint(cpu[3..], 10)
              case None => Some(Err("convert cpu number from " + cpu + " failed"))
              case Some(cpuNum) => Some(Ok(CpuStat(cpuNum, user, system)))
  }

  datatype TaskStat = TaskStat(user: Uint64, system: Uint64)

  /** `parseTaskStatLine`: fields 13 and 14 of `/proc/<pid>/task/<tid>/stat`
      (the kernel always writes more than fifteen). */
  function ParseTaskStatLine(str: string): (r: Result<TaskStat>)
    requires |Fields(str)| >= 15
    ensures r.Ok? <==> ParseUint(Fields(str)[13], 10).Some? && ParseUint(Fields(str)[14], 10).Some?
    ensures r.Ok? ==> r.value == TaskStat(ParseUint(Fields(str)[13], 10).value, ParseUint(Fields(str)[14], 10).value)
  {
    var statFields := Fields(str);
    match ParseUint(statFields[13], 10)
    case None => Err("convert task user time from " + statFields[13] + " failed")
    case Some(user) =>
      match ParseUint(statFields[14], 10)
      case None => Err("convert task system time from " + statFields[14] + " failed")
      case Some(system) => Ok(TaskStat(user, system))
  }

  /** What `cpusLoadUpdate` does with one line of `/proc/stat`. */
  datatype LineAction = Stop | SkipAggregate | ParseLine

  /** The filter at the top of the `cpusLoadUpdate` loop.  `None` is the
      panic of `line[0:3]` on a line shorter than three characters, or of
      `line[3]` on the line "cpu" itself. */
  function ClassifyLine(line: string): (r: Option<LineAction>)
    ensures r == Some(Stop) <==> |line| >= 3 && line[..3] != "cpu"
    ensures r == Some(SkipAggregate) <==> |line| >= 4 && line[..4] == "cpu "
    ensures r == Some(ParseLine) <==> |line| >= 4 && line[..3] == "cpu" && line[3] != ' '
  {
    if |line| < 3 then None
    else if line[..3] != "cpu" then Some(Stop)
    else if |line| == 3 then None
    else if line[3] == ' ' then Some(SkipAggregate)
    else Some(ParseLine)
  }

  /** The CPU numbers the per-CPU lines of `lines` name and that parse. */
  ghost function StatCpus(lines: seq<string>): set<int>
  {
    if |lines| == 0 then {}
    else
      (if ClassifyLine(lines[0]) == Some(ParseLine) && ParseCpuStatLine(lines[0]).Some? &&
          ParseCpuStatLine(lines[0]).value.Ok?
       then {ParseCpuStatLine(lines[0]).value.value.cpuNum as int} else {}) + StatCpus(lines[1..])
  }

  /** `cpusLoadUpdate` over the lines of `/proc/stat`.  `None` is a Go
      panic: a short line, or a CPU number outside `cpusLoad`.  A CPU no
      parsed line names keeps its entry. */
  function CpusLoadUpdate(sys: SystemLoad, lines: seq<string>, init: bool, now: int, clockTicks: Uint64): (r: Option<SystemLoad>)
    ensures r.Some? ==> r.value.tasksLoad == sys.tasksLoad && |r.value.cpusLoad| == |sys.cpusLoad|
    ensures r.Some? ==> forall c :: 0 <= c < |sys.cpusLoad| && c !in StatCpus(lines) ==> r.value.cpusLoad[c] == sys.cpusLoad[c]
    decreases |lines|
  {
    if |lines| == 0 then Some(sys)
    else
      var line := lines[0];
      match ClassifyLine(line)
      case None => None
      case Some(Stop) => Some(sys)
      case Some(SkipAggregate) => CpusLoadUpdate(sys, lines[1..], init, now, clockTicks)
      case Some(ParseLine) =>
        match ParseCpuStatLine(line)
        case None => None
        case Some(Err(_)) => CpusLoadUpdate(sys, lines[1..], init, now, clockTicks)
        case Some(Ok(stat)) =>
          if stat.cpuNum >= |sys.cpusLoad| then None
          else
            var prev := sys.cpusLoad[stat.cpuNum];
            var load :=
              if init then Load(stat.cpuNum, InitUsage(prev.usage, now, stat.user, stat.system))
              else prev.(usage := Update(prev.usage, now, clockTicks, stat.user, stat.system));
            CpusLoadUpdate(sys.(cpusLoad := sys.cpusLoad[stat.cpuNum := load]), lines[1..], init, now, clockTicks)
  }

  /** Lines after the first one that does not start with "cpu" are never
      looked at. */
  lemma {:induction false} StopsAtFirstNonCpuLine(sys: SystemLoad, lines: seq<string>, k: nat, init: bool, now: int, clockTicks: Uint64)
    requires k < |lines| && ClassifyLine(lines[k]) == Some(Stop)
    ensures CpusLoadUpdate(sys, lines, init, now, clockTicks) == CpusLoadUpdate(sys, lines[..k], init, now, clockTicks)
    decreases k
  {
    if k > 0 {
      assert lines[1..][..k - 1] == lines[..k][1..];
      assert lines[..k][0] == lines[0];
      match ClassifyLine(lines[0])
      case None =>
      case Some(Stop) =>
      case Some(SkipAggregate) =>
        StopsAtFirstNonCpuLine(sys, lines[1..], k - 1, init, now, clockTicks);
      case Some(ParseLine) =>
        match ParseCpuStatLine(lines[0])
        case None =>
        case Some(Err(_)) =>
          StopsAtFirstNonCpuLine(sys, lines[1..], k - 1, init, now, clockTicks);
        case Some(Ok(stat)) =>
          if stat.cpuNum < |sys.cpusLoad| {
            var prev := sys.cpusLoad[stat.cpuNum];
            var load :=
              if init then Load(stat.cpuNum, InitUsage(prev.usage, now, stat.user, stat.system))
              else prev.(usage := Update(prev.usage, now, clockTicks, stat.user, stat.system));
            StopsAtFirstNonCpuLine(sys.(cpusLoad := sys.cpusLoad[stat.cpuNum := load]), lines[1..], k - 1, init, now, clockTicks);
          }
    }
  }

  /** A per-CPU line whose numbers do not convert changes nothing. */
  lemma BadCpuLineSkipped(sys: SystemLoad, line: string, rest: seq<string>, init: bool, now: int, clockTicks: Uint64)
    requires ClassifyLine(line) == Some(ParseLine)
    requires ParseCpuStatLine(line).Some? && ParseCpuStatLine(line).value.Err?
    ensures CpusLoadUpdate(sys, [line] + rest, init, now, clockTicks) == CpusLoadUpdate(sys, rest, init, now, clockTicks)
  {
    assert ([line] + rest)[1..] == rest;
  }

  /** A per-CPU line with a number but fewer than four fields panics. */
  lemma ShortCpuLinePanics(sys: SystemLoad, line: string, rest: seq<string>, init: bool, now: int, clockTicks: Uint64)
    requires ClassifyLine(line) == Some(ParseLine)
    requires 2 <= |Fields(line)| < 4 && ParseUint(Fields(line)[1], 10).Some?
    ensures CpusLoadUpdate(sys, [line] + rest, init, now, clockTicks).None?
  {
    assert ([line] + rest)[0] == line;
  }

  /** The aggregate "cpu " line changes nothing. */
  lemma AggregateLineSkipped(sys: SystemLoad, agg: string, rest: seq<string>, init: bool, now: int, clockTicks: Uint64)
    requires |agg| >= 4 && agg[..4] == "cpu "
    ensures CpusLoadUpdate(sys, [agg] + rest, init, now, clockTicks) == CpusLoadUpdate(sys, rest, init, now, clockTicks)
  {
    assert ([agg] + rest)[1..] == rest;
  }

  /** The `Tgid: %d` format of `getPidFromTid`. */
  function TgidFormat(): seq<GoFmt.Token>
  {
    GoFmt.Literal("Tgid: ") + [GoFmt.UnsignedDec]
  }

  /** `getPidFromTid` over `/proc/<tid>/status`: the lines read, or the
      error `os.Open` gave, which is returned unchanged.  The first line
      starting "Tgid" decides, whether or not it scans. */
  function GetPidFromTid(status: Result<seq<string>>): (r: Result<Uint64>)
    ensures status.Err? ==> r == Err(status.msg)
    ensures status.Ok? && (forall i :: 0 <= i < |status.value| ==> !HasPrefix(status.value[i], "Tgid")) ==>
      r == Err("can not find Tgid from status file")
  {
    match status
    case Err(msg) => Err(msg)
    case Ok(lines) => FindTgid(lines)
  }

  /** The scanner loop of `getPidFromTid`. */
  function FindTgid(status: seq<string>): (r: Result<Uint64>)
    ensures (forall i :: 0 <= i < |status| ==> !HasPrefix(status[i], "Tgid")) ==>
      r == Err("can not find Tgid from status file")
  {
    if |status| == 0 then Err("can not find Tgid from status file")
    else if HasPrefix(status[0], "Tgid") then ScanTgid(status[0])
    else FindTgid(status[1..])
  }

  /** Scanning the one "Tgid" line with the `Tgid: %d` format. */
  function ScanTgid(line: string): Result<Uint64>
  {
    var f := TgidFormat();
    match GoFmt.Scan(line, f)
    case Some(vals) =>
      if |vals| == 1 && 0 <= vals[0] < Two64 then Ok(vals[0] as Uint64) else Err("unexpected scan result")
    case None => Err("input does not match format")
  }

  lemma TgidTokens()
    ensures TgidFormat() == [GoFmt.Lit('T'), GoFmt.Lit('g'), GoFmt.Lit('i'), GoFmt.Lit('d'), GoFmt.Lit(':'), GoFmt.Space, GoFmt.UnsignedDec]
  {
    assert GoFmt.Literal("Tgid: ") == [GoFmt.Lit('T'), GoFmt.Lit('g'), GoFmt.Lit('i'), GoFmt.Lit('d'), GoFmt.Lit(':'), GoFmt.Space];
  }

  /** A non-empty run of the blanks `fmt` skips: the kernel separates the
      field name from its value with a tab. */
  predicate Blanks(ws: string)
  {
    |ws| > 0 && forall i :: 0 <= i < |ws| ==> GoFmt.ScanSpace(ws[i])
  }

  /** The status line the kernel writes is read back as the pid. */
  lemma GetPidFromTidFindsTgid(before: seq<string>, ws: string, pid: Uint64, after: seq<string>)
    requires forall i :: 0 <= i < |before| ==> !HasPrefix(before[i], "Tgid")
    requires Blanks(ws)
    ensures GetPidFromTid(Ok(before + ["Tgid:" + ws + FormatDecimal(pid)] + after)) == Ok(pid)
  {
    FindTgidLine(before, ws, pid, after);
  }

  lemma {:induction false} FindTgidLine(before: seq<string>, ws: string, pid: Uint64, after: seq<string>)
    requires forall i :: 0 <= i < |before| ==> !HasPrefix(before[i], "Tgid")
    requires Blanks(ws)
    ensures FindTgid(before + ["Tgid:" + ws + FormatDecimal(pid)] + after) == Ok(pid)
    decreases |before|
  {
    var lines := before + ["Tgid:" + ws + FormatDecimal(pid)] + after;
    if |before| == 0 {
      assert lines == ["Tgid:" + ws + FormatDecimal(pid)] + after;
      TgidLineScans(ws, pid);
    } else {
      assert lines[1..] == before[1..] + ["Tgid:" + ws + FormatDecimal(pid)] + after;
      FindTgidLine(before[1..], ws, pid, after);
    }
  }

  lemma TgidLineScans(ws: string, pid: Uint64)
    requires Blanks(ws)
    ensures HasPrefix("Tgid:" + ws + FormatDecimal(pid), "Tgid")
    ensures GoFmt.Scan("Tgid:" + ws + FormatDecimal(pid), TgidFormat()) == Some([pid])
  {
    GoFmt.ScanLabelledNumber("Tgid:", ws, pid);
    TgidSplit();
    assert ("Tgid:" + ws + FormatDecimal(pid))[..4] == "Tgid";
  }

  /** `Tgid: %d` is the literal "Tgid:", a space and the verb. */
  lemma TgidSplit()
    ensures GoFmt.Literal("Tgid:") + [GoFmt.Space, GoFmt.UnsignedDec] == TgidFormat()
  {
    TgidTokens();
    assert GoFmt.Literal("Tgid:") == [GoFmt.Lit('T'), GoFmt.Lit('g'), GoFmt.Lit('i'), GoFmt.Lit('d'), GoFmt.Lit(':')];
  }

  // ---------------------------------------------------------------------
  // Monitored tasks

  /** `findTask`: the position of the first entry for `id`. */
  function FindTask(tasks: seq<Load>, id: Uint64): (r: Option<nat>)
    ensures r.None? <==> forall i :: 0 <= i < |tasks| ==> tasks[i].id != id
    ensures r.Some? ==> r.value < |tasks| && tasks[r.value].id == id &&
                        (forall i :: 0 <= i < r.value ==> tasks[i].id != id)
  {
    if |tasks| == 0 then None
    else if tasks[0].id == id then Some(0)
    else
      match FindTask(tasks[1..], id)
      case None => None
      case Some(i) => Some(i + 1)
  }

  lemma FindTaskFirst(tasks: seq<Load>, id: Uint64, k: nat)
    requires k < |tasks| && tasks[k].id == id
    requires forall j :: 0 <= j < k ==> tasks[j].id != id
    ensures FindTask(tasks, id) == Some(k)
  {
  }

  /** What `updateTaskLoad` reads of a task: the clock and the task's
      user and system times from `/proc/<pid>/task/<tid>/stat`. */
  datatype TaskReading = TaskReading(now: int, user: Uint64, system: Uint64)

  /** The zero `timeUsage` a new `Load` starts with. */
  const ZeroUsage: TimeUsage := TimeUsage(0, 0, 0, 0)

  /** `AddTask`: appends a zero entry for `id`, which `updateTaskLoad(.., true)`
      then initialises.  `reading` is `None` when that call gave up (no
      pid, no stat file, a bad stat line); the entry then stays zero.
      Either way the new entry's load is 0, since `init` keeps it. */
  function AddTask(sys: SystemLoad, id: Uint64, reading: Option<TaskReading>): (r: SystemLoad)
    ensures r.cpusLoad == sys.cpusLoad
    ensures |r.tasksLoad| == |sys.tasksLoad| + 1 && r.tasksLoad[..|sys.tasksLoad|] == sys.tasksLoad
    ensures r.tasksLoad[|sys.tasksLoad|].id == id && r.tasksLoad[|sys.tasksLoad|].usage.load == 0
    ensures reading.None? ==> r.tasksLoad[|sys.tasksLoad|].usage == ZeroUsage
    ensures reading.Some? ==>
      var u := r.tasksLoad[|sys.tasksLoad|].usage;
      u.lastUpdate == reading.value.now && u.user == reading.value.user && u.system == reading.value.system
  {
    var usage := match reading
      case None => ZeroUsage
      case Some(rd) => InitUsage(ZeroUsage, rd.now, rd.user, rd.system);
    sys.(tasksLoad := sys.tasksLoad + [Load(id, usage)])
  }

  /** `RemoveTask`: drops the first entry for `id`, if there is one. */
  function RemoveTask(sys: SystemLoad, id: Uint64): (r: SystemLoad)
    ensures r.cpusLoad == sys.cpusLoad
    ensures FindTask(sys.tasksLoad, id).None? ==> r == sys
    ensures FindTask(sys.tasksLoad, id).Some? ==>
      var i := FindTask(sys.tasksLoad, id).value;
      r.tasksLoad == sys.tasksLoad[..i] + sys.tasksLoad[i + 1..]
  {
    match FindTask(sys.tasksLoad, id)
    case None => sys
    case Some(i) => sys.(tasksLoad := sys.tasksLoad[..i] + sys.tasksLoad[i + 1..])
  }

  /** `GetTaskLoad`: the load of the first entry for `id`, 0 when the task is
      not monitored. */
  function GetTaskLoad(sys: SystemLoad, id: Uint64): (r: int)
    ensures (forall i :: 0 <= i < |sys.tasksLoad| ==> sys.tasksLoad[i].id != id) ==> r == 0
  {
    match FindTask(sys.tasksLoad, id)
    case None => 0
    case Some(i) => sys.tasksLoad[i].usage.load
  }

  /** Adding a task that was not monitored makes its load visible, and
      removing it again restores the list. */
  lemma AddThenGetRemove(sys: SystemLoad, id: Uint64, reading: Option<TaskReading>)
    requires forall i :: 0 <= i < |sys.tasksLoad| ==> sys.tasksLoad[i].id != id
    ensures GetTaskLoad(AddTask(sys, id, reading), id) == 0
    ensures RemoveTask(AddTask(sys, id, reading), id) == sys
  {
  }

  /** Removing a task leaves the entries for every other id. */
  lemma RemoveKeepsOthers(sys: SystemLoad, id: Uint64, other: Uint64)
    requires other != id
    ensures FindTask(RemoveTask(sys, id).tasksLoad, other).Some? <==> FindTask(sys.tasksLoad, other).Some?
    ensures GetTaskLoad(RemoveTask(sys, id), other) == GetTaskLoad(sys, other)
  {
    match FindTask(sys.tasksLoad, id)
    case None =>
    case Some(i) => FindAfterRemove(sys.tasksLoad, i, other);
  }

  /** Dropping an entry for another id keeps the first entry for `other`. */
  lemma {:induction false} FindAfterRemove(t: seq<Load>, i: nat, other: Uint64)
    requires i < |t| && t[i].id != other
    ensures FindTask(t[..i] + t[i + 1..], other).Some? <==> FindTask(t, other).Some?
    ensures FindTask(t, other).Some? ==>
      (t[..i] + t[i + 1..])[FindTask(t[..i] + t[i + 1..], other).value] == t[FindTask(t, other).value]
    decreases i
  {
    var r := t[..i] + t[i + 1..];
    if i == 0 {
      assert r == t[1..];
    } else if t[0].id != other {
      var t' := t[1..];
      assert r[1..] == t'[..i - 1] + t'[i..];
      FindAfterRemove(t', i - 1, other);
    }
  }

  /** `GetCPULoad` as written: it guards `cpu > len(cpusLoad)` only, so
      `cpu == len(cpusLoad)` (and any negative `cpu`) indexes past the
      slice and Go panics; `None` stands for that panic. */
  function GetCpuLoadAsWritten(sys: SystemLoad, cpu: int): (r: Option<int>)
  {
    if cpu > |sys.cpusLoad| then Some(0)
    else if cpu < 0 || cpu == |sys.cpusLoad| then None
    else Some(sys.cpusLoad[cpu].usage.load)
  }

  /** `GetCPULoad` with the bound it evidently intends: 0 for any CPU the
      table does not hold. */
  function GetCpuLoad(sys: SystemLoad, cpu: int): (r: int)
    ensures 0 <= cpu < |sys.cpusLoad| ==> r == sys.cpusLoad[cpu].usage.load
    ensures !(0 <= cpu < |sys.cpusLoad|) ==> r == 0
  {
    if cpu >= |sys.cpusLoad| || cpu < 0 then 0 else sys.cpusLoad[cpu].usage.load
  }

  /** The two agree on every CPU that exists and past the end, and the
      code as written panics exactly at `cpu == len` (or below 0). */
  lemma GetCpuLoadOffByOne(sys: SystemLoad, cpu: int)
    ensures GetCpuLoadAsWritten(sys, cpu).None? <==> cpu < 0 || cpu == |sys.cpusLoad|
    ensures GetCpuLoadAsWritten(sys, cpu).Some? ==> GetCpuLoadAsWritten(sys, cpu).value == GetCpuLoad(sys, cpu)
  {
  }
}

=== FILE: sysparse.dfy ===
/** The per-thread system-call counters the tracer keeps
    (`common/ptrace`): futex addresses for thread grouping, network and
    `io_getevents` accesses for the IO/net partition.  The tracer stops
    the thread at each system call and hands its registers to one of the
    dispatch functions below; reading `/proc/<pid>/fd/<fd>` and the
    `/proc/net` tables is replaced by inputs. */
module SysParse {
  import opened Wrappers
  import opened GoStrings

  /** x86-64 system-call numbers (`golang.org/x/sys/unix`, linux/amd64). */
  const SysRead: Uint64 := 0
  const SysWrite: Uint64 := 1
  const SysSendto: Uint64 := 44
  const SysRecvfrom: Uint64 := 45
  const SysFutex: Uint64 := 202
  const SysIoGetevents: Uint64 := 208

  /** The two registers the dispatchers look at. */
  datatype Regs = Regs(origRax: Uint64, rdi: Uint64)

  /** Futex address to the number of futex calls on it (Go `map[uint64]int`). */
  type FutexMap = map<Uint64, int>

  datatype SysCount = SysCount(netAccess: Uint64, futexMap: FutexMap, ioGetEvents: Uint64)

  datatype ProcessFeature = ProcessFeature(pid: Uint64, sysCount: SysCount)

  /** Reading a Go map: the zero value for a missing key. */
  function Lookup(m: FutexMap, k: Uint64): int
  {
    if k in m then m[k] else 0
  }

  // ---------------------------------------------------------------------
  // Futex detection

  /** `FutextDetect`: counts one more call on the futex word in `rdi`. */
  function FutexDetect(regs: Regs, p: ProcessFeature): (r: ProcessFeature)
    ensures regs.origRax != SysFutex ==> r == p
    ensures regs.origRax == SysFutex ==>
      r.pid == p.pid && r.sysCount.netAccess == p.sysCount.netAccess &&
      r.sysCount.ioGetEvents == p.sysCount.ioGetEvents
    ensures regs.origRax == SysFutex ==>
      regs.rdi in r.sysCount.futexMap &&
      Lookup(r.sysCount.futexMap, regs.rdi) == Lookup(p.sysCount.futexMap, regs.rdi) + 1
    ensures forall k :: k != regs.rdi ==>
      (k in r.sysCount.futexMap <==> k in p.sysCount.futexMap) &&
      Lookup(r.sysCount.futexMap, k) == Lookup(p.sysCount.futexMap, k)
  {
    if regs.origRax != SysFutex then p
    else
      var m := p.sysCount.futexMap;
      var m' := if regs.rdi !in m then m[regs.rdi := 1] else m[regs.rdi := m[regs.rdi] + 1];
      p.(sysCount := p.sysCount.(futexMap := m'))
  }

  /** The futex calls on address `k` among `calls`. */
  function FutexCalls(calls: seq<Regs>, k: Uint64): nat
  {
    if |calls| == 0 then 0
    else FutexCalls(calls[..|calls| - 1], k) +
         (if calls[|calls| - 1].origRax == SysFutex && calls[|calls| - 1].rdi == k then 1 else 0)
  }

  /** The tracing loop handing every stop to `FutextDetect`, in order. */
  function DetectAll(p: ProcessFeature, calls: seq<Regs>): ProcessFeature
  {
    if |calls| == 0 then p else FutexDetect(calls[|calls| - 1], DetectAll(p, calls[..|calls| - 1]))
  }

  /** After a trace, each futex word's count is the number of futex calls
      on it; nothing else about the thread changes. */
  lemma {:induction false} DetectAllCounts(p: ProcessFeature, calls: seq<Regs>, k: Uint64)
    ensures Lookup(DetectAll(p, calls).sysCount.futexMap, k) == Lookup(p.sysCount.futexMap, k) + FutexCalls(calls, k)
    ensures DetectAll(p, calls).pid == p.pid
    ensures DetectAll(p, calls).sysCount.netAccess == p.sysCount.netAccess
    ensures DetectAll(p, calls).sysCount.ioGetEvents == p.sysCount.ioGetEvents
  {
    if |calls| > 0 {
      DetectAllCounts(p, calls[..|calls| - 1], k);
    }
  }

  // ---------------------------------------------------------------------
  // Socket file descriptors

  const SocketOpen: string := "socket:["

  /** Length of the run of decimal digits `s` starts with. */
  function DigitRun(s: string): (n: nat)
    ensures n <= |s|
    ensures forall i :: 0 <= i < n ==> IsDecDigit(s[i])
    ensures n < |s| ==> !IsDecDigit(s[n])
  {
    if |s| == 0 || !IsDecDigit(s[0]) then 0 else 1 + DigitRun(s[1..])
  }

  /** The digits following `socket:[` at position `p`. */
  function SocketDigits(link: string, p: nat): string
    requires p + |SocketOpen| <= |link|
  {
    var start := p + |SocketOpen|;
    link[start..start + DigitRun(link[start..])]
  }

  /** The pattern `socket:\[(\d+)\]` matches at position `p`. */
  predicate SocketAt(link: string, p: nat)
  {
    OccursAt(link, SocketOpen, p) &&
    var end := p + |SocketOpen| + |SocketDigits(link, p)|;
    |SocketDigits(link, p)| > 0 && end < |link| && link[end] == ']'
  }

  /** The leftmost match at or after `from`. */
  function FirstSocket(link: string, from: nat): (r: Option<nat>)
    ensures r.Some? ==> from <= r.value && SocketAt(link, r.value)
    ensures r.Some? ==> forall q :: from <= q < r.value ==> !SocketAt(link, q)
    ensures r.None? ==> forall q :: from <= q ==> !SocketAt(link, q)
    decreases |link| - from
  {
    if from + |SocketOpen| > |link| then None
    else if SocketAt(link, from) then Some(from)
    else FirstSocket(link, from + 1)
  }

  /** `socket:[` occurs at `p` and nowhere before it. */
  ghost predicate LeftmostSocket(link: string, p: nat)
  {
    SocketAt(link, p) && forall q: nat :: q < p ==> !SocketAt(link, q)
  }

  /** `isSocketfd`: whether a descriptor's link target names a socket, and
      its inode.  Only the leftmost match counts; if its number does not
      fit in 64 bits the answer is `(false, 0)`. */
  function IsSocketFd(link: string): (r: (bool, Uint64))
    ensures (forall p :: !SocketAt(link, p)) ==> r == (false, 0)
    ensures !r.0 ==> r.1 == 0
    ensures r.0 ==> exists p: nat :: LeftmostSocket(link, p) && ParseUint(SocketDigits(link, p), 10) == Some(r.1)
    ensures (exists p: nat :: LeftmostSocket(link, p) && ParseUint(SocketDigits(link, p), 10).Some?) ==> r.0
  {
    match FirstSocket(link, 0)
    case None => (false, 0)
    case Some(p) =>
      match ParseUint(SocketDigits(link, p), 10)
      case Some(inode) => (true, inode)
      case None => (false, 0)
  }

  /** The link of a socket descriptor is `socket:[<digits>]`; the leftmost
      match is at the start and covers all the digits. */
  lemma SocketLinkMatch(d: string)
    requires |d| > 0 && AllDigits(d, 10)
    ensures FirstSocket(SocketOpen + d + "]", 0) == Some(0)
    ensures SocketDigits(SocketOpen + d + "]", 0) == d
  {
    var link := SocketOpen + (d + "]");
    assert SocketOpen + d + "]" == link;
    assert link[..|SocketOpen|] == SocketOpen;
    assert link[|SocketOpen|..] == d + "]";
    DigitRunOf(d, "]");
    assert (d + "]")[..|d|] == d;
    assert SocketAt(link, 0);
  }

  lemma {:induction false} DigitRunOf(d: string, rest: string)
    requires AllDigits(d, 10)
    requires |rest| == 0 || !IsDecDigit(rest[0])
    ensures DigitRun(d + rest) == |d|
  {
    if |d| > 0 {
      assert (d + rest)[1..] == d[1..] + rest;
      DigitRunOf(d[1..], rest);
    } else {
      assert d + rest == rest;
    }
  }

  /** The inode of a socket link is read back exactly. */
  lemma SocketLinkInode(n: Uint64)
    ensures IsSocketFd(SocketOpen + FormatDecimal(n) + "]") == (true, n)
  {
    SocketLinkMatch(FormatDecimal(n));
    ParseFormatDecimal(n);
  }

  /** An inode number too large for `uint64` makes the link a non-socket. */
  lemma SocketLinkOverflow(d: string)
    requires |d| > 0 && AllDigits(d, 10) && Value(d, 10) >= Two64
    ensures IsSocketFd(SocketOpen + d + "]") == (false, 0)
  {
    SocketLinkMatch(d);
  }

  /** A link without `socket:[` is not a socket. */
  lemma PlainFileNotSocket(link: string)
    requires !Contains(link, SocketOpen)
    ensures IsSocketFd(link) == (false, 0)
  {
  }

  // ---------------------------------------------------------------------
  // Network accesses

  /** `collectSockAccess`: `link` is what `os.Readlink` returned for the
      descriptor (`None` when it failed) and `netInodes` the inodes listed in
      the readable `/proc/net/{tcp,udp,tcp6,udp6}` tables. */
  function CollectSockAccess(p: ProcessFeature, link: Option<string>, netInodes: set<Uint64>)
    : (r: (ProcessFeature, Option<string>))
    ensures link.None? ==> r == (p, Some("collectRead Readlink fail"))
    ensures link.Some? ==> r.1 == None
    ensures r.0.pid == p.pid && r.0.sysCount.futexMap == p.sysCount.futexMap
    ensures r.0.sysCount.ioGetEvents == p.sysCount.ioGetEvents
    ensures link.Some? && IsSocketFd(link.value).0 && IsSocketFd(link.value).1 in netInodes ==>
      r.0.sysCount.netAccess == Wrap64(p.sysCount.netAccess + 1)
    ensures !(link.Some? && IsSocketFd(link.value).0 && IsSocketFd(link.value).1 in netInodes) ==>
      r.0.sysCount.netAccess == p.sysCount.netAccess
  {
    match link
    case None => (p, Some("collectRead Readlink fail"))
    case Some(l) =>
      var (isSock, inode) := IsSocketFd(l);
      if isSock && inode in netInodes then
        (p.(sysCount := p.sysCount.(netAccess := Wrap64(p.sysCount.netAccess + 1))), None)
      else (p, None)
  }

  /** A system call that counts as a possible network access. */
  predicate IsSockCall(nr: Uint64)
  {
    nr == SysRead || nr == SysWrite || nr == SysSendto || nr == SysRecvfrom
  }

  /** `ParseSyscall`: the dispatch table.  `fds` maps the thread's open
      descriptors to their link targets; the descriptor is `rdi`. */
  function ParseSyscall(regs: Regs, p: ProcessFeature, fds: map<Uint64, string>, netInodes: set<Uint64>)
    : (r: (ProcessFeature, Option<string>))
    ensures regs.origRax == SysIoGetevents ==>
      r == (p.(sysCount := p.sysCount.(ioGetEvents := Wrap64(p.sysCount.ioGetEvents + 1))), None)
    ensures !IsSockCall(regs.origRax) && regs.origRax != SysIoGetevents ==> r == (p, None)
  {
    if IsSockCall(regs.origRax) then
      CollectSockAccess(p, if regs.rdi in fds then Some(fds[regs.rdi]) else None, netInodes)
    else if regs.origRax == SysIoGetevents then
      (p.(sysCount := p.sysCount.(ioGetEvents := Wrap64(p.sysCount.ioGetEvents + 1))), None)
    else (p, None)
  }

  /** A read or write on a descriptor that is a listed network socket
      counts one network access; on a closed descriptor it fails and
      changes nothing. */
  lemma SockCallCounts(regs: Regs, p: ProcessFeature, fds: map<Uint64, string>, netInodes: set<Uint64>, inode: Uint64)
    requires IsSockCall(regs.origRax)
    requires regs.rdi in fds && fds[regs.rdi] == SocketOpen + FormatDecimal(inode) + "]"
    ensures inode in netInodes ==>
      ParseSyscall(regs, p, fds, netInodes).0.sysCount.netAccess == Wrap64(p.sysCount.netAccess + 1)
    ensures inode !in netInodes ==> ParseSyscall(regs, p, fds, netInodes) == (p, None)
  {
    SocketLinkInode(inode);
  }

  lemma ClosedFdFails(regs: Regs, p: ProcessFeature, fds: map<Uint64, string>, netInodes: set<Uint64>)
    requires IsSockCall(regs.origRax) && regs.rdi !in fds
    ensures ParseSyscall(regs, p, fds, netInodes) == (p, Some("collectRead Readlink fail"))
  {
  }
}

=== FILE: testlib.dfy ===
/** The test library's pure parts: the sysfs and `/proc/stat` writers whose
    output the daemon's parsers read back, the fixed topology shape, the
    task-id allocator and the affinity stub.  Files are strings. */
module TestLib {
  import opened Wrappers
  import opened GoStrings
  import CpuMask
  import SysLoad

  // ---------------------------------------------------------------------
  // maskToByte

  /** How many words `maskToByte` prints: all words up to and including
      the highest non-zero one among the first `n`. */
  function PrintedWords(m: CpuMask.Cpumask, n: nat): (r: nat)
    requires n <= CpuMask.MaskWords
    ensures r <= n
    ensures r > 0 ==> m[r - 1] != 0
    ensures forall j :: r <= j < n ==> m[j] == 0
  {
    if n == 0 then 0 else if m[n - 1] != 0 then n else PrintedWords(m, n - 1)
  }

  /** Words `n-1` down to 0, each as sixteen lower-case hex digits. */
  function HexWords(m: CpuMask.Cpumask, n: nat): (s: string)
    requires n <= CpuMask.MaskWords
    ensures |s| == 16 * n && AllDigits(s, 16)
  {
    if n == 0 then [] else FormatHexFixed(m[n - 1], 16) + HexWords(m, n - 1)
  }

  /** `maskToByte`: leading zero words are skipped; an empty mask prints "0".
      Otherwise the highest non-zero word is printed first, and word `k`
      fills the `k`-th sixteen-digit block from the right. */
  function MaskToByte(m: CpuMask.Cpumask): (s: string)
    ensures |s| > 0 && AllDigits(s, 16)
    ensures (forall k :: 0 <= k < CpuMask.MaskWords ==> m[k] == 0) <==> s == "0"
    ensures s != "0" ==>
              var w := |s| / 16;
              |s| == 16 * w && 0 < w <= CpuMask.MaskWords && m[w - 1] != 0 &&
              (forall j :: w <= j < CpuMask.MaskWords ==> m[j] == 0) &&
              (forall k :: 0 <= k < w ==> s[16 * (w - 1 - k)..16 * (w - k)] == FormatHexFixed(m[k], 16))
  {
    var n := PrintedWords(m, CpuMask.MaskWords);
    if n == 0 then "0"
    else
      HexWordsBlocks(m, n);
      HexWords(m, n)
  }

  /** Every word below `n` sits in its block. */
  lemma HexWordsBlocks(m: CpuMask.Cpumask, n: nat)
    requires n <= CpuMask.MaskWords
    ensures forall k :: 0 <= k < n ==> HexWords(m, n)[16 * (n - 1 - k)..16 * (n - k)] == FormatHexFixed(m[k], 16)
  {
    forall k | 0 <= k < n
      ensures HexWords(m, n)[16 * (n - 1 - k)..16 * (n - k)] == FormatHexFixed(m[k], 16)
    {
      HexWordsBlock(m, n, k);
    }
  }

  /** Word `k` occupies the `k`-th sixteen-character block from the right. */
  lemma {:induction false} HexWordsBlock(m: CpuMask.Cpumask, n: nat, k: nat)
    requires n <= CpuMask.MaskWords && k < n
    ensures HexWords(m, n)[16 * (n - 1 - k)..16 * (n - k)] == FormatHexFixed(m[k], 16)
  {
    var h := FormatHexFixed(m[n - 1], 16);
    var t := HexWords(m, n - 1);
    assert HexWords(m, n) == h + t;
    if k == n - 1 {
      assert (h + t)[0..16] == h;
    } else {
      HexWordsBlock(m, n - 1, k);
      assert (h + t)[16 * (n - 1 - k)..16 * (n - k)] == t[16 * (n - 2 - k)..16 * (n - 1 - k)];
    }
  }

  /** The printed mask reads back, through `ParseString`, as the same mask. */
  lemma MaskRoundTrip(m: CpuMask.Cpumask)
    ensures CpuMask.ParseString(MaskToByte(m)) == CpuMask.Parsed(m, true)
  {
    var str := MaskToByte(m);
    CpuMask.ParseStringSpec(str);
    assert CpuMask.HexBetween(str, CpuMask.ChunkStart(|str|, 9), |str|);
    ChunksAreWords(m);
    assert CpuMask.ParseString(str).mask == m;
  }

  /** Chunk `k` from the right of the printed mask holds word `k`. */
  lemma ChunksAreWords(m: CpuMask.Cpumask)
    ensures forall k :: 0 <= k < CpuMask.MaskWords ==>
      AllDigits(CpuMask.Chunk(MaskToByte(m), k), 16) && Value(CpuMask.Chunk(MaskToByte(m), k), 16) == m[k]
  {
    var str := MaskToByte(m);
    if str == "0" {
      forall k | 0 <= k < CpuMask.MaskWords
        ensures AllDigits(CpuMask.Chunk(str, k), 16) && Value(CpuMask.Chunk(str, k), 16) == m[k]
      {
        ZeroChunk(k);
      }
    } else {
      var w := |str| / 16;
      forall k | 0 <= k < CpuMask.MaskWords
        ensures AllDigits(CpuMask.Chunk(str, k), 16) && Value(CpuMask.Chunk(str, k), 16) == m[k]
      {
        PrintedChunk(str, m, w, k);
      }
    }
  }

  /** Every chunk of the printed empty mask reads as zero. */
  lemma ZeroChunk(k: nat)
    ensures AllDigits(CpuMask.Chunk("0", k), 16) && Value(CpuMask.Chunk("0", k), 16) == 0
  {
    assert CpuMask.Chunk("0", k) == if k == 0 then "0" else [];
  }

  /** In a printed mask of `w` full words, chunk `k` from the right is the
      `k`-th word's sixteen digits, or empty past the last word. */
  lemma PrintedChunk(str: string, m: CpuMask.Cpumask, w: nat, k: nat)
    requires k < CpuMask.MaskWords
    requires |str| == 16 * w && w <= CpuMask.MaskWords
    requires forall j :: w <= j < CpuMask.MaskWords ==> m[j] == 0
    requires forall j :: 0 <= j < w ==> str[16 * (w - 1 - j)..16 * (w - j)] == FormatHexFixed(m[j], 16)
    ensures AllDigits(CpuMask.Chunk(str, k), 16) && Value(CpuMask.Chunk(str, k), 16) == m[k]
  {
    if k < w {
      assert CpuMask.Chunk(str, k) == str[16 * (w - 1 - k)..16 * (w - k)];
      Pow16Is2To64();
      HexFixedRoundTrip(m[k], 16);
    } else {
      assert CpuMask.Chunk(str, k) == [];
    }
  }

  // ---------------------------------------------------------------------
  // CPUProcStat.ToString

  datatype CpuProcStat = CpuProcStat(
    cpuNum: Uint64, user: Uint64, nice: Uint64, system: Uint64, idle: Uint64, iowait: Uint64,
    irq: Uint64, softirq: Uint64, steal: Uint64, guest: Uint64, guestNice: Uint64)

  function Counters(stat: CpuProcStat): seq<string>
  {
    [FormatDecimal(stat.user), FormatDecimal(stat.nice), FormatDecimal(stat.system),
     FormatDecimal(stat.idle), FormatDecimal(stat.iowait), FormatDecimal(stat.irq),
     FormatDecimal(stat.softirq), FormatDecimal(stat.steal), FormatDecimal(stat.guest),
     FormatDecimal(stat.guestNice)]
  }

  /** `CPUProcStat.ToString`: one `/proc/stat` line, "cpu<n>", two blanks,
      the ten counters separated by single blanks, and a newline. */
  function CpuStatLine(stat: CpuProcStat): (s: string)
    ensures HasPrefix(s, "cpu") && s[|s| - 1] == '\n'
  {
    "cpu" + FormatDecimal(stat.cpuNum) + "  " + Join(Counters(stat), ' ') + "\n"
  }

  lemma DecimalIsWord(n: nat)
    ensures |FormatDecimal(n)| > 0 && NoSpace(FormatDecimal(n))
  {
    var s := FormatDecimal(n);
    forall i | 0 <= i < |s| ensures !IsSpace(s[i]) {
      assert IsDecDigit(s[i]);
    }
  }

  lemma CountersAreWords(stat: CpuProcStat)
    ensures forall k :: 0 <= k < |Counters(stat)| ==> |Counters(stat)[k]| > 0 && NoSpace(Counters(stat)[k])
  {
    var cs := Counters(stat);
    forall k | 0 <= k < |cs| ensures |cs[k]| > 0 && NoSpace(cs[k]) {
      DecimalIsWord([stat.user, stat.nice, stat.system, stat.idle, stat.iowait, stat.irq,
        stat.softirq, stat.steal, stat.guest, stat.guestNice][k]);
    }
  }

  lemma CpuWord(n: nat)
    ensures |"cpu" + FormatDecimal(n)| > 0 && NoSpace("cpu" + FormatDecimal(n))
  {
    var w := "cpu" + FormatDecimal(n);
    DecimalIsWord(n);
    forall i | 0 <= i < |w| ensures !IsSpace(w[i]) {
      if i >= 3 {
        assert w[i] == FormatDecimal(n)[i - 3];
      }
    }
  }

  /** The counters and the newline after them split into the counters. */
  lemma CountersFields(stat: CpuProcStat)
    ensures Fields(Join(Counters(stat), ' ') + "\n") == Counters(stat)
  {
    var cs := Counters(stat);
    CountersAreWords(stat);
    FieldsOfSpacedTail(cs, "\n");
    assert Fields("\n") == FieldsBy("", IsSpace) == [];
    assert cs + [] == cs;
  }

  /** The fields of a printed line: "cpu<n>" and the ten counters. */
  lemma CpuStatLineFields(stat: CpuProcStat)
    ensures Fields(CpuStatLine(stat)) == ["cpu" + FormatDecimal(stat.cpuNum)] + Counters(stat)
  {
    var w := "cpu" + FormatDecimal(stat.cpuNum);
    var body := Join(Counters(stat), ' ') + "\n";
    CountersFields(stat);
    FieldsBySkip("  ", body, IsSpace);
    CpuWord(stat.cpuNum);
    assert CpuStatLine(stat) == w + ("  " + body);
    FieldsByWord(w, "  " + body, IsSpace);
  }

  /** `parseCPUStatLine` recovers the CPU number, user and system time of a
      line the stub wrote. */
  lemma CpuStatRoundTrip(stat: CpuProcStat)
    ensures |Fields(CpuStatLine(stat))| >= 4 && |Fields(CpuStatLine(stat))[0]| >= 3
    ensures SysLoad.ParseCpuStatLine(CpuStatLine(stat)) == Some(Ok(SysLoad.CpuStat(stat.cpuNum, stat.user, stat.system)))
  {
    CpuStatLineFields(stat);
    var fs := Fields(CpuStatLine(stat));
    assert fs[0][3..] == FormatDecimal(stat.cpuNum);
    ParseFormatDecimal(stat.cpuNum);
    ParseFormatDecimal(stat.user);
    ParseFormatDecimal(stat.system);
  }

  // ---------------------------------------------------------------------
  // Topology shape

  const NumaPerChip: nat := 2
  const ClusterPerNuma: nat := 8
  const CorePerCluster: nat := 4
  const CpuPerCore: nat := 1

  function CpuToCore(cpu: int): int { GoDiv(cpu, CpuPerCore) }
  function CpuToCluster(cpu: int): int { GoDiv(cpu, CpuPerCore * CorePerCluster) }
  function CpuToNuma(cpu: int): int { GoDiv(cpu, CpuPerCore * CorePerCluster * ClusterPerNuma) }
  function CpuToChip(cpu: int): int { GoDiv(cpu, CpuPerCore * CorePerCluster * ClusterPerNuma * NumaPerChip) }

  lemma GoDivNest4x8(a: int)
    ensures GoDiv(GoDiv(a, 4), 8) == GoDiv(a, 32)
  {
    var x := if a >= 0 then a else -a;
    var y, q := x / 4, x / 4 / 8;
    assert x == 4 * y + x % 4;
    assert y == 8 * q + y % 8;
    DivModUnique(x, 32, q, 4 * (y % 8) + x % 4);
  }

  lemma GoDivNest32x2(a: int)
    ensures GoDiv(GoDiv(a, 32), 2) == GoDiv(a, 64)
  {
    var x := if a >= 0 then a else -a;
    var y, q := x / 32, x / 32 / 2;
    assert x == 32 * y + x % 32;
    assert y == 2 * q + y % 2;
    DivModUnique(x, 64, q, 32 * (y % 2) + x % 32);
  }

  /** Each level is the next lower level divided by its fan-out: a CPU's
      cluster is its core's cluster, its NUMA node its cluster's node, its
      chip its node's chip. */
  lemma LevelsNest(cpu: int)
    ensures CpuToCore(cpu) == cpu
    ensures CpuToCluster(cpu) == GoDiv(CpuToCore(cpu), CorePerCluster)
    ensures CpuToNuma(cpu) == GoDiv(CpuToCluster(cpu), ClusterPerNuma)
    ensures CpuToChip(cpu) == GoDiv(CpuToNuma(cpu), NumaPerChip)
  {
    GoDivNest4x8(cpu);
    GoDivNest32x2(cpu);
  }

  datatype TopoNums = TopoNums(chipNum: int, numaNum: int, clusterNum: int, coreNum: int, cpuNum: int)

  /** `initTopoNum`: the counts of every level for `chipNum` chips. */
  function InitTopoNum(chipNum: int): (r: TopoNums)
    ensures r.cpuNum == 64 * chipNum
  {
    var numa := chipNum * NumaPerChip;
    var cluster := numa * ClusterPerNuma;
    var core := cluster * CorePerCluster;
    TopoNums(chipNum, numa, cluster, core, core * CpuPerCore)
  }

  /** Every CPU of the stub maps to a core, cluster, node and chip the
      stub has, and each level's count is the count above times its
      fan-out. */
  lemma InitTopoNumCovers(chipNum: nat, cpu: int)
    requires 0 <= cpu < InitTopoNum(chipNum).cpuNum
    ensures var t := InitTopoNum(chipNum);
      0 <= CpuToCore(cpu) < t.coreNum && 0 <= CpuToCluster(cpu) < t.clusterNum &&
      0 <= CpuToNuma(cpu) < t.numaNum && 0 <= CpuToChip(cpu) < t.chipNum
    ensures var t := InitTopoNum(chipNum);
      t.numaNum == NumaPerChip * t.chipNum && t.clusterNum == ClusterPerNuma * t.numaNum &&
      t.coreNum == CorePerCluster * t.clusterNum && t.cpuNum == CpuPerCore * t.coreNum
  {
  }

  /** CPUs `start .. end-1` added to `m`; out-of-range CPUs are ignored, as
      `Set` ignores them. */
  function FillRange(m: CpuMask.Cpumask, start: int, end: int): (r: CpuMask.Cpumask)
    ensures forall c :: CpuMask.Has(r, c) <==> CpuMask.Has(m, c) || (start <= c < end && 0 <= c < CpuMask.MaxCpus)
    decreases end - start
  {
    if start >= end then m else FillRange(CpuMask.Set(m, start), start + 1, end)
  }

  /** `initOneLevelMask` over `num` fresh masks, `k` CPUs per entry. */
  function InitOneLevelMask(num: nat, k: nat): (r: seq<CpuMask.Cpumask>)
    ensures |r| == num
    ensures forall i, c :: 0 <= i < num ==>
      (CpuMask.Has(r[i], c) <==> i * k <= c < i * k + k && c < CpuMask.MaxCpus)
  {
    seq(num, i requires 0 <= i => FillRange(CpuMask.Init(), i * k, i * k + k))
  }

  /** Distinct entries share no CPU. */
  lemma OneLevelDisjoint(num: nat, k: nat, i: nat, j: nat, c: int)
    requires i < j < num
    ensures !(CpuMask.Has(InitOneLevelMask(num, k)[i], c) && CpuMask.Has(InitOneLevelMask(num, k)[j], c))
  {
    var r := InitOneLevelMask(num, k);
    var lo, hi := i * k + k, j * k;
    MulLe(i + 1, j, k);
    assert lo <= hi;
    assert CpuMask.Has(r[i], c) ==> c < lo;
    assert CpuMask.Has(r[j], c) ==> hi <= c;
  }

  lemma MulLe(a: nat, b: nat, k: nat)
    requires a <= b
    ensures a * k <= b * k
  {
    assert b * k == a * k + (b - a) * k;
  }

  // ---------------------------------------------------------------------
  // Task stub and affinity stub

  datatype TaskStub = TaskStub(idr: Uint64, existTids: set<Uint64>)

  /** `CreateTasks(num)`: `num` ids from the counter on, the counter
      wrapping like a `uint64`.  `None` is the panic of `make` on a negative
      length or of `deployTasks` reading `tids[0]` of an empty list. */
  function CreateTasks(stub: TaskStub, num: int): (r: Option<(TaskStub, seq<Uint64>)>)
    ensures r.Some? <==> num > 0
    ensures r.Some? ==> |r.value.1| == num
    ensures r.Some? ==> forall i :: 0 <= i < num ==> r.value.1[i] == (stub.idr + i) % Two64
    ensures r.Some? ==> r.value.0.idr == (stub.idr + num) % Two64
    ensures r.Some? ==> r.value.0.existTids == stub.existTids + set i | 0 <= i < num :: r.value.1[i]
  {
    if num <= 0 then None
    else
      var tids := seq(num, i requires 0 <= i < num => (stub.idr + i) % Two64);
      Some((TaskStub((stub.idr + num) % Two64, stub.existTids + set i | 0 <= i < num :: tids[i]), tids))
  }

  /** Two calls hand out the ids one call for both counts would, and
      leave the stub as that one call does. */
  lemma CreateTasksTwice(stub: TaskStub, a: nat, b: nat)
    requires a > 0 && b > 0
    ensures var first := CreateTasks(stub, a).value;
      var second := CreateTasks(first.0, b).value;
      var both := CreateTasks(stub, a + b).value;
      first.1 + second.1 == both.1 && second.0 == both.0
  {
    var first := CreateTasks(stub, a).value;
    var second := CreateTasks(first.0, b).value;
    var both := CreateTasks(stub, a + b).value;
    SecondBatchContinues(stub, a, b);
    assert first.1 + second.1 == both.1;
    WrapAdd(stub.idr + a, b);
    SameExistTids(stub, first, second, both, a, b);
  }

  lemma SecondBatchContinues(stub: TaskStub, a: nat, b: nat)
    requires a > 0 && b > 0
    ensures forall j :: 0 <= j < b ==>
      CreateTasks(CreateTasks(stub, a).value.0, b).value.1[j] == CreateTasks(stub, a + b).value.1[a + j]
  {
    forall j | 0 <= j < b
      ensures CreateTasks(CreateTasks(stub, a).value.0, b).value.1[j] == CreateTasks(stub, a + b).value.1[a + j]
    {
      WrapAdd(stub.idr + a, j);
    }
  }

  lemma SameExistTids(stub: TaskStub, first: (TaskStub, seq<Uint64>), second: (TaskStub, seq<Uint64>),
                      both: (TaskStub, seq<Uint64>), a: nat, b: nat)
    requires |first.1| == a && |second.1| == b && first.1 + second.1 == both.1
    requires first.0.existTids == stub.existTids + set i | 0 <= i < a :: first.1[i]
    requires second.0.existTids == first.0.existTids + set j | 0 <= j < b :: second.1[j]
    requires both.0.existTids == stub.existTids + set i | 0 <= i < a + b :: both.1[i]
    ensures second.0.existTids == both.0.existTids
  {
    forall x ensures x in second.0.existTids <==> x in both.0.existTids {
      if x in both.0.existTids && x !in stub.existTids {
        var i :| 0 <= i < a + b && both.1[i] == x;
        if i >= a {
          assert second.1[i - a] == x;
        } else {
          assert first.1[i] == x;
        }
      }
      if x in second.0.existTids && x !in stub.existTids {
        if x in first.0.existTids {
          var i :| 0 <= i < a && first.1[i] == x;
          assert both.1[i] == x;
        } else {
          var j :| 0 <= j < b && second.1[j] == x;
          assert both.1[a + j] == x;
        }
      }
    }
  }

  /** Without wrap-around, the second call hands out no id the first did. */
  lemma CreateTasksFresh(stub: TaskStub, a: nat, b: nat)
    requires a > 0 && b > 0 && stub.idr + a + b <= Two64
    ensures var first := CreateTasks(stub, a).value;
      var second := CreateTasks(first.0, b).value;
      forall i, j :: 0 <= i < a && 0 <= j < b ==> first.1[i] != second.1[j]
  {
    var first := CreateTasks(stub, a).value;
    var second := CreateTasks(first.0, b).value;
    SecondBatchContinues(stub, a, b);
    forall i, j | 0 <= i < a && 0 <= j < b
      ensures first.1[i] != second.1[j]
    {
      SmallMod(stub.idr + i);
      SmallMod(stub.idr + a + j);
    }
  }

  lemma WrapAdd(x: nat, j: nat)
    ensures ((x % Two64) + j) % Two64 == (x + j) % Two64
  {
    var q := x / Two64;
    assert x + j == q * Two64 + ((x % Two64) + j);
    var y := (x % Two64) + j;
    DivModUnique(x + j, Two64, q + y / Two64, y % Two64);
  }

  lemma SmallMod(x: nat)
    requires x < Two64
    ensures x % Two64 == x
  {
    SmallWrap(x);
  }

  /** `SetAffinityStub`: records the CPU list for `tid`, replacing any earlier one. */
  function SetAffinityStub(bindMap: map<Uint64, seq<int>>, tid: Uint64, cpus: seq<int>): (r: map<Uint64, seq<int>>)
    ensures tid in r && r[tid] == cpus
    ensures forall t :: t != tid ==> (t in r <==> t in bindMap) && (t in r ==> r[t] == bindMap[t])
  {
    bindMap[tid := cpus]
  }

  /** `GetAffinityStub`: the recorded list, or "task not exist". */
  function GetAffinityStub(bindMap: map<Uint64, seq<int>>, tid: Uint64): (r: Result<seq<int>>)
    ensures r.Err? <==> tid !in bindMap
  {
    if tid in bindMap then Ok(bindMap[tid]) else Err("task not exist")
  }

  /** The last list set for a tid is the one read back, and setting one
      tid does not change what another reads. */
  lemma AffinityStubReadsLastSet(bindMap: map<Uint64, seq<int>>, tid: Uint64, cpus: seq<int>, other: Uint64)
    ensures GetAffinityStub(SetAffinityStub(bindMap, tid, cpus), tid) == Ok(cpus)
    ensures other != tid ==>
      GetAffinityStub(SetAffinityStub(bindMap, tid, cpus), other) == GetAffinityStub(bindMap, other)
  {
  }
}

=== FILE: threadaffinity.dfy ===
/** Thread grouping (`common/threadaffinity/threadaffinity.go`): threads
    that wait on a common futex word are put in one group, groups are
    listed largest first and named, and the daemon re-binds only when the
    grouping changed.  The futex counts per thread come from the tracer
    (`SysParse.DetectAll`); thread `i` of the traced process is index `i`
    here. */
module ThreadAffinity {
  import opened Wrappers
  import opened GoStrings
  import opened UnionFind
  import SysParse
  import Sorting

  type FutexMap = SysParse.FutexMap

  // ---------------------------------------------------------------------
  // Shared futex words

  /** Some futex word of `a` was used a nonzero number of times by `b`. */
  ghost predicate Connected(a: FutexMap, b: FutexMap)
  {
    exists k :: k in a && SysParse.Lookup(b, k) != 0
  }

  /** `mapConnect`: scans the keys of `a`. */
  method MapConnect(a: FutexMap, b: FutexMap) returns (r: bool)
    ensures r <==> Connected(a, b)
  {
    var keys := a.Keys;
    while keys != {}
      invariant keys <= a.Keys
      invariant forall k :: k in a && k !in keys ==> SysParse.Lookup(b, k) == 0
      decreases |keys|
    {
      var k :| k in keys;
      if SysParse.Lookup(b, k) != 0 {
        return true;
      }
      keys := keys - {k};
    }
    return false;
  }

  /** Every recorded futex word was used at least once. */
  predicate Positive(m: FutexMap)
  {
    forall k :: k in m ==> m[k] > 0
  }

  /** The tracer only ever records positive counts. */
  lemma {:induction false} DetectAllPositive(p: SysParse.ProcessFeature, calls: seq<SysParse.Regs>)
    requires Positive(p.sysCount.futexMap)
    ensures Positive(SysParse.DetectAll(p, calls).sysCount.futexMap)
  {
    if |calls| > 0 {
      DetectAllPositive(p, calls[..|calls| - 1]);
    }
  }

  /** For maps the tracer produced, sharing a futex word is symmetric. */
  lemma ConnectedSymmetric(a: FutexMap, b: FutexMap)
    requires Positive(a) && Positive(b)
    ensures Connected(a, b) <==> Connected(b, a)
  {
    if Connected(a, b) {
      var k :| k in a && SysParse.Lookup(b, k) != 0;
      assert k in b && SysParse.Lookup(a, k) != 0;
    }
    if Connected(b, a) {
      var k :| k in b && SysParse.Lookup(a, k) != 0;
      assert k in a && SysParse.Lookup(b, k) != 0;
    }
  }

  // ---------------------------------------------------------------------
  // Chains of shared futex words

  /** `groupTids` tests each pair once, lower index first. */
  ghost predicate Adjacent(maps: seq<FutexMap>, x: int, y: int)
    requires 0 <= x < |maps| && 0 <= y < |maps|
  {
    (x < y && Connected(maps[x], maps[y])) || (y < x && Connected(maps[y], maps[x]))
  }

  ghost predicate IsPath(maps: seq<FutexMap>, p: seq<int>)
  {
    |p| > 0 &&
    (forall k :: 0 <= k < |p| ==> 0 <= p[k] < |maps|) &&
    (forall k :: 0 <= k < |p| - 1 ==> Adjacent(maps, p[k], p[k + 1]))
  }

  /** Threads `x` and `y` are joined by a chain of adjacent pairs. */
  ghost predicate Linked(maps: seq<FutexMap>, x: int, y: int)
  {
    exists p :: IsPath(maps, p) && p[0] == x && p[|p| - 1] == y
  }

  lemma LinkedRefl(maps: seq<FutexMap>, x: int)
    requires 0 <= x < |maps|
    ensures Linked(maps, x, x)
  {
    assert IsPath(maps, [x]);
  }

  lemma LinkedEdge(maps: seq<FutexMap>, x: int, y: int)
    requires 0 <= x < |maps| && 0 <= y < |maps| && Adjacent(maps, x, y)
    ensures Linked(maps, x, y)
  {
    assert IsPath(maps, [x, y]);
  }

  lemma LinkedSym(maps: seq<FutexMap>, x: int, y: int)
    requires Linked(maps, x, y)
    ensures Linked(maps, y, x)
  {
    var p :| IsPath(maps, p) && p[0] == x && p[|p| - 1] == y;
    var q := seq(|p|, k requires 0 <= k < |p| => p[|p| - 1 - k]);
    forall k | 0 <= k < |q| - 1
      ensures Adjacent(maps, q[k], q[k + 1])
    {
      assert Adjacent(maps, p[|p| - 2 - k], p[|p| - 1 - k]);
    }
    assert IsPath(maps, q);
  }

  lemma LinkedTrans(maps: seq<FutexMap>, x: int, y: int, z: int)
    requires Linked(maps, x, y) && Linked(maps, y, z)
    ensures Linked(maps, x, z)
  {
    var p :| IsPath(maps, p) && p[0] == x && p[|p| - 1] == y;
    var q :| IsPath(maps, q) && q[0] == y && q[|q| - 1] == z;
    var r := p + q[1..];
    forall k | 0 <= k < |r| - 1
      ensures Adjacent(maps, r[k], r[k + 1])
    {
      if k < |p| - 1 {
        assert r[k] == p[k] && r[k + 1] == p[k + 1];
      } else {
        var j := k - |p| + 1;
        assert r[k] == q[j] && r[k + 1] == q[j + 1];
      }
    }
    assert IsPath(maps, r);
  }

  // ---------------------------------------------------------------------
  // groupTids

  ghost predicate RootsLinked(maps: seq<FutexMap>, parent: seq<int>)
  {
    Forest(parent) && |parent| == |maps| &&
    forall x :: 0 <= x < |maps| ==> Linked(maps, x, FindRoot(parent, x))
  }

  /** Every pair tested so far (first index below `i`) that shares a futex
      word is in one set. */
  ghost predicate JoinedBelow(maps: seq<FutexMap>, parent: seq<int>, i: int)
  {
    Forest(parent) && |parent| == |maps| &&
    forall a, b :: 0 <= a < i && a < b < |maps| && Connected(maps[a], maps[b]) ==>
      FindRoot(parent, a) == FindRoot(parent, b)
  }

  /** ... and so is every such pair `(i, b)` with `b` below `j`. */
  ghost predicate JoinedRow(maps: seq<FutexMap>, parent: seq<int>, i: int, j: int)
  {
    Forest(parent) && |parent| == |maps| && 0 <= i &&
    forall b :: i < b < j && b < |maps| && Connected(maps[i], maps[b]) ==>
      FindRoot(parent, i) == FindRoot(parent, b)
  }

  /** Joining the sets of two adjacent threads keeps every thread linked to
      its root. */
  lemma UnionKeepsLinked(maps: seq<FutexMap>, prev: seq<int>, parent: seq<int>, i: int, j: int)
    requires RootsLinked(maps, prev) && Forest(parent) && |parent| == |maps|
    requires 0 <= i < j < |maps| && Connected(maps[i], maps[j])
    requires forall x :: 0 <= x < |parent| ==>
      FindRoot(parent, x) == (if FindRoot(prev, x) == FindRoot(prev, i) then FindRoot(prev, j) else FindRoot(prev, x))
    ensures RootsLinked(maps, parent)
  {
    forall x | 0 <= x < |maps|
      ensures Linked(maps, x, FindRoot(parent, x))
    {
      if FindRoot(prev, x) == FindRoot(prev, i) {
        var ra, rb := FindRoot(prev, i), FindRoot(prev, j);
        LinkedSym(maps, i, ra);
        LinkedTrans(maps, x, ra, i);
        LinkedEdge(maps, i, j);
        LinkedTrans(maps, x, i, j);
        LinkedTrans(maps, x, j, rb);
      }
    }
  }

  /** With every adjacent pair in one set, a whole chain is in one set. */
  lemma {:induction false} PathOneSet(maps: seq<FutexMap>, parent: seq<int>, p: seq<int>)
    requires JoinedBelow(maps, parent, |maps|) && IsPath(maps, p)
    ensures FindRoot(parent, p[0]) == FindRoot(parent, p[|p| - 1])
  {
    if |p| > 1 {
      var x, y := p[0], p[1];
      assert Adjacent(maps, x, y);
      assert FindRoot(parent, x) == FindRoot(parent, y);
      var q := p[1..];
      assert IsPath(maps, q) by {
        forall k | 0 <= k < |q| - 1 ensures Adjacent(maps, q[k], q[k + 1]) {
          assert q[k] == p[k + 1] && q[k + 1] == p[k + 2];
        }
      }
      PathOneSet(maps, parent, q);
    }
  }

  /** One union step keeps the tested pairs joined and adds pair `(i, j)`. */
  lemma RowStep(maps: seq<FutexMap>, prev: seq<int>, parent: seq<int>, i: int, j: int)
    requires JoinedBelow(maps, prev, i) && JoinedRow(maps, prev, i, j)
    requires Forest(parent) && |parent| == |maps| && 0 <= i < j < |maps|
    requires forall x :: 0 <= x < |parent| ==>
      FindRoot(parent, x) == (if FindRoot(prev, x) == FindRoot(prev, i) then FindRoot(prev, j) else FindRoot(prev, x))
    ensures JoinedBelow(maps, parent, i) && JoinedRow(maps, parent, i, j + 1)
  {
  }

  lemma RowDone(maps: seq<FutexMap>, parent: seq<int>, i: int)
    requires JoinedBelow(maps, parent, i) && JoinedRow(maps, parent, i, |maps|)
    ensures JoinedBelow(maps, parent, i + 1)
  {
  }

  /** The inner loop of `groupTids`: tests thread `i` against every later
      thread and joins the sets of those sharing a futex word. */
  method JoinRow(maps: seq<FutexMap>, parent: seq<int>, count: int, i: int, ghost rank: seq<nat>)
    returns (parent': seq<int>, count': int, ghost rank': seq<nat>)
    requires 0 <= i < |maps| && |parent| == |maps| && Ranked(parent, rank) && count == |Roots(parent)|
    requires RootsLinked(maps, parent) && JoinedBelow(maps, parent, i)
    ensures |parent'| == |maps| && Ranked(parent', rank') && count' == |Roots(parent')|
    ensures RootsLinked(maps, parent') && JoinedBelow(maps, parent', i + 1)
  {
    parent', count', rank' := parent, count, rank;
    var j := i + 1;
    while j < |maps|
      invariant i + 1 <= j <= |maps|
      invariant |parent'| == |maps| && Ranked(parent', rank') && count' == |Roots(parent')|
      invariant RootsLinked(maps, parent')
      invariant JoinedBelow(maps, parent', i) && JoinedRow(maps, parent', i, j)
    {
      var c := MapConnect(maps[i], maps[j]);
      if c {
        ghost var prev := parent';
        parent', count', rank' := Union(parent', count', i, j, rank');
        UnionKeepsLinked(maps, prev, parent', i, j);
        RowStep(maps, prev, parent', i, j);
      }
      j := j + 1;
    }
    RowDone(maps, parent', i);
  }

  /** All pairs tested and every thread linked to its root: sets are exactly
      the linked classes. */
  lemma SetsAreClasses(maps: seq<FutexMap>, parent: seq<int>, x: int, y: int)
    requires RootsLinked(maps, parent) && JoinedBelow(maps, parent, |maps|)
    requires 0 <= x < |maps| && 0 <= y < |maps|
    ensures FindRoot(parent, x) == FindRoot(parent, y) <==> Linked(maps, x, y)
  {
    if FindRoot(parent, x) == FindRoot(parent, y) {
      LinkedSym(maps, y, FindRoot(parent, y));
      LinkedTrans(maps, x, FindRoot(parent, x), y);
    }
    if Linked(maps, x, y) {
      var p :| IsPath(maps, p) && p[0] == x && p[|p| - 1] == y;
      PathOneSet(maps, parent, p);
    }
  }

  /** `groupTids` (without the final `getGroups`): two threads end in the
      same set exactly when a chain of shared futex words joins them, and
      the count is the number of sets. */
  method GroupTids(maps: seq<FutexMap>) returns (parent: seq<int>, count: int)
    ensures |parent| == |maps| && Forest(parent)
    ensures count == |Roots(parent)|
    ensures forall x, y :: 0 <= x < |maps| && 0 <= y < |maps| ==>
      (FindRoot(parent, x) == FindRoot(parent, y) <==> Linked(maps, x, y))
  {
    var n := |maps|;
    parent := InitUnion(n);
    count := n;
    ghost var rank: seq<nat> := seq(n, _ => 0);
    forall x | 0 <= x < n ensures Linked(maps, x, FindRoot(parent, x)) {
      LinkedRefl(maps, x);
    }
    var i := 0;
    while i < n
      invariant 0 <= i <= n
      invariant |parent| == n && Ranked(parent, rank) && count == |Roots(parent)|
      invariant RootsLinked(maps, parent) && JoinedBelow(maps, parent, i)
    {
      parent, count, rank := JoinRow(maps, parent, count, i, rank);
      i := i + 1;
    }
    forall x, y | 0 <= x < n && 0 <= y < n
      ensures FindRoot(parent, x) == FindRoot(parent, y) <==> Linked(maps, x, y)
    {
      SetsAreClasses(maps, parent, x, y);
    }
  }

  // ---------------------------------------------------------------------
  // getGroups

  /** The tids of the threads among the first `k` whose set has root `r`,
      in thread order. */
  function Members(tids: seq<Uint64>, parent: seq<int>, r: int, k: nat): seq<Uint64>
    requires Forest(parent) && |tids| == |parent| && k <= |tids|
  {
    if k == 0 then []
    else Members(tids, parent, r, k - 1) + (if FindRoot(parent, k - 1) == r then [tids[k - 1]] else [])
  }

  /** The loop of `getGroups` after its first `k` rounds. */
  function GroupsUpTo(tids: seq<Uint64>, parent: seq<int>, k: nat): (m: map<int, seq<Uint64>>)
    requires Forest(parent) && |tids| == |parent| && k <= |tids|
  {
    if k == 0 then map[]
    else
      var m := GroupsUpTo(tids, parent, k - 1);
      var r := FindRoot(parent, k - 1);
      m[r := (if r in m then m[r] else []) + [tids[k - 1]]]
  }

  /** The roots of the first `k` threads. */
  function RootsBelow(parent: seq<int>, k: nat): set<int>
    requires Forest(parent) && k <= |parent|
  {
    set i | 0 <= i < k :: FindRoot(parent, i)
  }

  lemma {:induction false} GroupsUpToSpec(tids: seq<Uint64>, parent: seq<int>, k: nat)
    requires Forest(parent) && |tids| == |parent| && k <= |tids|
    ensures GroupsUpTo(tids, parent, k).Keys == RootsBelow(parent, k)
    ensures forall r :: r in GroupsUpTo(tids, parent, k) ==>
      GroupsUpTo(tids, parent, k)[r] == Members(tids, parent, r, k)
  {
    if k > 0 {
      GroupsUpToSpec(tids, parent, k - 1);
      var r := FindRoot(parent, k - 1);
      assert RootsBelow(parent, k) == RootsBelow(parent, k - 1) + {r};
      if r !in RootsBelow(parent, k - 1) {
        MembersAbsent(tids, parent, r, k - 1);
      }
    }
  }

  lemma {:induction false} MembersAbsent(tids: seq<Uint64>, parent: seq<int>, r: int, k: nat)
    requires Forest(parent) && |tids| == |parent| && k <= |tids|
    requires r !in RootsBelow(parent, k)
    ensures Members(tids, parent, r, k) == []
  {
    if k > 0 {
      assert FindRoot(parent, k - 1) in RootsBelow(parent, k);
      assert RootsBelow(parent, k - 1) <= RootsBelow(parent, k);
      MembersAbsent(tids, parent, r, k - 1);
    }
  }

  /** `getGroups`: the member list of each set, keyed by its root.  The keys
      are exactly the roots, and each list holds the tids of that set in
      thread order. */
  function GetGroups(tids: seq<Uint64>, parent: seq<int>): (m: map<int, seq<Uint64>>)
    requires Forest(parent) && |tids| == |parent|
    ensures m.Keys == Roots(parent)
    ensures forall r :: r in m ==> m[r] == Members(tids, parent, r, |tids|)
  {
    GroupsUpToSpec(tids, parent, |tids|);
    assert RootsBelow(parent, |tids|) == Roots(parent) by {
      forall r | r in Roots(parent) ensures r in RootsBelow(parent, |tids|) {
        assert FindRoot(parent, r) == r;
      }
    }
    GroupsUpTo(tids, parent, |tids|)
  }

  /** Every thread is listed in the group of its own set, and in no other. */
  lemma {:induction false} MembersOfThread(tids: seq<Uint64>, parent: seq<int>, r: int, k: nat, i: nat)
    requires Forest(parent) && |tids| == |parent| && i < k <= |tids|
    ensures FindRoot(parent, i) == r ==> tids[i] in Members(tids, parent, r, k)
    ensures |Members(tids, parent, r, k)| <= k
  {
    if i < k - 1 {
      MembersOfThread(tids, parent, r, k - 1, i);
    } else if k > 1 {
      MembersOfThread(tids, parent, r, k - 1, 0);
    }
  }

  // ---------------------------------------------------------------------
  // mapToList

  datatype TidsGroup = TidsGroup(tids: seq<Uint64>, size: int, groupName: string)

  /** `order` is one iteration order of the map: every key exactly once. */
  predicate KeyOrder(m: map<int, seq<Uint64>>, order: seq<int>)
  {
    (forall k :: 0 <= k < |order| ==> order[k] in m) &&
    (forall r :: r in m ==> r in order) &&
    (forall i, j :: 0 <= i < j < |order| ==> order[i] != order[j])
  }

  /** The list `mapToList` appends, before sorting: unnamed groups in the
      map's iteration order. */
  function Unsorted(m: map<int, seq<Uint64>>, order: seq<int>): (gs: seq<TidsGroup>)
    requires forall k :: 0 <= k < |order| ==> order[k] in m
    ensures |gs| == |order|
  {
    seq(|order|, k requires 0 <= k < |order| => TidsGroup(m[order[k]], |m[order[k]]|, ""))
  }

  function SizeKey(g: TidsGroup): int { -g.size }

  /** Groups largest first.  Go's `sort.Slice` is not stable; sorting the
      free iteration order stably yields every order Go can produce. */
  function SortBySize(gs: seq<TidsGroup>): (r: seq<TidsGroup>)
    ensures multiset(r) == multiset(gs)
    ensures forall i, j :: 0 <= i < j < |r| ==> r[i].size >= r[j].size
  {
    var r := Sorting.SortBy(gs, SizeKey);
    assert forall i, j :: 0 <= i < j < |r| ==> SizeKey(r[i]) <= SizeKey(r[j]);
    r
  }

  /** The number of leading groups with more than one thread: where the
      naming loop returns. */
  function LeadingShared(gs: seq<TidsGroup>): (n: nat)
    ensures n <= |gs|
    ensures forall k :: 0 <= k < n ==> gs[k].size > 1
    ensures n < |gs| ==> gs[n].size <= 1
  {
    if |gs| == 0 || gs[0].size <= 1 then 0 else 1 + LeadingShared(gs[1..])
  }

  /** In a list sorted largest first, the leading shared groups are all the
      shared groups. */
  lemma SharedArePrefix(gs: seq<TidsGroup>)
    requires forall i, j :: 0 <= i < j < |gs| ==> gs[i].size >= gs[j].size
    ensures forall k :: 0 <= k < |gs| ==> (k < LeadingShared(gs) <==> gs[k].size > 1)
  {
  }

  /** `mapToList` as written: the name is assigned to the loop variable, a
      copy, so every group in the returned list keeps the empty name. */
  function MapToListAsWritten(m: map<int, seq<Uint64>>, order: seq<int>, name: string)
    : (r: (seq<TidsGroup>, nat))
    requires KeyOrder(m, order)
    ensures multiset(r.0) == multiset(Unsorted(m, order))
    ensures forall i, j :: 0 <= i < j < |r.0| ==> r.0[i].size >= r.0[j].size
    ensures forall k :: 0 <= k < |r.0| ==> (k < r.1 <==> r.0[k].size > 1)
    ensures forall k :: 0 <= k < |r.0| ==> r.0[k].groupName == ""
  {
    var gs := SortBySize(Unsorted(m, order));
    SharedArePrefix(gs);
    forall k | 0 <= k < |gs| ensures gs[k].groupName == "" {
      assert gs[k] in multiset(Unsorted(m, order));
    }
    (gs, LeadingShared(gs))
  }

  /** Names the first `n` groups after their threads. */
  function NameShared(gs: seq<TidsGroup>, n: nat, name: string): (r: seq<TidsGroup>)
    requires n <= |gs|
    ensures |r| == |gs|
    ensures forall k :: 0 <= k < |gs| ==> r[k].tids == gs[k].tids && r[k].size == gs[k].size
    ensures forall k :: 0 <= k < n ==> r[k].groupName == GetGroupName(gs[k].tids, name)
    ensures forall k :: n <= k < |gs| ==> r[k].groupName == gs[k].groupName
  {
    if n == 0 then gs
    else [gs[0].(groupName := GetGroupName(gs[0].tids, name))] + NameShared(gs[1..], n - 1, name)
  }

  /** `mapToList` with the names stored in the list: the same groups in the
      same order, each shared group named after its threads. */
  function MapToList(m: map<int, seq<Uint64>>, order: seq<int>, name: string)
    : (r: (seq<TidsGroup>, nat))
    requires KeyOrder(m, order)
    ensures var w := MapToListAsWritten(m, order, name);
      r.1 == w.1 && |r.0| == |w.0| &&
      (forall k :: 0 <= k < |r.0| ==> r.0[k].tids == w.0[k].tids && r.0[k].size == w.0[k].size)
    ensures forall k :: 0 <= k < r.1 ==> r.0[k].groupName == GetGroupName(r.0[k].tids, name)
    ensures forall k :: r.1 <= k < |r.0| ==> r.0[k].groupName == ""
  {
    var w := MapToListAsWritten(m, order, name);
    (NameShared(w.0, w.1, name), w.1)
  }

  /** As written, a shared group's name is lost: with two threads on one
      futex word, the one group returned is shared but unnamed. */
  lemma MapToListLosesName(m: map<int, seq<Uint64>>, name: string)
    requires m == map[0 := [7, 8]]
    ensures MapToListAsWritten(m, [0], name).1 == 1
    ensures MapToListAsWritten(m, [0], name).0[0].groupName == ""
    ensures MapToList(m, [0], name).0[0].groupName == name + "_7_8"
  {
    var gs := MapToListAsWritten(m, [0], name).0;
    assert Unsorted(m, [0]) == [TidsGroup([7, 8], 2, "")];
    assert gs[0] in multiset(Unsorted(m, [0]));
    assert GetGroupName([7, 8], name) == name + "_7_8" by {
      assert Suffix([7, 8]) == Suffix([7]) + "_" + FormatDecimal(8);
      assert [7, 8][..1] == [7];
      assert Suffix([7]) == Suffix([]) + "_" + FormatDecimal(7);
      assert [7][..0] == [];
    }
  }

  // ---------------------------------------------------------------------
  // getGroupName

  /** `"_" + tid` for each tid, in order (the `%s_%d` loop). */
  function Suffix(ts: seq<Uint64>): (s: string)
  {
    if |ts| == 0 then "" else Suffix(ts[..|ts| - 1]) + "_" + FormatDecimal(ts[|ts| - 1])
  }

  /** The indices `0, 1, ..., n - 1`. */
  function Indices(n: nat): (ts: seq<Uint64>)
    requires n <= Two64
    ensures |ts| == n && forall i :: 0 <= i < n ==> ts[i] == i
  {
    seq(n, i requires 0 <= i < n => i)
  }

  /** `getGroupName` as written: `range` over a slice yields the indices,
      so the name depends only on the group's size. */
  function GetGroupNameAsWritten(tids: seq<Uint64>, name: string): (s: string)
    requires |tids| <= Two64
  {
    name + Suffix(Indices(|tids|))
  }

  /** As written, two different groups of the same size share a name. */
  lemma GroupNameCollides(name: string)
    ensures GetGroupNameAsWritten([7, 8], name) == GetGroupNameAsWritten([9, 10], name)
    ensures GetGroupName([7, 8], name) != GetGroupName([9, 10], name)
  {
    GroupNameInjective([7, 8], [9, 10], name);
  }

  /** `getGroupName` over the tids themselves. */
  function GetGroupName(tids: seq<Uint64>, name: string): (s: string)
  {
    name + Suffix(tids)
  }

  lemma {:induction false} SuffixShape(ts: seq<Uint64>)
    ensures |ts| == 0 <==> Suffix(ts) == ""
    ensures forall i :: 0 <= i < |Suffix(ts)| ==> Suffix(ts)[i] == '_' || IsDecDigit(Suffix(ts)[i])
  {
    if |ts| > 0 {
      SuffixShape(ts[..|ts| - 1]);
      var d := FormatDecimal(ts[|ts| - 1]);
      var s := Suffix(ts[..|ts| - 1]) + "_" + d;
      forall i | 0 <= i < |s| ensures s[i] == '_' || IsDecDigit(s[i]) {
        if i > |s| - |d| - 1 {
          assert s[i] == d[i - (|s| - |d|)];
        }
      }
    }
  }

  /** The text after the last `_` determines both halves. */
  lemma LastSegment(u: string, v: string, d1: string, d2: string)
    requires AllDigits(d1, 10) && AllDigits(d2, 10)
    requires u + "_" + d1 == v + "_" + d2
    ensures u == v && d1 == d2
  {
    var s, t := u + "_" + d1, v + "_" + d2;
    if |u| < |v| {
      UnderscoreAt(v, d2);
      assert false;
    } else if |v| < |u| {
      UnderscoreAt(u, d1);
      assert false;
    }
    assert u == s[..|u|] && v == t[..|v|];
    assert d1 == s[|u| + 1..] && d2 == t[|v| + 1..];
  }

  lemma UnderscoreAt(x: string, d: string)
    ensures |x + "_" + d| > |x| && (x + "_" + d)[|x|] == '_'
  {
  }

  lemma {:induction false} SuffixInjective(a: seq<Uint64>, b: seq<Uint64>)
    requires Suffix(a) == Suffix(b)
    ensures a == b
    decreases |a|
  {
    SuffixShape(a);
    SuffixShape(b);
    if |a| > 0 {
      var a', b' := a[..|a| - 1], b[..|b| - 1];
      LastSegment(Suffix(a'), Suffix(b'), FormatDecimal(a[|a| - 1]), FormatDecimal(b[|b| - 1]));
      DecimalRoundTrip(a[|a| - 1]);
      DecimalRoundTrip(b[|b| - 1]);
      SuffixInjective(a', b');
      assert a == a' + [a[|a| - 1]] && b == b' + [b[|b| - 1]];
    }
  }

  /** Groups with different threads get different names. */
  lemma GroupNameInjective(a: seq<Uint64>, b: seq<Uint64>, name: string)
    ensures GetGroupName(a, name) == GetGroupName(b, name) <==> a == b
  {
    if GetGroupName(a, name) == GetGroupName(b, name) {
      assert Suffix(a) == GetGroupName(a, name)[|name|..];
      assert Suffix(b) == GetGroupName(b, name)[|name|..];
      SuffixInjective(a, b);
    }
  }

  // ---------------------------------------------------------------------
  // Grouped tids and change detection

  /** A Go `[]uint64`, which may be nil; a nil slice is empty. */
  datatype Slice = Nil | Made(elems: seq<Uint64>)

  function Elems(s: Slice): seq<Uint64>
  {
    if s.Nil? then [] else s.elems
  }

  /** `collectAllGroupTids`: the tids of the first `num` groups, group
      after group, in a freshly made (non-nil) slice. */
  function CollectAllGroupTids(list: seq<TidsGroup>, num: nat): (r: Slice)
    requires num <= |list|
    ensures r.Made?
    ensures forall t :: t in r.elems <==> exists k :: 0 <= k < num && t in list[k].tids
  {
    if num == 0 then Made([])
    else
      var prev := CollectAllGroupTids(list, num - 1);
      Made(prev.elems + list[num - 1].tids)
  }

  /** `equalSliceUint64`. */
  method EqualSlice(a: Slice, b: Slice) returns (r: bool)
    ensures r <==> a.Nil? == b.Nil? && Elems(a) == Elems(b)
  {
    if a.Nil? != b.Nil? {
      return false;
    }
    var x, y := Elems(a), Elems(b);
    if |x| != |y| {
      return false;
    }
    var i := 0;
    while i < |x|
      invariant 0 <= i <= |x|
      invariant x[..i] == y[..i]
    {
      if x[i] != y[i] {
        return false;
      }
      i := i + 1;
    }
    assert x == x[..i] && y == y[..i];
    return true;
  }

  /** `sort.Slice` by `<` on tids: equal tids are indistinguishable, so the
      result is the ascending order whatever the sort's stability. */
  function SortTids(s: Slice): (r: Slice)
    ensures r.Nil? <==> s.Nil?
    ensures Sorting.Ascending(Elems(r)) && multiset(Elems(r)) == multiset(Elems(s))
  {
    if s.Nil? then Nil
    else
      var e := Sorting.SortBy<int>(s.elems, Sorting.Id);
      SortedTids(s.elems, e);
      Made(e)
  }

  lemma SortedTids(t: seq<Uint64>, e: seq<int>)
    requires Sorting.SortedBy(e, Sorting.Id) && multiset(e) == multiset(t)
    ensures forall k :: 0 <= k < |e| ==> 0 <= e[k] < Two64
    ensures Sorting.Ascending(e)
  {
    Sorting.AscendingById(e);
    forall k | 0 <= k < |e| ensures 0 <= e[k] < Two64 {
      assert e[k] in multiset(t);
    }
  }

  /** Sorted, two slices agree exactly when they hold the same tids (and
      agree on being nil). */
  lemma SortedEqualIffSameTids(a: Slice, b: Slice)
    ensures SortTids(a) == SortTids(b) <==> a.Nil? == b.Nil? && multiset(Elems(a)) == multiset(Elems(b))
  {
    if a.Made? && b.Made? && multiset(a.elems) == multiset(b.elems) {
      Sorting.SortedUnique(SortTids(a).elems, SortTids(b).elems);
    }
  }

  /** The package state `GroupChanged` reads and writes. */
  datatype GroupState = GroupState(
    groupNum: int, tidsSlice: seq<TidsGroup>, tidsAll: Slice,
    oldGroupNum: int, oldTidsSlice: seq<TidsGroup>, oldTidsAll: Slice)

  /** `backupTidsGroup`.  `backupTids` copies into the nil `Tids` of a fresh
      group, which copies nothing: the saved groups keep only size and
      name.  The saved tid list is a fresh (non-nil) copy. */
  function Backup(st: GroupState): (r: GroupState)
    requires 0 <= st.groupNum <= |st.tidsSlice|
    ensures r.oldGroupNum == st.groupNum && r.oldTidsAll == Made(Elems(st.tidsAll))
    ensures |r.oldTidsSlice| == st.groupNum
    ensures forall k :: 0 <= k < st.groupNum ==>
      r.oldTidsSlice[k] == st.tidsSlice[k].(tids := [])
    ensures r.groupNum == st.groupNum && r.tidsSlice == st.tidsSlice && r.tidsAll == st.tidsAll
  {
    var saved := seq(st.groupNum, k requires 0 <= k < st.groupNum =>
      TidsGroup([], st.tidsSlice[k].size, st.tidsSlice[k].groupName));
    st.(oldGroupNum := st.groupNum, oldTidsSlice := saved, oldTidsAll := Made(Elems(st.tidsAll)))
  }

  /** `tidsChanged`: sorts both lists in place and compares them. */
  method TidsChanged(st: GroupState) returns (changed: bool, st': GroupState)
    ensures st' == st.(tidsAll := SortTids(st.tidsAll), oldTidsAll := SortTids(st.oldTidsAll))
    ensures changed <==> SortTids(st.tidsAll) != SortTids(st.oldTidsAll)
  {
    st' := st.(tidsAll := SortTids(st.tidsAll), oldTidsAll := SortTids(st.oldTidsAll));
    var same := EqualSlice(st'.oldTidsAll, st'.tidsAll);
    changed := !same;
  }

  /** `GroupChanged`: whether the group count or the set of grouped tids
      differs from the saved copy; if so the current grouping is saved. */
  method GroupChanged(st: GroupState) returns (changed: bool, st': GroupState)
    requires 0 <= st.groupNum <= |st.tidsSlice|
    ensures changed <==> (st.groupNum != st.oldGroupNum ||
      st.tidsAll.Nil? != st.oldTidsAll.Nil? ||
      multiset(Elems(st.tidsAll)) != multiset(Elems(st.oldTidsAll)))
    ensures changed ==> (st'.oldGroupNum == st'.groupNum == st.groupNum &&
      st'.tidsAll.Nil? == st.tidsAll.Nil? && st'.oldTidsAll.Made? &&
      Elems(st'.oldTidsAll) == Elems(st'.tidsAll) &&
      multiset(Elems(st'.tidsAll)) == multiset(Elems(st.tidsAll)))
    ensures !changed ==> (st'.oldGroupNum == st.oldGroupNum &&
      multiset(Elems(st'.oldTidsAll)) == multiset(Elems(st.oldTidsAll)))
    ensures st'.groupNum == st.groupNum && st'.tidsSlice == st.tidsSlice
  {
    SortedEqualIffSameTids(st.tidsAll, st.oldTidsAll);
    if st.groupNum != st.oldGroupNum {
      return true, Backup(st);
    }
    var tc;
    tc, st' := TidsChanged(st);
    if tc {
      return true, Backup(st');
    }
    return false, st';
  }

  /** Right after a change has been reported and saved, asking again
      reports no change, provided the current tid list is a made slice
      (as `collectAllGroupTids` leaves it). */
  method GroupChangedTwice(st: GroupState) returns (first: bool, second: bool)
    requires 0 <= st.groupNum <= |st.tidsSlice| && st.tidsAll.Made?
    ensures first ==> !second
  {
    var st';
    first, st' := GroupChanged(st);
    second, st' := GroupChanged(st');
  }

  /** The package state `PidChanged` reads and writes. */
  datatype PidState = PidState(currentPid: Uint64, tidMap: map<Uint64, FutexMap>)

  /** `PidChanged`: on a new pid, returns the previous one, records the new
      one and starts an empty futex table; otherwise returns `(0, false)`. */
  function PidChanged(st: PidState, newPid: Uint64): (r: (Uint64, bool, PidState))
    ensures r.1 <==> newPid != st.currentPid
    ensures r.1 ==> r.0 == st.currentPid && r.2 == PidState(newPid, map[])
    ensures !r.1 ==> r.0 == 0 && r.2 == st
  {
    if st.currentPid == newPid then (0, false, st)
    else (st.currentPid, true, PidState(newPid, map[]))
  }

  /** A pid is reported as changed once. */
  lemma PidChangedOnce(st: PidState, newPid: Uint64)
    ensures !PidChanged(PidChanged(st, newPid).2, newPid).1
  {
  }
}

=== FILE: topoinit.dfy ===
/** Building the topology tree from sysfs (`InitTopo` and its getters in
    common/topology/topology.go).  What sysfs says about each CPU is a
    parameter; the tree is the `Topology.Tree` value the rest of the model
    works on. */
module TopoInit {
  import opened Wrappers
  import opened GoStrings
  import CpuMask
  import opened Topology

  // ---------------------------------------------------------------------
  // Clusters: four consecutive CPUs

  const CoresPerCluster: nat := 4

  /** `getClusterID`. */
  function ClusterId(cpu: int): int
  {
    GoDiv(cpu, CoresPerCluster)
  }

  /** The first CPU of `cpu`'s cluster (`cpuStart` in `getClusterMask`). */
  function ClusterStart(cpu: int): int
  {
    cpu - GoRem(cpu, CoresPerCluster)
  }

  /** The four CPUs from `s`, as far as they fit in a mask. */
  function FourFrom(s: int): (m: CpuMask.Cpumask)
    ensures forall c :: CpuMask.Has(m, c) <==> s <= c < s + CoresPerCluster && 0 <= c < CpuMask.MaxCpus
  {
    CpuMask.Set(CpuMask.Set(CpuMask.Set(CpuMask.Set(CpuMask.Init(), s), s + 1), s + 2), s + 3)
  }

  /** `getClusterMask`. */
  function ClusterMask(cpu: int): (m: CpuMask.Cpumask)
    ensures forall c :: CpuMask.Has(m, c) <==>
      ClusterStart(cpu) <= c < ClusterStart(cpu) + CoresPerCluster && 0 <= c < CpuMask.MaxCpus
  {
    FourFrom(ClusterStart(cpu))
  }

  /** A CPU's cluster starts at four times the cluster id and holds it. */
  lemma ClusterOfCpu(cpu: int)
    requires cpu >= 0
    ensures ClusterId(cpu) >= 0
    ensures ClusterStart(cpu) == CoresPerCluster * ClusterId(cpu)
    ensures ClusterStart(cpu) <= cpu < ClusterStart(cpu) + CoresPerCluster
  {
  }

  /** Two CPUs share a cluster mask exactly when they share a cluster id. */
  lemma SameClusterIff(a: int, b: int)
    requires 0 <= a < CpuMask.MaxCpus && 0 <= b < CpuMask.MaxCpus
    ensures ClusterId(a) == ClusterId(b) <==> ClusterMask(a) == ClusterMask(b)
  {
    ClusterOfCpu(a);
    ClusterOfCpu(b);
    if ClusterId(a) == ClusterId(b) {
      assert ClusterStart(a) == ClusterStart(b);
    }
    if ClusterMask(a) == ClusterMask(b) {
      assert CpuMask.Has(ClusterMask(a), a);
      InClusterOf(b, a);
    }
  }

  /** A CPU inside `cpu`'s cluster has `cpu`'s cluster id. */
  lemma InClusterOf(cpu: int, c: int)
    requires 0 <= cpu && 0 <= c < CpuMask.MaxCpus && CpuMask.Has(ClusterMask(cpu), c)
    ensures ClusterId(c) == ClusterId(cpu)
  {
    ClusterOfCpu(cpu);
    var q := ClusterId(cpu);
    DivModUnique(c, CoresPerCluster, q, c - CoresPerCluster * q);
  }

  // ---------------------------------------------------------------------
  // findTypeTopoNode

  /** The first node listed in `list` whose mask equals `mask`
      (`Cpumask.IsEqual` is word-wise equality). */
  function FindIn(nodes: seq<Node>, list: seq<int>, mask: CpuMask.Cpumask): (r: Option<int>)
    requires InRange(list, |nodes|)
    ensures r.None? <==> forall k :: 0 <= k < |list| ==> nodes[list[k]].mask != mask
    ensures r.Some? ==> exists k :: 0 <= k < |list| && list[k] == r.value && nodes[r.value].mask == mask &&
                                    forall k' :: 0 <= k' < k ==> nodes[list[k']].mask != mask
  {
    if |list| == 0 then None
    else if nodes[list[0]].mask == mask then Some(list[0])
    else
      var r := FindIn(nodes, list[1..], mask);
      assert forall k :: 1 <= k < |list| ==> list[1..][k - 1] == list[k];
      r
  }

  /** `findTypeTopoNode`: the node of level `ty` with mask `mask`, earliest
      created first. */
  function FindTypeTopoNode(t: Tree, ty: TopoType, mask: CpuMask.Cpumask): (r: Option<int>)
    requires Valid(t)
    ensures r.None? <==> forall k :: 0 <= k < |t.typeList[Level(ty)]| ==> t.nodes[t.typeList[Level(ty)][k]].mask != mask
    ensures r.Some? ==> 0 < r.value < |t.nodes| && t.nodes[r.value].topotype == ty && t.nodes[r.value].mask == mask
    ensures r.Some? ==> r.value in t.typeList[Level(ty)]
  {
    var list := t.typeList[Level(ty)];
    assert InRange(list, |t.nodes|);
    LevelDetermines(t.nodes, list, ty);
    FindIn(t.nodes, list, mask)
  }

  lemma LevelDetermines(nodes: seq<Node>, list: seq<int>, ty: TopoType)
    requires InRange(list, |nodes|)
    requires forall k :: 0 <= k < |list| ==> Level(nodes[list[k]].topotype) == Level(ty)
    ensures forall k :: 0 <= k < |list| ==> nodes[list[k]].topotype == ty
  {
  }

  // ---------------------------------------------------------------------
  // The tree while it is being built

  /** What a tree under construction keeps: it is well formed, no load or
      bind has been counted yet, and within each level from cores to chips
      no two nodes share a mask; every node is on its parent's child list. */
  ghost predicate Built(t: Tree)
  {
    Valid(t) && Linked(t.nodes) && Unloaded(t) && Distinct(t)
  }

  ghost predicate Unloaded(t: Tree)
  {
    forall n :: 0 <= n < |t.info| ==> t.info[n] == LoadInfo(0, 0)
  }

  ghost predicate Distinct(t: Tree)
    requires Listed(t)
  {
    forall l, a, b :: 1 <= l < 5 && 0 <= a < b < |t.typeList[l]| ==>
      t.nodes[t.typeList[l][a]].mask != t.nodes[t.typeList[l][b]].mask
  }

  /** The tree `InitTopo` starts from: the root alone, of type `All` with
      an empty mask. */
  function EmptyTree(): (t: Tree)
    ensures Built(t) && |t.nodes| == 1 && t.numaMap == map[]
    ensures forall l :: 0 <= l < TopoTypeEnd ==> t.typeList[l] == []
  {
    Tree([Node(-1, 0, All, CpuMask.Init(), [])], [LoadInfo(0, 0)], seq(TopoTypeEnd, _ => []), map[])
  }

  /** A node and the tree it lives in. */
  datatype Placed = Placed(tree: Tree, node: int)

  /** Creating a node of type `ty` under `p`: appended to the nodes, to
      `p`'s children and to its level's list; a new NUMA node is also
      registered by id. */
  function Attach(t: Tree, ty: TopoType, p: int, mask: CpuMask.Cpumask, id: int): (r: Placed)
    requires Built(t) && 0 <= p < |t.nodes| && Level(t.nodes[p].topotype) == Level(ty) + 1
    requires ty != Cpu ==> forall k :: 0 <= k < |t.typeList[Level(ty)]| ==> t.nodes[t.typeList[Level(ty)][k]].mask != mask
    ensures Built(r.tree)
    ensures r.node == |t.nodes| && |r.tree.nodes| == |t.nodes| + 1
    ensures r.tree.nodes[r.node] == Node(p, id, ty, mask, [])
    ensures Kept(t, r.tree)
    ensures forall l :: 0 <= l < TopoTypeEnd && l != Level(ty) ==> r.tree.typeList[l] == t.typeList[l]
    ensures r.tree.typeList[Level(ty)] == t.typeList[Level(ty)] + [r.node]
  {
    var k := |t.nodes|;
    var parent := t.nodes[p].(children := t.nodes[p].children + [k]);
    var nodes := t.nodes[p := parent] + [Node(p, id, ty, mask, [])];
    var l := Level(ty);
    var t' := Tree(nodes, t.info + [LoadInfo(0, 0)], t.typeList[l := t.typeList[l] + [k]],
                   if ty == Numa then t.numaMap[id := k] else t.numaMap);
    AttachShaped(t.nodes, p, k, nodes, Node(p, id, ty, mask, []));
    AttachLinked(t.nodes, p, k, nodes, Node(p, id, ty, mask, []));
    AttachKeeps(t.nodes, p, k, nodes, Node(p, id, ty, mask, []));
    AttachBuilt(t, t', ty, k, mask);
    Placed(t', k)
  }

  /** Every node already there keeps its parent, id, type and mask. */
  ghost predicate Kept(t: Tree, t': Tree)
  {
    |t'.nodes| >= |t.nodes| &&
    forall n :: 0 <= n < |t.nodes| ==>
      t'.nodes[n].parent == t.nodes[n].parent && t'.nodes[n].id == t.nodes[n].id &&
      t'.nodes[n].topotype == t.nodes[n].topotype && t'.nodes[n].mask == t.nodes[n].mask
  }

  lemma AttachKeeps(nodes: seq<Node>, p: int, k: int, nodes': seq<Node>, node: Node)
    requires 0 <= p < |nodes| && k == |nodes|
    requires nodes' == nodes[p := nodes[p].(children := nodes[p].children + [k])] + [node]
    ensures forall i :: 0 <= i < k ==>
      nodes'[i].parent == nodes[i].parent && nodes'[i].id == nodes[i].id &&
      nodes'[i].topotype == nodes[i].topotype && nodes'[i].mask == nodes[i].mask
  {
  }

  lemma AttachShaped(nodes: seq<Node>, p: int, k: int, nodes': seq<Node>, node: Node)
    requires Shaped(nodes) && 0 <= p < |nodes| && k == |nodes|
    requires node.parent == p && node.children == [] && Level(nodes[p].topotype) == Level(node.topotype) + 1
    requires nodes' == nodes[p := nodes[p].(children := nodes[p].children + [k])] + [node]
    ensures Shaped(nodes')
  {
    assert forall i :: 0 <= i < k ==> nodes'[i].parent == nodes[i].parent && nodes'[i].topotype == nodes[i].topotype;
    forall i, j | 0 <= i < |nodes'| && 0 <= j < |nodes'[i].children|
      ensures i < nodes'[i].children[j] < |nodes'| && nodes'[nodes'[i].children[j]].parent == i
    {
      if i == p && j == |nodes[p].children| {
        assert nodes'[i].children[j] == k;
      } else {
        assert nodes'[i].children[j] == nodes[i].children[j];
      }
    }
  }

  lemma AttachLinked(nodes: seq<Node>, p: int, k: int, nodes': seq<Node>, node: Node)
    requires Shaped(nodes) && Linked(nodes) && Shaped(nodes') && 0 <= p < |nodes| && k == |nodes| && node.parent == p
    requires nodes' == nodes[p := nodes[p].(children := nodes[p].children + [k])] + [node]
    ensures Linked(nodes')
  {
    forall i | 0 < i < |nodes'|
      ensures i in nodes'[nodes'[i].parent].children
    {
      if i < k {
        var q := nodes[i].parent;
        assert nodes'[i].parent == q;
        assert i in nodes[q].children;
        assert nodes[q].children <= nodes'[q].children;
      } else {
        assert nodes'[p].children == nodes[p].children + [k];
      }
    }
  }

  lemma AttachBuilt(t: Tree, t': Tree, ty: TopoType, k: int, mask: CpuMask.Cpumask)
    requires Built(t) && Shaped(t'.nodes) && Linked(t'.nodes) && k == |t.nodes| && |t'.nodes| == k + 1
    requires Level(ty) < TopoTypeEnd - 1
    requires t'.nodes[k].topotype == ty && t'.nodes[k].mask == mask
    requires forall i :: 0 <= i < k ==> t'.nodes[i].topotype == t.nodes[i].topotype && t'.nodes[i].mask == t.nodes[i].mask &&
                                        t'.nodes[i].id == t.nodes[i].id
    requires t'.info == t.info + [LoadInfo(0, 0)]
    requires t'.typeList == t.typeList[Level(ty) := t.typeList[Level(ty)] + [k]]
    requires t'.numaMap == if ty == Numa then t.numaMap[t'.nodes[k].id := k] else t.numaMap
    requires ty != Cpu ==> forall j :: 0 <= j < |t.typeList[Level(ty)]| ==> t.nodes[t.typeList[Level(ty)][j]].mask != mask
    ensures Built(t')
  {
    AttachListed(t, t', ty, k);
    AttachDistinct(t, t', ty, k, mask);
  }

  lemma AttachListed(t: Tree, t': Tree, ty: TopoType, k: int)
    requires Listed(t) && k == |t.nodes| > 0 && |t'.nodes| == k + 1 && Level(t'.nodes[k].topotype) == Level(ty)
    requires forall i :: 0 <= i < k ==> t'.nodes[i].topotype == t.nodes[i].topotype
    requires t'.typeList == t.typeList[Level(ty) := t.typeList[Level(ty)] + [k]]
    ensures Listed(t')
  {
    forall l, j | 0 <= l < TopoTypeEnd && 0 <= j < |t'.typeList[l]|
      ensures 0 < t'.typeList[l][j] < |t'.nodes| && Level(t'.nodes[t'.typeList[l][j]].topotype) == l
    {
      if l != Level(ty) || j < |t.typeList[l]| {
        assert t'.typeList[l][j] == t.typeList[l][j];
      } else {
        assert t'.typeList[l][j] == k;
      }
    }
  }

  lemma AttachDistinct(t: Tree, t': Tree, ty: TopoType, k: int, mask: CpuMask.Cpumask)
    requires Listed(t) && Distinct(t) && Listed(t') && k == |t.nodes| && |t'.nodes| == k + 1 && t'.nodes[k].mask == mask
    requires forall i :: 0 <= i < k ==> t'.nodes[i].mask == t.nodes[i].mask
    requires t'.typeList == t.typeList[Level(ty) := t.typeList[Level(ty)] + [k]]
    requires ty != Cpu ==> forall j :: 0 <= j < |t.typeList[Level(ty)]| ==> t.nodes[t.typeList[Level(ty)][j]].mask != mask
    ensures Distinct(t')
  {
    forall l, a, b | 1 <= l < 5 && 0 <= a < b < |t'.typeList[l]|
      ensures t'.nodes[t'.typeList[l][a]].mask != t'.nodes[t'.typeList[l][b]].mask
    {
      assert t'.typeList[l][a] == t.typeList[l][a];
      if l == Level(ty) && b == |t.typeList[l]| {
        assert t'.typeList[l][b] == k;
      } else {
        assert t'.typeList[l][b] == t.typeList[l][b];
      }
    }
  }

  /** The getter of one level: the node of that level whose mask is `mask`
      if there is one, otherwise a new one under `p`, or `None` when its id
      could not be read (-1). */
  function Get(t: Tree, ty: TopoType, p: int, mask: CpuMask.Cpumask, id: int): (r: Option<Placed>)
    requires Built(t) && ty != Cpu && 0 <= p < |t.nodes| && Level(t.nodes[p].topotype) == Level(ty) + 1
    ensures r.None? <==> FindTypeTopoNode(t, ty, mask).None? && id == -1
    ensures r.Some? ==> Built(r.value.tree) && Kept(t, r.value.tree)
    ensures r.Some? ==> 0 < r.value.node < |r.value.tree.nodes| && r.value.tree.nodes[r.value.node].topotype == ty &&
                        r.value.tree.nodes[r.value.node].mask == mask
    ensures r.Some? ==> r.value.tree.typeList[Level(Cpu)] == t.typeList[Level(Cpu)]
    ensures r.Some? && FindTypeTopoNode(t, ty, mask).Some? ==> r.value == Placed(t, FindTypeTopoNode(t, ty, mask).value)
  {
    match FindTypeTopoNode(t, ty, mask)
    case Some(n) => Some(Placed(t, n))
    case None => if id == -1 then None else Some(Attach(t, ty, p, mask, id))
  }

  // ---------------------------------------------------------------------
  // InitTopo

  /** What sysfs says about one CPU.  A mask is `None` where
      `getMaskFromFile` fails; an id is -1 where `getIDFromFile` or
      `getNumaID` fails. */
  datatype CpuFiles = CpuFiles(
    online: bool,
    chipMask: Option<CpuMask.Cpumask>, chipId: int,
    numaId: int, numaMask: Option<CpuMask.Cpumask>,
    coreMask: Option<CpuMask.Cpumask>, coreId: int)

  /** `getNumaMask`: no mask is read when the NUMA id is unknown. */
  function NumaMask(f: CpuFiles): Option<CpuMask.Cpumask>
  {
    if f.numaId == -1 then None else f.numaMask
  }

  /** Every file of the CPU could be read. */
  predicate Complete(f: CpuFiles)
  {
    f.chipMask.Some? && f.chipId != -1 && f.numaId != -1 && f.numaMask.Some? && f.coreMask.Some? && f.coreId != -1
  }

  function Failed(level: string, cpu: nat): string
  {
    "get " + level + " node of cpu " + FormatDecimal(cpu) + " failed"
  }

  /** The errors `InitTopo` can report for `cpu`. */
  predicate FailureOf(msg: string, cpu: nat)
  {
    msg == Failed("chip", cpu) || msg == Failed("numa", cpu) || msg == Failed("cluster", cpu) || msg == Failed("core", cpu)
  }

  /** The ids of the CPU nodes, in the order they were created. */
  function CpuIds(t: Tree): (ids: seq<int>)
    requires Valid(t)
    ensures |ids| == |t.typeList[Level(Cpu)]|
  {
    seq(|t.typeList[Level(Cpu)]|, k requires 0 <= k < |t.typeList[Level(Cpu)]| => t.nodes[t.typeList[Level(Cpu)][k]].id)
  }

  /** The online CPUs below `n`, in increasing order. */
  function Online(sys: seq<CpuFiles>, n: nat): seq<int>
    requires n <= |sys|
  {
    if n == 0 then [] else Online(sys, n - 1) + (if sys[n - 1].online then [n - 1] else [])
  }

  /** `Online` lists exactly the online CPUs below `n`, each once, in
      increasing order. */
  lemma {:induction false} OnlineSpec(sys: seq<CpuFiles>, n: nat)
    requires n <= |sys|
    ensures forall k :: 0 <= k < |Online(sys, n)| ==> 0 <= Online(sys, n)[k] < n && sys[Online(sys, n)[k]].online
    ensures forall c :: 0 <= c < n && sys[c].online ==> c in Online(sys, n)
    ensures forall a, b :: 0 <= a < b < |Online(sys, n)| ==> Online(sys, n)[a] < Online(sys, n)[b]
  {
    if n > 0 {
      OnlineSpec(sys, n - 1);
    }
  }

  /** What one iteration of `InitTopo` promises about the tree `t` it
      extends for CPU `cpu`. */
  ghost predicate Extends(t: Tree, cpu: nat, f: CpuFiles, r: Result<Tree>)
    requires Valid(t)
  {
    (r.Ok? ==> Built(r.value) && Kept(t, r.value) && CpuIds(r.value) == CpuIds(t) + [cpu]) &&
    (r.Err? ==> FailureOf(r.msg, cpu) && !Complete(f)) &&
    (Complete(f) ==> r.Ok?)
  }

  /** One iteration of `InitTopo` for an online CPU: the chip, NUMA,
      cluster, core and CPU nodes on its path, each found by mask or
      created under the one above. */
  function AddCpu(t: Tree, cpu: nat, f: CpuFiles): (r: Result<Tree>)
    requires Built(t)
    ensures Extends(t, cpu, f, r)
  {
    assert t.nodes[0].topotype == All;
    match f.chipMask
    case None => Err(Failed("chip", cpu))
    case Some(chipMask) =>
      match Get(t, Chip, 0, chipMask, f.chipId)
      case None => Err(Failed("chip", cpu))
      case Some(chip) =>
        var r := AddBelowChip(chip.tree, chip.node, cpu, f);
        ExtendsThrough(t, chip.tree, cpu, f, r);
        r
  }

  function AddBelowChip(t: Tree, chip: int, cpu: nat, f: CpuFiles): (r: Result<Tree>)
    requires Built(t) && 0 < chip < |t.nodes| && t.nodes[chip].topotype == Chip
    ensures Extends(t, cpu, f, r)
  {
    match NumaMask(f)
    case None => Err(Failed("numa", cpu))
    case Some(numaMask) =>
      match Get(t, Numa, chip, numaMask, f.numaId)
      case None => Err(Failed("numa", cpu))
      case Some(numa) =>
        var r := AddBelowNuma(numa.tree, numa.node, cpu, f);
        ExtendsThrough(t, numa.tree, cpu, f, r);
        r
  }

  function AddBelowNuma(t: Tree, numa: int, cpu: nat, f: CpuFiles): (r: Result<Tree>)
    requires Built(t) && 0 < numa < |t.nodes| && t.nodes[numa].topotype == Numa
    ensures Extends(t, cpu, f, r)
  {
    ClusterOfCpu(cpu);
    match Get(t, Cluster, numa, ClusterMask(cpu), ClusterId(cpu))
    case None => Err(Failed("cluster", cpu))
    case Some(cluster) =>
      var r := AddBelowCluster(cluster.tree, cluster.node, cpu, f);
      ExtendsThrough(t, cluster.tree, cpu, f, r);
      r
  }

  function AddBelowCluster(t: Tree, cluster: int, cpu: nat, f: CpuFiles): (r: Result<Tree>)
    requires Built(t) && 0 < cluster < |t.nodes| && t.nodes[cluster].topotype == Cluster
    ensures Extends(t, cpu, f, r)
  {
    match f.coreMask
    case None => Err(Failed("core", cpu))
    case Some(coreMask) =>
      match Get(t, Core, cluster, coreMask, f.coreId)
      case None => Err(Failed("core", cpu))
      case Some(core) =>
        var leaf := Attach(core.tree, Cpu, core.node, CpuMask.Set(CpuMask.Init(), cpu), cpu);
        CpuIdsGrow(core.tree, leaf, cpu);
        ExtendsThrough(t, core.tree, cpu, f, Ok(leaf.tree));
        Ok(leaf.tree)
  }

  /** A getter that kept the tree's nodes and CPU list passes on what the
      rest of the iteration promises. */
  lemma ExtendsThrough(t: Tree, t': Tree, cpu: nat, f: CpuFiles, r: Result<Tree>)
    requires Valid(t) && Valid(t') && Kept(t, t') && t'.typeList[Level(Cpu)] == t.typeList[Level(Cpu)]
    requires Extends(t', cpu, f, r)
    ensures Extends(t, cpu, f, r)
  {
    CpuIdsKept(t, t');
  }

  lemma CpuIdsKept(t: Tree, t': Tree)
    requires Valid(t) && Valid(t') && Kept(t, t') && t'.typeList[Level(Cpu)] == t.typeList[Level(Cpu)]
    ensures CpuIds(t') == CpuIds(t)
  {
  }

  lemma CpuIdsGrow(t: Tree, leaf: Placed, cpu: int)
    requires Valid(t) && Valid(leaf.tree) && Kept(t, leaf.tree)
    requires leaf.node == |t.nodes| && |leaf.tree.nodes| == |t.nodes| + 1 && leaf.tree.nodes[leaf.node].id == cpu
    requires leaf.tree.typeList[Level(Cpu)] == t.typeList[Level(Cpu)] + [leaf.node]
    ensures CpuIds(leaf.tree) == CpuIds(t) + [cpu]
  {
  }

  /** Every online CPU's files could be read. */
  predicate AllComplete(sys: seq<CpuFiles>)
  {
    forall cpu :: 0 <= cpu < |sys| && sys[cpu].online ==> Complete(sys[cpu])
  }

  /** `msg` is the report of a failure on an online CPU missing some file. */
  predicate FailsOn(sys: seq<CpuFiles>, msg: string)
  {
    exists cpu :: 0 <= cpu < |sys| && sys[cpu].online && !Complete(sys[cpu]) && FailureOf(msg, cpu)
  }

  /** `InitTopo` over the CPUs `0 .. |sys| - 1`: offline CPUs are skipped,
      the first failure is reported, and on success every online CPU has
      exactly one CPU node, created in CPU order. */
  method InitTopo(sys: seq<CpuFiles>) returns (r: Result<Tree>)
    ensures r.Ok? ==> Built(r.value)
    ensures r.Ok? ==> CpuIds(r.value) == Online(sys, |sys|)
    ensures r.Ok? ==> |r.value.typeList[Level(Cpu)]| == |Online(sys, |sys|)| && |r.value.info| == |r.value.nodes|
    ensures r.Err? ==> FailsOn(sys, r.msg)
    ensures AllComplete(sys) ==> r.Ok?
  {
    var t := EmptyTree();
    assert CpuIds(t) == Online(sys, 0) == [];
    var cpu := 0;
    while cpu < |sys|
      invariant 0 <= cpu <= |sys|
      invariant Built(t) && CpuIds(t) == Online(sys, cpu)
    {
      var step := InitStep(sys, cpu, t);
      if step.Err? {
        return step;
      }
      t := step.value;
      cpu := cpu + 1;
    }
    return Ok(t);
  }

  /** One pass of `InitTopo`'s loop, for CPU `cpu`. */
  method InitStep(sys: seq<CpuFiles>, cpu: nat, t: Tree) returns (r: Result<Tree>)
    requires cpu < |sys| && Built(t) && CpuIds(t) == Online(sys, cpu)
    ensures r.Ok? ==> Built(r.value) && CpuIds(r.value) == Online(sys, cpu + 1)
    ensures r.Err? ==> FailsOn(sys, r.msg)
    ensures AllComplete(sys) ==> r.Ok?
  {
    assert Online(sys, cpu + 1) == Online(sys, cpu) + (if sys[cpu].online then [cpu] else []);
    if !sys[cpu].online {
      return Ok(t);
    }
    r := AddCpu(t, cpu, sys[cpu]);
    if r.Err? {
      assert 0 <= cpu < |sys| && sys[cpu].online && !Complete(sys[cpu]) && FailureOf(r.msg, cpu);
    }
  }

  /** A freshly built tree satisfies the load invariant that `AddLoad` and
      `SubLoad` keep. */
  lemma BuiltConsistent(t: Tree)
    requires Built(t)
    ensures LoadConsistent(t.nodes, t.info)
  {
    ZeroConsistent(t.nodes, t.info);
  }
}

=== FILE: topology.dfy ===
/** The CPU topology tree of `common/topology/topology.go`.

    The Go tree links `TopoNode` values by pointers.  Here the nodes live in
    one sequence: the root (type `All`) is at index 0, a parent link is an
    index (`-1` for none) and a child list is a sequence of indices.  The
    `topoLoadInfo` of every node sits in a parallel sequence `info`, so that
    load and bind updates visibly leave the shape of the tree alone. */
module Topology {
  import opened Wrappers
  import opened GoStrings
  import CpuMask
  import Bits

  /** The levels of the tree, from a single CPU up to the whole machine. */
  datatype TopoType = Cpu | Core | Cluster | Numa | Chip | All

  /** `TopoTypeEnd`: the number of levels. */
  const TopoTypeEnd: nat := 6

  /** The Go enum value of a level. */
  function Level(t: TopoType): (l: nat)
    ensures l < TopoTypeEnd
  {
    match t
    case Cpu => 0
    case Core => 1
    case Cluster => 2
    case Numa => 3
    case Chip => 4
    case All => 5
  }

  /** `TopoType.Compare`: positive when `t` is the wider level. */
  function Compare(t: TopoType, src: TopoType): int
  {
    Level(t) - Level(src)
  }

  /** `topoLoadInfo`. */
  datatype LoadInfo = LoadInfo(bindCount: int, load: int)

  datatype Node = Node(parent: int, id: int, topotype: TopoType, mask: CpuMask.Cpumask, children: seq<int>)

  /** The shape every tree `InitTopo` builds: parents come before their
      children, each parent is exactly one level wider than its child, and
      child lists point back at their parent. */
  ghost predicate Shaped(nodes: seq<Node>)
  {
    |nodes| > 0 && nodes[0].parent == -1 && nodes[0].topotype == All &&
    (forall i {:trigger nodes[i].parent} :: 0 < i < |nodes| ==> 0 <= nodes[i].parent < i) &&
    (forall i {:trigger nodes[i].parent} :: 0 < i < |nodes| ==> Level(nodes[nodes[i].parent].topotype) == Level(nodes[i].topotype) + 1) &&
    (forall i, k :: 0 <= i < |nodes| && 0 <= k < |nodes[i].children| ==>
      i < nodes[i].children[k] < |nodes| && nodes[nodes[i].children[k]].parent == i)
  }

  /** `a` is `c` or one of its ancestors. */
  predicate IsAncestor(nodes: seq<Node>, a: int, c: int)
    requires Shaped(nodes) && 0 <= c < |nodes|
    decreases c
  {
    a == c || (c > 0 && IsAncestor(nodes, a, nodes[c].parent))
  }

  /** A strict ancestor sits earlier in the arena and on a wider level, so
      `Compare` of its type against the descendant's is positive. */
  lemma {:induction false} AncestorLevel(nodes: seq<Node>, a: int, c: int)
    requires Shaped(nodes) && 0 <= c < |nodes| && IsAncestor(nodes, a, c) && a != c
    ensures 0 <= a < c
    ensures Level(nodes[a].topotype) > Level(nodes[c].topotype)
    ensures Compare(nodes[a].topotype, nodes[c].topotype) > 0
    decreases c
  {
    var p := nodes[c].parent;
    if p != a {
      AncestorLevel(nodes, a, p);
    }
  }

  /** A CPU node is the lowest level: its only descendant is itself. */
  lemma CpuIsLeaf(nodes: seq<Node>, a: int, c: int)
    requires Shaped(nodes) && 0 <= a < |nodes| && 0 <= c < |nodes| && nodes[a].topotype == Cpu
    ensures IsAncestor(nodes, a, c) <==> a == c
  {
    if IsAncestor(nodes, a, c) && a != c {
      AncestorLevel(nodes, a, c);
    }
  }

  lemma {:induction false} AncestorThroughParent(nodes: seq<Node>, c: int, x: int)
    requires Shaped(nodes) && 0 < c < |nodes| && 0 <= x < |nodes| && IsAncestor(nodes, c, x)
    ensures IsAncestor(nodes, nodes[c].parent, x)
    decreases x
  {
    if x != c {
      AncestorThroughParent(nodes, c, nodes[x].parent);
    }
  }

  // ---------------------------------------------------------------------
  // foreachChildCall: pre-order traversal

  /** The order in which `foreachChildCall` visits the subtree of `i`: the
      node itself, then each child's subtree in child-list order.  Every
      visited node lies below `i`. */
  function Pre(nodes: seq<Node>, i: int): (r: seq<int>)
    requires Shaped(nodes) && 0 <= i < |nodes|
    ensures |r| > 0 && r[0] == i
    ensures forall k :: 0 <= k < |r| ==> 0 <= r[k] < |nodes| && IsAncestor(nodes, i, r[k])
    decreases |nodes| - i, 1
  {
    [i] + PreList(nodes, i, nodes[i].children)
  }

  function PreList(nodes: seq<Node>, p: int, cs: seq<int>): (r: seq<int>)
    requires Shaped(nodes) && 0 <= p < |nodes|
    requires forall k :: 0 <= k < |cs| ==> p < cs[k] < |nodes| && nodes[cs[k]].parent == p
    ensures forall k :: 0 <= k < |r| ==> 0 <= r[k] < |nodes| && IsAncestor(nodes, p, r[k])
    decreases |nodes| - p, 0, |cs|
  {
    if |cs| == 0 then []
    else
      var head := Pre(nodes, cs[0]);
      assert forall k :: 0 <= k < |head| ==> IsAncestor(nodes, p, head[k]) by {
        forall k | 0 <= k < |head|
          ensures IsAncestor(nodes, p, head[k])
        {
          AncestorThroughParent(nodes, cs[0], head[k]);
        }
      }
      head + PreList(nodes, p, cs[1..])
  }

  /** Every node other than the root is on its parent's child list, as
      `InitTopo` leaves the tree. */
  ghost predicate Linked(nodes: seq<Node>)
    requires Shaped(nodes)
  {
    forall i {:trigger nodes[i].parent} :: 0 < i < |nodes| ==> i in nodes[nodes[i].parent].children
  }

  /** The child of `a` on the way down to its descendant `c`. */
  lemma {:induction false} ChildOnPath(nodes: seq<Node>, a: int, c: int) returns (ch: int)
    requires Shaped(nodes) && 0 <= c < |nodes| && IsAncestor(nodes, a, c) && a != c
    ensures 0 < ch < |nodes| && nodes[ch].parent == a && IsAncestor(nodes, ch, c)
    decreases c
  {
    var p := nodes[c].parent;
    if p == a {
      ch := c;
    } else {
      ch := ChildOnPath(nodes, a, p);
    }
  }

  /** In a linked tree the visit of `a` reaches every node below it. */
  lemma {:induction false} PreVisitsDescendants(nodes: seq<Node>, a: int, c: int)
    requires Shaped(nodes) && Linked(nodes) && 0 <= a < |nodes| && 0 <= c < |nodes| && IsAncestor(nodes, a, c)
    ensures c in Pre(nodes, a)
    decreases |nodes| - a
  {
    if c != a {
      var ch := ChildOnPath(nodes, a, c);
      assert ch in nodes[a].children;
      AncestorLevel(nodes, a, ch);
      PreVisitsDescendants(nodes, ch, c);
      PreListHas(nodes, a, nodes[a].children, ch, c);
    }
  }

  lemma {:induction false} PreListHas(nodes: seq<Node>, p: int, cs: seq<int>, ch: int, x: int)
    requires Shaped(nodes) && 0 <= p < |nodes|
    requires forall k :: 0 <= k < |cs| ==> p < cs[k] < |nodes| && nodes[cs[k]].parent == p
    requires ch in cs && x in Pre(nodes, ch)
    ensures x in PreList(nodes, p, cs)
    decreases |cs|
  {
    if cs[0] != ch {
      PreListHas(nodes, p, cs[1..], ch, x);
    }
  }

  // ---------------------------------------------------------------------
  // lighterBindCallback / lighterLoadCallback

  predicate InRange(ord: seq<int>, n: nat)
  {
    forall k :: 0 <= k < |ord| ==> 0 <= ord[k] < n
  }

  /** What a selection compares: the bind count alone, or the load with the
      bind count breaking ties. */
  datatype Weighing = ByBind | ByLoad

  function Key(l: LoadInfo, w: Weighing): (int, int)
  {
    if w == ByBind then (l.bindCount, 0) else (l.load, l.bindCount)
  }

  predicate Lighter(a: (int, int), b: (int, int))
  {
    a.0 < b.0 || (a.0 == b.0 && a.1 < b.1)
  }

  /** The callback run over `ord`: the first node of type `ty` is taken,
      and a later one replaces it only when strictly lighter. */
  function Select(nodes: seq<Node>, info: seq<LoadInfo>, ord: seq<int>, ty: TopoType, w: Weighing): (r: Option<int>)
    requires |info| == |nodes| && InRange(ord, |nodes|)
    ensures r.Some? ==> 0 <= r.value < |nodes| && nodes[r.value].topotype == ty
    decreases |ord|
  {
    if |ord| == 0 then None
    else
      var best := Select(nodes, info, ord[..|ord| - 1], ty, w);
      var n := ord[|ord| - 1];
      if nodes[n].topotype != ty then best
      else if best.None? || Lighter(Key(info[n], w), Key(info[best.value], w)) then Some(n)
      else best
  }

  /** Position `k` of `ord` holds a lightest node of type `ty`, and every
      earlier node of that type is strictly heavier. */
  ghost predicate LightestAt(nodes: seq<Node>, info: seq<LoadInfo>, ord: seq<int>, ty: TopoType, w: Weighing, k: int)
    requires |info| == |nodes| && InRange(ord, |nodes|)
  {
    0 <= k < |ord| && nodes[ord[k]].topotype == ty &&
    (forall j :: 0 <= j < |ord| && nodes[ord[j]].topotype == ty ==> !Lighter(Key(info[ord[j]], w), Key(info[ord[k]], w))) &&
    (forall j :: 0 <= j < k && nodes[ord[j]].topotype == ty ==> Lighter(Key(info[ord[k]], w), Key(info[ord[j]], w)))
  }

  /** The independent description of a selection's answer. */
  ghost predicate Lightest(nodes: seq<Node>, info: seq<LoadInfo>, ord: seq<int>, ty: TopoType, w: Weighing, r: Option<int>)
    requires |info| == |nodes| && InRange(ord, |nodes|)
  {
    match r
    case None => forall k :: 0 <= k < |ord| ==> nodes[ord[k]].topotype != ty
    case Some(n) => exists k :: 0 <= k < |ord| && ord[k] == n && LightestAt(nodes, info, ord, ty, w, k)
  }

  /** Appending a node of another type keeps the lightest position. */
  lemma ExtendSkip(nodes: seq<Node>, info: seq<LoadInfo>, ord: seq<int>, ty: TopoType, w: Weighing, k: int)
    requires |info| == |nodes| && InRange(ord, |nodes|) && |ord| > 0
    requires nodes[ord[|ord| - 1]].topotype != ty
    requires LightestAt(nodes, info, ord[..|ord| - 1], ty, w, k)
    ensures LightestAt(nodes, info, ord, ty, w, k)
  {
    assert forall j :: 0 <= j < |ord| - 1 ==> ord[j] == ord[..|ord| - 1][j];
  }

  /** Appending a node of type `ty` when none came before. */
  lemma ExtendFirst(nodes: seq<Node>, info: seq<LoadInfo>, ord: seq<int>, ty: TopoType, w: Weighing)
    requires |info| == |nodes| && InRange(ord, |nodes|) && |ord| > 0
    requires nodes[ord[|ord| - 1]].topotype == ty
    requires forall j :: 0 <= j < |ord| - 1 ==> nodes[ord[j]].topotype != ty
    ensures LightestAt(nodes, info, ord, ty, w, |ord| - 1)
  {
  }

  /** Appending a node strictly lighter than the best so far. */
  lemma ExtendTake(nodes: seq<Node>, info: seq<LoadInfo>, ord: seq<int>, ty: TopoType, w: Weighing, k: int)
    requires |info| == |nodes| && InRange(ord, |nodes|) && |ord| > 0
    requires nodes[ord[|ord| - 1]].topotype == ty
    requires LightestAt(nodes, info, ord[..|ord| - 1], ty, w, k)
    requires Lighter(Key(info[ord[|ord| - 1]], w), Key(info[ord[k]], w))
    ensures LightestAt(nodes, info, ord, ty, w, |ord| - 1)
  {
    assert forall j :: 0 <= j < |ord| - 1 ==> ord[j] == ord[..|ord| - 1][j];
  }

  /** Appending a node no lighter than the best so far. */
  lemma ExtendKeep(nodes: seq<Node>, info: seq<LoadInfo>, ord: seq<int>, ty: TopoType, w: Weighing, k: int)
    requires |info| == |nodes| && InRange(ord, |nodes|) && |ord| > 0
    requires LightestAt(nodes, info, ord[..|ord| - 1], ty, w, k)
    requires !Lighter(Key(info[ord[|ord| - 1]], w), Key(info[ord[k]], w))
    ensures LightestAt(nodes, info, ord, ty, w, k)
  {
    assert forall j :: 0 <= j < |ord| - 1 ==> ord[j] == ord[..|ord| - 1][j];
  }

  lemma {:induction false} SelectIsLightest(nodes: seq<Node>, info: seq<LoadInfo>, ord: seq<int>, ty: TopoType, w: Weighing)
    requires |info| == |nodes| && InRange(ord, |nodes|)
    ensures Lightest(nodes, info, ord, ty, w, Select(nodes, info, ord, ty, w))
    decreases |ord|
  {
    if |ord| > 0 {
      var m := |ord| - 1;
      var pre := ord[..m];
      var n := ord[m];
      var best := Select(nodes, info, pre, ty, w);
      SelectIsLightest(nodes, info, pre, ty, w);
      if best.None? {
        assert forall j :: 0 <= j < m ==> ord[j] == pre[j];
        if nodes[n].topotype == ty {
          ExtendFirst(nodes, info, ord, ty, w);
          assert ord[m] == Select(nodes, info, ord, ty, w).value;
        }
      } else {
        var k :| 0 <= k < m && pre[k] == best.value && LightestAt(nodes, info, pre, ty, w, k);
        assert ord[k] == pre[k];
        if nodes[n].topotype != ty {
          ExtendSkip(nodes, info, ord, ty, w, k);
        } else if Lighter(Key(info[n], w), Key(info[best.value], w)) {
          ExtendTake(nodes, info, ord, ty, w, k);
          assert ord[m] == Select(nodes, info, ord, ty, w).value;
        } else {
          ExtendKeep(nodes, info, ord, ty, w, k);
        }
      }
    }
  }

  /** At most one answer fits the description. */
  lemma LightestUnique(nodes: seq<Node>, info: seq<LoadInfo>, ord: seq<int>, ty: TopoType, w: Weighing, r1: Option<int>, r2: Option<int>)
    requires |info| == |nodes| && InRange(ord, |nodes|)
    requires Lightest(nodes, info, ord, ty, w, r1) && Lightest(nodes, info, ord, ty, w, r2)
    ensures r1 == r2
  {
  }

  /** The selection callback returns exactly the answer the description
      names. */
  lemma SelectIff(nodes: seq<Node>, info: seq<LoadInfo>, ord: seq<int>, ty: TopoType, w: Weighing, r: Option<int>)
    requires |info| == |nodes| && InRange(ord, |nodes|)
    ensures Select(nodes, info, ord, ty, w) == r <==> Lightest(nodes, info, ord, ty, w, r)
  {
    SelectIsLightest(nodes, info, ord, ty, w);
    if Lightest(nodes, info, ord, ty, w, r) {
      LightestUnique(nodes, info, ord, ty, w, r, Select(nodes, info, ord, ty, w));
    }
  }

  /** `SelectLighterBindNode`: the first node of type `ty` in the subtree of
      `i` (pre-order) among those with the fewest bound threads. */
  function SelectLighterBindNode(nodes: seq<Node>, info: seq<LoadInfo>, i: int, ty: TopoType): (r: Option<int>)
    requires Shaped(nodes) && |info| == |nodes| && 0 <= i < |nodes|
    ensures Lightest(nodes, info, Pre(nodes, i), ty, ByBind, r)
    ensures r.Some? ==> IsAncestor(nodes, i, r.value)
  {
    SelectIsLightest(nodes, info, Pre(nodes, i), ty, ByBind);
    var r := Select(nodes, info, Pre(nodes, i), ty, ByBind);
    assert r.Some? ==> IsAncestor(nodes, i, r.value) by {
      if r.Some? {
        var k :| 0 <= k < |Pre(nodes, i)| && Pre(nodes, i)[k] == r.value && LightestAt(nodes, info, Pre(nodes, i), ty, ByBind, k);
      }
    }
    r
  }

  /** `SelectLighterLoadNode`: the first node of type `ty` in the subtree of
      `i` among those with the least load, ties going to fewer binds. */
  function SelectLighterLoadNode(nodes: seq<Node>, info: seq<LoadInfo>, i: int, ty: TopoType): (r: Option<int>)
    requires Shaped(nodes) && |info| == |nodes| && 0 <= i < |nodes|
    ensures Lightest(nodes, info, Pre(nodes, i), ty, ByLoad, r)
    ensures r.Some? ==> IsAncestor(nodes, i, r.value)
  {
    SelectIsLightest(nodes, info, Pre(nodes, i), ty, ByLoad);
    var r := Select(nodes, info, Pre(nodes, i), ty, ByLoad);
    assert r.Some? ==> IsAncestor(nodes, i, r.value) by {
      if r.Some? {
        var k :| 0 <= k < |Pre(nodes, i)| && Pre(nodes, i)[k] == r.value && LightestAt(nodes, info, Pre(nodes, i), ty, ByLoad, k);
      }
    }
    r
  }

  // ---------------------------------------------------------------------
  // Parent

  function ClimbTo(nodes: seq<Node>, p: int, t: TopoType): (r: Option<int>)
    requires Shaped(nodes) && 0 <= p < |nodes|
    ensures r.Some? ==> 0 <= r.value < |nodes| && nodes[r.value].topotype == t && IsAncestor(nodes, r.value, p)
    decreases p
  {
    if nodes[p].topotype == t then Some(p)
    else if p == 0 then None
    else ClimbTo(nodes, nodes[p].parent, t)
  }

  /** `TopoNode.Parent`: the enclosing node of level `t` (the node itself
      when it already has that level); none when `t` is narrower. */
  function Parent(nodes: seq<Node>, i: int, t: TopoType): (r: Option<int>)
    requires Shaped(nodes) && 0 <= i < |nodes|
    ensures r.Some? ==> 0 <= r.value < |nodes| && nodes[r.value].topotype == t && IsAncestor(nodes, r.value, i)
  {
    if Compare(t, nodes[i].topotype) < 0 then None else ClimbTo(nodes, i, t)
  }

  lemma {:induction false} ClimbFinds(nodes: seq<Node>, p: int, t: TopoType, a: int)
    requires Shaped(nodes) && 0 <= p < |nodes| && 0 <= a < |nodes|
    requires IsAncestor(nodes, a, p) && nodes[a].topotype == t
    ensures ClimbTo(nodes, p, t) == Some(a)
    decreases p
  {
    if a != p {
      if nodes[p].topotype == t {
        AncestorLevel(nodes, a, p);
      }
      ClimbFinds(nodes, nodes[p].parent, t, a);
    }
  }

  lemma {:induction false} ClimbReaches(nodes: seq<Node>, p: int, t: TopoType)
    requires Shaped(nodes) && 0 <= p < |nodes| && Level(nodes[p].topotype) <= Level(t)
    ensures ClimbTo(nodes, p, t).Some?
    decreases p
  {
    if nodes[p].topotype != t && p != 0 {
      ClimbReaches(nodes, nodes[p].parent, t);
    }
  }

  /** `Parent(t)` answers with exactly the ancestor-or-self of level `t`,
      and it has one precisely when `t` is at least as wide as the node. */
  lemma ParentIff(nodes: seq<Node>, i: int, t: TopoType, a: int)
    requires Shaped(nodes) && 0 <= i < |nodes|
    ensures Parent(nodes, i, t) == Some(a) <==> 0 <= a < |nodes| && IsAncestor(nodes, a, i) && nodes[a].topotype == t
    ensures Parent(nodes, i, t).None? <==> Level(t) < Level(nodes[i].topotype)
  {
    if 0 <= a < |nodes| && IsAncestor(nodes, a, i) && nodes[a].topotype == t {
      if a != i {
        AncestorLevel(nodes, a, i);
      }
      ClimbFinds(nodes, i, t, a);
    }
    if Level(t) >= Level(nodes[i].topotype) {
      ClimbReaches(nodes, i, t);
    }
  }

  // ---------------------------------------------------------------------
  // Loads

  /** `AddLoad` on a CPU node: the load goes onto the node and every node
      above it, up to the root. */
  function AddUp(nodes: seq<Node>, info: seq<LoadInfo>, c: int, x: int): (r: seq<LoadInfo>)
    requires Shaped(nodes) && |info| == |nodes| && 0 <= c < |nodes|
    ensures |r| == |info|
    ensures forall n :: 0 <= n < |nodes| ==>
      r[n] == info[n].(load := info[n].load + (if IsAncestor(nodes, n, c) then x else 0))
    decreases c
  {
    var info' := info[c := info[c].(load := info[c].load + x)];
    if c == 0 then info'
    else
      assert !IsAncestor(nodes, c, nodes[c].parent) by {
        if IsAncestor(nodes, c, nodes[c].parent) {
          AncestorLevel(nodes, c, nodes[c].parent);
        }
      }
      AddUp(nodes, info', nodes[c].parent, x)
  }

  /** How much load the visits in `ord` put on node `n`, `per` for each
      visited CPU node below `n`. */
  function Gain(nodes: seq<Node>, ord: seq<int>, n: int, per: int): int
    requires Shaped(nodes) && InRange(ord, |nodes|) && 0 <= n < |nodes|
    decreases |ord|
  {
    if |ord| == 0 then 0
    else
      var c := ord[|ord| - 1];
      Gain(nodes, ord[..|ord| - 1], n, per) + (if nodes[c].topotype == Cpu && IsAncestor(nodes, n, c) then per else 0)
  }

  /** How many visits in `ord` are CPU nodes below `n`. */
  function Hits(nodes: seq<Node>, ord: seq<int>, n: int): nat
    requires Shaped(nodes) && InRange(ord, |nodes|) && 0 <= n < |nodes|
    decreases |ord|
  {
    if |ord| == 0 then 0
    else
      var c := ord[|ord| - 1];
      Hits(nodes, ord[..|ord| - 1], n) + (if nodes[c].topotype == Cpu && IsAncestor(nodes, n, c) then 1 else 0)
  }

  lemma {:induction false} GainIsProduct(nodes: seq<Node>, ord: seq<int>, n: int, per: int)
    requires Shaped(nodes) && InRange(ord, |nodes|) && 0 <= n < |nodes|
    ensures Gain(nodes, ord, n, per) == per * Hits(nodes, ord, n)
    decreases |ord|
  {
    if |ord| > 0 {
      GainIsProduct(nodes, ord[..|ord| - 1], n, per);
      MulStep(per, Hits(nodes, ord[..|ord| - 1], n));
    }
  }

  lemma MulStep(per: int, h: int)
    ensures per * (h + 1) == per * h + per
  {
  }

  /** `loadChangeCallback` run over `ord`: every CPU node visited takes
      `per` through `AddUp`. */
  function Spread(nodes: seq<Node>, info: seq<LoadInfo>, ord: seq<int>, per: int): (r: seq<LoadInfo>)
    requires Shaped(nodes) && |info| == |nodes| && InRange(ord, |nodes|)
    ensures |r| == |info|
    ensures forall n :: 0 <= n < |nodes| ==>
      r[n] == info[n].(load := info[n].load + Gain(nodes, ord, n, per))
    decreases |ord|
  {
    if |ord| == 0 then info
    else
      var before := Spread(nodes, info, ord[..|ord| - 1], per);
      var c := ord[|ord| - 1];
      if nodes[c].topotype == Cpu then AddUp(nodes, before, c, per) else before
  }

  /** The number of CPUs in the first `i` words of a mask, counted word by
      word as `Cpumask.Weight` does. */
  function PopBelow(m: CpuMask.Cpumask, i: nat): nat
    requires i <= CpuMask.MaskWords
  {
    if i == 0 then 0 else PopBelow(m, i - 1) + Bits.Pop(m[i - 1])
  }

  /** `Cpumask.Weight` as a function. */
  function MaskWeight(m: CpuMask.Cpumask): nat
  {
    PopBelow(m, CpuMask.MaskWords)
  }

  lemma {:induction false} PopBelowCounts(m: CpuMask.Cpumask, i: nat)
    requires i <= CpuMask.MaskWords
    ensures PopBelow(m, i) == |CpuMask.CpusBelow(m, CpuMask.WordBits * i)|
  {
    if i == 0 {
      assert CpuMask.CpusBelow(m, 0) == {};
    } else {
      PopBelowCounts(m, i - 1);
      CpuMask.CpusBelowNextWord(m, i - 1);
    }
  }

  /** The weight is the number of CPUs in the mask. */
  lemma MaskWeightCounts(m: CpuMask.Cpumask)
    ensures MaskWeight(m) == |CpuMask.Cpus(m)|
  {
    PopBelowCounts(m, CpuMask.MaskWords);
    assert CpuMask.CpusBelow(m, CpuMask.MaxCpus) == CpuMask.Cpus(m);
  }

  /** `TopoNode.AddLoad`.  On a CPU node the load goes up the ancestor
      chain; on a wider node it is split evenly (Go's truncating division)
      over the CPUs of its mask and each CPU node of the subtree takes its
      share.  An empty mask makes Go divide by zero: `None`. */
  function AddLoad(nodes: seq<Node>, info: seq<LoadInfo>, i: int, x: int): (r: Option<seq<LoadInfo>>)
    requires Shaped(nodes) && |info| == |nodes| && 0 <= i < |nodes|
    ensures r.None? <==> nodes[i].topotype != Cpu && MaskWeight(nodes[i].mask) == 0
    ensures r.Some? ==> |r.value| == |info|
  {
    if nodes[i].topotype == Cpu then Some(AddUp(nodes, info, i, x))
    else
      var w := MaskWeight(nodes[i].mask);
      if w == 0 then None
      else Some(Spread(nodes, info, Pre(nodes, i), GoDiv(x, w)))
  }

  /** On a CPU node, `AddLoad` adds `x` to the node and to each node above
      it, and to no other; bind counts stay. */
  lemma AddLoadCpu(nodes: seq<Node>, info: seq<LoadInfo>, i: int, x: int)
    requires Shaped(nodes) && |info| == |nodes| && 0 <= i < |nodes| && nodes[i].topotype == Cpu
    ensures AddLoad(nodes, info, i, x).Some?
    ensures forall n :: 0 <= n < |nodes| ==>
      AddLoad(nodes, info, i, x).value[n] == info[n].(load := info[n].load + (if IsAncestor(nodes, n, i) then x else 0))
  {
  }

  /** A wider node's update, counted: each CPU node below `n` in the
      subtree of `i` contributes one share. */
  lemma AddLoadShares(nodes: seq<Node>, info: seq<LoadInfo>, i: int, x: int, n: int)
    requires Shaped(nodes) && |info| == |nodes| && 0 <= i < |nodes| && 0 <= n < |nodes|
    requires nodes[i].topotype != Cpu && AddLoad(nodes, info, i, x).Some?
    ensures AddLoad(nodes, info, i, x).value[n].load ==
      info[n].load + GoDiv(x, MaskWeight(nodes[i].mask)) * Hits(nodes, Pre(nodes, i), n)
    ensures AddLoad(nodes, info, i, x).value[n].bindCount == info[n].bindCount
  {
    var per := GoDiv(x, MaskWeight(nodes[i].mask));
    assert AddLoad(nodes, info, i, x).value == Spread(nodes, info, Pre(nodes, i), per);
    GainIsProduct(nodes, Pre(nodes, i), n, per);
  }

  /** `SubLoad`. */
  function SubLoad(nodes: seq<Node>, info: seq<LoadInfo>, i: int, x: int): (r: Option<seq<LoadInfo>>)
    requires Shaped(nodes) && |info| == |nodes| && 0 <= i < |nodes|
    ensures r.None? <==> nodes[i].topotype != Cpu && MaskWeight(nodes[i].mask) == 0
  {
    AddLoad(nodes, info, i, -x)
  }

  lemma {:induction false} GainNegates(nodes: seq<Node>, ord: seq<int>, n: int, per: int)
    requires Shaped(nodes) && InRange(ord, |nodes|) && 0 <= n < |nodes|
    ensures Gain(nodes, ord, n, -per) == -Gain(nodes, ord, n, per)
    decreases |ord|
  {
    if |ord| > 0 {
      GainNegates(nodes, ord[..|ord| - 1], n, per);
    }
  }

  lemma {:induction false} AddUpUndo(nodes: seq<Node>, info: seq<LoadInfo>, c: int, x: int)
    requires Shaped(nodes) && |info| == |nodes| && 0 <= c < |nodes|
    ensures AddUp(nodes, AddUp(nodes, info, c, x), c, -x) == info
  {
    var back := AddUp(nodes, AddUp(nodes, info, c, x), c, -x);
    assert forall n :: 0 <= n < |nodes| ==> back[n] == info[n];
  }

  lemma {:induction false} SpreadUndo(nodes: seq<Node>, info: seq<LoadInfo>, ord: seq<int>, per: int, back: int)
    requires Shaped(nodes) && |info| == |nodes| && InRange(ord, |nodes|) && back == -per
    ensures Spread(nodes, Spread(nodes, info, ord, per), ord, back) == info
  {
    var undone := Spread(nodes, Spread(nodes, info, ord, per), ord, back);
    forall n | 0 <= n < |nodes|
      ensures undone[n] == info[n]
    {
      GainNegates(nodes, ord, n, per);
    }
  }

  lemma GoDivNegates(x: int, w: int)
    requires w > 0
    ensures GoDiv(-x, w) == -GoDiv(x, w)
  {
  }

  lemma UndoWide(nodes: seq<Node>, info: seq<LoadInfo>, i: int, x: int)
    requires Shaped(nodes) && |info| == |nodes| && 0 <= i < |nodes|
    requires nodes[i].topotype != Cpu && MaskWeight(nodes[i].mask) > 0
    ensures SubLoad(nodes, AddLoad(nodes, info, i, x).value, i, x) == Some(info)
  {
    var w := MaskWeight(nodes[i].mask);
    var per := GoDiv(x, w);
    var back := GoDiv(-x, w);
    var ord := Pre(nodes, i);
    var mid := Spread(nodes, info, ord, per);
    assert AddLoad(nodes, info, i, x).value == mid;
    assert SubLoad(nodes, mid, i, x) == Some(Spread(nodes, mid, ord, back));
    GoDivNegates(x, w);
    SpreadUndo(nodes, info, ord, per, back);
  }

  /** Taking a load off a node after putting it on restores every node's
      load and bind count. */
  lemma SubLoadUndoesAddLoad(nodes: seq<Node>, info: seq<LoadInfo>, i: int, x: int)
    requires Shaped(nodes) && |info| == |nodes| && 0 <= i < |nodes|
    requires AddLoad(nodes, info, i, x).Some?
    ensures SubLoad(nodes, AddLoad(nodes, info, i, x).value, i, x) == Some(info)
  {
    if nodes[i].topotype == Cpu {
      UndoCpu(nodes, info, i, x);
    } else {
      UndoWide(nodes, info, i, x);
    }
  }

  lemma UndoCpu(nodes: seq<Node>, info: seq<LoadInfo>, i: int, x: int)
    requires Shaped(nodes) && |info| == |nodes| && 0 <= i < |nodes| && nodes[i].topotype == Cpu
    ensures SubLoad(nodes, AddLoad(nodes, info, i, x).value, i, x) == Some(info)
  {
    var mid := AddUp(nodes, info, i, x);
    assert AddLoad(nodes, info, i, x) == Some(mid);
    assert SubLoad(nodes, mid, i, x) == Some(AddUp(nodes, mid, i, -x));
    AddUpUndo(nodes, info, i, x);
  }

  /** `SetLoad`: adds the difference between the wanted and the current
      load. */
  function SetLoad(nodes: seq<Node>, info: seq<LoadInfo>, i: int, x: int): (r: Option<seq<LoadInfo>>)
    requires Shaped(nodes) && |info| == |nodes| && 0 <= i < |nodes|
    ensures r.Some? ==> |r.value| == |info|
    ensures nodes[i].topotype == Cpu ==> r.Some? && r.value[i] == info[i].(load := x)
    ensures nodes[i].topotype == Cpu ==> forall n :: 0 <= n < |nodes| && n != i ==>
      r.value[n] == info[n].(load := info[n].load + (if IsAncestor(nodes, n, i) then x - info[i].load else 0))
  {
    if nodes[i].topotype == Cpu then
      AddLoadCpu(nodes, info, i, x - info[i].load);
      AddLoad(nodes, info, i, x - info[i].load)
    else AddLoad(nodes, info, i, x - info[i].load)
  }

  /** `AddBind` / `SubBind`: one more or one fewer thread bound to node `i`. */
  function AddBind(info: seq<LoadInfo>, i: int): (r: seq<LoadInfo>)
    requires 0 <= i < |info|
  {
    info[i := info[i].(bindCount := info[i].bindCount + 1)]
  }

  function SubBind(info: seq<LoadInfo>, i: int): (r: seq<LoadInfo>)
    requires 0 <= i < |info|
  {
    info[i := info[i].(bindCount := info[i].bindCount - 1)]
  }

  /** Binding touches only node `i`'s count and no load, and unbinding
      undoes it. */
  lemma BindCounts(info: seq<LoadInfo>, i: int)
    requires 0 <= i < |info|
    ensures |AddBind(info, i)| == |info| && |SubBind(info, i)| == |info|
    ensures forall n :: 0 <= n < |info| ==>
      AddBind(info, i)[n].load == info[n].load && SubBind(info, i)[n].load == info[n].load
    ensures forall n :: 0 <= n < |info| && n != i ==> AddBind(info, i)[n] == info[n] && SubBind(info, i)[n] == info[n]
    ensures AddBind(info, i)[i].bindCount == info[i].bindCount + 1
    ensures SubBind(AddBind(info, i), i) == info && AddBind(SubBind(info, i), i) == info
  {
  }

  // ---------------------------------------------------------------------
  // The load invariant

  /** Which nodes are CPU nodes below `n`. */
  ghost function CpusUnder(nodes: seq<Node>, n: int): (sel: seq<bool>)
    requires Shaped(nodes) && 0 <= n < |nodes|
    ensures |sel| == |nodes|
    ensures forall c :: 0 <= c < |nodes| ==> (sel[c] <==> nodes[c].topotype == Cpu && IsAncestor(nodes, n, c))
  {
    seq(|nodes|, c requires 0 <= c < |nodes| => nodes[c].topotype == Cpu && IsAncestor(nodes, n, c))
  }

  /** The total load of the selected nodes among the first `k`. */
  function SumWhere(info: seq<LoadInfo>, sel: seq<bool>, k: nat): int
    requires |sel| == |info| && k <= |info|
    decreases k
  {
    if k == 0 then 0 else SumWhere(info, sel, k - 1) + (if sel[k - 1] then info[k - 1].load else 0)
  }

  /** Every node carries the sum of the loads of the CPU nodes below it. */
  ghost predicate LoadConsistent(nodes: seq<Node>, info: seq<LoadInfo>)
    requires Shaped(nodes) && |info| == |nodes|
  {
    forall n :: 0 <= n < |nodes| ==> info[n].load == SumWhere(info, CpusUnder(nodes, n), |nodes|)
  }

  /** Changing one selected entry by `x` changes the total by `x`. */
  lemma {:induction false} SumWhereBump(info: seq<LoadInfo>, r: seq<LoadInfo>, sel: seq<bool>, c: int, x: int, k: nat)
    requires |sel| == |info| && |r| == |info| && 0 <= c < |info| && k <= |info|
    requires forall m :: 0 <= m < |info| && m != c && sel[m] ==> r[m].load == info[m].load
    requires r[c].load == info[c].load + x
    ensures SumWhere(r, sel, k) == SumWhere(info, sel, k) + (if c < k && sel[c] then x else 0)
    decreases k
  {
    if k > 0 {
      SumWhereBump(info, r, sel, c, x, k - 1);
    }
  }

  lemma AddUpConsistent(nodes: seq<Node>, info: seq<LoadInfo>, c: int, x: int)
    requires Shaped(nodes) && |info| == |nodes| && 0 <= c < |nodes| && nodes[c].topotype == Cpu
    requires LoadConsistent(nodes, info)
    ensures LoadConsistent(nodes, AddUp(nodes, info, c, x))
  {
    var r := AddUp(nodes, info, c, x);
    forall n | 0 <= n < |nodes|
      ensures r[n].load == SumWhere(r, CpusUnder(nodes, n), |nodes|)
    {
      var sel := CpusUnder(nodes, n);
      forall m | 0 <= m < |nodes| && m != c && sel[m]
        ensures r[m].load == info[m].load
      {
        CpuIsLeaf(nodes, m, c);
      }
      SumWhereBump(info, r, sel, c, x, |nodes|);
    }
  }

  lemma {:induction false} SpreadConsistent(nodes: seq<Node>, info: seq<LoadInfo>, ord: seq<int>, per: int)
    requires Shaped(nodes) && |info| == |nodes| && InRange(ord, |nodes|)
    requires LoadConsistent(nodes, info)
    ensures LoadConsistent(nodes, Spread(nodes, info, ord, per))
    decreases |ord|
  {
    if |ord| > 0 {
      SpreadConsistent(nodes, info, ord[..|ord| - 1], per);
      var c := ord[|ord| - 1];
      if nodes[c].topotype == Cpu {
        AddUpConsistent(nodes, Spread(nodes, info, ord[..|ord| - 1], per), c, per);
      }
    }
  }

  /** Every load change keeps each node's load equal to the total over the
      CPU nodes below it. */
  lemma AddLoadConsistent(nodes: seq<Node>, info: seq<LoadInfo>, i: int, x: int)
    requires Shaped(nodes) && |info| == |nodes| && 0 <= i < |nodes|
    requires LoadConsistent(nodes, info) && AddLoad(nodes, info, i, x).Some?
    ensures LoadConsistent(nodes, AddLoad(nodes, info, i, x).value)
  {
    if nodes[i].topotype == Cpu {
      AddUpConsistent(nodes, info, i, x);
    } else {
      SpreadConsistent(nodes, info, Pre(nodes, i), GoDiv(x, MaskWeight(nodes[i].mask)));
    }
  }

  /** A fresh tree (all loads zero) satisfies the invariant. */
  lemma ZeroConsistent(nodes: seq<Node>, info: seq<LoadInfo>)
    requires Shaped(nodes) && |info| == |nodes|
    requires forall n :: 0 <= n < |info| ==> info[n].load == 0
    ensures LoadConsistent(nodes, info)
  {
    forall n | 0 <= n < |nodes|
      ensures SumWhere(info, CpusUnder(nodes, n), |nodes|) == 0
    {
      SumWhereZero(info, CpusUnder(nodes, n), |nodes|);
    }
  }

  lemma {:induction false} SumWhereZero(info: seq<LoadInfo>, sel: seq<bool>, k: nat)
    requires |sel| == |info| && k <= |info|
    requires forall m :: 0 <= m < |info| ==> info[m].load == 0
    ensures SumWhere(info, sel, k) == 0
    decreases k
  {
    if k > 0 {
      SumWhereZero(info, sel, k - 1);
    }
  }

  // ---------------------------------------------------------------------
  // The whole tree

  /** `TopoTree`: the nodes, their load records, one list per level in
      creation order, and the NUMA nodes by id. */
  datatype Tree = Tree(nodes: seq<Node>, info: seq<LoadInfo>, typeList: seq<seq<int>>, numaMap: map<int, int>)

  ghost predicate Valid(t: Tree)
  {
    Shaped(t.nodes) && |t.info| == |t.nodes| && Listed(t) && NumaIndexed(t)
  }

  /** Each level's list holds non-root nodes of that level. */
  ghost predicate Listed(t: Tree)
  {
    |t.typeList| == TopoTypeEnd &&
    forall l, k :: 0 <= l < TopoTypeEnd && 0 <= k < |t.typeList[l]| ==>
      0 < t.typeList[l][k] < |t.nodes| && Level(t.nodes[t.typeList[l][k]].topotype) == l
  }

  /** `numaMap` sends an id to a NUMA node of that id. */
  ghost predicate NumaIndexed(t: Tree)
  {
    forall id :: id in t.numaMap ==>
      0 < t.numaMap[id] < |t.nodes| && t.nodes[t.numaMap[id]].topotype == Numa && t.nodes[t.numaMap[id]].id == id
  }

  /** `SelectTypeNode`: over the nodes of level `ty` in creation order, the
      first of least load, ties going to fewer binds. */
  function SelectTypeNode(t: Tree, ty: TopoType): (r: Option<int>)
    requires Valid(t)
    ensures InRange(t.typeList[Level(ty)], |t.nodes|)
    ensures Lightest(t.nodes, t.info, t.typeList[Level(ty)], ty, ByLoad, r)
    ensures r.None? <==> |t.typeList[Level(ty)]| == 0
  {
    var ord := t.typeList[Level(ty)];
    assert InRange(ord, |t.nodes|);
    SelectIsLightest(t.nodes, t.info, ord, ty, ByLoad);
    var r := Select(t.nodes, t.info, ord, ty, ByLoad);
    assert |ord| > 0 ==> t.nodes[ord[0]].topotype == ty;
    r
  }

  /** `GetNumaNodeByID`. */
  function GetNumaNodeById(t: Tree, id: int): (r: Option<int>)
    requires Valid(t)
    ensures r.Some? <==> id in t.numaMap
    ensures r.Some? ==> 0 < r.value < |t.nodes| && t.nodes[r.value].topotype == Numa && t.nodes[r.value].id == id
  {
    if id in t.numaMap then Some(t.numaMap[id]) else None
  }
}

=== FILE: unionfind.dfy ===
/** The disjoint-set forest `groupTids` builds over thread indices
    (`initUnion`, `findRoot`, `union` in
    `common/threadaffinity/threadaffinity.go`).  The Go code keeps the
    parent links in an `[]int` and links one root under the other without
    ranks; the ranks here are ghost, only to show that the parent chains
    stay acyclic. */
module UnionFind {
  /** `rank` strictly grows along every parent link. */
  ghost predicate Ranked(parent: seq<int>, rank: seq<nat>)
  {
    |rank| == |parent| &&
    (forall i :: 0 <= i < |parent| ==> 0 <= parent[i] < |parent|) &&
    (forall i :: 0 <= i < |parent| && parent[i] != i ==> rank[parent[i]] > rank[i])
  }

  /** The parent links form a forest: following them always ends at a root. */
  ghost predicate Forest(parent: seq<int>)
  {
    exists rank :: Ranked(parent, rank)
  }

  ghost function SomeRank(parent: seq<int>): (rank: seq<nat>)
    requires Forest(parent)
    ensures Ranked(parent, rank)
  {
    var rank :| Ranked(parent, rank); rank
  }

  ghost function MaxRank(rank: seq<nat>): (m: nat)
    ensures forall i :: 0 <= i < |rank| ==> rank[i] <= m
  {
    if |rank| == 0 then 0
    else
      var m' := MaxRank(rank[1..]);
      assert forall i :: 1 <= i < |rank| ==> rank[i] == rank[1..][i - 1];
      if rank[0] > m' then rank[0] else m'
  }

  /** `findRoot`: follow the parent links up to a root. */
  function FindRoot(parent: seq<int>, i: int): (r: int)
    requires Forest(parent) && 0 <= i < |parent|
    ensures 0 <= r < |parent| && parent[r] == r
    decreases MaxRank(SomeRank(parent)) - SomeRank(parent)[i]
  {
    if parent[i] == i then i else FindRoot(parent, parent[i])
  }

  /** The representatives: the indices that are their own parent. */
  function Roots(parent: seq<int>): set<int>
  {
    set i | 0 <= i < |parent| && parent[i] == i
  }

  /** `initUnion`: every index its own singleton set. */
  function InitUnion(n: nat): (parent: seq<int>)
    ensures |parent| == n && Ranked(parent, seq(n, _ => 0))
    ensures forall i :: 0 <= i < n ==> FindRoot(parent, i) == i
    ensures |Roots(parent)| == n
  {
    var parent := seq(n, i => i);
    assert Ranked(parent, seq(n, _ => 0));
    IdentityRoots(n);
    parent
  }

  lemma {:induction false} IdentityRoots(n: nat)
    ensures |Roots(seq(n, i => i))| == n
  {
    if n > 0 {
      var p, q := seq(n, i => i), seq(n - 1, i => i);
      assert forall i :: 0 <= i < n - 1 ==> p[i] == q[i];
      assert Roots(p) == Roots(q) + {n - 1};
      IdentityRoots(n - 1);
    }
  }

  /** The ranks after linking root `ra` under root `rb`. */
  ghost function LinkRank(rank: seq<nat>, ra: int, rb: int): seq<nat>
    requires 0 <= ra < |rank| && 0 <= rb < |rank|
  {
    rank[rb := if rank[rb] > rank[ra] then rank[rb] else rank[ra] + 1]
  }

  lemma LinkRanked(parent: seq<int>, rank: seq<nat>, ra: int, rb: int)
    requires Ranked(parent, rank)
    requires 0 <= ra < |parent| && 0 <= rb < |parent| && ra != rb
    requires parent[ra] == ra && parent[rb] == rb
    ensures Ranked(parent[ra := rb], LinkRank(rank, ra, rb))
  {
  }

  /** Linking root `ra` under root `rb` moves exactly the members of `ra`'s
      set into `rb`'s. */
  lemma {:induction false} LinkRoots(parent: seq<int>, rank: seq<nat>, ra: int, rb: int, x: int)
    requires Ranked(parent, rank)
    requires 0 <= ra < |parent| && 0 <= rb < |parent| && ra != rb
    requires parent[ra] == ra && parent[rb] == rb
    requires 0 <= x < |parent|
    ensures Forest(parent[ra := rb])
    ensures FindRoot(parent[ra := rb], x) == (if FindRoot(parent, x) == ra then rb else FindRoot(parent, x))
    decreases MaxRank(rank) - rank[x]
  {
    LinkRanked(parent, rank, ra, rb);
    var p' := parent[ra := rb];
    if parent[x] == x {
      if x == ra {
        assert FindRoot(p', rb) == rb;
      }
    } else {
      assert p'[x] == parent[x];
      LinkRoots(parent, rank, ra, rb, parent[x]);
    }
  }

  lemma LinkRootsCount(parent: seq<int>, ra: int, rb: int)
    requires 0 <= ra < |parent| && 0 <= rb < |parent| && ra != rb
    requires parent[ra] == ra && parent[rb] == rb
    ensures Roots(parent[ra := rb]) == Roots(parent) - {ra}
    ensures |Roots(parent[ra := rb])| == |Roots(parent)| - 1
  {
    assert Roots(parent[ra := rb]) == Roots(parent) - {ra};
  }

  /** `union`: joins the sets of `a` and `b`.  When they differ, the root of
      `a` goes under the root of `b` and the set count drops by one;
      otherwise nothing changes.  `rank'` is the ghost witness that the
      result is still a forest. */
  method Union(parent: seq<int>, count: int, a: int, b: int, ghost rank: seq<nat>)
    returns (parent': seq<int>, count': int, ghost rank': seq<nat>)
    requires Ranked(parent, rank) && 0 <= a < |parent| && 0 <= b < |parent|
    ensures Ranked(parent', rank') && |parent'| == |parent|
    ensures count - count' == |Roots(parent)| - |Roots(parent')|
    ensures FindRoot(parent, a) == FindRoot(parent, b) ==> parent' == parent && count' == count
    ensures FindRoot(parent, a) != FindRoot(parent, b) ==> count' == count - 1
    ensures FindRoot(parent', a) == FindRoot(parent', b)
    ensures forall x :: 0 <= x < |parent| ==>
      FindRoot(parent', x) ==
        (if FindRoot(parent, x) == FindRoot(parent, a) then FindRoot(parent, b) else FindRoot(parent, x))
  {
    var ra := FindRoot(parent, a);
    var rb := FindRoot(parent, b);
    if ra == rb {
      return parent, count, rank;
    }
    parent' := parent[ra := rb];
    count' := count - 1;
    rank' := LinkRank(rank, ra, rb);
    LinkRanked(parent, rank, ra, rb);
    LinkRootsCount(parent, ra, rb);
    forall x | 0 <= x < |parent|
      ensures FindRoot(parent', x) == (if FindRoot(parent, x) == ra then rb else FindRoot(parent, x))
    {
      LinkRoots(parent, rank, ra, rb, x);
    }
  }
}

=== FILE: wisdom.dfy ===
/** The control client of cmd/wisdom: it checks the `--scan` value and
    sends one command to the daemon's socket.  Resolving, dialling and
    writing the socket are one parameter, the error `sendCmd` would
    return. */
module WisdomCli {
  import opened Wrappers
  import opened GoStrings
  import Wisdomd

  const CmdSocketPath: string := "/var/run/wisdom.sock"

  /** What `runWisdom` delivered to the daemon, if anything, and the error
      it returns (`None` for nil). */
  datatype Sent = Sent(delivered: Option<string>, err: Option<string>)

  predicate ValidScan(value: string)
  {
    value == "start" || value == "stop"
  }

  /** The text written to the socket for a `--scan` value. */
  function ScanMessage(value: string): string
  {
    "CMD:scan" + value
  }

  /** The daemon command a valid `--scan` value asks for. */
  function ScanCommand(value: string): Wisdomd.Command
  {
    if value == "start" then Wisdomd.PtraceScanStart else Wisdomd.PtraceScanEnd
  }

  /** `runWisdom`: an unknown value is refused before anything is sent; a
      valid one is sent with no terminating NUL and the send's error is
      returned as it is. */
  function RunWisdom(scan: string, sendErr: Option<string>): (r: Sent)
    ensures !ValidScan(scan) ==> r == Sent(None, Some("invalid command"))
    ensures ValidScan(scan) ==> r.err == sendErr
    ensures r.delivered.Some? <==> ValidScan(scan) && sendErr.None?
    ensures r.delivered.Some? ==> r.delivered.value == "CMD:scan" + scan
    ensures r.delivered.Some? ==>
              HasPrefix(r.delivered.value, Wisdomd.CmdPrefix) && '\0' !in r.delivered.value
              && |r.delivered.value| <= Wisdomd.BufLimit
  {
    if scan != "start" && scan != "stop" then Sent(None, Some("invalid command"))
    else
      var msg := ScanMessage(scan);
      assert msg[..4] == "CMD:";
      Sent(if sendErr.None? then Some(msg) else None, sendErr)
  }

  /** Client and daemon agree: whatever the client is asked, the (fixed)
      daemon runs the command named by a valid value that was sent, and
      nothing otherwise. */
  lemma ClientServerRoundTrip(scan: string, sendErr: Option<string>)
    ensures Wisdomd.CommandHandler(RunWisdom(scan, sendErr).delivered).ran
              == (if ValidScan(scan) && sendErr.None? then Some(ScanCommand(scan)) else None)
  {
    if ValidScan(scan) && sendErr.None? {
      var c := ScanCommand(scan);
      assert ScanMessage(scan) == Wisdomd.CmdPrefix + Wisdomd.CommandName(c);
      Wisdomd.DecodeIff(ScanMessage(scan), c);
    }
  }

  /** The daemon as written runs nothing, whatever the client sends. */
  lemma AsWrittenIgnoresClient(scan: string, sendErr: Option<string>)
    requires ValidScan(scan) && sendErr.None?
    ensures RunWisdom(scan, sendErr).delivered.Some?
    ensures Wisdomd.CommandHandlerAsWritten(RunWisdom(scan, sendErr).delivered).ran.None?
  {
  }
}

=== FILE: wisdomd.dfy ===
/** The daemon's entry points in cmd/wisdomd: checking the options before
    the loops start, choosing the loop, and handling one connection on the
    control socket.  Logging, the syslog redirection, the tickers and the
    socket itself are outside the model: what a call leaves behind is
    returned as a value, and what the peer sends is a parameter. */
module Wisdomd {
  import opened Wrappers
  import opened GoStrings

  const DefaultPeriod: int := 10
  const DefaultTraceTime: int := 5
  const MaxPeriod: int := 3600

  // ---------------------------------------------------------------------
  // Log level

  datatype LogLevel = DebugLevel | InfoLevel | WarnLevel | ErrorLevel | FatalLevel | PanicLevel

  /** The `--loglevel` value that selects each level. */
  function LevelName(l: LogLevel): string
  {
    match l
    case DebugLevel => "debug"
    case InfoLevel => "info"
    case WarnLevel => "warning"
    case ErrorLevel => "error"
    case FatalLevel => "fatal"
    case PanicLevel => "panic"
  }

  /** `setLogLevel`: the level in force after the call.  A known name
      selects its level; any other name is only logged and the level
      stays what it was. */
  function SetLogLevel(cur: LogLevel, level: string): (r: LogLevel)
    ensures forall l :: level == LevelName(l) ==> r == l
    ensures r != cur ==> level == LevelName(r)
  {
    if level == "debug" then DebugLevel
    else if level == "info" then InfoLevel
    else if level == "warning" then WarnLevel
    else if level == "error" then ErrorLevel
    else if level == "fatal" then FatalLevel
    else if level == "panic" then PanicLevel
    else cur
  }

  // ---------------------------------------------------------------------
  // doBeforeJob

  /** The command-line values `doBeforeJob` looks at. */
  datatype Options = Options(
    loglevel: string,
    period: int,
    policy: string,
    autonuma: bool,
    netaware: bool,
    cclaware: bool,
    coarsegrain: bool,
    affinityAware: bool,
    tracetime: int,
    task: string)

  /** The policy package's switches that `doBeforeJob` sets. */
  datatype Switches = Switches(
    numaAware: bool,
    netAware: bool,
    cclAware: bool,
    coarseGrain: bool,
    affinityAware: bool,
    traceTime: int,
    taskName: string)

  datatype Daemon = Daemon(level: LogLevel, switches: Switches)

  /** The state after the call and the error it returns (`None` for nil). */
  datatype JobResult = JobResult(state: Daemon, err: Option<string>)

  predicate PeriodValid(o: Options)
  {
    0 < o.period <= MaxPeriod
  }

  predicate TraceValid(o: Options)
  {
    0 < o.tracetime < o.period
  }

  predicate KnownPolicy(policy: string)
  {
    policy == "threadsaffinity" || policy == "threadsgrouping"
  }

  /** Whether the trace time must be checked: always for thread grouping,
      and for thread affinity only when affinity tracing is asked for. */
  predicate NeedsTrace(o: Options)
  {
    o.policy == "threadsgrouping" || (o.policy == "threadsaffinity" && o.affinityAware)
  }

  /** The options the daemon accepts, stated without reference to the order
      of the checks. */
  predicate OptionsValid(o: Options)
  {
    PeriodValid(o) && KnownPolicy(o.policy) && (NeedsTrace(o) ==> TraceValid(o))
  }

  /** The flags' defaults: `info` logging, the thread-affinity policy, a
      period of `DefaultPeriod` seconds and a trace time of
      `DefaultTraceTime`, every switch off and no task name.  They pass
      every check, including the trace-time check under either policy. */
  function DefaultOptions(): (o: Options)
    ensures OptionsValid(o) && LevelName(InfoLevel) == o.loglevel
    ensures OptionsValid(o.(affinityAware := true)) && OptionsValid(o.(policy := "threadsgrouping"))
  {
    Options("info", DefaultPeriod, "threadsaffinity", false, false, false, false, false, DefaultTraceTime, "")
  }

  /** `doBeforeJob`, given the state before the call and the error
      `policy.Init` would return.  The log level is set first, whatever
      follows; the period is checked before anything about the policy; the
      four thread-affinity switches are set before the trace time is
      checked, and the tracing settings only after it passed. */
  function DoBeforeJob(o: Options, d: Daemon, initErr: Option<string>): (r: JobResult)
    ensures r.err.None? <==> OptionsValid(o) && initErr.None?
    ensures OptionsValid(o) ==> r.err == initErr
    ensures !PeriodValid(o) ==> r.err == Some("period invalid") && r.state.switches == d.switches
    ensures PeriodValid(o) && !KnownPolicy(o.policy) ==>
              r.err == Some("invalid policy") && r.state.switches == d.switches
    ensures PeriodValid(o) && NeedsTrace(o) && !TraceValid(o) ==> r.err == Some("tracetime invalid")
    ensures r.state.level == SetLogLevel(d.level, o.loglevel)
    ensures PeriodValid(o) && o.policy == "threadsaffinity" ==>
              r.state.switches.numaAware == o.autonuma && r.state.switches.netAware == o.netaware
              && r.state.switches.cclAware == o.cclaware && r.state.switches.coarseGrain == o.coarsegrain
    ensures o.policy != "threadsaffinity" ==> r.state.switches == d.switches
    ensures r.state.switches.affinityAware <==>
              (d.switches.affinityAware || (OptionsValid(o) && o.policy == "threadsaffinity" && o.affinityAware))
    ensures OptionsValid(o) && o.policy == "threadsaffinity" && o.affinityAware ==>
              r.state.switches.traceTime == o.tracetime && r.state.switches.taskName == o.task
  {
    var d1 := d.(level := SetLogLevel(d.level, o.loglevel));
    if o.period <= 0 || o.period > MaxPeriod then
      JobResult(d1, Some("period invalid"))
    else if o.policy == "threadsaffinity" then
      var sw := d.switches.(numaAware := o.autonuma, netAware := o.netaware,
                            cclAware := o.cclaware, coarseGrain := o.coarsegrain);
      if o.affinityAware then
        if o.tracetime <= 0 || o.tracetime >= o.period then
          JobResult(d1.(switches := sw), Some("tracetime invalid"))
        else
          var traced := sw.(traceTime := o.tracetime, taskName := o.task, affinityAware := true);
          JobResult(d1.(switches := traced), initErr)
      else
        JobResult(d1.(switches := sw), initErr)
    else if o.policy == "threadsgrouping" then
      if o.tracetime <= 0 || o.tracetime >= o.period then
        JobResult(d1, Some("tracetime invalid"))
      else
        JobResult(d1, initErr)
    else
      JobResult(d1, Some("invalid policy"))
  }

  // ---------------------------------------------------------------------
  // runWisdomd

  datatype Loop = ThreadsAffinityLoop | ThreadsGroupingLoop | NoLoop

  /** `runWisdomd`: the loop the daemon enters; `NoLoop` is the nil return
      for any other policy name. */
  function RunWisdomd(policy: string): (r: Loop)
    ensures r == NoLoop <==> !KnownPolicy(policy)
    ensures r == ThreadsAffinityLoop <==> policy == "threadsaffinity"
    ensures r == ThreadsGroupingLoop <==> policy == "threadsgrouping"
  {
    if policy == "threadsaffinity" then ThreadsAffinityLoop
    else if policy == "threadsgrouping" then ThreadsGroupingLoop
    else NoLoop
  }

  /** Options that got past `doBeforeJob` always select one of the loops. */
  lemma AcceptedOptionsRun(o: Options, d: Daemon, initErr: Option<string>)
    requires DoBeforeJob(o, d, initErr).err.None?
    ensures RunWisdomd(o.policy) != NoLoop
  {
    assert OptionsValid(o);
  }

  /** Without affinity tracing, thread affinity ignores the trace time
      altogether: two runs differing only in it end alike. */
  lemma AffinityIgnoresTraceTime(o: Options, d: Daemon, initErr: Option<string>, t: int)
    requires o.policy == "threadsaffinity" && !o.affinityAware
    ensures DoBeforeJob(o, d, initErr) == DoBeforeJob(o.(tracetime := t), d, initErr)
  {
    var o2 := o.(tracetime := t);
    assert o2.policy == o.policy && o2.period == o.period && !o2.affinityAware;
  }

  // ---------------------------------------------------------------------
  // The control socket

  /** Permission bits of the socket file, octal 0700. */
  const SockPerm: int := 0x1C0
  const BufLimit: nat := 128
  const CmdPrefix: string := "CMD:"

  /** The handlers the command map holds. */
  datatype Command = PtraceScanStart | PtraceScanEnd

  /** `cmdMap` of `cmdWaitLoop`. */
  const CmdMap: map<string, Command> := map["scanstart" := PtraceScanStart, "scanstop" := PtraceScanEnd]

  /** The map key of each handler. */
  function CommandName(c: Command): string
  {
    match c
    case PtraceScanStart => "scanstart"
    case PtraceScanEnd => "scanstop"
  }

  /** One `Read` into a buffer of length `n`, given what the peer has sent
      (`None` for a broken or closed connection).  A zero-length read
      returns at once with nothing and no error, without looking at the
      connection; otherwise an empty or failed read is an error and at most
      `n` bytes arrive. */
  function ReadConn(n: nat, incoming: Option<string>): (r: Option<string>)
    ensures n == 0 ==> r == Some("")
    ensures n > 0 ==> (r.Some? <==> incoming.Some? && |incoming.value| > 0)
    ensures r.Some? && n > 0 ==> |r.value| <= n && HasPrefix(incoming.value, r.value)
    ensures n > 0 && incoming.Some? && 0 < |incoming.value| <= n ==> r == incoming
  {
    if n == 0 then Some("")
    else if incoming.None? || |incoming.value| == 0 then None
    else if |incoming.value| <= n then incoming
    else Some(incoming.value[..n])
  }

  /** The decoding in `commandHandler`: a payload starting with the prefix
      names the command up to the first NUL, and the command runs when the
      map has that name. */
  function DecodeCommand(buf: string): (r: Option<Command>)
    ensures r.Some? ==> HasPrefix(buf, CmdPrefix)
  {
    if HasPrefix(buf, CmdPrefix) then
      var name := Split(buf[|CmdPrefix|..], '\0')[0];
      if name in CmdMap then Some(CmdMap[name]) else None
    else None
  }

  /** A payload decodes to a command exactly when it is the prefix and the
      command's name, alone or followed by a NUL and anything at all. */
  lemma DecodeIff(buf: string, c: Command)
    ensures DecodeCommand(buf) == Some(c) <==>
              (buf == CmdPrefix + CommandName(c) || HasPrefix(buf, CmdPrefix + CommandName(c) + "\0"))
  {
    if buf == CmdPrefix + CommandName(c) || HasPrefix(buf, CmdPrefix + CommandName(c) + "\0") {
      DecodeNamed(buf, c);
    }
    if DecodeCommand(buf) == Some(c) {
      DecodedIsNamed(buf, c);
    }
  }

  /** The prefix and a command's name, alone or ended by a NUL, decode to
      that command. */
  lemma DecodeNamed(buf: string, c: Command)
    requires buf == CmdPrefix + CommandName(c) || HasPrefix(buf, CmdPrefix + CommandName(c) + "\0")
    ensures DecodeCommand(buf) == Some(c)
  {
    var name := CommandName(c);
    assert '\0' !in name;
    if buf == CmdPrefix + name {
      assert buf[|CmdPrefix|..] == name;
      SplitWithoutSep(name, '\0');
    } else {
      var t := buf[|CmdPrefix| + |name| + 1..];
      assert buf == CmdPrefix + name + "\0" + t;
      assert buf[|CmdPrefix|..] == name + ['\0'] + t;
      SplitAfterPiece(name, '\0', t);
    }
  }

  /** A payload that decodes to a command starts with the prefix and the
      command's name, followed by nothing or by a NUL. */
  lemma DecodedIsNamed(buf: string, c: Command)
    requires DecodeCommand(buf) == Some(c)
    ensures buf == CmdPrefix + CommandName(c) || HasPrefix(buf, CmdPrefix + CommandName(c) + "\0")
  {
    var rest := buf[|CmdPrefix|..];
    var w := Split(rest, '\0')[0];
    MapKeyIsName(w);
    SplitHeadShape(rest, '\0');
    PrefixedHead(buf, CmdPrefix, rest, w + "\0");
  }

  /** Each key of the command map is its handler's name. */
  lemma MapKeyIsName(w: string)
    requires w in CmdMap
    ensures CommandName(CmdMap[w]) == w
  {
  }

  /** A head of the text after a prefix, with the prefix, heads the text. */
  lemma PrefixedHead(buf: string, p: string, rest: string, h: string)
    requires HasPrefix(buf, p) && rest == buf[|p|..]
    ensures buf == p + rest
    ensures HasPrefix(rest, h) ==> HasPrefix(buf, p + h)
  {
    assert buf == buf[..|p|] + buf[|p|..];
    if HasPrefix(rest, h) {
      assert buf[..|p| + |h|] == p + rest[..|h|];
    }
  }

  /** What handling one connection did: the handler that ran, if any, and
      whether the connection was closed. */
  datatype Handled = Handled(ran: Option<Command>, closed: bool)

  /** `commandHandler` with a read buffer of length `n`: a failed read
      closes the connection and returns; otherwise the payload is decoded,
      its handler (if any) runs, and the connection is closed. */
  function HandleWith(n: nat, incoming: Option<string>): (r: Handled)
    ensures r.closed
    ensures r.ran.Some? ==> ReadConn(n, incoming).Some? && DecodeCommand(ReadConn(n, incoming).value) == r.ran
  {
    match ReadConn(n, incoming)
    case None => Handled(None, true)
    case Some(buf) => Handled(DecodeCommand(buf), true)
  }

  /** `commandHandler` as written: the buffer is made with length 0 and
      capacity 128, so the read delivers nothing. */
  function CommandHandlerAsWritten(incoming: Option<string>): (r: Handled)
    ensures r == Handled(None, true)
  {
    HandleWith(0, incoming)
  }

  /** `commandHandler` with the buffer made 128 bytes long, as the capacity
      argument intends: a payload that fits the buffer is decoded whole. */
  function CommandHandler(incoming: Option<string>): (r: Handled)
    ensures r.closed
    ensures incoming.Some? && 0 < |incoming.value| <= BufLimit ==> r.ran == DecodeCommand(incoming.value)
    ensures incoming.None? ==> r.ran.None?
  {
    HandleWith(BufLimit, incoming)
  }

  /** The daemon as written ignores the command that starts scanning, which
      the fixed handler runs. */
  lemma AsWrittenDropsScanStart()
    ensures CommandHandlerAsWritten(Some("CMD:scanstart")).ran == None
    ensures CommandHandler(Some("CMD:scanstart")).ran == Some(PtraceScanStart)
  {
    DecodeIff("CMD:scanstart", PtraceScanStart);
  }
}

=== FILE: wrappers.dfy ===
/** Failure-carrying results shared by every module of the model.
    Go functions in the daemon return `(value, error)` pairs; the model
    writes them as `Result`, keeping the error text where callers print it. */
module Wrappers {

  datatype Option<+T> = None | Some(value: T)

  datatype Result<+T> = Ok(value: T) | Err(msg: string) {
    predicate IsOk() { Ok? }
  }
}
